=== FILE: README.md ===
# ChartFX data-set core in Dafny

This project models the sequential core of ChartFX's data-set library in
Dafny 4.11 and proves properties of that model. ChartFX is a JavaFX charting
library. The model covers these parts:

- **Serialiser and builder.** `DataSetSerialiser` writes a data set as a flat
  list of named, typed fields closed by an end marker. It also reads such a
  list back into a `DataSetBuilder`. `DataSetBuilder` turns its accumulated
  arrays, meta data and axis descriptions into a data set.
- **Ring buffer and data sets built on it.**
  - `CircularBuffer` is a ring that overwrites its oldest element.
  - `CircularDoubleErrorDataSet` keeps six parallel rings.
  - `FifoDoubleErrorDataSet` expires points by x distance.
  - The legacy array-backed `DoubleErrorDataSet` is also modelled.
- **Small rules.**
  - `MultiArrayImpl`: row-major indexing.
  - `AbstractErrorDataSet.recomputeLimits`: axis ranges widened by errors.
  - `AveragingDataSet`: a running mean over a window of data sets.
  - `DataSetUtils`: error arrays, compression choice, the `key : value` lines,
    and the stream that splits a file at the byte 0xFE. That stream sits on
    an 8192-byte push-back buffer, so a single read that returns more than
    8192 bytes after the marker fails with an I/O error.
  - `TRandom`: the linear congruential generator and the guards of its
    samplers.
  - `AbstractTestFunction`: index-as-x test data.
  - `CategoryAxis`: the label converter and category updates.
  - `AxisSynchronizer`: bound propagation guarded against re-entry.
  - `SimplePerformanceMeter`: the frame-time ring and the CPU-load trackers.
  - `VolumeIncrementalOhlcvConsolidation`: the volume condition.

There is one module per file. Four modules are shared helpers that model no
ChartFX class:

- `Wrappers`: `Result`/`Option`. A Java exception becomes `Err` with its kind.
- `Doubles`: a double is an exact real, NaN or an infinity.
- `Decimal`: Java's `int` to decimal string conversion and `Integer.parseInt`, over the ASCII digits `0`-`9` only.
- `JavaStrings`: the `String` methods the code relies on.

Java arrays and lists are sequences. `null` is `None`. Mutating methods are
functions from the old state to the new state. Locks, events and listeners
are dropped.

Some classes are used but not part of this model: `AssertUtils`,
`LimitedQueue`, `DoubleDataSet`, `DefaultAxisDescription`, `IoSerialiser`,
`FieldHeader` and the base class that defines `computeLimits()`. They are modelled by the behaviour their callers rely on:

- `AssertUtils.gtEqThanZero`, `notNull` and `equalDoubleArrays` fail with `Err(IllegalArgument)`. `indexInBounds` and `indexOrder` fail with `Err(IndexOutOfBounds)`.
- Array parameters of the data-set classes are never null in the model, so `notNull` always passes there. The builder's unset arrays are `None`.
- `AssertUtils.equalDoubleArrays(a, b, n)` is taken to pass when either array is null, and otherwise to fail exactly when the first `n` elements exist in one array but not in the other.
- The two-argument `AssertUtils.equalDoubleArrays(a, b)` is taken to fail exactly when the two arrays have different lengths. The legacy bulk `add` relies on it.
- `computeLimits()` of the legacy `DoubleErrorDataSet` is taken to do what `AbstractErrorDataSet.recomputeLimits` does under the class's `Y_ASYMMETRIC` error type: each range becomes the extent of the points in use, with `y - yErrorNeg` and `y + yErrorPos` for the y range. Its class is not part of this model.
- `LimitedQueue` drops its oldest element when over its limit.
- A `DoubleDataSet`'s count is the length of its y array.
- A default axis description has an empty name and unit, and NaN bounds.

Where the class documentation and the code disagree, the model follows the
code:

- `transmitDataLabels` defaults to true (`DataSetSerialiser.java` line 52),
  although the class comment says false.
- `setXNegErrorNoCopy` stores into the negative y errors.
- `CircularDoubleErrorDataSet.getDataLabel` makes up a label
  `name(index,x,y)` for an untagged point. Its unit test expects `null` there.
- `AbstractTestFunction` reports `XY_ASYMMETRIC` although its constructor
  passes `XY`.

## Model

| member | source | states |
|---|---|---|
| CircularBuffer.New | chartfx-dataset/src/main/java/de/gsi/dataset/utils/CircularBuffer.java:20-24 | a negative capacity is rejected (Java's negative array size); otherwise the ring has exactly that capacity and holds nothing |
| CircularBuffer.Available | chartfx-dataset/src/main/java/de/gsi/dataset/utils/CircularBuffer.java:30-35 | the number of readable elements is the capacity once the ring has wrapped and the write position before, never more than the capacity |
| CircularBuffer.RemainingCapacity | chartfx-dataset/src/main/java/de/gsi/dataset/utils/CircularBuffer.java:171-173 | free slots plus available elements make up the capacity; the ring is full exactly when it has wrapped |
| CircularBuffer.Contents | chartfx-dataset/src/main/java/de/gsi/dataset/utils/CircularBuffer.java:79-101 | the readable elements, oldest first, one per available slot |
| CircularBuffer.Get | chartfx-dataset/src/main/java/de/gsi/dataset/utils/CircularBuffer.java:79-101 | before the first wrap index i reads element i and a negative index fails with IllegalArgumentException; after a wrap every index reads some element |
| CircularBuffer.WrapIsMod | chartfx-dataset/src/main/java/de/gsi/dataset/utils/CircularBuffer.java:93-99 | Java's index wrap-around lands on index mod capacity, so a wrapped read starts at the oldest element |
| CircularBuffer.Put | chartfx-dataset/src/main/java/de/gsi/dataset/utils/CircularBuffer.java:108-115 | one put writes at the write position, advances it by one modulo the capacity, sets the wrapped flag at the end of the array, and leaves every other slot unchanged |
| CircularBuffer.PutAll | chartfx-dataset/src/main/java/de/gsi/dataset/utils/CircularBuffer.java:108-115 | repeated single puts keep the ring well formed and its capacity fixed |
| CircularBuffer.PutContents | chartfx-dataset/src/main/java/de/gsi/dataset/utils/CircularBuffer.java:108-115 | after a put the readable contents gain the new element at the end, and lose the oldest one when the ring was already full |
| CircularBuffer.PutContentsLastN | chartfx-dataset/src/main/java/de/gsi/dataset/utils/CircularBuffer.java:108-115 | after a put the readable contents are the last capacity elements of the old contents followed by the new element |
| CircularBuffer.PutAllContents | chartfx-dataset/src/main/java/de/gsi/dataset/utils/CircularBuffer.java:136-165 | after any sequence of puts the readable contents are the last capacity elements of everything ever written |
| CircularBuffer.PutAllAppend | chartfx-dataset/src/main/java/de/gsi/dataset/utils/CircularBuffer.java:136-165 | putting xs then ys is the same as putting xs + ys |
| CircularBuffer.PutAllBlock | chartfx-dataset/src/main/java/de/gsi/dataset/utils/CircularBuffer.java:140-150 | a run of puts that fits before the end of the array is one block copy at the write position, wrapping to 0 exactly when it reaches the end |
| CircularBuffer.FillToTop | chartfx-dataset/src/main/java/de/gsi/dataset/utils/CircularBuffer.java:153-160 | the block copy that fills the ring up to the end of the array keeps it well formed |
| CircularBuffer.PutAllFillToTop | chartfx-dataset/src/main/java/de/gsi/dataset/utils/CircularBuffer.java:153-163 | filling to the end of the array and then putting the rest equals putting everything one by one |
| CircularBuffer.PutBulk | chartfx-dataset/src/main/java/de/gsi/dataset/utils/CircularBuffer.java:136-165 | a bulk put fails exactly when the range of the array copied from is out of bounds and otherwise keeps the ring well formed |
| CircularBuffer.PutBulkIsRepeatedPut | chartfx-dataset/src/main/java/de/gsi/dataset/utils/CircularBuffer.java:136-165 | a bulk put of len elements from start has the same effect as len single puts of those elements, even when len exceeds the capacity |
| CircularBuffer.Reset | chartfx-dataset/src/main/java/de/gsi/dataset/utils/CircularBuffer.java:178-181 | after a reset nothing is readable, the whole capacity is free, and the stored elements are untouched |
| CircularBuffer.LastN | chartfx-dataset/src/main/java/de/gsi/dataset/utils/CircularBuffer.java:79-101 | keeping the last n elements of a sequence yields min(n, length) elements |
| CircularBuffer.PutAllSameShape | chartfx-dataset/src/main/java/de/gsi/dataset/utils/CircularBuffer.java:108-115 | two rings of equal shape stay in step when fed sequences of equal length, which keeps the parallel buffers of a data set aligned |
| CircularBuffer.GetIsContents | chartfx-dataset/src/main/java/de/gsi/dataset/utils/CircularBuffer.java:79-101 | reading index i of the ring returns the i-th oldest readable element |
| CircularBuffer.GetInto | chartfx-dataset/src/main/java/de/gsi/dataset/utils/CircularBuffer.java:51-72 | the copying read fills positions 0..length of the target with get(readPos + i), keeps the rest of a given target, rejects a negative length when it must allocate, and fails only where some single get fails |
| CircularDataSet.Dimension | chartfx-dataset/src/main/java/de/gsi/dataset/spi/CircularDoubleErrorDataSet.java:33-42 | the data set is two-dimensional |
| CircularDataSet.New | chartfx-dataset/src/main/java/de/gsi/dataset/spi/CircularDoubleErrorDataSet.java:33-42 | a negative size is rejected with IllegalArgumentException; otherwise the set has the given name and capacity, and holds no points |
| CircularDataSet.DataCount | chartfx-dataset/src/main/java/de/gsi/dataset/spi/CircularDoubleErrorDataSet.java:139-141 | the number of points never exceeds the capacity |
| CircularDataSet.Points | chartfx-dataset/src/main/java/de/gsi/dataset/spi/CircularDoubleErrorDataSet.java:183-185 | one readable point per counted entry |
| CircularDataSet.Add | chartfx-dataset/src/main/java/de/gsi/dataset/spi/CircularDoubleErrorDataSet.java:84-99 | an add fails with ArrayIndexOutOfBoundsException exactly on a zero capacity; otherwise it keeps the six buffers aligned, the name and capacity fixed, raises the count by one until the set is full, and leaves each axis range the extent of what the readable points add to it |
| CircularDataSet.RecomputeLimits | chartfx-dataset/src/main/java/de/gsi/dataset/spi/CircularDoubleErrorDataSet.java:94-95 | recomputing the limits keeps the points and makes the x range the extent of the x values and the y range the extent of every y minus its negative and plus its positive error |
| CircularDataSet.LimitsCoverPoints | chartfx-dataset/src/main/java/de/gsi/dataset/spi/AbstractErrorDataSet.java:148-156 | ranges recomputed for the set's error type hold every readable point's x and its whole y error bar |
| CircularDataSet.AddCoversNewPoint | chartfx-dataset/src/main/java/de/gsi/dataset/spi/CircularDoubleErrorDataSet.java:84-99 | after an add the recomputed ranges hold the new point's x and its y error bar |
| CircularDataSet.AddPoints | chartfx-dataset/src/main/java/de/gsi/dataset/spi/CircularDoubleErrorDataSet.java:84-99 | after an add the readable points are the last capacity points of the old points followed by the new one |
| CircularDataSet.AddArrays | chartfx-dataset/src/main/java/de/gsi/dataset/spi/CircularDoubleErrorDataSet.java:113-136 | a bulk add rejects arrays of unequal length with IllegalArgumentException, fails on a zero capacity only when there are points to add, keeps the buffers aligned and recomputes both ranges as extents of the readable points; a zero-capacity set that takes no points is left marked wrapped, where no get can return |
| CircularDataSet.BulkPutsAreRepeatedPuts | chartfx-dataset/src/main/java/de/gsi/dataset/spi/CircularDoubleErrorDataSet.java:124-129 | each of the six bulk buffer writes, including the null-padded tags and styles, equals repeated single puts |
| CircularDataSet.AddArraysPoints | chartfx-dataset/src/main/java/de/gsi/dataset/spi/CircularDoubleErrorDataSet.java:113-136 | after a bulk add the readable points are the last capacity points of the old points followed by the new untagged points in order |
| CircularDataSet.ErrorNegative | chartfx-dataset/src/main/java/de/gsi/dataset/spi/CircularDoubleErrorDataSet.java:161-163 | the x dimension has no negative error |
| CircularDataSet.ErrorPositive | chartfx-dataset/src/main/java/de/gsi/dataset/spi/CircularDoubleErrorDataSet.java:166-168 | the x dimension has no positive error |
| CircularDataSet.ReadsArePoints | chartfx-dataset/src/main/java/de/gsi/dataset/spi/CircularDoubleErrorDataSet.java:152-185 | get, the error getters, the style and the label at index i all read the i-th readable point; a missing tag gives the synthesised label |
| CircularDataSet.Get | chartfx-dataset/src/main/java/de/gsi/dataset/spi/CircularDoubleErrorDataSet.java:181-184 | reading index i returns the x or y value of the i-th oldest point, and a negative index before the first wrap fails with IllegalArgumentException |
| CircularDataSet.Style | chartfx-dataset/src/main/java/de/gsi/dataset/spi/CircularDoubleErrorDataSet.java:177-180 | the style at index i is the i-th oldest point's style, and a negative index before the first wrap fails |
| CircularDataSet.DataLabel | chartfx-dataset/src/main/java/de/gsi/dataset/spi/CircularDoubleErrorDataSet.java:151-158 | the label at index i is the i-th oldest point's tag, or the name(index,x,y) label when it has none, and a negative index before the first wrap fails |
| CircularDataSet.Values | chartfx-dataset/src/main/java/de/gsi/dataset/spi/CircularDoubleErrorDataSet.java:183-185 | one value per counted point |
| CircularDataSet.Reset | chartfx-dataset/src/main/java/de/gsi/dataset/spi/CircularDoubleErrorDataSet.java:192-204 | after a reset the set is empty, readable, keeps its name and capacity, and both axis ranges are cleared |
| CircularDataSet.CapacityFiveScenario | chartfx-dataset/src/test/java/de/gsi/dataset/spi/CircularDoubleErrorDataSetTests.java:55-67 | the test's sequence of adds on a set of capacity five ends with x = 1.1, 1.2, 1.0, 2.0, 3.0, y = 2.1, 2.2, 2.0, 4.0, 6.0 and negative errors 3.1, 3.2, 0, 0, 0 |
| CircularDataSet.Columns | chartfx-dataset/src/test/java/de/gsi/dataset/spi/CircularDoubleErrorDataSetTests.java:62-65 | the x, y and negative-error columns are read point by point |
| CircularDataSet.ScenarioColumns | chartfx-dataset/src/test/java/de/gsi/dataset/spi/CircularDoubleErrorDataSetTests.java:62-65 | the columns of the scenario's five points are the ones the test expects |
| CircularDataSet.AddThreeChecked | chartfx-dataset/src/test/java/de/gsi/dataset/spi/CircularDoubleErrorDataSetTests.java:60-61 | a bulk add of three points to a full set of capacity five drops the two oldest points |
| CircularDataSet.AddChecked | chartfx-dataset/src/test/java/de/gsi/dataset/spi/CircularDoubleErrorDataSetTests.java:31-57 | an add to a set of capacity five with room appends the point |
| MultiArray.New | chartfx-dataset/src/main/java/de/gsi/dataset/utils/serializer/MultiArrayImpl.java:60-70 | the element count is the length of the element array and the dimensions are kept |
| MultiArray.New1 | chartfx-dataset/src/main/java/de/gsi/dataset/utils/serializer/MultiArrayImpl.java:50-52 | a one-dimensional array has the single dimension equal to its length |
| MultiArray.GetIndex | chartfx-dataset/src/main/java/de/gsi/dataset/utils/serializer/MultiArrayImpl.java:113-122 | the flat index is the row-major offset (last index fastest) wrapped to a 32-bit int as Java's int arithmetic wraps it, and more indices than dimensions fail with IndexOutOfBounds |
| MultiArray.GetAt | chartfx-dataset/src/main/java/de/gsi/dataset/utils/serializer/MultiArrayImpl.java:124-167 | the typed getters read the element at the wrapped row-major offset, failing when it is outside the element array |
| MultiArray.InBoundsNoWrap | chartfx-dataset/src/main/java/de/gsi/dataset/utils/serializer/MultiArrayImpl.java:113-122 | indices inside their dimensions, for extents whose product fits in an int, do not wrap and address a slot below that product |
| MultiArray.IndexWrapsAround | chartfx-dataset/src/main/java/de/gsi/dataset/utils/serializer/MultiArrayImpl.java:117-119 | indices outside their dimensions can wrap onto a valid slot: extents [1, 4] and indices [2^30, 0] address element 0 |
| MultiArray.Int32Add | chartfx-dataset/src/main/java/de/gsi/dataset/utils/serializer/MultiArrayImpl.java:118 | wrapping the operands of an int sum first gives the same wrapped sum |
| MultiArray.Int32Mul | chartfx-dataset/src/main/java/de/gsi/dataset/utils/serializer/MultiArrayImpl.java:118-119 | wrapping a factor of an int product first gives the same wrapped product |
| MultiArray.RowMajorZero | chartfx-dataset/src/main/java/de/gsi/dataset/utils/serializer/MultiArrayImpl.java:113-122 | all-zero indices give offset 0 |
| MultiArray.RowMajorInBounds | chartfx-dataset/src/main/java/de/gsi/dataset/utils/serializer/MultiArrayImpl.java:113-122 | indices inside their dimensions give an offset below the product of the dimensions |
| MultiArray.OneDimensionalIndex | chartfx-dataset/src/main/java/de/gsi/dataset/utils/serializer/MultiArrayImpl.java:50-52 | for a one-dimensional array the flat index of [i] is i for every int i |
| DataSetUtils.CropToLength | chartfx-dataset/src/main/java/de/gsi/dataset/utils/DataSetUtils.java:200-205 | a negative length fails; otherwise the result has exactly that length, is the input's prefix padded with zeros, and is the input itself when the lengths match |
| DataSetUtils.Errors | chartfx-dataset/src/main/java/de/gsi/dataset/utils/DataSetUtils.java:215-233 | a data set without errors gives a zero array of the data count; otherwise the selected error array cropped or padded to the data count |
| DataSetUtils.Error | chartfx-dataset/src/main/java/de/gsi/dataset/utils/DataSetUtils.java:157-191 | a data set without errors gives 0; otherwise the interpolating getter's error at x when interpolating, and the selected error at the index when not, failing outside the array |
| DataSetUtils.ErrorAtIndex | chartfx-dataset/src/main/java/de/gsi/dataset/utils/DataSetUtils.java:128-130 | the indexed overload gives the non-interpolating read whatever the interpolating getters would answer |
| DataSetUtils.ErrorAtX | chartfx-dataset/src/main/java/de/gsi/dataset/utils/DataSetUtils.java:141-143 | the x overload gives 0 without errors and otherwise the interpolating getter's answer at x, whatever index it passes on |
| DataSetUtils.ErrorIsErrorsEntry | chartfx-dataset/src/main/java/de/gsi/dataset/utils/DataSetUtils.java:157-233 | the single-error read agrees with the entry of the error array |
| DataSetUtils.EvaluateAutoCompression | chartfx-dataset/src/main/java/de/gsi/dataset/utils/DataSetUtils.java:510-518 | a case-insensitive .gz suffix selects GZIP, otherwise .zip selects ZIP, otherwise none |
| DataSetUtils.CompressionIgnoresCase | chartfx-dataset/src/main/java/de/gsi/dataset/utils/DataSetUtils.java:510-518 | the chosen compression does not depend on the file name's letter case |
| DataSetUtils.ZipEntryName | chartfx-dataset/src/main/java/de/gsi/dataset/utils/DataSetUtils.java:373-375 | the ZIP entry name is the file name without a trailing .zip in any case, and the whole name otherwise |
| DataSetUtils.ZipEntryNameStripsExtension | chartfx-dataset/src/main/java/de/gsi/dataset/utils/DataSetUtils.java:373-375 | appending a .zip extension to a base name and deriving the entry name gives back the base name |
| DataSetUtils.GetValue | chartfx-dataset/src/main/java/de/gsi/dataset/utils/DataSetUtils.java:924-933 | a null line gives null; otherwise the second " : "-separated part, or null when there is none |
| DataSetUtils.GetKey | chartfx-dataset/src/main/java/de/gsi/dataset/utils/DataSetUtils.java:913-922 | a null line gives null; otherwise the first " : "-separated part with the marker removed, or null when there is no second part |
| DataSetUtils.MetaLineRoundTrip | chartfx-dataset/src/main/java/de/gsi/dataset/utils/DataSetUtils.java:866 | a written #metaKey line reads back its key and value |
| DataSetUtils.InfoLineRoundTrip | chartfx-dataset/src/main/java/de/gsi/dataset/utils/DataSetUtils.java:853 | a written #info line reads back its text; an empty text reads back as null |
| DataSetUtils.HeaderLines | chartfx-dataset/src/main/java/de/gsi/dataset/utils/DataSetUtils.java:749-760 | the binary header has four entry lines |
| DataSetUtils.ParseEntry | chartfx-dataset/src/main/java/de/gsi/dataset/utils/DataSetUtils.java:1120-1129 | an entry line's name, type and sample count are its first three ";"-separated fields after the leading character, the count read over ASCII digits, and an empty line fails |
| DataSetUtils.HeaderLineRoundTrip | chartfx-dataset/src/main/java/de/gsi/dataset/utils/DataSetUtils.java:749-760 | parsing a written entry line gives back its name, type and sample count |
| DataSetUtils.HeaderLinesRoundTrip | chartfx-dataset/src/main/java/de/gsi/dataset/utils/DataSetUtils.java:749-760 | the four header lines parse back as x, y, eyn and eyp with the written type and count |
| DataSetUtils.CheckByteArray | chartfx-dataset/src/main/java/de/gsi/dataset/utils/DataSetUtils.java:996-1003 | a null or empty byte array is rejected as an invalid parameter; any other array passes unchanged |
| DataSetUtils.FirstMarker | chartfx-dataset/src/main/java/de/gsi/dataset/utils/DataSetUtils.java:336-338 | the position of the first 0xFE split marker, and none exactly when there is none |
| DataSetUtils.ReadByte | chartfx-dataset/src/main/java/de/gsi/dataset/utils/DataSetUtils.java:285-292 | a single read returns the next byte, or -1 on the marker and at the end, and never returns the marker itself |
| DataSetUtils.UnderlyingRead | chartfx-dataset/src/main/java/de/gsi/dataset/utils/DataSetUtils.java:316-334 | the wrapped stream delivers at most len pending bytes into the buffer at off and leaves the rest of the buffer alone |
| DataSetUtils.Scan | chartfx-dataset/src/main/java/de/gsi/dataset/utils/DataSetUtils.java:324-331 | the marker scan does not change the buffer, and it fails with an I/O error exactly when more bytes follow the marker than the 8192-byte push-back buffer holds |
| DataSetUtils.ReadRange | chartfx-dataset/src/main/java/de/gsi/dataset/utils/DataSetUtils.java:316-334 | after the split every read returns -1; before it, a read fails exactly on an out-of-bounds range or a push-back overflow, and otherwise returns -1 or at most len bytes |
| DataSetUtils.ReadArray | chartfx-dataset/src/main/java/de/gsi/dataset/utils/DataSetUtils.java:295-313 | an array read fails exactly when the push-back buffer overflows, and otherwise returns at most the array's length |
| DataSetUtils.SwitchToBinary | chartfx-dataset/src/main/java/de/gsi/dataset/utils/DataSetUtils.java:340-351 | switching to binary takes effect only once the marker has been seen and keeps the pending bytes |
| DataSetUtils.FirstMarkerAt | chartfx-dataset/src/main/java/de/gsi/dataset/utils/DataSetUtils.java:336-338 | the first marker is the one with no marker before it |
| DataSetUtils.MarkerSplitsInput | chartfx-dataset/src/main/java/de/gsi/dataset/utils/DataSetUtils.java:273-352 | the text part of the input is everything before the first marker and the binary part everything after it |
| DataSetUtils.ScanKeepsTextInvariant | chartfx-dataset/src/main/java/de/gsi/dataset/utils/DataSetUtils.java:324-331 | the marker scan keeps the invariant that the bytes delivered so far are a prefix of the text part and the pushed-back bytes are the rest of the input |
| DataSetUtils.ReadRangeKeepsTextInvariant | chartfx-dataset/src/main/java/de/gsi/dataset/utils/DataSetUtils.java:316-334 | a range read succeeds unless the push-back overflows, and every successful one keeps that invariant, so the text reader sees exactly the bytes before the first marker |
| DataSetUtils.ReadByteKeepsTextInvariant | chartfx-dataset/src/main/java/de/gsi/dataset/utils/DataSetUtils.java:285-292 | every single read keeps that invariant too |
| DataSetUtils.ReadByteMarkerCounterexample | chartfx-dataset/src/main/java/de/gsi/dataset/utils/DataSetUtils.java:285-292 | Java's single read returns the marker as 254 where the split should end the text part |
| DataSetUtils.ReadRangeOffsetCounterexample | chartfx-dataset/src/main/java/de/gsi/dataset/utils/DataSetUtils.java:316-334 | with a non-zero offset Java's read reports the end index instead of the byte count |
| DataSetUtils.ReadArrayStaleCounterexample | chartfx-dataset/src/main/java/de/gsi/dataset/utils/DataSetUtils.java:295-313 | Java's array read finds a stale marker beyond the bytes just read and fails |
| DataSetUtils.ReadRangePushbackFull | chartfx-dataset/src/main/java/de/gsi/dataset/utils/DataSetUtils.java:324-331 | one read of the marker and 8193 more bytes overflows the push-back buffer and fails, while 8192 more bytes fit |
| DataSetUtils.ScanOverflow | chartfx-dataset/src/main/java/de/gsi/dataset/utils/DataSetUtils.java:316-334 | the scan after a read fails exactly when the marker among the first pending bytes read has more than 8192 bytes after it |
| DataSetUtils.ReadByteAsWritten | chartfx-dataset/src/main/java/de/gsi/dataset/utils/DataSetUtils.java:285-292 | ChartFX's single read returns -1 only at the end of the input and hands out the marker byte as 254 |
| DataSetUtils.ReadRangeAsWritten | chartfx-dataset/src/main/java/de/gsi/dataset/utils/DataSetUtils.java:316-334 | ChartFX's range read fails on the same bad ranges and push-back overflows, but a count it reports may reach off + len rather than len |
| DataSetUtils.ReadArrayAsWritten | chartfx-dataset/src/main/java/de/gsi/dataset/utils/DataSetUtils.java:295-313 | ChartFX's array read returns -1 after the split and can fail with an index or push-back error only before the marker was met |
| AxisRange.Extend | chartfx-dataset/src/main/java/de/gsi/dataset/spi/AbstractErrorDataSet.java:99-166 | adding a value widens the range to cover it and keeps the old bounds when they still are the extremes |
| AxisRange.ExtendKeepsExtent | chartfx-dataset/src/main/java/de/gsi/dataset/spi/AbstractErrorDataSet.java:99-166 | extending the extent of some values by a value gives the extent of the values plus it |
| AxisRange.ExtentOf | chartfx-dataset/src/main/java/de/gsi/dataset/spi/AbstractErrorDataSet.java:103-106 | the range of raw values is their extent: empty exactly when there are none, and otherwise bounds that are attained |
| AxisRange.ExtendAllKeepsExtent | chartfx-dataset/src/main/java/de/gsi/dataset/spi/AbstractErrorDataSet.java:99-166 | adding many values in turn yields the extent of all of them |
| AxisRange.ExtentUnique | chartfx-dataset/src/main/java/de/gsi/dataset/spi/AbstractErrorDataSet.java:99-166 | a list of values has only one extent, so the order of additions does not matter |
| ErrorLimits.Contribution | chartfx-dataset/src/main/java/de/gsi/dataset/spi/AbstractErrorDataSet.java:103-166 | each error type contributes one or two values per point and axis |
| ErrorLimits.SetErrorType | chartfx-dataset/src/main/java/de/gsi/dataset/spi/AbstractErrorDataSet.java:77-80 | the error type read back is the one set, and nothing else changes |
| ErrorLimits.RecomputeLimits | chartfx-dataset/src/main/java/de/gsi/dataset/spi/AbstractErrorDataSet.java:86-170 | dimension 1 changes nothing; any other dimension makes each axis range the exact extent of the values the error type contributes |
| ErrorLimits.ContributionInAxisValues | chartfx-dataset/src/main/java/de/gsi/dataset/spi/AbstractErrorDataSet.java:99-166 | every contributed value of every point is among the values the range covers |
| ErrorLimits.ErrorBarsFit | chartfx-dataset/src/main/java/de/gsi/dataset/spi/AbstractErrorDataSet.java:99-166 | after a recompute every drawn error bar lies within the axis ranges |
| ErrorLimits.LimitsDependOnUsedErrorsOnly | chartfx-dataset/src/main/java/de/gsi/dataset/spi/AbstractErrorDataSet.java:103-166 | changing an error component that the error type does not use leaves the limits unchanged |
| ErrorLimits.NoErrorIsRawValues | chartfx-dataset/src/main/java/de/gsi/dataset/spi/AbstractErrorDataSet.java:103-106 | without errors the limits are those of the raw x or y values |
| FifoDataSet.New | chartfx-dataset/src/main/java/de/gsi/dataset/spi/FifoDoubleErrorDataSet.java:45-55 | the constructor rejects a size of at most 0 and a maximum distance of at most 0 with IllegalArgumentException, and otherwise starts empty with the given limits |
| FifoDataSet.NewWithoutDistance | chartfx-dataset/src/main/java/de/gsi/dataset/spi/FifoDoubleErrorDataSet.java:33-35 | the short constructor passes the size check through unchanged |
| FifoDataSet.Enqueue | chartfx-dataset/src/main/java/de/gsi/dataset/spi/FifoDoubleErrorDataSet.java:96-110 | the bounded queue keeps the last limit elements, ending with the new one |
| FifoDataSet.Survivors | chartfx-dataset/src/main/java/de/gsi/dataset/spi/FifoDoubleErrorDataSet.java:142-164 | exactly the points with finite x within the maximum distance of now survive, in order |
| FifoDataSet.SurvivorsAllKept | chartfx-dataset/src/main/java/de/gsi/dataset/spi/FifoDoubleErrorDataSet.java:142-164 | when no point expires the data are unchanged |
| FifoDataSet.Expire | chartfx-dataset/src/main/java/de/gsi/dataset/spi/FifoDoubleErrorDataSet.java:142-164 | expire removes the expired points, returns their number, and clears the axis ranges only when something was removed |
| FifoDataSet.ExpireIdempotent | chartfx-dataset/src/main/java/de/gsi/dataset/spi/FifoDoubleErrorDataSet.java:142-164 | a second expire at the same time removes nothing |
| FifoDataSet.AddToRange | chartfx-dataset/src/main/java/de/gsi/dataset/spi/FifoDoubleErrorDataSet.java:96-110 | only finite values widen the axis ranges |
| FifoDataSet.Add | chartfx-dataset/src/main/java/de/gsi/dataset/spi/FifoDoubleErrorDataSet.java:96-110 | after an add every remaining point is within the maximum distance of the new x, every point is old or the new one, and the limits are kept |
| FifoDataSet.AddKeepsNewPoint | chartfx-dataset/src/main/java/de/gsi/dataset/spi/FifoDoubleErrorDataSet.java:96-110 | a point with finite x survives its own add as the last point |
| FifoDataSet.SurvivorsKeepLast | chartfx-dataset/src/main/java/de/gsi/dataset/spi/FifoDoubleErrorDataSet.java:142-164 | expiry keeps the last point when it has not expired |
| FifoDataSet.AddArrays | chartfx-dataset/src/main/java/de/gsi/dataset/spi/FifoDoubleErrorDataSet.java:124-133 | the bulk add adds the points one by one and stops with IndexOutOfBoundsException where one of the other arrays is shorter than x |
| FifoDataSet.Untagged | chartfx-dataset/src/main/java/de/gsi/dataset/spi/FifoDoubleErrorDataSet.java:124-133 | the bulk add makes one untagged point per index common to the four arrays |
| FifoDataSet.AddEach | chartfx-dataset/src/main/java/de/gsi/dataset/spi/FifoDoubleErrorDataSet.java:124-133 | adding points one at a time keeps the set well formed |
| FifoDataSet.AddEachAppend | chartfx-dataset/src/main/java/de/gsi/dataset/spi/FifoDoubleErrorDataSet.java:124-133 | adding a list and then one more point is adding the longer list |
| FifoDataSet.DataCount | chartfx-dataset/src/main/java/de/gsi/dataset/spi/FifoDoubleErrorDataSet.java:179-181 | the count never exceeds the queue limit |
| FifoDataSet.Get | chartfx-dataset/src/main/java/de/gsi/dataset/spi/FifoDoubleErrorDataSet.java:167-169 | get reads the point's x or y, and fails outside the data |
| FifoDataSet.ErrorNegative | chartfx-dataset/src/main/java/de/gsi/dataset/spi/FifoDoubleErrorDataSet.java:189-191 | the x dimension has no error; for y the point's negative error, failing outside the data |
| FifoDataSet.ErrorPositive | chartfx-dataset/src/main/java/de/gsi/dataset/spi/FifoDoubleErrorDataSet.java:194-196 | the x dimension has no error; for y the point's positive error, failing outside the data |
| FifoDataSet.DataLabel | chartfx-dataset/src/main/java/de/gsi/dataset/spi/FifoDoubleErrorDataSet.java:184-186 | the label is the point's tag, failing outside the data |
| FifoDataSet.Style | chartfx-dataset/src/main/java/de/gsi/dataset/spi/FifoDoubleErrorDataSet.java:206-208 | the style is the point's style, failing outside the data |
| FifoDataSet.GettersReadNewPoint | chartfx-dataset/src/main/java/de/gsi/dataset/spi/FifoDoubleErrorDataSet.java:96-110 | right after an add, the getters at the last index return the added point's fields |
| FifoDataSet.Reset | chartfx-dataset/src/main/java/de/gsi/dataset/spi/FifoDoubleErrorDataSet.java:213-216 | reset empties the data and keeps the size limit, the maximum distance and both ranges |
| FifoDataSet.Set | chartfx-dataset/src/main/java/de/gsi/dataset/spi/FifoDoubleErrorDataSet.java:246-248 | set always fails with UnsupportedOperationException |
| AveragingDataSet.New | chartfx-dataset/src/main/java/de/gsi/dataset/spi/AveragingDataSet.java:33-36 | a new set averages over one data set and holds none yet |
| AveragingDataSet.Resize | chartfx-dataset/src/main/java/de/gsi/dataset/spi/AveragingDataSet.java:194-203 | resizing keeps the existing y values and pads with zeros |
| AveragingDataSet.OpAdd | chartfx-dataset/src/main/java/de/gsi/dataset/spi/AveragingDataSet.java:194-203 | element-wise sum, allowed exactly when the counts differ by at most the fuzzy count, otherwise IllegalArgumentException |
| AveragingDataSet.OpSub | chartfx-dataset/src/main/java/de/gsi/dataset/spi/AveragingDataSet.java:205-213 | element-wise difference, under the same compatibility rule |
| AveragingDataSet.OpScale | chartfx-dataset/src/main/java/de/gsi/dataset/spi/AveragingDataSet.java:215-219 | every y value is multiplied by the factor and x is kept |
| AveragingDataSet.SetAverageSize | chartfx-dataset/src/main/java/de/gsi/dataset/spi/AveragingDataSet.java:70-79 | sizes below 1 are ignored; a new size clears the averaged data and the history; the same size changes nothing |
| AveragingDataSet.AverageCount | chartfx-dataset/src/main/java/de/gsi/dataset/spi/AveragingDataSet.java:85-90 | with size 1 the count is 1 exactly when there is a data set; otherwise the history length |
| AveragingDataSet.Clear | chartfx-dataset/src/main/java/de/gsi/dataset/spi/AveragingDataSet.java:95-98 | clear drops the data and the history, so the count is 0 |
| AveragingDataSet.DataCount | chartfx-dataset/src/main/java/de/gsi/dataset/spi/AveragingDataSet.java:129-134 | the count is 0 without a data set and its point count otherwise |
| AveragingDataSet.GetY | chartfx-dataset/src/main/java/de/gsi/dataset/spi/AveragingDataSet.java:153-158 | without a data set y is 0; otherwise the averaged y value, failing outside it |
| AveragingDataSet.GetX | chartfx-dataset/src/main/java/de/gsi/dataset/spi/AveragingDataSet.java:145-150 | without a data set x is 0; otherwise the data set's x value, failing outside it |
| AveragingDataSet.YValues | chartfx-dataset/src/main/java/de/gsi/dataset/spi/AveragingDataSet.java:137-142 | the y array agrees with getY at every index |
| AveragingDataSet.Add | chartfx-dataset/src/main/java/de/gsi/dataset/spi/AveragingDataSet.java:104-126 | with size 1 the new data set replaces the old; otherwise it joins the history, which never grows beyond the average size |
| AveragingDataSet.AddAsWrittenAgreesWhenCompatible | chartfx-dataset/src/main/java/de/gsi/dataset/spi/AveragingDataSet.java:104-126 | the transactional add succeeds exactly when ChartFX's add does not throw, and then yields the same state |
| AveragingDataSet.AddAsWritten | chartfx-dataset/src/main/java/de/gsi/dataset/spi/AveragingDataSet.java:104-126 | ChartFX's add keeps the name and settings; when it throws IllegalArgumentException the history was non-empty, and the averaged data stay rescaled with the history either kept or missing its oldest entry |
| AveragingDataSet.AddKeepsMean | chartfx-dataset/src/main/java/de/gsi/dataset/spi/AveragingDataSet.java:104-126 | when the history is non-empty, adding a data set of the same length keeps the averaged y equal to the element-wise mean of the history |
| AveragingDataSet.GrowKeepsMean | chartfx-dataset/src/main/java/de/gsi/dataset/spi/AveragingDataSet.java:111-115 | while the history grows, the running mean stays the mean |
| AveragingDataSet.Grow | chartfx-dataset/src/main/java/de/gsi/dataset/spi/AveragingDataSet.java:111-115 | the growing update computes each y as the weighted mean of the old mean and the new value |
| AveragingDataSet.GrowMean | chartfx-dataset/src/main/java/de/gsi/dataset/spi/AveragingDataSet.java:111-115 | that update is the mean of the grown history |
| AveragingDataSet.SlideKeepsMean | chartfx-dataset/src/main/java/de/gsi/dataset/spi/AveragingDataSet.java:116-121 | once the history is full, dropping the oldest and adding the newest keeps the mean |
| AveragingDataSet.Slide | chartfx-dataset/src/main/java/de/gsi/dataset/spi/AveragingDataSet.java:116-121 | the sliding update removes the oldest's share and adds the newest's |
| AveragingDataSet.SlideMean | chartfx-dataset/src/main/java/de/gsi/dataset/spi/AveragingDataSet.java:116-121 | that update is the mean of the slid history |
| AveragingDataSet.SlideMeanAt | chartfx-dataset/src/main/java/de/gsi/dataset/spi/AveragingDataSet.java:116-121 | the sliding update is the mean of the slid history at each single index |
| AveragingDataSet.FirstAddStartsMean | chartfx-dataset/src/main/java/de/gsi/dataset/spi/AveragingDataSet.java:107-110 | the first add to an empty history starts a valid mean |
| AveragingDataSet.AddThrowsScaledCounterexample | chartfx-dataset/src/main/java/de/gsi/dataset/spi/AveragingDataSet.java:111-115 | when the data set to add is incompatible, ChartFX's add throws after the averaged data were already rescaled |
| LegacyDataSet.Count | chartfx-samples/src/main/java/de/gsi/dataset/samples/legacy/DoubleErrorDataSet.java:145-147 | the count is the smaller of the fill index and the x array's length |
| LegacyDataSet.ComputeLimits | chartfx-samples/src/main/java/de/gsi/dataset/samples/legacy/DoubleErrorDataSet.java:121 | computeLimits makes the x range the extent of the x values in use and the y range the extent of every y - yErrorNeg and y + yErrorPos in use, changing nothing else |
| LegacyDataSet.Widen | chartfx-samples/src/main/java/de/gsi/dataset/samples/legacy/DoubleErrorDataSet.java:299-301 | after widening the ranges hold the new x value and both ends of its error bar, and still hold every value they held |
| LegacyDataSet.ExactCovers | chartfx-samples/src/main/java/de/gsi/dataset/samples/legacy/DoubleErrorDataSet.java:299-301 | ranges that are the exact extent hold every point in use with its error bar |
| LegacyDataSet.BarsAt | chartfx-samples/src/main/java/de/gsi/dataset/samples/legacy/DoubleErrorDataSet.java:300-301 | the y range receives point i's y - yErrorNeg and y + yErrorPos as its (2i)th and (2i+1)th values |
| LegacyDataSet.Zeros | chartfx-samples/src/main/java/de/gsi/dataset/samples/legacy/DoubleErrorDataSet.java:57-66 | new arrays are zero-filled |
| LegacyDataSet.Put | chartfx-samples/src/main/java/de/gsi/dataset/samples/legacy/DoubleErrorDataSet.java:225-250 | an array store replaces one element and fails outside the array |
| LegacyDataSet.ArrayCopy | chartfx-samples/src/main/java/de/gsi/dataset/samples/legacy/DoubleErrorDataSet.java:335-342 | System.arraycopy copies the range and fails when either range is out of bounds |
| LegacyDataSet.CopyOf | chartfx-samples/src/main/java/de/gsi/dataset/samples/legacy/DoubleErrorDataSet.java:98-122 | Arrays.copyOf keeps a prefix and pads with zeros |
| LegacyDataSet.New | chartfx-samples/src/main/java/de/gsi/dataset/samples/legacy/DoubleErrorDataSet.java:57-66 | a negative size is rejected; otherwise the set is empty with arrays of that size and both ranges empty |
| LegacyDataSet.NewFrom | chartfx-samples/src/main/java/de/gsi/dataset/samples/legacy/DoubleErrorDataSet.java:98-122 | the count is the minimum of the four array lengths and nData, the points are the arrays' prefixes of that length, and the ranges are the extent of those points' x values and error bars |
| LegacyDataSet.GetX | chartfx-samples/src/main/java/de/gsi/dataset/samples/legacy/DoubleErrorDataSet.java:172-174 | reads the x array, failing outside it |
| LegacyDataSet.GetY | chartfx-samples/src/main/java/de/gsi/dataset/samples/legacy/DoubleErrorDataSet.java:177-179 | reads the y array, failing outside it |
| LegacyDataSet.XErrorNegative | chartfx-samples/src/main/java/de/gsi/dataset/samples/legacy/DoubleErrorDataSet.java:182-184 | the x dimension has no negative error |
| LegacyDataSet.XErrorPositive | chartfx-samples/src/main/java/de/gsi/dataset/samples/legacy/DoubleErrorDataSet.java:187-189 | the x dimension has no positive error |
| LegacyDataSet.YErrorNegative | chartfx-samples/src/main/java/de/gsi/dataset/samples/legacy/DoubleErrorDataSet.java:192-194 | reads the negative y error, failing outside the array |
| LegacyDataSet.YErrorPositive | chartfx-samples/src/main/java/de/gsi/dataset/samples/legacy/DoubleErrorDataSet.java:197-199 | reads the positive y error, failing outside the array |
| LegacyDataSet.GrowByOne | chartfx-samples/src/main/java/de/gsi/dataset/samples/legacy/DoubleErrorDataSet.java:276-291 | growth by one keeps the old contents of every array |
| LegacyDataSet.Add | chartfx-samples/src/main/java/de/gsi/dataset/samples/legacy/DoubleErrorDataSet.java:272-306 | add writes the point at the fill index, raises the fill index by one, and widens the x range by x and the y range by y - yErrorNeg and y + yErrorPos |
| LegacyDataSet.AddAppends | chartfx-samples/src/main/java/de/gsi/dataset/samples/legacy/DoubleErrorDataSet.java:272-306 | on a consistent set, add appends the point to each of the four arrays' used parts |
| LegacyDataSet.AddKeepsExact | chartfx-samples/src/main/java/de/gsi/dataset/samples/legacy/DoubleErrorDataSet.java:272-306 | if the ranges were the exact extent of the points in use, they still are after add: widening by the new point is all a recomputation would do |
| LegacyDataSet.ExtentAfterAppend | chartfx-samples/src/main/java/de/gsi/dataset/samples/legacy/DoubleErrorDataSet.java:299-301 | the extent of the first c points, widened by point c and its error bar, is the extent of the first c + 1 |
| LegacyDataSet.AddKeepsCovers | chartfx-samples/src/main/java/de/gsi/dataset/samples/legacy/DoubleErrorDataSet.java:272-306 | ranges that hold every point in use still hold them, and the new point, after add |
| LegacyDataSet.SetAt | chartfx-samples/src/main/java/de/gsi/dataset/samples/legacy/DoubleErrorDataSet.java:225-250 | an index at or past the count appends, a negative index fails, and either way the ranges are widened by the point, so a replaced point's old values stay inside them |
| LegacyDataSet.SetAtReplaces | chartfx-samples/src/main/java/de/gsi/dataset/samples/legacy/DoubleErrorDataSet.java:225-250 | an index below the count replaces only that point |
| LegacyDataSet.SetAtKeepsCovers | chartfx-samples/src/main/java/de/gsi/dataset/samples/legacy/DoubleErrorDataSet.java:225-250 | after set at a non-negative index the ranges still hold every point in use with its error bar |
| LegacyDataSet.Remove | chartfx-samples/src/main/java/de/gsi/dataset/samples/legacy/DoubleErrorDataSet.java:320-354 | an invalid range fails with IndexOutOfBounds; otherwise the fill index drops by to - from and both ranges are emptied |
| LegacyDataSet.Cut | chartfx-samples/src/main/java/de/gsi/dataset/samples/legacy/DoubleErrorDataSet.java:330-342 | cutting keeps everything before from and after to |
| LegacyDataSet.RemoveCutsRange | chartfx-samples/src/main/java/de/gsi/dataset/samples/legacy/DoubleErrorDataSet.java:320-354 | remove(from, to) drops the points from..to and keeps the others in order |
| LegacyDataSet.RemoveLastRejected | chartfx-samples/src/main/java/de/gsi/dataset/samples/legacy/DoubleErrorDataSet.java:322-323 | a range ending at the count is rejected, so remove can never reach the last point |
| LegacyDataSet.ClearData | chartfx-samples/src/main/java/de/gsi/dataset/samples/legacy/DoubleErrorDataSet.java:154-169 | clear zeroes all four arrays, keeps their lengths, sets the count to 0, and empties both ranges |
| LegacyDataSet.SetArrays | chartfx-samples/src/main/java/de/gsi/dataset/samples/legacy/DoubleErrorDataSet.java:434-477 | the count becomes the minimum of the four lengths, the points are the arrays' prefixes, and the ranges are the extent of those points' x values and error bars |
| LegacyDataSet.AddArrays | chartfx-samples/src/main/java/de/gsi/dataset/samples/legacy/DoubleErrorDataSet.java:374-418 | arrays of unequal length are rejected with IllegalArgumentException, and after a bulk add the ranges are the exact extent of the points in use |
| LegacyDataSet.Realloc | chartfx-samples/src/main/java/de/gsi/dataset/samples/legacy/DoubleErrorDataSet.java:388-404 | reallocation gives four arrays of the new length holding the first count x and y values and the first count entries of the error sources, and fails when a source is shorter than the count |
| LegacyDataSet.AppendArrays | chartfx-samples/src/main/java/de/gsi/dataset/samples/legacy/DoubleErrorDataSet.java:406-412 | the four new arrays are copied in right behind the points in use, the rest of each array is kept, the fill index grows by their length, and a target that is too short fails |
| LegacyDataSet.AddArraysExtent | chartfx-samples/src/main/java/de/gsi/dataset/samples/legacy/DoubleErrorDataSet.java:374-418 | after a bulk add on consistent arrays the ranges are the extent of the old points followed by the new ones |
| LegacyDataSet.AddArraysAsWritten | chartfx-samples/src/main/java/de/gsi/dataset/samples/legacy/DoubleErrorDataSet.java:374-418 | ChartFX's bulk add rejects arrays of unequal length and agrees with the corrected add whenever no reallocation is needed |
| LegacyDataSet.AddArraysAppends | chartfx-samples/src/main/java/de/gsi/dataset/samples/legacy/DoubleErrorDataSet.java:374-418 | with the set's own error arrays kept on reallocation, a bulk add appends all points in order |
| LegacyDataSet.AddArraysShadowCounterexample | chartfx-samples/src/main/java/de/gsi/dataset/samples/legacy/DoubleErrorDataSet.java:397-398 | ChartFX's bulk add overwrites the old points' errors with the new arrays' when it reallocates |
| TestFunction.New | chartfx-dataset/src/main/java/de/gsi/dataset/testdata/spi/AbstractTestFunction.java:23-28 | the constructor fails exactly when the generator throws, with its exception; otherwise the set holds whatever array the generator returned, of any length, under the given name |
| TestFunction.Update | chartfx-dataset/src/main/java/de/gsi/dataset/testdata/spi/AbstractTestFunction.java:31-38 | update fails exactly when the generator throws; otherwise the data become the generator's array for the old count and both axis ranges become the extents of every index and value widened by the reported error type's errors |
| TestFunction.CountIsGenerated | chartfx-dataset/src/main/java/de/gsi/dataset/testdata/spi/AbstractTestFunction.java:23-43 | getDataCount is the length of the generated array: it equals the requested count, and an update keeps the count, exactly when the generator returns as many values as asked |
| TestFunction.UpdateCoversPoints | chartfx-dataset/src/main/java/de/gsi/dataset/testdata/spi/AbstractTestFunction.java:31-38 | after an update the x range holds every index plus and minus 0.1 and the y range every value plus and minus 0.1 |
| TestFunction.Get | chartfx-dataset/src/main/java/de/gsi/dataset/testdata/spi/AbstractTestFunction.java:46-48 | x reads the index itself; y reads the data and fails outside it |
| TestFunction.GetX | chartfx-dataset/src/main/java/de/gsi/dataset/testdata/spi/AbstractTestFunction.java:51-54 | x is the index |
| TestFunction.GetY | chartfx-dataset/src/main/java/de/gsi/dataset/testdata/spi/AbstractTestFunction.java:57-64 | y is the data value inside the count and NaN outside |
| TestFunction.XErrorNegative | chartfx-dataset/src/main/java/de/gsi/dataset/testdata/spi/AbstractTestFunction.java:67-88 | the error is ChartFX's constant 0.1 |
| TestFunction.XErrorPositive | chartfx-dataset/src/main/java/de/gsi/dataset/testdata/spi/AbstractTestFunction.java:72-88 | the error is ChartFX's constant 0.1 |
| TestFunction.YErrorNegative | chartfx-dataset/src/main/java/de/gsi/dataset/testdata/spi/AbstractTestFunction.java:77-92 | the error is ChartFX's constant 0.1 |
| TestFunction.YErrorPositive | chartfx-dataset/src/main/java/de/gsi/dataset/testdata/spi/AbstractTestFunction.java:82-92 | the error is ChartFX's constant 0.1 |
| TestFunction.TestErrorType | chartfx-dataset/src/main/java/de/gsi/dataset/testdata/spi/AbstractTestFunction.java:95-97 | the reported error type is XY_ASYMMETRIC, not the XY passed by the constructor |
| TestFunction.GenerateX | chartfx-dataset/src/main/java/de/gsi/dataset/testdata/spi/AbstractTestFunction.java:105-111 | a negative count fails; otherwise x has count entries and entry i is i |
| TestFunction.GeneratedXAgree | chartfx-dataset/src/main/java/de/gsi/dataset/testdata/spi/AbstractTestFunction.java:51-54 | generated x agrees with getX and get(DIM_X) |
| TRandom.Step | chartfx-math/src/main/java/de/gsi/math/TRandom.java:458-460 | the state step stays in [0, 2^31) |
| TRandom.Rndm | chartfx-math/src/main/java/de/gsi/math/TRandom.java:458-466 | the draw is in (0, 1) and its state is never 0: a zero state is stepped once more |
| TRandom.RetryOnce | chartfx-math/src/main/java/de/gsi/math/TRandom.java:462-465 | the zero state steps to 12345, so the retry happens at most once |
| TRandom.StateAfter | chartfx-math/src/main/java/de/gsi/math/TRandom.java:474-484 | after one or more draws the state is non-zero |
| TRandom.Draws | chartfx-math/src/main/java/de/gsi/math/TRandom.java:474-484 | k draws give k values in (0, 1) |
| TRandom.DrawsPrefix | chartfx-math/src/main/java/de/gsi/math/TRandom.java:474-484 | the first j of k draws are the j draws |
| TRandom.RndmArray | chartfx-math/src/main/java/de/gsi/math/TRandom.java:474-484 | a too-short array fails; otherwise exactly the first n entries receive the successive draws and the rest are kept |
| TRandom.CountAtMost | chartfx-math/src/main/java/de/gsi/math/TRandom.java:43-53 | the success count is at most the number of trials |
| TRandom.Binomial | chartfx-math/src/main/java/de/gsi/math/TRandom.java:31-54 | prob < 0 or prob > 1 (infinities included) gives 0 and consumes no draw; otherwise ntot draws are made and the result counts those not above prob; a NaN prob passes the guard and counts every draw, giving ntot |
| TRandom.CountAtMostExtremes | chartfx-math/src/main/java/de/gsi/math/TRandom.java:43-53 | draws none of which exceeds prob all count, and draws that all exceed prob count 0 |
| TRandom.CountAtMostNaN | chartfx-math/src/main/java/de/gsi/math/TRandom.java:43-53 | no draw exceeds NaN, so a NaN probability counts every draw |
| TRandom.BinomialCertain | chartfx-math/src/main/java/de/gsi/math/TRandom.java:31-54 | probability 1 gives ntot, probability 0 gives 0, and a NaN probability gives ntot |
| TRandom.SetSeed | chartfx-math/src/main/java/de/gsi/math/TRandom.java:492-498 | a non-zero seed is kept verbatim; zero takes the clock value |
| TRandom.Poisson | chartfx-math/src/main/java/de/gsi/math/TRandom.java:306-355 | a mean <= 0 gives 0 without a draw; any other mean, NaN included, goes to the sampler |
| TRandom.PoissonD | chartfx-math/src/main/java/de/gsi/math/TRandom.java:363-411 | a mean <= 0 gives 0 without a draw; any other mean, NaN included, goes to the sampler |
| TRandom.Landau | chartfx-math/src/main/java/de/gsi/math/TRandom.java:210-296 | sigma <= 0 gives 0 without a draw; otherwise one table draw and mpv + sigma times it, which is NaN for a NaN sigma |
| CategoryAxis.New | chartfx-chart/src/main/java/de/gsi/chart/axes/spi/CategoryAxis.java:40-46 | the default axis has no categories, is not forced, and has tick unit 1 |
| CategoryAxis.NewWith | chartfx-chart/src/main/java/de/gsi/chart/axes/spi/CategoryAxis.java:89-94 | the axis takes the categories, is not forced, and shows one more label than categories |
| CategoryAxis.SetObservable | chartfx-chart/src/main/java/de/gsi/chart/axes/spi/CategoryAxis.java:126-157 | a null list clears the categories and forcing; a list is installed as is; the label count is size + 1 |
| CategoryAxis.SetCategories | chartfx-chart/src/main/java/de/gsi/chart/axes/spi/CategoryAxis.java:108-116 | forcing is set exactly when a list is given, and the categories are that list or empty |
| CategoryAxis.RoundIndex | chartfx-chart/src/main/java/de/gsi/chart/axes/spi/CategoryAxis.java:147 | the value is rounded half up to an index; NaN rounds to 0 and infinities to no index |
| CategoryAxis.ToString | chartfx-chart/src/main/java/de/gsi/chart/axes/spi/CategoryAxis.java:145-152 | an index inside the list gives its category; anything else gives "unknown category" |
| CategoryAxis.FirstMatch | chartfx-chart/src/main/java/de/gsi/chart/axes/spi/CategoryAxis.java:137-141 | the search finds the first category equal to the label ignoring ASCII letter case, or reports that none exists |
| CategoryAxis.FromString | chartfx-chart/src/main/java/de/gsi/chart/axes/spi/CategoryAxis.java:136-143 | a label maps to the first category equal to it ignoring ASCII letter case, and an unknown label fails with IllegalArgumentException |
| CategoryAxis.EqualsIgnoreCaseReflexive | chartfx-chart/src/main/java/de/gsi/chart/axes/spi/CategoryAxis.java:138 | every label equals itself ignoring case |
| CategoryAxis.IndexRoundTrip | chartfx-chart/src/main/java/de/gsi/chart/axes/spi/CategoryAxis.java:136-152 | with categories distinct ignoring case, formatting an index and parsing the label gives the index back |
| CategoryAxis.LabelRoundTrip | chartfx-chart/src/main/java/de/gsi/chart/axes/spi/CategoryAxis.java:136-152 | parsing a known label and formatting the index gives a label equal to it ignoring case |
| CategoryAxis.Sanitize | chartfx-chart/src/main/java/de/gsi/chart/axes/spi/CategoryAxis.java:173-183 | null labels become "unknown category" and the others are kept |
| CategoryAxis.UpdateCategories | chartfx-chart/src/main/java/de/gsi/chart/axes/spi/CategoryAxis.java:165-193 | no change for a null data set, forced categories, or all-null labels; otherwise the sanitised labels become the categories; the result is always false |
| CategoryAxis.ComputeTickUnit | chartfx-chart/src/main/java/de/gsi/chart/axes/spi/CategoryAxis.java:224-226 | the tick unit is always 1 |
| CategoryAxis.MinorTickValues | chartfx-chart/src/main/java/de/gsi/chart/axes/spi/CategoryAxis.java:219-221 | there are no minor ticks |
| AxisSynchronizer.New | chartfx-chart/src/main/java/de/gsi/chart/utils/AxisSynchronizer.java:30-32 | a new synchroniser has no axes and is not updating |
| AxisSynchronizer.Add | chartfx-chart/src/main/java/de/gsi/chart/utils/AxisSynchronizer.java:34-38 | add registers the axis and keeps the others |
| AxisSynchronizer.RemoveFirst | chartfx-chart/src/main/java/de/gsi/chart/utils/AxisSynchronizer.java:40-45 | list removal drops one occurrence of the axis |
| AxisSynchronizer.Remove | chartfx-chart/src/main/java/de/gsi/chart/utils/AxisSynchronizer.java:40-45 | remove unregisters the axis and turns its auto-ranging back on |
| AxisSynchronizer.FindAxis | chartfx-chart/src/main/java/de/gsi/chart/utils/AxisSynchronizer.java:99-109 | the sender is found exactly when it is registered |
| AxisSynchronizer.Follow | chartfx-chart/src/main/java/de/gsi/chart/utils/AxisSynchronizer.java:61-68 | a following axis takes the new bound and the sender's tick unit, keeps the other bound, and stops auto-ranging |
| AxisSynchronizer.Propagate | chartfx-chart/src/main/java/de/gsi/chart/utils/AxisSynchronizer.java:61-94 | every registered axis other than the sender follows the change and nothing else changes |
| AxisSynchronizer.BoundChanged | chartfx-chart/src/main/java/de/gsi/chart/utils/AxisSynchronizer.java:47-97 | a NaN, an unchanged value, a change during an update or from an unknown axis is ignored; otherwise all other registered axes follow, and the updating flag is restored |
| AxisSynchronizer.PropagationSynchronises | chartfx-chart/src/main/java/de/gsi/chart/utils/AxisSynchronizer.java:47-97 | after a propagated change every registered axis has the same bound and tick unit as the sender |
| PerformanceMeter.NewMeter | chartfx-chart/src/main/java/de/gsi/chart/utils/SimplePerformanceMeter.java:20-22 | a new meter is well formed |
| PerformanceMeter.Handle | chartfx-chart/src/main/java/de/gsi/chart/utils/SimplePerformanceMeter.java:135-148 | the slot index advances by one modulo 100, the filled flag never clears, and no rate is produced before the ring has filled |
| PerformanceMeter.HandleAll | chartfx-chart/src/main/java/de/gsi/chart/utils/SimplePerformanceMeter.java:135-148 | repeated frames keep the meter well formed |
| PerformanceMeter.HandleAllState | chartfx-chart/src/main/java/de/gsi/chart/utils/SimplePerformanceMeter.java:135-148 | after n frames the index is n mod 100, the ring is filled exactly when n >= 100, and each slot holds the latest timestamp written to it |
| PerformanceMeter.LastAtSkip | chartfx-chart/src/main/java/de/gsi/chart/utils/SimplePerformanceMeter.java:135-148 | frames written to other slots do not change a slot |
| PerformanceMeter.SlotBefore | chartfx-chart/src/main/java/de/gsi/chart/utils/SimplePerformanceMeter.java:136-137 | the slot about to be overwritten holds the timestamp of 100 frames earlier, or 0 before the first wrap |
| PerformanceMeter.ElapsedIsHundredFrames | chartfx-chart/src/main/java/de/gsi/chart/utils/SimplePerformanceMeter.java:135-148 | no rate before 100 frames, the raw timestamp at the first wrap, and afterwards the time since the frame 100 calls earlier |
| PerformanceMeter.NoMeasurementYet | chartfx-chart/src/main/java/de/gsi/chart/utils/SimplePerformanceMeter.java:142-144 | fewer than 100 frames produce no rate |
| PerformanceMeter.ResetAverages | chartfx-chart/src/main/java/de/gsi/chart/utils/SimplePerformanceMeter.java:187-194 | reset puts all trackers at a negative sentinel |
| PerformanceMeter.UpdateLoads | chartfx-chart/src/main/java/de/gsi/chart/utils/SimplePerformanceMeter.java:161-177 | the min tracker is at most the sample and never rises, the max tracker is at least the sample and never falls |
| PerformanceMeter.TrackersAreExtremes | chartfx-chart/src/main/java/de/gsi/chart/utils/SimplePerformanceMeter.java:161-184 | after a reset and non-negative samples, min and max are the smallest and largest sample and the average lies between them |
| PerformanceMeter.UpdateKeepsOrder | chartfx-chart/src/main/java/de/gsi/chart/utils/SimplePerformanceMeter.java:161-177 | one update keeps min <= avg <= max |
| PerformanceMeter.ExtremesNonNegative | chartfx-chart/src/main/java/de/gsi/chart/utils/SimplePerformanceMeter.java:161-177 | the extremes of non-negative samples are ordered and non-negative |
| PerformanceMeter.MaxProcessCpuLoadIsGreatest | chartfx-chart/src/main/java/de/gsi/chart/utils/SimplePerformanceMeter.java:106-108 | the maximum process load read from the max tracker bounds every sample |
| PerformanceMeter.MaxProcessCpuLoad | chartfx-chart/src/main/java/de/gsi/chart/utils/SimplePerformanceMeter.java:106-108 | on ordered trackers the maximum process load is at least the minimum and the average |
| PerformanceMeter.MaxProcessCpuLoadAsWritten | chartfx-chart/src/main/java/de/gsi/chart/utils/SimplePerformanceMeter.java:106-108 | ChartFX's getter never exceeds the average load on ordered trackers, so it cannot be the maximum |
| PerformanceMeter.MaxIsUpperBound | chartfx-chart/src/main/java/de/gsi/chart/utils/SimplePerformanceMeter.java:161-177 | the largest sample bounds every sample |
| PerformanceMeter.MaxProcessCpuLoadCounterexample | chartfx-chart/src/main/java/de/gsi/chart/utils/SimplePerformanceMeter.java:106-108 | ChartFX's getter returns the min tracker: after loads 10 and 50 it reports 10 |
| VolumeConsolidation.NewRule | chartfx-samples/src/main/java/de/gsi/chart/samples/financial/service/consolidate/VolumeIncrementalOhlcvConsolidation.java:14-19 | the period value becomes the volume period |
| VolumeConsolidation.DefineCondition | chartfx-samples/src/main/java/de/gsi/chart/samples/financial/service/consolidate/VolumeIncrementalOhlcvConsolidation.java:36-38 | the volume left is the period minus the bar's volume, and the period is kept |
| VolumeConsolidation.AfterAddition | chartfx-samples/src/main/java/de/gsi/chart/samples/financial/service/consolidate/VolumeIncrementalOhlcvConsolidation.java:22-24 | after an addition the volume left is the period minus the added bar's volume, and the period is kept |
| VolumeConsolidation.AfterUpdate | chartfx-samples/src/main/java/de/gsi/chart/samples/financial/service/consolidate/VolumeIncrementalOhlcvConsolidation.java:27-29 | after an update the volume left is the period minus the updated bar's volume, and the period is kept |
| VolumeConsolidation.CheckCondition | chartfx-samples/src/main/java/de/gsi/chart/samples/financial/service/consolidate/VolumeIncrementalOhlcvConsolidation.java:32-34 | an increment is accepted exactly when its volume fits in the volume left |
| VolumeConsolidation.AcceptedAfterRedefinition | chartfx-samples/src/main/java/de/gsi/chart/samples/financial/service/consolidate/VolumeIncrementalOhlcvConsolidation.java:21-38 | right after an addition or an update an increment is accepted exactly when the bar's volume plus the increment fits in the period, whatever volume was left before |
| VolumeConsolidation.AcceptedIffWithinPeriod | chartfx-samples/src/main/java/de/gsi/chart/samples/financial/service/consolidate/VolumeIncrementalOhlcvConsolidation.java:14-38 | after any history of additions and updates, an increment is accepted exactly when the latest bar's volume plus the increment stays within the period the rule was created with |
| VolumeConsolidation.ReplaySnoc | chartfx-samples/src/main/java/de/gsi/chart/samples/financial/service/consolidate/VolumeIncrementalOhlcvConsolidation.java:21-38 | replaying a history of additions and updates is applying the last event to the replay of the rest |
| VolumeConsolidation.ReplayKeepsPeriod | chartfx-samples/src/main/java/de/gsi/chart/samples/financial/service/consolidate/VolumeIncrementalOhlcvConsolidation.java:14-38 | no redefinition changes the volume period |
| DataSetBuilder.NewBuilder | chartfx-dataset/src/main/java/de/gsi/dataset/spi/DataSetBuilder.java:43-46 | a new builder carries the given name, no capacity limit, no arrays, no axes and no per-dimension data |
| DataSetBuilder.SetName | chartfx-dataset/src/main/java/de/gsi/dataset/spi/DataSetBuilder.java:223-226 | the name is replaced and nothing else changes |
| DataSetBuilder.CopyPrefix | chartfx-dataset/src/main/java/de/gsi/dataset/spi/DataSetBuilder.java:256-260 | a copying setter stores the first min(initialCapacity, length) elements, or all of them when initialCapacity is negative |
| DataSetBuilder.SetCopy | chartfx-dataset/src/main/java/de/gsi/dataset/spi/DataSetBuilder.java:228-306 | each copying setter stores that prefix in its own field and leaves the other arrays, the name and the axes alone |
| DataSetBuilder.SetNoCopy | chartfx-dataset/src/main/java/de/gsi/dataset/spi/DataSetBuilder.java:236-312 | each no-copy setter stores the array as given in its target field and changes nothing else |
| DataSetBuilder.XNegErrorNoCopyStoresYErrors | chartfx-dataset/src/main/java/de/gsi/dataset/spi/DataSetBuilder.java:236-240 | setXNegErrorNoCopy stores into the negative y errors and leaves the negative x errors alone |
| DataSetBuilder.NoCopyTarget | chartfx-dataset/src/main/java/de/gsi/dataset/spi/DataSetBuilder.java:236-312 | every no-copy setter writes its own field, except that none writes the negative x errors |
| DataSetBuilder.CopyWithoutLimitIsWhole | chartfx-dataset/src/main/java/de/gsi/dataset/spi/DataSetBuilder.java:256-312 | without a capacity limit, copying and no-copy setters store the same array |
| DataSetBuilder.PutAll | chartfx-dataset/src/main/java/de/gsi/dataset/spi/DataSetBuilder.java:188 | Map.putAll keeps the old keys, adds the new ones, and lets the new values win |
| DataSetBuilder.SetDataLabelMap | chartfx-dataset/src/main/java/de/gsi/dataset/spi/DataSetBuilder.java:184-190 | a null or empty map is ignored; otherwise it is merged into the labels |
| DataSetBuilder.SetDataStyleMap | chartfx-dataset/src/main/java/de/gsi/dataset/spi/DataSetBuilder.java:192-198 | a null or empty map is ignored; otherwise it is merged into the styles |
| DataSetBuilder.SetMetaInfoMap | chartfx-dataset/src/main/java/de/gsi/dataset/spi/DataSetBuilder.java:210-216 | a null or empty map is ignored; otherwise it is merged into the meta info |
| DataSetBuilder.AppendList | chartfx-dataset/src/main/java/de/gsi/dataset/spi/DataSetBuilder.java:200-221 | the info, warning and error setters append to their own list and change nothing else |
| DataSetBuilder.Pad | chartfx-dataset/src/main/java/de/gsi/dataset/spi/DataSetBuilder.java:155-159 | padding appends default axis descriptions up to the wanted size and keeps the existing ones |
| DataSetBuilder.GetAxisDescription | chartfx-dataset/src/main/java/de/gsi/dataset/spi/DataSetBuilder.java:147-162 | a dimension outside [0, 1000) fails with IllegalArgumentException; otherwise the list is padded with defaults until it covers the dimension and that entry is returned |
| DataSetBuilder.SetAxis | chartfx-dataset/src/main/java/de/gsi/dataset/spi/DataSetBuilder.java:164-182 | an axis setter fails outside [0, 1000), changes only the addressed description, pads with defaults, and keeps the rest of the builder |
| DataSetBuilder.SetAxisBounded | chartfx-dataset/src/main/java/de/gsi/dataset/spi/DataSetBuilder.java:147-162 | the axis list never grows beyond 1000 entries |
| DataSetBuilder.SetDimension | chartfx-dataset/src/main/java/de/gsi/dataset/serializer/spi/iobuffer/DataSetSerialiser.java:116-118 | the dimension count is recorded and nothing else changes |
| DataSetBuilder.SetValues | chartfx-dataset/src/main/java/de/gsi/dataset/serializer/spi/iobuffer/DataSetSerialiser.java:198-205 | the values of one dimension are recorded and nothing else changes |
| DataSetBuilder.SetPosError | chartfx-dataset/src/main/java/de/gsi/dataset/serializer/spi/iobuffer/DataSetSerialiser.java:216-223 | the positive errors of one dimension are recorded and nothing else changes |
| DataSetBuilder.SetNegError | chartfx-dataset/src/main/java/de/gsi/dataset/serializer/spi/iobuffer/DataSetSerialiser.java:207-214 | the negative errors of one dimension are recorded and nothing else changes |
| DataSetBuilder.EqualDoubleArrays | chartfx-dataset/src/main/java/de/gsi/dataset/spi/DataSetBuilder.java:141-142 | two present arrays pass the length check when both reach the size and fail with IllegalArgumentException when the second is shorter |
| DataSetBuilder.BuiltSize | chartfx-dataset/src/main/java/de/gsi/dataset/spi/DataSetBuilder.java:114-115 | the built size is at most both array lengths and the capacity limit, and equals one of them |
| DataSetBuilder.BuildWithYArrayOnly | chartfx-dataset/src/main/java/de/gsi/dataset/spi/DataSetBuilder.java:128-135 | with only y values the x value of each point is its index, and the y values are the whole array or its first initialCapacity entries |
| DataSetBuilder.BuildWithYErrors | chartfx-dataset/src/main/java/de/gsi/dataset/spi/DataSetBuilder.java:137-145 | the build fails with IllegalArgumentException exactly when a present y-error array is shorter than the size; otherwise the points are the first size x and y values, and the errors are the two arrays' prefixes, or one array's prefix on both sides when only it is given |
| DataSetBuilder.BuildRawDataSet | chartfx-dataset/src/main/java/de/gsi/dataset/spi/DataSetBuilder.java:99-135 | x without y fails with IllegalStateException and other failures are IllegalArgumentException; a built set has the given name, equally many x and y values, no messages, meta info, labels or styles and two default axes; no arrays give an empty set without errors |
| DataSetBuilder.BuildRawCases | chartfx-dataset/src/main/java/de/gsi/dataset/spi/DataSetBuilder.java:99-135 | no arrays give an empty set; x without y fails with IllegalStateException; y alone gets x = 0, 1, 2, ...; x and y are cut to the built size and errors appear exactly when an error array was given |
| DataSetBuilder.SingleErrorArrayServesBothSides | chartfx-dataset/src/main/java/de/gsi/dataset/spi/DataSetBuilder.java:137-145 | a single y-error array is used for both sides, and a too-short one fails |
| DataSetBuilder.AddDataRanges | chartfx-dataset/src/main/java/de/gsi/dataset/spi/DataSetBuilder.java:61-72 | axis descriptions replace the data set's own only when some were set |
| DataSetBuilder.Build | chartfx-dataset/src/main/java/de/gsi/dataset/spi/DataSetBuilder.java:85-97 | more than 1000 axis descriptions fail; x without y fails with IllegalStateException; a built set is named after the builder when it has a name, carries exactly the builder's messages, meta info, labels and styles, and has equally many x and y values, none when the builder has no arrays |
| DataSetBuilder.BuildCarriesMetaData | chartfx-dataset/src/main/java/de/gsi/dataset/spi/DataSetBuilder.java:85-97 | the built set carries the builder's lists, meta info, labels, styles and axes, and is named after the builder or "DataSet@" and the clock |
| DataSetBuilder.RawNameIrrelevant | chartfx-dataset/src/main/java/de/gsi/dataset/spi/DataSetBuilder.java:99-126 | the raw build depends on the name only through the name, and starts with no meta data and two default axes |
| DataSetSerialiser.NewConfig | chartfx-dataset/src/main/java/de/gsi/dataset/serializer/spi/iobuffer/DataSetSerialiser.java:52-58 | a new serialiser transmits meta data and data labels |
| DataSetSerialiser.RootChildren | chartfx-dataset/src/main/java/de/gsi/dataset/serializer/spi/iobuffer/DataSetSerialiser.java:248-249 | the fields under the root object are drawn from the stream |
| DataSetSerialiser.FindHeader | chartfx-dataset/src/main/java/de/gsi/dataset/serializer/spi/iobuffer/DataSetSerialiser.java:60-84 | the lookup finds a field of that name among the fields, and none exactly when no field has that name |
| DataSetSerialiser.FindAppend | chartfx-dataset/src/main/java/de/gsi/dataset/serializer/spi/iobuffer/DataSetSerialiser.java:60-84 | a lookup in two field lists finds the first list's field first |
| DataSetSerialiser.CheckFieldCompatibility | chartfx-dataset/src/main/java/de/gsi/dataset/serializer/spi/iobuffer/DataSetSerialiser.java:60-84 | an absent field gives empty, a field whose tag is not allowed fails with InputMismatchException, and otherwise the field found by name is returned |
| DataSetSerialiser.GetDimIndex | chartfx-dataset/src/main/java/de/gsi/dataset/serializer/spi/iobuffer/DataSetSerialiser.java:225-232 | a name shorter than the prefix gives -1, the number is read over ASCII digits, and the result is always a 32-bit integer |
| DataSetSerialiser.GetDimIndexOfKey | chartfx-dataset/src/main/java/de/gsi/dataset/serializer/spi/iobuffer/DataSetSerialiser.java:225-232 | the dimension index of a written key like array3 is its number |
| DataSetSerialiser.GetDimIndexPrefixLength | chartfx-dataset/src/main/java/de/gsi/dataset/serializer/spi/iobuffer/DataSetSerialiser.java:207-223 | only the prefix's length matters, so the swapped en/ep prefixes in the error readers are harmless |
| DataSetSerialiser.ReadDouble | chartfx-dataset/src/main/java/de/gsi/dataset/serializer/spi/iobuffer/DataSetSerialiser.java:141-148 | a double field reads as its double, and a payload of any other kind fails with InputMismatch |
| DataSetSerialiser.ReadString | chartfx-dataset/src/main/java/de/gsi/dataset/serializer/spi/iobuffer/DataSetSerialiser.java:135-140 | a string field reads as its string, and a payload of any other kind fails with InputMismatch |
| DataSetSerialiser.ParseHeader | chartfx-dataset/src/main/java/de/gsi/dataset/serializer/spi/iobuffer/DataSetSerialiser.java:126-157 | names not starting with axis are ignored, and a header field only ever changes the axis descriptions |
| DataSetSerialiser.ParseAxes | chartfx-dataset/src/main/java/de/gsi/dataset/serializer/spi/iobuffer/DataSetSerialiser.java:121-123 | parsing all fields as headers changes only the axis descriptions |
| DataSetSerialiser.ParseHeaders | chartfx-dataset/src/main/java/de/gsi/dataset/serializer/spi/iobuffer/DataSetSerialiser.java:109-124 | the header pass changes only the name, the dimension count and the axes |
| DataSetSerialiser.ReadMessages | chartfx-dataset/src/main/java/de/gsi/dataset/serializer/spi/iobuffer/DataSetSerialiser.java:159-178 | a missing list is skipped, a string-list field is appended to the matching list, and a field of another type fails |
| DataSetSerialiser.ReadMetaInfo | chartfx-dataset/src/main/java/de/gsi/dataset/serializer/spi/iobuffer/DataSetSerialiser.java:170-175 | a missing map is skipped, a string-keyed map is merged into the meta info, any MAP field is accepted, and a field of another type fails with InputMismatchException; an int-keyed map is accepted but not merged |
| DataSetSerialiser.ReadAllMessages | chartfx-dataset/src/main/java/de/gsi/dataset/serializer/spi/iobuffer/DataSetSerialiser.java:161-171 | the info, warning and error lists are only ever extended; with none present nothing changes, and a list field of the wrong type fails with InputMismatchException |
| DataSetSerialiser.ParseMetaData | chartfx-dataset/src/main/java/de/gsi/dataset/serializer/spi/iobuffer/DataSetSerialiser.java:159-178 | the pass only extends the three message lists and the meta info; with none of the four fields present it changes nothing; a message list that is not a string array, or a meta-info field that is not a MAP, fails with InputMismatchException |
| DataSetSerialiser.ReadIndexMap | chartfx-dataset/src/main/java/de/gsi/dataset/serializer/spi/iobuffer/DataSetSerialiser.java:94-107 | a missing label or style map is skipped, an int-keyed one is merged into the builder, any MAP field is accepted, and a field of another type fails with InputMismatchException; a string-keyed map is accepted but not merged |
| DataSetSerialiser.ParseDataLabels | chartfx-dataset/src/main/java/de/gsi/dataset/serializer/spi/iobuffer/DataSetSerialiser.java:94-107 | the pass fails with InputMismatchException exactly when the label or the style field is present and is not a MAP, and otherwise only extends the label and style maps |
| DataSetSerialiser.NumericStep | chartfx-dataset/src/main/java/de/gsi/dataset/serializer/spi/iobuffer/DataSetSerialiser.java:180-196 | fields that are not double or float arrays are skipped, and a numeric field only changes the per-dimension values and errors |
| DataSetSerialiser.ParseNumericData | chartfx-dataset/src/main/java/de/gsi/dataset/serializer/spi/iobuffer/DataSetSerialiser.java:180-196 | the numeric pass only changes the per-dimension values and errors |
| DataSetSerialiser.DecodeFields | chartfx-dataset/src/main/java/de/gsi/dataset/serializer/spi/iobuffer/DataSetSerialiser.java:241-262 | the reader never sets the builder's x or y arrays or y errors, and with a flag cleared the messages and meta info, or the labels and styles, stay empty |
| DataSetSerialiser.ReadDataSetFromByteArray | chartfx-dataset/src/main/java/de/gsi/dataset/serializer/spi/iobuffer/DataSetSerialiser.java:241-265 | a data set read back has no points and no errors, and with a flag cleared no messages and meta info, or no labels and styles |
| DataSetSerialiser.AxisFields | chartfx-dataset/src/main/java/de/gsi/dataset/serializer/spi/iobuffer/DataSetSerialiser.java:349-364 | every axis is written as four fields |
| DataSetSerialiser.HeaderFields | chartfx-dataset/src/main/java/de/gsi/dataset/serializer/spi/iobuffer/DataSetSerialiser.java:343-366 | the header is the name, the dimension count, then the four fields of each axis |
| DataSetSerialiser.MetaFields | chartfx-dataset/src/main/java/de/gsi/dataset/serializer/spi/iobuffer/DataSetSerialiser.java:368-378 | a set without meta data writes nothing; otherwise four fields starting with the info list and ending with the meta info map |
| DataSetSerialiser.CollectNonEmpty | chartfx-dataset/src/main/java/de/gsi/dataset/serializer/spi/iobuffer/DataSetSerialiser.java:283-306 | the label map holds exactly the indices below the data count whose label is non-null and non-empty, with those labels |
| DataSetSerialiser.LabelFields | chartfx-dataset/src/main/java/de/gsi/dataset/serializer/spi/iobuffer/DataSetSerialiser.java:283-306 | the label field and the style field each hold exactly the non-empty labels or styles below the data count, each is written only when that map is non-empty, and labels come before styles |
| DataSetSerialiser.Enc | chartfx-dataset/src/main/java/de/gsi/dataset/serializer/spi/iobuffer/DataSetSerialiser.java:383-443 | numeric arrays are written as float or double arrays |
| DataSetSerialiser.ArrayFields | chartfx-dataset/src/main/java/de/gsi/dataset/serializer/spi/iobuffer/DataSetSerialiser.java:383-443 | every dimension gets one array field with its values |
| DataSetSerialiser.ErrorFieldsOf | chartfx-dataset/src/main/java/de/gsi/dataset/serializer/spi/iobuffer/DataSetSerialiser.java:394-409 | no error writes nothing, a symmetric error writes only ep, and an asymmetric error writes en then ep |
| DataSetSerialiser.ErrorFields | chartfx-dataset/src/main/java/de/gsi/dataset/serializer/spi/iobuffer/DataSetSerialiser.java:394-409 | every dimension with errors gets its ep field, every asymmetric one also its en field, and with no errors anywhere nothing is written |
| DataSetSerialiser.NumericFields | chartfx-dataset/src/main/java/de/gsi/dataset/serializer/spi/iobuffer/DataSetSerialiser.java:383-443 | the value array of each dimension comes first, in dimension order; only a data set with errors gets error fields after them, one ep per dimension with errors and one en per asymmetric dimension |
| DataSetSerialiser.Puts | chartfx-dataset/src/main/java/de/gsi/dataset/serializer/spi/iobuffer/DataSetSerialiser.java:343-443 | every field is written as one record in order |
| DataSetSerialiser.WriteFields | chartfx-dataset/src/main/java/de/gsi/dataset/serializer/spi/iobuffer/DataSetSerialiser.java:315-341 | the header fields come first and the numeric arrays last, with the meta-data and label fields between them, each only when its flag is set |
| DataSetSerialiser.RootChildrenPuts | chartfx-dataset/src/main/java/de/gsi/dataset/serializer/spi/iobuffer/DataSetSerialiser.java:248-249 | the children read back from the written records are exactly the written fields |
| DataSetSerialiser.WriteDataSetToByteArray | chartfx-dataset/src/main/java/de/gsi/dataset/serializer/spi/iobuffer/DataSetSerialiser.java:315-341 | the written stream opens with the header info, closes with the OBJ_ROOT_END marker, and the root's children are exactly the fields written |
| SerialiserRoundTrip.ParseAxisGroup | chartfx-dataset/src/main/java/de/gsi/dataset/serializer/spi/iobuffer/DataSetSerialiser.java:126-157 | the four fields written for one axis rebuild exactly that axis description |
| SerialiserRoundTrip.ParseAxesAll | chartfx-dataset/src/main/java/de/gsi/dataset/serializer/spi/iobuffer/DataSetSerialiser.java:121-157 | the axis fields of all axes rebuild the axis descriptions |
| SerialiserRoundTrip.ParseHeadersWritten | chartfx-dataset/src/main/java/de/gsi/dataset/serializer/spi/iobuffer/DataSetSerialiser.java:109-157 | the written header reads back as the name, the dimension count and the axes |
| SerialiserRoundTrip.ParseMetaWritten | chartfx-dataset/src/main/java/de/gsi/dataset/serializer/spi/iobuffer/DataSetSerialiser.java:159-178 | the written meta data read back as the same lists and map |
| SerialiserRoundTrip.ParseLabelsWritten | chartfx-dataset/src/main/java/de/gsi/dataset/serializer/spi/iobuffer/DataSetSerialiser.java:94-107 | the written label and style maps read back unchanged |
| SerialiserRoundTrip.ArrayFieldsFold | chartfx-dataset/src/main/java/de/gsi/dataset/serializer/spi/iobuffer/DataSetSerialiser.java:180-205 | the written value arrays read back into the values of each dimension |
| SerialiserRoundTrip.ErrorFieldsFold | chartfx-dataset/src/main/java/de/gsi/dataset/serializer/spi/iobuffer/DataSetSerialiser.java:180-223 | the written error arrays read back into the positive and negative errors of exactly the dimensions that have them |
| SerialiserRoundTrip.NumericStage | chartfx-dataset/src/main/java/de/gsi/dataset/serializer/spi/iobuffer/DataSetSerialiser.java:180-223 | the numeric pass over the whole written field list recovers all values and errors |
| SerialiserRoundTrip.DecodeWritten | chartfx-dataset/src/main/java/de/gsi/dataset/serializer/spi/iobuffer/DataSetSerialiser.java:241-262 | reading the written fields with the same flags succeeds, and the header, meta-data, label and numeric passes each recover what the matching writer step put, leaving the builder Decoded describes |
| SerialiserRoundTrip.DecodedCarries | chartfx-dataset/src/test/java/de/gsi/dataset/serializer/IoClassSerialiserTests.java:130-179 | that builder holds the name, dimension count, axes and every value array, the error arrays of a data set with errors, the meta data and labels only when they were transmitted, and nothing else |
| SerialiserRoundTrip.DoubleWriterIsLossless | chartfx-dataset/src/test/java/de/gsi/dataset/serializer/IoClassSerialiserTests.java:130-179 | with the double writer every value and error array comes back exactly |
| SerialiserRoundTrip.FloatWriterNarrows | chartfx-dataset/src/main/java/de/gsi/dataset/serializer/spi/iobuffer/DataSetSerialiser.java:383-410 | with the float writer each value comes back as its float rounding |
| SerialiserRoundTrip.ReadWritten | chartfx-dataset/src/test/java/de/gsi/dataset/serializer/IoClassSerialiserTests.java:130-179 | reading back a written data set gives the same name, axes (two defaults when none), meta data, labels and styles |
| SerialiserRoundTrip.ParseAxesWritten | chartfx-dataset/src/main/java/de/gsi/dataset/serializer/spi/iobuffer/DataSetSerialiser.java:120-157 | the axis pass over a written stream rebuilds exactly the written axes, whatever follows the header |
| SerialiserRoundTrip.DecodeStages | chartfx-dataset/src/main/java/de/gsi/dataset/serializer/spi/iobuffer/DataSetSerialiser.java:241-262 | reading runs the header pass, the meta-data pass when enabled, the label pass when enabled, and then the numeric pass |
| SerialiserRoundTrip.NumericFieldsFold | chartfx-dataset/src/main/java/de/gsi/dataset/serializer/spi/iobuffer/DataSetSerialiser.java:180-223 | the numeric fields alone fill the value, positive-error and negative-error maps of an empty builder |

## Left out

- The byte encoding of the serialiser is not modelled. `IoSerialiser`, `BinarySerialiser`, `IoBuffer` and `FieldHeader` are not part of this model. A stream is a sequence of records whose payload fixes its type tag.
- IEEE 754 rounding is not modelled. Finite doubles are exact reals. The float writer's cast is the `narrow` parameter.
- Locks, `fireInvalidated`, events and listeners are left out. `writeDataSetToByteArray` takes the write lock and never releases it. That has no effect on the values the model describes.
- File and stream I/O are left out: GZIP and ZIP streams, files, `getFileName`, and the number parsing of the text and binary formats. `DataSetUtils` is modelled down to the stream that splits text from binary.
- The only `TRandom` samplers modelled are `Rndm`, `RndmArray` and `Binomial`. For the others only the early-return guards are modelled: `Poisson`, `PoissonD` and `Landau`. Their draws are parameters. `Gaus`, the `Landau` table, the large-mean `Poisson`, `Sphere`, `Rannor`, `BreitWigner`, `Circle`, `Exp`, `Integer` and `Uniform` are numerical code over doubles.
- TRandom.RndmArray: the cast of each draw to `float` is not modelled. Neither is the partial fill that a too-short array leaves behind before Java throws.
- CategoryAxis.RoundIndex: `Math.round(float)` saturates for values beyond the `int` range. The model rounds exact reals without saturation.
- JavaFX properties, bindings and the `autoRangePadding` listeners of `CategoryAxis` are left out. Only the rules they trigger are modelled.
- The frame-rate and CPU-load arithmetic of `SimplePerformanceMeter` is left out. So are its timer, `OperatingSystemMXBean` and `PerformanceTracker`. The load samples are inputs.
- AveragingDataSet.AddKeepsMean: NaN and infinite y values are not modelled. The running mean is stated over exact reals.
- The legacy and averaging data sets hold exact reals, so NaN values do not arise in them.
- DataSetBuilder.BuildCarriesMetaData: the per-dimension values, errors and dimension count that the serialiser feeds are kept in the builder. The builder's `build` never reads them, so they do not reach the built data set.
- SerialiserRoundTrip.ReadWritten: the x, y and error arrays do not come back. Reading fills the builder's per-dimension maps, which `build` ignores, as stated above. The arrays are recovered in the builder state, as DecodeWritten shows.
- DataSetSerialiser.RootChildren: the children of the root object are the field records of the stream up to the end marker. The object tree that `IoSerialiser` builds is not part of this model.
- DataSetSerialiser.GetDimIndexPrefixLength: `readPosError` uses the `en` prefix and `readNegError` the `ep` prefix. Both prefixes have two characters, so the swap is harmless. The model reproduces it.
- The time-stamp fallback in the default data-set name (`"DataSet@"` plus the clock) takes the clock as a parameter.
- CircularDataSet.Add: on a set of capacity zero the model returns the exception and keeps the old set. Java's `elements[writePos++] = element` advances the x ring's write position before the store throws, so afterwards `getDataCount()` reports 1. The state an exception leaves behind is not modelled.
- CircularDataSet.AddArrays: on a set of capacity zero given some points, Java's first copy step leaves the x ring's write position at -1 before `System.arraycopy` throws. The model returns the exception and keeps the old set.
- CircularBuffer.PutBulk: when the range of the array copied from runs out only after the first chunk, Java has already copied that chunk and moved the write position before the recursive call throws. The model returns the exception and keeps the old ring.
- CircularDataSet.Get, CircularDataSet.ErrorNegative, CircularDataSet.ErrorPositive, CircularDataSet.Style and CircularDataSet.DataLabel require a set that Java can read. On a set of capacity zero that a bulk add of no points has marked wrapped, Java's `get` never returns: its turn-around loops step by a capacity of zero.
- CircularDataSet.New: a new set's axis descriptions start without a range. `AbstractDataSet`, which creates them, is not part of this model.
- DataSetUtils.Error: the interpolating getters `getXErrorNegative(double x)` and its siblings belong to `DataSetError`, which is not part of this model. They are the `interpolated` parameter.
- CircularBuffer.Get and CircularBuffer.GetInto: the sums `writePos + readPos` and `i + readPos` are exact here. Java's `int` sums wrap for read positions near `Integer.MAX_VALUE`, and then the turn-around loops start from a negative index. For positions within the ring's capacity the sums stay far below that bound.
- DataSetSerialiser.ReadDouble and DataSetSerialiser.ReadString: reading an axis bound from a payload that is not a double, or an axis name or unit from one that is not a string, fails with `InputMismatch` in the model. Java's `parseHeader` calls `getDouble()` or `getString()` on whatever bytes are there and carries on. Bytes are not modelled, so no value could stand in for that reinterpretation.
- CategoryAxis.FirstMatch, CategoryAxis.FromString and CategoryAxis.EqualsIgnoreCase: letters are compared ignoring case only in ASCII. Java's `equalsIgnoreCase` also folds other letters, so "É" and "é" match in Java and not in the model.
- DataSetSerialiser.ReadMetaInfo and DataSetSerialiser.ReadIndexMap: Java reads any `MAP` field through `getMap` with an unchecked generic cast and merges whatever map arrives, so a map with the other key type ends up inside the builder's map. The model's maps are typed: string keys for the meta info, `int` keys for labels and styles. The model accepts such a field as Java does, but leaves the builder's map unchanged instead of merging the foreign entries.
- DataSetSerialiser.ParseMetaData: inherits the gap of `ReadMetaInfo`. An `int`-keyed `MAP` field under the meta-info name is accepted, but its entries are not merged.
- DataSetSerialiser.ParseDataLabels: inherits the gap of `ReadIndexMap`. A string-keyed `MAP` field under the label or style name is accepted, but its entries are not merged.
- LegacyDataSet.SetAt: the ranges only ever grow when a point is replaced, as in Java, so they cover the points in use but need not be their exact extent afterwards.
- LegacyDataSet.Remove: Java empties both ranges without recomputing them, and so does the model. The ranges then cover none of the remaining points.
- Decimal.ParseInt: only the ASCII digits `0`-`9` are digits in the model. Java's `Integer.parseInt` also reads every other Unicode decimal digit through `Character.digit`, so `"٣"` parses as 3 in Java and is `None` in the model. The Unicode digit table is not modelled.
- DataSetSerialiser.GetDimIndex: inherits the gap of `Decimal.ParseInt`. The field `"array٣"` is dimension 3 in Java and -1 in the model.
- DataSetUtils.ParseEntry: inherits the gap of `Decimal.ParseInt`. A sample count written with non-ASCII decimal digits parses in Java and is a `NumberFormat` failure in the model.

## Findings

| source | as written | input that shows it | evidently intended | confidence | as-written member | corrected member |
|---|---|---|---|---|---|---|
| chartfx-chart/src/main/java/de/gsi/chart/utils/SimplePerformanceMeter.java:106-108 | getMaxProcessCpuLoad returns the tracker of the minimum load | loads 10 then 50: the maximum is reported as 10 | return the tracker of the maximum load | not executed | PerformanceMeter.MaxProcessCpuLoadCounterexample | PerformanceMeter.MaxProcessCpuLoadIsGreatest |
| chartfx-samples/src/main/java/de/gsi/dataset/samples/legacy/DoubleErrorDataSet.java:397-398 | on reallocation the bulk add copies the error arrays passed as parameters, which the parameter names shadow, instead of the data set's own error arrays | a full one-point set with errors 0.5, then a bulk add of one point with errors 0.25: the first point's errors become 0.25 | copy the data set's own error arrays and then append the new points | not executed | LegacyDataSet.AddArraysShadowCounterexample | LegacyDataSet.AddArraysAppends |
| chartfx-dataset/src/main/java/de/gsi/dataset/utils/DataSetUtils.java:316-334 | read(b, off, len) returns the index i at which it stopped instead of the number of bytes read, i - off | off = 1 and the stream 0x41 0xFE: two is returned although one byte was read | return i - off | not executed | DataSetUtils.ReadRangeOffsetCounterexample | DataSetUtils.ReadRangeKeepsTextInvariant |
| chartfx-dataset/src/main/java/de/gsi/dataset/utils/DataSetUtils.java:285-292 | read() compares the int it read with the byte MARKER (-2), which can never match a value in 0..255 | the stream 0xFE: the marker is handed out as the data byte 254 and the split is missed | compare with MARKER & 0xFF | not executed | DataSetUtils.ReadByteMarkerCounterexample | DataSetUtils.ReadByteKeepsTextInvariant |
| chartfx-dataset/src/main/java/de/gsi/dataset/utils/DataSetUtils.java:295-313 | read(b) scans the whole buffer for the marker, including bytes beyond the count just read | one pending byte 0x41 read into a two-byte buffer whose second slot still holds 0xFE: the stale marker is found and the read throws | scan only the bytes just read | not executed | DataSetUtils.ReadArrayStaleCounterexample | DataSetUtils.ReadArray |
| chartfx-dataset/src/main/java/de/gsi/dataset/spi/AveragingDataSet.java:111-115 | add scales the running mean up by the queue length before calling opAdd, and a data set of another length makes opAdd throw after the scaling | average size 3, two queued one-point sets of y 1, then a two-point set: the exception leaves the average at 2 with the same two sets queued | reject the data set before changing the average | not executed | AveragingDataSet.AddThrowsScaledCounterexample | AveragingDataSet.AddKeepsMean |

=== FILE: averaging_dataset.dfy ===
/** `AveragingDataSet`: a running average of the y values of the last
    `averageSize` data sets added, kept in one internal data set and
    updated incrementally from a queue of the data sets it averages. */
module AveragingDataSet {
  import opened Wrappers

  /** A two-dimensional data set (`DataSet2D`, and the `InternalDataSet`
      copy the average keeps): its name and its x and y values. Its point
      count is the number of y values. */
  datatype Series = Series(name: string, xs: seq<real>, ys: seq<real>)

  datatype AvgSet = AvgSet(name: string, averageSize: int, fuzzyCount: int,
                           dataset: Option<Series>, deque: seq<Series>)

  function Count(ds: Series): nat {
    |ds.ys|
  }

  /** The constructors: an average over one data set, without fuzz unless given. */
  function New(name: string, fuzzyCount: int): (s: AvgSet)
    ensures s.averageSize == 1 && s.dataset.None? && s.deque == [] && s.fuzzyCount == fuzzyCount
  {
    AvgSet(name, 1, fuzzyCount, None, [])
  }

  /** `isCompatible(d)`: the point counts differ by at most `fuzzyCount`. */
  predicate IsCompatible(ds: Series, d: Series, fuzzyCount: int) {
    -fuzzyCount <= Count(ds) - Count(d) <= fuzzyCount
  }

  /** `yValues.size(n)`: truncate, or pad with zeros. */
  function Resize(ys: seq<real>, n: nat): (r: seq<real>)
    ensures |r| == n
    ensures forall i | 0 <= i < n :: r[i] == if i < |ys| then ys[i] else 0.0
  {
    seq(n, i requires 0 <= i < n => if i < |ys| then ys[i] else 0.0)
  }

  /** `opAdd(d)`: fails unless compatible; otherwise the y values take
      `d`'s point count and `d`'s y values are added element by element. */
  function OpAdd(ds: Series, d: Series, fuzzyCount: int): (r: Result<Series>)
    ensures r.Ok? <==> IsCompatible(ds, d, fuzzyCount)
    ensures r.Err? ==> r.failure == IllegalArgument
    ensures r.Ok? ==> r.value.xs == ds.xs && Count(r.value) == Count(d)
    ensures r.Ok? ==> forall i | 0 <= i < Count(d) ::
      r.value.ys[i] == (if i < Count(ds) then ds.ys[i] else 0.0) + d.ys[i]
  {
    if !IsCompatible(ds, d, fuzzyCount) then Err(IllegalArgument)
    else
      var ys := Resize(ds.ys, |d.ys|);
      Ok(ds.(ys := seq(|d.ys|, i requires 0 <= i < |d.ys| => ys[i] + d.ys[i])))
  }

  /** `opSub(d)`: as `opAdd`, subtracting. */
  function OpSub(ds: Series, d: Series, fuzzyCount: int): (r: Result<Series>)
    ensures r.Ok? <==> IsCompatible(ds, d, fuzzyCount)
    ensures r.Err? ==> r.failure == IllegalArgument
    ensures r.Ok? ==> r.value.xs == ds.xs && Count(r.value) == Count(d)
    ensures r.Ok? ==> forall i | 0 <= i < Count(d) ::
      r.value.ys[i] == (if i < Count(ds) then ds.ys[i] else 0.0) - d.ys[i]
  {
    if !IsCompatible(ds, d, fuzzyCount) then Err(IllegalArgument)
    else
      var ys := Resize(ds.ys, |d.ys|);
      Ok(ds.(ys := seq(|d.ys|, i requires 0 <= i < |d.ys| => ys[i] - d.ys[i])))
  }

  /** `opScale(f)`: every y value times `f`. */
  function OpScale(ds: Series, f: real): (r: Series)
    ensures r.xs == ds.xs && Count(r) == Count(ds)
    ensures forall i | 0 <= i < Count(ds) :: r.ys[i] == ds.ys[i] * f
  {
    ds.(ys := seq(|ds.ys|, i requires 0 <= i < |ds.ys| => ds.ys[i] * f))
  }

  /** `setAverageSize(n)`: sizes below one are ignored; a new size drops
      everything averaged so far. */
  function SetAverageSize(s: AvgSet, n: int): (r: AvgSet)
    ensures n < 1 ==> r == s
    ensures n >= 1 ==> r.averageSize == n
    ensures n >= 1 && n != s.averageSize ==> r.dataset.None? && r.deque == []
    ensures n == s.averageSize ==> r == s
  {
    if n < 1 then s
    else if s.averageSize != n then s.(averageSize := n, dataset := None, deque := [])
    else s
  }

  /** `getAverageCount()`: with an average over one data set, whether there
      is one; otherwise the number queued. */
  function AverageCount(s: AvgSet): (n: nat)
    ensures s.averageSize == 1 ==> (n == 1 <==> s.dataset.Some?) && n <= 1
    ensures s.averageSize != 1 ==> n == |s.deque|
  {
    if s.averageSize == 1 then (if s.dataset.None? then 0 else 1) else |s.deque|
  }

  /** `clear()`. */
  function Clear(s: AvgSet): (r: AvgSet)
    ensures r.dataset.None? && r.deque == [] && DataCount(r) == 0
    ensures r.averageSize == s.averageSize && r.fuzzyCount == s.fuzzyCount
  {
    s.(dataset := None, deque := [])
  }

  /** `getDataCount()`: zero without a data set. */
  function DataCount(s: AvgSet): (n: nat)
    ensures s.dataset.None? ==> n == 0
    ensures s.dataset.Some? ==> n == Count(s.dataset.value)
  {
    match s.dataset
    case None => 0
    case Some(ds) => Count(ds)
  }

  /** `getY(i)`: zero without a data set, otherwise the averaged y value. */
  function GetY(s: AvgSet, i: int): (r: Result<real>)
    ensures s.dataset.None? ==> r == Ok(0.0)
    ensures s.dataset.Some? ==> (r.Ok? <==> 0 <= i < DataCount(s))
    ensures s.dataset.Some? && r.Ok? ==> r.value == s.dataset.value.ys[i]
  {
    match s.dataset
    case None => Ok(0.0)
    case Some(ds) => if 0 <= i < |ds.ys| then Ok(ds.ys[i]) else Err(IndexOutOfBounds)
  }

  /** `getX(i)`: zero without a data set, otherwise the x value of the
      data set that started the average. */
  function GetX(s: AvgSet, i: int): (r: Result<real>)
    ensures s.dataset.None? ==> r == Ok(0.0)
    ensures s.dataset.Some? ==> (r.Ok? <==> 0 <= i < |s.dataset.value.xs|)
    ensures s.dataset.Some? && r.Ok? ==> r.value == s.dataset.value.xs[i]
  {
    match s.dataset
    case None => Ok(0.0)
    case Some(ds) => if 0 <= i < |ds.xs| then Ok(ds.xs[i]) else Err(IndexOutOfBounds)
  }

  /** `getYValues()`: empty without a data set. */
  function YValues(s: AvgSet): (r: seq<real>)
    ensures |r| == DataCount(s)
    ensures forall i | 0 <= i < |r| :: GetY(s, i) == Ok(r[i])
  {
    match s.dataset
    case None => []
    case Some(ds) => ds.ys
  }

  /** `add(ds)` with the compatibility of every operand checked before
      anything changes: a failing `opAdd` or `opSub` leaves the average as
      it was. */
  function Add(s: AvgSet, d: Series): (r: Result<AvgSet>)
    ensures r.Err? ==> r.failure == IllegalArgument
    ensures r.Ok? ==> r.value.averageSize == s.averageSize && r.value.fuzzyCount == s.fuzzyCount
    ensures r.Ok? ==> r.value.dataset.Some?
    ensures r.Ok? && s.averageSize != 1 ==> |r.value.deque| > 0 && r.value.deque[|r.value.deque| - 1] == d
    ensures r.Ok? && s.averageSize == 1 ==> r.value.dataset == Some(d) && r.value.deque == s.deque
    ensures s.averageSize >= 1 && |s.deque| <= s.averageSize && r.Ok? ==> |r.value.deque| <= s.averageSize
  {
    if s.averageSize == 1 then Ok(s.(dataset := Some(d)))
    else if s.dataset.None? || |s.deque| == 0 then Ok(s.(dataset := Some(d), deque := [d]))
    else
      var n := |s.deque|;
      var scaled := OpScale(s.dataset.value, n as real);
      if n < s.averageSize then
        var added :- OpAdd(scaled, d, s.fuzzyCount);
        Ok(s.(dataset := Some(OpScale(added, 1.0 / (n + 1) as real)), deque := s.deque + [d]))
      else
        var removed :- OpSub(scaled, s.deque[0], s.fuzzyCount);
        var added :- OpAdd(removed, d, s.fuzzyCount);
        Ok(s.(dataset := Some(OpScale(added, 1.0 / n as real)), deque := s.deque[1..] + [d]))
  }

  /** `add(ds)` as written: the average is scaled up, and in the full case
      the oldest data set popped, before a compatibility test that may
      throw; the exception leaves those changes in place. */
  function AddAsWritten(s: AvgSet, d: Series): (r: (AvgSet, Option<Failure>))
    ensures r.0.name == s.name && r.0.averageSize == s.averageSize && r.0.fuzzyCount == s.fuzzyCount
    ensures r.1.Some? ==> |s.deque| > 0 && r.1.value == IllegalArgument
    ensures r.1.Some? ==> r.0.dataset.Some? && (r.0.deque == s.deque || r.0.deque == s.deque[1..])
  {
    if s.averageSize == 1 then (s.(dataset := Some(d)), None)
    else if s.dataset.None? || |s.deque| == 0 then (s.(dataset := Some(d), deque := [d]), None)
    else
      var n := |s.deque|;
      var scaled := OpScale(s.dataset.value, n as real);
      if n < s.averageSize then
        match OpAdd(scaled, d, s.fuzzyCount)
        case Err(f) => (s.(dataset := Some(scaled)), Some(f))
        case Ok(added) => (s.(dataset := Some(OpScale(added, 1.0 / (n + 1) as real)), deque := s.deque + [d]), None)
      else
        match OpSub(scaled, s.deque[0], s.fuzzyCount)
        case Err(f) => (s.(dataset := Some(scaled), deque := s.deque[1..]), Some(f))
        case Ok(removed) =>
          match OpAdd(removed, d, s.fuzzyCount)
          case Err(f) => (s.(dataset := Some(removed), deque := s.deque[1..]), Some(f))
          case Ok(added) => (s.(dataset := Some(OpScale(added, 1.0 / n as real)), deque := s.deque[1..] + [d]), None)
  }

  /** When nothing throws, the two agree. */
  lemma AddAsWrittenAgreesWhenCompatible(s: AvgSet, d: Series)
    ensures Add(s, d).Ok? <==> AddAsWritten(s, d).1.None?
    ensures Add(s, d).Ok? ==> AddAsWritten(s, d).0 == Add(s, d).value
  {
  }

  // ---------------------------------------------------------------------------
  // The running mean

  /** Every queued data set has at least `n` points. */
  predicate AllAtLeast(cs: seq<Series>, n: nat) {
    forall k | 0 <= k < |cs| :: n <= Count(cs[k])
  }

  /** The sum of the `i`-th y values of the queued data sets. */
  function SumAt(cs: seq<Series>, i: nat): real
    requires AllAtLeast(cs, i + 1)
  {
    if |cs| == 0 then 0.0 else cs[0].ys[i] + SumAt(cs[1..], i)
  }

  lemma {:induction false} SumAtAppend(cs: seq<Series>, d: Series, i: nat)
    requires AllAtLeast(cs, i + 1) && i < Count(d)
    ensures AllAtLeast(cs + [d], i + 1)
    ensures SumAt(cs + [d], i) == SumAt(cs, i) + d.ys[i]
  {
    if |cs| > 0 {
      assert (cs + [d])[1..] == cs[1..] + [d];
      SumAtAppend(cs[1..], d, i);
    } else {
      assert ([] + [d])[1..] == [];
    }
  }

  /** Over exact reals, the averaged y values are the element-wise mean of
      the queued data sets, all of which have the averaged point count. */
  predicate MeanInvariant(s: AvgSet) {
    s.averageSize >= 2 && 0 < |s.deque| <= s.averageSize && s.dataset.Some?
    && (forall k | 0 <= k < |s.deque| :: Count(s.deque[k]) == Count(s.dataset.value))
    && (forall i | 0 <= i < Count(s.dataset.value) ::
          s.dataset.value.ys[i] * (|s.deque| as real) == SumAt(s.deque, i))
  }

  /** The growing case at one position: the averaged value `a` over `n`
      data sets, scaled up, with `y` added, and scaled down by `n + 1`. */
  function GrowValue(a: real, n: real, y: real): real
    requires n >= 0.0
  {
    (a * n + y) * (1.0 / (n + 1.0))
  }

  lemma GrowStep(a: real, n: real, y: real, sum: real)
    requires n > 0.0 && a * n == sum
    ensures GrowValue(a, n, y) * (n + 1.0) == sum + y
  {
  }

  lemma SlideStep(a: real, n: real, h: real, y: real, rest: real)
    requires n > 0.0 && a * n == h + rest
    ensures SlideValue(a, n, h, y) * n == rest + y
  {
  }

  /** The first of the summed data sets, taken apart from the rest. */
  lemma SumAtFirst(cs: seq<Series>, i: nat)
    requires |cs| > 0 && AllAtLeast(cs, i + 1)
    ensures AllAtLeast(cs[1..], i + 1)
    ensures SumAt(cs, i) == cs[0].ys[i] + SumAt(cs[1..], i)
  {
  }

  /** Adding a data set with the averaged point count to a running mean
      gives the running mean over the new queue: the queue grows until it
      holds `averageSize` data sets and then drops the oldest. */
  lemma AddKeepsMean(s: AvgSet, d: Series)
    requires MeanInvariant(s) && s.fuzzyCount >= 0
    requires Count(d) == Count(s.dataset.value)
    ensures Add(s, d).Ok?
    ensures MeanInvariant(Add(s, d).value)
    ensures |Add(s, d).value.deque| == if |s.deque| < s.averageSize then |s.deque| + 1 else |s.deque|
  {
    if |s.deque| < s.averageSize {
      GrowKeepsMean(s, d);
    } else {
      SlideKeepsMean(s, d);
    }
  }

  /** The growing case: scale up, add, scale down by the new queue length. */
  lemma {:induction false} GrowKeepsMean(s: AvgSet, d: Series)
    requires MeanInvariant(s) && s.fuzzyCount >= 0 && |s.deque| < s.averageSize
    requires Count(d) == Count(s.dataset.value)
    ensures Add(s, d).Ok? && MeanInvariant(Add(s, d).value) && |Add(s, d).value.deque| == |s.deque| + 1
  {
    var ds := s.dataset.value;
    var ds' := Grow(ds, |s.deque|, d, s.fuzzyCount);
    GrowMean(ds, ds', s.deque, d);
    AddGrows(s, d);
    MeanIntro(s.(dataset := Some(ds'), deque := s.deque + [d]));
  }

  /** The invariant, from its parts. */
  lemma MeanIntro(s: AvgSet)
    requires s.averageSize >= 2 && 0 < |s.deque| <= s.averageSize && s.dataset.Some?
    requires forall k | 0 <= k < |s.deque| :: Count(s.deque[k]) == Count(s.dataset.value)
    requires forall i | 0 <= i < Count(s.dataset.value) :: s.dataset.value.ys[i] * (|s.deque| as real) == SumAt(s.deque, i)
    ensures MeanInvariant(s)
  {
  }

  /** In the growing case `add` replaces the average by `Grow` and queues `d`. */
  lemma AddGrows(s: AvgSet, d: Series)
    requires s.averageSize != 1 && s.dataset.Some? && 0 < |s.deque| < s.averageSize && s.fuzzyCount >= 0
    requires Count(d) == Count(s.dataset.value)
    ensures Add(s, d) == Ok(s.(dataset := Some(Grow(s.dataset.value, |s.deque|, d, s.fuzzyCount)), deque := s.deque + [d]))
  {
    var scaled := OpScale(s.dataset.value, |s.deque| as real);
    assert IsCompatible(scaled, d, s.fuzzyCount);
  }

  /** The growing case on the average alone: the y values after scaling
      up, adding `d` and scaling down. */
  function Grow(ds: Series, n: nat, d: Series, fuzzyCount: int): (r: Series)
    requires fuzzyCount >= 0 && Count(d) == Count(ds)
    ensures Count(r) == Count(ds)
    ensures forall i | 0 <= i < Count(ds) :: r.ys[i] == GrowValue(ds.ys[i], n as real, d.ys[i])
  {
    OpScale(OpAdd(OpScale(ds, n as real), d, fuzzyCount).value, 1.0 / (n + 1) as real)
  }

  /** The arithmetic of the growing case. */
  lemma {:induction false} GrowMean(ds: Series, r: Series, deque: seq<Series>, d: Series)
    requires |deque| > 0 && Count(d) == Count(ds) && Count(r) == Count(ds)
    requires forall k | 0 <= k < |deque| :: Count(deque[k]) == Count(ds)
    requires forall i | 0 <= i < Count(ds) :: ds.ys[i] * (|deque| as real) == SumAt(deque, i)
    requires forall i | 0 <= i < Count(ds) :: r.ys[i] == GrowValue(ds.ys[i], |deque| as real, d.ys[i])
    ensures var q := deque + [d];
            (forall k | 0 <= k < |q| :: Count(q[k]) == Count(ds))
            && (forall i | 0 <= i < Count(ds) :: r.ys[i] * (|q| as real) == SumAt(q, i))
  {
    var q := deque + [d];
    assert forall k | 0 <= k < |q| :: Count(q[k]) == Count(ds);
    forall i | 0 <= i < Count(ds)
      ensures r.ys[i] * (|q| as real) == SumAt(q, i)
    {
      SumAtAppend(deque, d, i);
      GrowStep(ds.ys[i], |deque| as real, d.ys[i], SumAt(deque, i));
    }
  }

  /** The full case: scale up, take out the oldest, add, scale down. */
  lemma {:induction false} SlideKeepsMean(s: AvgSet, d: Series)
    requires MeanInvariant(s) && s.fuzzyCount >= 0 && |s.deque| >= s.averageSize
    requires Count(d) == Count(s.dataset.value)
    ensures Add(s, d).Ok? && MeanInvariant(Add(s, d).value) && |Add(s, d).value.deque| == |s.deque|
  {
    var ds := s.dataset.value;
    var n := |s.deque|;
    var ds' := Slide(ds, n, s.deque[0], d, s.fuzzyCount);
    SlideMean(ds, ds', s.deque, d);
    AddSlides(s, d);
    MeanIntro(s.(dataset := Some(ds'), deque := s.deque[1..] + [d]));
  }

  /** In the full case `add` replaces the average by `Slide`, drops the
      oldest data set and queues `d`. */
  lemma AddSlides(s: AvgSet, d: Series)
    requires s.averageSize != 1 && s.dataset.Some? && 0 < |s.deque| && |s.deque| >= s.averageSize && s.fuzzyCount >= 0
    requires Count(d) == Count(s.dataset.value) && Count(s.deque[0]) == Count(s.dataset.value)
    ensures Add(s, d) == Ok(s.(dataset := Some(Slide(s.dataset.value, |s.deque|, s.deque[0], d, s.fuzzyCount)),
                               deque := s.deque[1..] + [d]))
  {
    var scaled := OpScale(s.dataset.value, |s.deque| as real);
    assert IsCompatible(scaled, s.deque[0], s.fuzzyCount);
  }

  /** The full case at one position: the averaged value `a` over `n` data
      sets, scaled up, with `h` taken out, `y` added, and scaled down. */
  function SlideValue(a: real, n: real, h: real, y: real): real
    requires n > 0.0
  {
    (a * n - h + y) * (1.0 / n)
  }

  /** The full case on the average alone: the y values after scaling up,
      taking out `head`, adding `d` and scaling down. */
  function Slide(ds: Series, n: nat, head: Series, d: Series, fuzzyCount: int): (r: Series)
    requires n > 0 && fuzzyCount >= 0 && Count(d) == Count(ds) && Count(head) == Count(ds)
    ensures Count(r) == Count(ds)
    ensures forall i | 0 <= i < Count(ds) :: r.ys[i] == SlideValue(ds.ys[i], n as real, head.ys[i], d.ys[i])
  {
    var removed := OpSub(OpScale(ds, n as real), head, fuzzyCount).value;
    OpScale(OpAdd(removed, d, fuzzyCount).value, 1.0 / n as real)
  }

  /** The arithmetic of the full case: `r` holds, at every position, the
      value `SlideValue` computes from the mean over `deque`. */
  lemma {:induction false} SlideMean(ds: Series, r: Series, deque: seq<Series>, d: Series)
    requires |deque| > 0 && Count(d) == Count(ds) && Count(r) == Count(ds)
    requires forall k | 0 <= k < |deque| :: Count(deque[k]) == Count(ds)
    requires forall i | 0 <= i < Count(ds) :: ds.ys[i] * (|deque| as real) == SumAt(deque, i)
    requires Count(deque[0]) == Count(ds)
    requires forall i | 0 <= i < Count(ds) :: r.ys[i] == SlideValue(ds.ys[i], |deque| as real, deque[0].ys[i], d.ys[i])
    ensures var q := deque[1..] + [d];
            (forall k | 0 <= k < |q| :: Count(q[k]) == Count(ds))
            && (forall i | 0 <= i < Count(ds) :: r.ys[i] * (|q| as real) == SumAt(q, i))
  {
    var q := deque[1..] + [d];
    assert forall k | 0 <= k < |deque[1..]| :: deque[1..][k] == deque[k + 1];
    assert forall k | 0 <= k < |q| :: Count(q[k]) == Count(ds);
    forall i | 0 <= i < Count(ds)
      ensures r.ys[i] * (|q| as real) == SumAt(q, i)
    {
      SlideMeanAt(ds.ys[i], r.ys[i], deque, d, i);
    }
  }

  /** One position of the full case. */
  lemma {:induction false} SlideMeanAt(a: real, v: real, deque: seq<Series>, d: Series, i: nat)
    requires |deque| > 0 && i < Count(d) && AllAtLeast(deque, i + 1)
    requires a * (|deque| as real) == SumAt(deque, i)
    requires v == SlideValue(a, |deque| as real, deque[0].ys[i], d.ys[i])
    ensures AllAtLeast(deque[1..] + [d], i + 1)
    ensures v * (|deque| as real) == SumAt(deque[1..] + [d], i)
  {
    SumAtFirst(deque, i);
    SumAtAppend(deque[1..], d, i);
    SlideStep(a, |deque| as real, deque[0].ys[i], d.ys[i], SumAt(deque[1..], i));
  }

  /** The first data set added to an empty average starts a mean of one. */
  lemma FirstAddStartsMean(s: AvgSet, d: Series)
    requires s.averageSize >= 2 && (s.dataset.None? || s.deque == [])
    ensures Add(s, d).Ok? && MeanInvariant(Add(s, d).value)
  {
    var r := Add(s, d).value;
    forall i | 0 <= i < Count(d)
      ensures r.dataset.value.ys[i] * 1.0 == SumAt([d], i)
    {
      assert [d][1..] == [];
    }
  }

  /** An average over three with two queued one-point data sets of y value
      1, offered a two-point data set without fuzz: as written, the average
      is left doubled to 2 with the same two data sets queued, so it is no
      longer their mean; the corrected add fails and changes nothing. */
  lemma AddThrowsScaledCounterexample()
    ensures var c := Series("a", [0.0], [1.0]);
            var s := AvgSet("avg", 3, 0, Some(Series("a", [0.0], [1.0])), [c, c]);
            var d := Series("b", [0.0, 1.0], [1.0, 1.0]);
            MeanInvariant(s)
            && AddAsWritten(s, d) == (s.(dataset := Some(Series("a", [0.0], [2.0]))), Some(IllegalArgument))
            && !MeanInvariant(AddAsWritten(s, d).0)
            && Add(s, d) == Err(IllegalArgument)
  {
    var c := Series("a", [0.0], [1.0]);
    var s := AvgSet("avg", 3, 0, Some(Series("a", [0.0], [1.0])), [c, c]);
    assert [c, c][1..] == [c];
    assert SumAt([c], 0) == 1.0 by { assert [c][1..] == []; }
    assert SumAt(s.deque, 0) == 2.0;
    var scaled := OpScale(s.dataset.value, 2.0);
    assert scaled.ys == [2.0];
    assert scaled == Series("a", [0.0], [2.0]);
  }
}

=== FILE: axis_range.dfy ===
/** The range part of an `AxisDescription`: cleared, it holds nothing; each
    `add(value)` widens it to include the value. Only finite values are
    modelled here. */
module AxisRange {
  datatype Range = Empty | Span(min: real, max: real)

  /** `add(value)`: the smallest range holding the old range and `v`. */
  function Extend(r: Range, v: real): (r': Range)
    ensures r'.Span? && r'.min <= v <= r'.max
    ensures r.Span? ==> r'.min <= r.min && r.max <= r'.max
    ensures r'.min == v || (r.Span? && r'.min == r.min)
    ensures r'.max == v || (r.Span? && r'.max == r.max)
  {
    match r
    case Empty => Span(v, v)
    case Span(lo, hi) => Span(if v < lo then v else lo, if v > hi then v else hi)
  }

  /** `v` lies inside `r`. */
  predicate Contains(r: Range, v: real) {
    r.Span? && r.min <= v <= r.max
  }

  /** Adding a value the range already holds changes nothing. */
  lemma ExtendContained(r: Range, v: real)
    requires Contains(r, v)
    ensures Extend(r, v) == r
  {
  }

  /** `r` is exactly the extent of `vs`: empty for no values, otherwise the
      least and the greatest value. */
  predicate IsExtent(r: Range, vs: seq<real>) {
    (r.Empty? <==> |vs| == 0)
    && (r.Span? ==>
          (forall i | 0 <= i < |vs| :: r.min <= vs[i] <= r.max)
          && (exists i | 0 <= i < |vs| :: vs[i] == r.min)
          && (exists j | 0 <= j < |vs| :: vs[j] == r.max))
  }

  /** Adding one value keeps a range the extent of the values added. */
  lemma ExtendKeepsExtent(r: Range, vs: seq<real>, v: real)
    requires IsExtent(r, vs)
    ensures IsExtent(Extend(r, v), vs + [v])
  {
    var r' := Extend(r, v);
    var ws := vs + [v];
    assert ws[|vs|] == v;
    if r.Span? {
      var i :| 0 <= i < |vs| && vs[i] == r.min;
      var j :| 0 <= j < |vs| && vs[j] == r.max;
      assert ws[i] == r.min && ws[j] == r.max;
      assert forall k | 0 <= k < |vs| :: ws[k] == vs[k];
    }
  }

  /** Adding the values of `vs` one after the other, from an empty range. */
  function ExtentOf(vs: seq<real>): (r: Range)
    ensures IsExtent(r, vs)
  {
    if |vs| == 0 then Empty
    else
      ExtendKeepsExtent(ExtentOf(vs[..|vs| - 1]), vs[..|vs| - 1], vs[|vs| - 1]);
      assert vs[..|vs| - 1] + [vs[|vs| - 1]] == vs;
      Extend(ExtentOf(vs[..|vs| - 1]), vs[|vs| - 1])
  }

  /** Adding several values one after the other. */
  function ExtendAll(r: Range, ws: seq<real>): (r': Range)
    decreases |ws|
  {
    if |ws| == 0 then r else ExtendAll(Extend(r, ws[0]), ws[1..])
  }

  /** Adding several values keeps a range the extent of the values added. */
  lemma {:induction false} ExtendAllKeepsExtent(r: Range, vs: seq<real>, ws: seq<real>)
    requires IsExtent(r, vs)
    ensures IsExtent(ExtendAll(r, ws), vs + ws)
    decreases |ws|
  {
    if |ws| > 0 {
      var vs' := vs + [ws[0]];
      assert vs' + ws[1..] == vs + ws;
      ExtendKeepsExtent(r, vs, ws[0]);
      ExtendAllKeepsExtent(Extend(r, ws[0]), vs', ws[1..]);
    } else {
      assert vs + ws == vs;
    }
  }

  /** The extent does not depend on the order of adding: it is unique. */
  lemma ExtentUnique(r1: Range, r2: Range, vs: seq<real>)
    requires IsExtent(r1, vs) && IsExtent(r2, vs)
    ensures r1 == r2
  {
    if r1.Span? {
      var i :| 0 <= i < |vs| && vs[i] == r1.min;
      var j :| 0 <= j < |vs| && vs[j] == r2.min;
      var k :| 0 <= k < |vs| && vs[k] == r1.max;
      var l :| 0 <= l < |vs| && vs[l] == r2.max;
      assert r2.min <= vs[i] && r1.min <= vs[j];
      assert r2.max >= vs[k] && r1.max >= vs[l];
    }
  }
}

=== FILE: axis_synchronizer.dfy ===
/** `AxisSynchronizer`: keeps the bounds of several charts' axes equal. A
    change of one registered axis's upper or lower bound is copied to every
    other registered axis, which also stops auto-ranging, and every
    registered axis takes the sender's tick unit. An `updating` flag makes
    the bound changes this propagation itself causes no-ops. Axes are named
    by identifiers; the state of all axes is a map from identifier to axis. */
module AxisSynchronizer {
  import opened Wrappers
  import opened Doubles

  type AxisId = nat

  datatype AxisState = AxisState(lower: Double, upper: Double, tickUnit: real, autoRanging: bool)

  type World = map<AxisId, AxisState>

  datatype Bound = Upper | Lower

  /** A bound property: which bound of which axis. */
  datatype Property = Property(owner: AxisId, bound: Bound)

  /** The registered axes, in registration order (duplicates allowed, as in
      the backing list). */
  datatype Sync = Sync(updating: bool, axes: seq<AxisId>)

  function New(): (s: Sync)
    ensures !s.updating && |s.axes| == 0
  {
    Sync(false, [])
  }

  predicate Registered(s: Sync, id: AxisId) {
    id in s.axes
  }

  /** Every registered axis exists. */
  predicate Known(s: Sync, world: World) {
    forall i | 0 <= i < |s.axes| :: s.axes[i] in world
  }

  /** `add(axis)`: appends the axis to the registered list. */
  function Add(s: Sync, id: AxisId): (r: Sync)
    ensures Registered(r, id) && r.updating == s.updating
    ensures forall other :: Registered(r, other) <==> Registered(s, other) || other == id
  {
    s.(axes := s.axes + [id])
  }

  /** The list without its first occurrence of `id`. */
  function RemoveFirst(axes: seq<AxisId>, id: AxisId): (r: seq<AxisId>)
    ensures id !in axes ==> r == axes
    ensures id in axes ==> |r| == |axes| - 1 && multiset(r) == multiset(axes) - multiset{id}
  {
    if |axes| == 0 then []
    else
      assert axes == [axes[0]] + axes[1..];
      if axes[0] == id then axes[1..]
      else [axes[0]] + RemoveFirst(axes[1..], id)
  }

  /** `remove(axis)`: unregisters one occurrence of the axis and turns its
      auto-ranging back on, registered or not. */
  function Remove(s: Sync, world: World, id: AxisId): (r: (Sync, World))
    requires id in world
    ensures multiset(r.0.axes) == multiset(s.axes) - multiset{id}
    ensures r.0.updating == s.updating
    ensures r.1 == world[id := world[id].(autoRanging := true)]
  {
    (s.(axes := RemoveFirst(s.axes, id)), world[id := world[id].(autoRanging := true)])
  }

  /** `findAxis(property)`: the first registered axis that owns the
      property. */
  function FindAxis(axes: seq<AxisId>, p: Property): (r: Option<AxisId>)
    ensures r.Some? <==> p.owner in axes
    ensures r.Some? ==> r.value == p.owner
  {
    if |axes| == 0 then None
    else if axes[0] == p.owner then Some(axes[0])
    else FindAxis(axes[1..], p)
  }

  /** What the propagation loop does to one axis other than the sender. */
  function Follow(a: AxisState, bound: Bound, value: Double, tickUnit: real): (r: AxisState)
    ensures !r.autoRanging && r.tickUnit == tickUnit
    ensures bound == Upper ==> r.upper == value && r.lower == a.lower
    ensures bound == Lower ==> r.lower == value && r.upper == a.upper
  {
    match bound
    case Upper => a.(autoRanging := false, upper := value, tickUnit := tickUnit)
    case Lower => a.(lower := value, autoRanging := false, tickUnit := tickUnit)
  }

  /** The propagation loop: every registered axis but the sender follows
      the bound; every registered axis, the sender included, takes the
      sender's tick unit (the sender's own, so it does not change). */
  method Propagate(axes: seq<AxisId>, world: World, sender: AxisId, bound: Bound, value: Double)
    returns (w: World)
    requires sender in world && forall i | 0 <= i < |axes| :: axes[i] in world
    ensures w.Keys == world.Keys
    ensures forall id | id in world ::
      w[id] == if id in axes && id != sender then Follow(world[id], bound, value, world[sender].tickUnit)
               else world[id]
  {
    var tickUnit := world[sender].tickUnit;
    w := world;
    var i := 0;
    while i < |axes|
      invariant 0 <= i <= |axes| && w.Keys == world.Keys
      invariant forall id | id in world ::
        w[id] == if id in axes[..i] && id != sender then Follow(world[id], bound, value, tickUnit)
                 else world[id]
    {
      var id := axes[i];
      if id != sender {
        w := w[id := Follow(world[id], bound, value, tickUnit)];
      } else {
        w := w[id := w[id].(tickUnit := tickUnit)];
      }
      assert axes[..i + 1] == axes[..i] + [id];
      i := i + 1;
    }
    assert axes[..i] == axes;
  }

  /** `upperBoundChanged` / `lowerBoundChanged`: ignored while updating, for
      a NaN value, for an unchanged value, and for a property no registered
      axis owns (which also clears `updating`); otherwise propagated. The
      flag is clear afterwards in every case it was clear before. */
  method BoundChanged(s: Sync, world: World, p: Property, oldValue: Double, newValue: Double)
    returns (s': Sync, w: World)
    requires Known(s, world)
    ensures s'.axes == s.axes && s'.updating == s.updating
    ensures s.updating || IsNaN(newValue) || Eq(newValue, oldValue) || !Registered(s, p.owner) ==> w == world
    ensures !s.updating && !IsNaN(newValue) && !Eq(newValue, oldValue) && Registered(s, p.owner) ==>
      && w.Keys == world.Keys
      && forall id | id in world ::
        w[id] == if Registered(s, id) && id != p.owner
                 then Follow(world[id], p.bound, newValue, world[p.owner].tickUnit)
                 else world[id]
  {
    if s.updating || IsNaN(newValue) || Eq(newValue, oldValue) {
      return s, world;
    }
    s' := s.(updating := true);
    var sender := FindAxis(s.axes, p);
    if sender.None? {
      return s'.(updating := false), world;
    }
    w := Propagate(s.axes, world, sender.value, p.bound, newValue);
    s' := s'.(updating := false);
  }

  /** Bounds agree across the registered axes. */
  predicate Synchronised(s: Sync, world: World, bound: Bound)
    requires Known(s, world)
  {
    forall i, j | 0 <= i < |s.axes| && 0 <= j < |s.axes| ::
      (if bound == Upper then world[s.axes[i]].upper == world[s.axes[j]].upper
       else world[s.axes[i]].lower == world[s.axes[j]].lower)
  }

  /** The bound change reaches the listener after the sender's property has
      taken the new value; propagating it leaves all registered axes with
      that bound, and every axis but the sender no longer auto-ranging. */
  lemma {:induction false} PropagationSynchronises(s: Sync, world: World, w: World, p: Property, v: Double)
    requires Known(s, world) && Registered(s, p.owner)
    requires if p.bound == Upper then world[p.owner].upper == v else world[p.owner].lower == v
    requires w.Keys == world.Keys
    requires forall id | id in world ::
      w[id] == if Registered(s, id) && id != p.owner
               then Follow(world[id], p.bound, v, world[p.owner].tickUnit)
               else world[id]
    ensures Known(s, w) && Synchronised(s, w, p.bound)
    ensures forall i | 0 <= i < |s.axes| :: w[s.axes[i]].tickUnit == world[p.owner].tickUnit
    ensures forall i | 0 <= i < |s.axes| && s.axes[i] != p.owner :: !w[s.axes[i]].autoRanging
  {
    forall i | 0 <= i < |s.axes|
      ensures (if p.bound == Upper then w[s.axes[i]].upper else w[s.axes[i]].lower) == v
    {
      var id := s.axes[i];
      assert Registered(s, id);
    }
  }
}

=== FILE: category_axis.dfy ===
/** `CategoryAxis`: an axis whose tick labels are category names, with the
    label converter between tick values and category indices, the two
    `setCategories` overloads, and the update from a data set's labels. */
module CategoryAxis {
  import opened Wrappers
  import opened Doubles

  const UNKNOWN_CATEGORY := "unknown category"

  /** The axis state this model keeps: the categories, whether they were
      forced by the application, the tick-label count and the tick unit. */
  datatype Axis = Axis(categories: seq<string>, forced: bool,
                       maxMajorTickLabelCount: int, tickUnit: real)

  /** `CategoryAxis()`: no categories, not forced, tick unit 1. */
  function New(): (ax: Axis)
    ensures ax.categories == [] && !ax.forced
    ensures ax.tickUnit == 1.0 && ax.maxMajorTickLabelCount == 1
  {
    SetObservable(Axis([], false, 0, 1.0), Some([]))
  }

  /** `CategoryAxis(label, categories)`: installs the categories through the
      observable-list overload, which leaves them unforced. */
  function NewWith(categories: seq<string>): (ax: Axis)
    ensures ax.categories == categories && !ax.forced
    ensures ax.tickUnit == 1.0 && ax.maxMajorTickLabelCount == |categories| + 1
  {
    SetObservable(Axis([], false, 0, 1.0), Some(categories))
  }

  /** `setCategories(ObservableList)`: a missing list unforces and installs
      an empty list; a list is installed with one tick label more than
      categories (for the unknown category) and the forcing flag unchanged. */
  function SetObservable(ax: Axis, categoryList: Option<seq<string>>): (r: Axis)
    ensures categoryList.None? ==> r.categories == [] && !r.forced && r.maxMajorTickLabelCount == 1
    ensures categoryList.Some? ==> r.categories == categoryList.value && r.forced == ax.forced
    ensures r.maxMajorTickLabelCount == |r.categories| + 1
    ensures r.tickUnit == ax.tickUnit
    decreases if categoryList.Some? then 0 else 1
  {
    match categoryList
    case None => SetObservable(ax.(forced := false), Some([]))
    case Some(list) => ax.(maxMajorTickLabelCount := |list| + 1, categories := list)
  }

  /** `setCategories(List)`: as the observable overload, but a list forces
      the categories. */
  function SetCategories(ax: Axis, categories: Option<seq<string>>): (r: Axis)
    ensures r.forced <==> categories.Some?
    ensures r.categories == (if categories.Some? then categories.value else [])
    ensures r.maxMajorTickLabelCount == |r.categories| + 1
    ensures r.tickUnit == ax.tickUnit
  {
    match categories
    case None => SetObservable(ax.(forced := false), Some([]))
    case Some(list) => SetObservable(ax.(forced := true), Some(list))
  }

  /** `Math.round(float)` on a tick value: half up, NaN to 0, the
      infinities to the extreme integers (any value outside every index). */
  function RoundIndex(v: Double): (r: Option<int>)
    ensures v.NaN? ==> r == Some(0)
    ensures v.Finite? ==> r == Some((v.v + 0.5).Floor)
    ensures v.PosInf? || v.NegInf? ==> r.None?
  {
    match v
    case Finite(x) => Some((x + 0.5).Floor)
    case NaN => Some(0)
    case PosInf => None
    case NegInf => None
  }

  /** The converter's `toString`: the category at the rounded index, or
      the unknown category outside the list. */
  function ToString(ax: Axis, value: Double): (s: string)
    ensures (exists i :: RoundIndex(value) == Some(i) && 0 <= i < |ax.categories| && s == ax.categories[i])
      || s == UNKNOWN_CATEGORY
    ensures value.Finite? && 0 <= (value.v + 0.5).Floor < |ax.categories| ==>
      s == ax.categories[(value.v + 0.5).Floor]
  {
    match RoundIndex(value)
    case Some(i) => if i < 0 || i >= |ax.categories| then UNKNOWN_CATEGORY else ax.categories[i]
    case None => UNKNOWN_CATEGORY
  }

  /** ASCII case folding, the part of `equalsIgnoreCase` this model keeps. */
  function Fold(c: char): char {
    if 'A' <= c <= 'Z' then (c as int - 'A' as int + 'a' as int) as char else c
  }

  predicate EqualsIgnoreCase(a: string, b: string) {
    |a| == |b| && forall i | 0 <= i < |a| :: Fold(a[i]) == Fold(b[i])
  }

  /** The first index at or after `from` whose category matches `s`. */
  function FirstMatch(categories: seq<string>, s: string, from: nat): (r: Option<nat>)
    requires from <= |categories|
    ensures r.Some? ==>
      && from <= r.value < |categories| && EqualsIgnoreCase(categories[r.value], s)
      && forall j | from <= j < r.value :: !EqualsIgnoreCase(categories[j], s)
    ensures r.None? <==> forall j | from <= j < |categories| :: !EqualsIgnoreCase(categories[j], s)
    decreases |categories| - from
  {
    if from == |categories| then None
    else if EqualsIgnoreCase(categories[from], s) then Some(from)
    else FirstMatch(categories, s, from + 1)
  }

  /** The converter's `fromString`: the first category equal to `s` up to
      case, and an illegal argument when there is none. */
  function FromString(ax: Axis, s: string): (r: Result<nat>)
    ensures r.Ok? ==>
      && r.value < |ax.categories| && EqualsIgnoreCase(ax.categories[r.value], s)
      && forall j | 0 <= j < r.value :: !EqualsIgnoreCase(ax.categories[j], s)
    ensures r.Err? <==> forall j | 0 <= j < |ax.categories| :: !EqualsIgnoreCase(ax.categories[j], s)
    ensures r.Err? ==> r.failure == IllegalArgument
  {
    match FirstMatch(ax.categories, s, 0)
    case Some(i) => Ok(i)
    case None => Err(IllegalArgument)
  }

  /** Categories that no two spell alike up to case. */
  predicate DistinctIgnoringCase(categories: seq<string>) {
    forall i, j | 0 <= i < j < |categories| :: !EqualsIgnoreCase(categories[i], categories[j])
  }

  lemma EqualsIgnoreCaseReflexive(a: string)
    ensures EqualsIgnoreCase(a, a)
  {
  }

  /** Round trip index -> label -> index: with labels distinct up to case,
      `fromString(toString(i)) == i` for every index. */
  lemma IndexRoundTrip(ax: Axis, i: nat)
    requires DistinctIgnoringCase(ax.categories) && i < |ax.categories|
    ensures FromString(ax, ToString(ax, Finite(i as real))) == Ok(i)
  {
    assert (i as real + 0.5).Floor == i;
    EqualsIgnoreCaseReflexive(ax.categories[i]);
  }

  /** Round trip label -> index -> label: a label that is found comes back
      as the category it matched, equal to it up to case. */
  lemma LabelRoundTrip(ax: Axis, s: string)
    requires FromString(ax, s).Ok?
    ensures EqualsIgnoreCase(ToString(ax, Finite(FromString(ax, s).value as real)), s)
  {
    var i := FromString(ax, s).value;
    assert (i as real + 0.5).Floor == i;
  }

  /** A data set's label for each point: `None` for a missing label. */
  function Sanitize(labels: seq<Option<string>>): (r: seq<string>)
    ensures |r| == |labels|
    ensures forall i | 0 <= i < |labels| ::
      r[i] == (if labels[i].Some? then labels[i].value else UNKNOWN_CATEGORY)
  {
    seq(|labels|, i requires 0 <= i < |labels| => labels[i].GetOr(UNKNOWN_CATEGORY))
  }

  /** `updateCategories(dataSet)`: with a data set and unforced categories,
      and at least one label present, the categories become the labels with
      missing ones named the unknown category; the result is always false. */
  function UpdateCategories(ax: Axis, dataSet: Option<seq<Option<string>>>): (r: (Axis, bool))
    ensures !r.1
    ensures dataSet.None? || ax.forced ==> r.0 == ax
    ensures dataSet.Some? && !ax.forced && (forall i | 0 <= i < |dataSet.value| :: dataSet.value[i].None?)
      ==> r.0 == ax
    ensures dataSet.Some? && !ax.forced && (exists i | 0 <= i < |dataSet.value| :: dataSet.value[i].Some?)
      ==>
      && !r.0.forced && r.0.categories == Sanitize(dataSet.value)
      && r.0.maxMajorTickLabelCount == |dataSet.value| + 1 && r.0.tickUnit == ax.tickUnit
  {
    if dataSet.None? || ax.forced then (ax, false)
    else
      var labels := dataSet.value;
      var zeroDataLabels := forall i | 0 <= i < |labels| :: labels[i].None?;
      if zeroDataLabels then (ax, false)
      else (SetCategories(ax, Some(Sanitize(labels))).(forced := false), false)
  }

  /** `computeTickUnit`: one category per tick, whatever the raw unit. */
  function ComputeTickUnit(rawTickUnit: real): (u: real)
    ensures u == 1.0
  {
    1.0
  }

  /** `calculateMinorTickValues`: a category axis has no minor ticks. */
  function MinorTickValues(ax: Axis): (ticks: seq<real>)
    ensures |ticks| == 0
  {
    []
  }
}

=== FILE: circular_buffer.dfy ===
/** `CircularBuffer`: a fixed-capacity ring that overwrites its oldest element
    once full. `writePos` is the next slot to write; `flipped` records that the
    write position has wrapped at least once since the last reset. */
module CircularBuffer {
  import opened Wrappers

  datatype Ring<T> = Ring(elements: seq<T>, writePos: nat, flipped: bool)

  function Capacity<T>(b: Ring<T>): nat {
    |b.elements|
  }

  /** The representation invariant every `put` keeps: the write position is a slot. */
  predicate Valid<T>(b: Ring<T>) {
    b.writePos < |b.elements|
  }

  /** The constructor: a ring of `capacity` slots, all holding `fill` (Java's null). */
  function New<T>(capacity: int, fill: T): (r: Result<Ring<T>>)
    ensures capacity < 0 <==> r.Err?
    ensures r.Ok? ==> Capacity(r.value) == capacity && Available(r.value) == 0
    ensures r.Ok? && capacity > 0 ==> Valid(r.value)
  {
    if capacity < 0 then Err(NegativeArraySize)
    else Ok(Ring(seq(capacity, _ => fill), 0, false))
  }

  /** `available()`: the number of readable elements. */
  function Available<T>(b: Ring<T>): (n: nat)
    ensures Valid(b) ==> n <= Capacity(b)
    ensures n == Capacity(b) || n == b.writePos
  {
    if b.flipped then |b.elements| else b.writePos
  }

  /** `remainingCapacity()`: the writes left before the ring starts overwriting. */
  function RemainingCapacity<T>(b: Ring<T>): (n: int)
    ensures n + Available(b) == Capacity(b)
    ensures Valid(b) ==> 0 <= n <= Capacity(b) && (n == 0 <==> b.flipped)
  {
    |b.elements| - Available(b)
  }

  lemma ModUnique(a: int, c: int, q: int, r: int)
    requires c > 0 && 0 <= r < c && a == q * c + r
    ensures a % c == r
  {
    var q', r' := a / c, a % c;
    assert a == q' * c + r';
    assert (q - q') * c == q * c - q' * c;
    if q > q' {
      MulAtLeast(q - q', c);
    } else if q < q' {
      MulAtLeast(q' - q, c);
    }
  }

  lemma {:induction false} MulAtLeast(k: int, c: int)
    requires k >= 1 && c > 0
    ensures k * c >= c
    decreases k
  {
    if k > 1 {
      MulAtLeast(k - 1, c);
      assert k * c == (k - 1) * c + c;
    }
  }

  lemma ModShift(a: int, c: int, k: int)
    requires c > 0
    ensures (a + k * c) % c == a % c
  {
    var q, r := a / c, a % c;
    assert a + k * c == (q + k) * c + r;
    ModUnique(a + k * c, c, q + k, r);
  }

  /** The readable elements, oldest first: what `get(0)`, `get(1)`, ... return. */
  function Contents<T>(b: Ring<T>): (s: seq<T>)
    requires Valid(b)
    ensures |s| == Available(b)
  {
    if b.flipped then b.elements[b.writePos..] + b.elements[..b.writePos]
    else b.elements[..b.writePos]
  }

  /** `get(readPos)`. Before the first wrap the index is absolute, a negative one
      throws `IllegalArgumentException` and one past the array throws
      `ArrayIndexOutOfBoundsException`; afterwards it is taken relative to the
      oldest element and wraps around in both directions. */
  function Get<T>(b: Ring<T>, readPos: int): (r: Result<T>)
    requires b.flipped ==> |b.elements| > 0
    ensures !b.flipped ==> (r.Ok? <==> 0 <= readPos < |b.elements|)
    ensures !b.flipped && readPos < 0 ==> r == Err(IllegalArgument)
    ensures !b.flipped && 0 <= readPos < |b.elements| ==> r == Ok(b.elements[readPos])
    ensures b.flipped ==> r.Ok?
  {
    if !b.flipped then
      if readPos >= 0 then
        if readPos < |b.elements| then Ok(b.elements[readPos]) else Err(IndexOutOfBounds)
      else Err(IllegalArgument)
    else Ok(b.elements[Wrap(b.writePos + readPos, |b.elements|)])
  }

  /** The turn-around adjustment of `get`: add the capacity while negative,
      then subtract it while too large. */
  function Wrap(index: int, c: nat): (r: nat)
    requires c > 0
    ensures r < c
    decreases if index < 0 then c - index else index
  {
    if index < 0 then Wrap(index + c, c)
    else if index >= c then Wrap(index - c, c)
    else index
  }

  /** The adjustment is the remainder modulo the capacity. */
  lemma {:induction false} WrapIsMod(index: int, c: nat)
    requires c > 0
    ensures Wrap(index, c) == index % c
    decreases if index < 0 then c - index else index
  {
    if index < 0 {
      WrapIsMod(index + c, c);
      ModShift(index, c, 1);
    } else if index >= c {
      WrapIsMod(index - c, c);
      ModShift(index, c, -1);
    }
  }

  /** `put(element)`: write at the write position and advance it, wrapping to 0
      (and setting `flipped`) at the capacity. */
  function Put<T>(b: Ring<T>, x: T): (r: Ring<T>)
    requires Valid(b)
    ensures Valid(r) && Capacity(r) == Capacity(b)
    ensures r.writePos == (b.writePos + 1) % Capacity(b)
    ensures r.flipped <==> b.flipped || b.writePos + 1 == Capacity(b)
    ensures r.elements[b.writePos] == x
    ensures forall i | 0 <= i < |b.elements| && i != b.writePos :: r.elements[i] == b.elements[i]
  {
    var e := b.elements[b.writePos := x];
    if b.writePos + 1 == |e| then Ring(e, 0, true) else Ring(e, b.writePos + 1, b.flipped)
  }

  /** Repeated single puts: the reference the bulk put is compared with. */
  function PutAll<T>(b: Ring<T>, xs: seq<T>): (r: Ring<T>)
    requires Valid(b)
    ensures Valid(r) && Capacity(r) == Capacity(b)
    decreases |xs|
  {
    if |xs| == 0 then b else PutAll(Put(b, xs[0]), xs[1..])
  }

  /** `put(newElements, startIndex, length)`: copy the part that fits above the
      write position, wrap, and continue with the rest. `System.arraycopy`
      throws `IndexOutOfBoundsException` for a range outside the array copied from. */
  function PutBulk<T>(b: Ring<T>, src: seq<T>, start: int, length: int): (r: Result<Ring<T>>)
    requires Valid(b)
    ensures r.Ok? <==> 0 <= start && 0 <= length && start + length <= |src|
    ensures r.Ok? ==> Valid(r.value) && Capacity(r.value) == Capacity(b)
    decreases length
  {
    var upper := |b.elements| - b.writePos;
    if length <= upper then
      if start < 0 || length < 0 || start + length > |src| then Err(IndexOutOfBounds)
      else
        var e := b.elements[..b.writePos] + src[start..start + length] + b.elements[b.writePos + length..];
        if b.writePos + length == |e| then Ok(Ring(e, 0, true))
        else Ok(Ring(e, b.writePos + length, b.flipped))
    else if start < 0 || start + upper > |src| then Err(IndexOutOfBounds)
    else
      // Java sets writePos = capacity - 1 + upper, which is always >= capacity
      PutBulk(FillToTop(b, src[start..start + upper]), src, start + upper, length - upper)
  }

  /** `reset()`: forget the contents; the slots keep their old values. */
  function Reset<T>(b: Ring<T>): (r: Ring<T>)
    ensures Available(r) == 0 && RemainingCapacity(r) == Capacity(b)
    ensures Valid(b) ==> Valid(r)
    ensures r.elements == b.elements
  {
    Ring(b.elements, 0, false)
  }

  /** The `length` most recent elements of `xs` (all of them if there are fewer). */
  function LastN<T>(xs: seq<T>, n: nat): (r: seq<T>)
    ensures |r| == if |xs| < n then |xs| else n
  {
    if |xs| <= n then xs else xs[|xs| - n..]
  }

  /** Two rings, possibly of different element types, at the same write position. */
  predicate SameShape<A, B>(a: Ring<A>, b: Ring<B>) {
    Capacity(a) == Capacity(b) && a.writePos == b.writePos && a.flipped == b.flipped
  }

  /** Where the write position ends up depends only on how many elements are put,
      so rings fed in lockstep stay aligned. */
  lemma {:induction false} PutAllSameShape<A, B>(a: Ring<A>, b: Ring<B>, xs: seq<A>, ys: seq<B>)
    requires Valid(a) && SameShape(a, b) && |xs| == |ys|
    ensures SameShape(PutAll(a, xs), PutAll(b, ys))
    decreases |xs|
  {
    if |xs| > 0 {
      PutAllSameShape(Put(a, xs[0]), Put(b, ys[0]), xs[1..], ys[1..]);
    }
  }

  /** Reading index `i` below `available()` gives the `i`-th oldest element. */
  lemma GetIsContents<T>(b: Ring<T>, i: int)
    requires Valid(b) && 0 <= i < Available(b)
    ensures Get(b, i) == Ok(Contents(b)[i])
  {
    if b.flipped {
      var c := |b.elements|;
      var w := b.writePos;
      if w + i < c {
        assert Wrap(w + i, c) == w + i;
        assert Contents(b)[i] == b.elements[w + i];
      } else {
        assert Wrap(w + i - c, c) == w + i - c;
        assert Contents(b)[i] == b.elements[w + i - c];
      }
    }
  }

  /** A single put appends to the contents, dropping the oldest element when full. */
  lemma PutContents<T>(b: Ring<T>, x: T)
    requires Valid(b)
    ensures Contents(Put(b, x)) ==
      if Available(b) < Capacity(b) then Contents(b) + [x] else Contents(b)[1..] + [x]
  {
    var w := b.writePos;
    var e := b.elements[w := x];
    if b.flipped {
      if w + 1 == |e| {
        assert Contents(b)[1..] == b.elements[..w];
        assert e == b.elements[..w] + [x];
      } else {
        assert Contents(b)[1..] == b.elements[w + 1..] + b.elements[..w];
        assert e[w + 1..] == b.elements[w + 1..];
        assert e[..w + 1] == b.elements[..w] + [x];
      }
    } else {
      if w + 1 == |e| {
        assert e == b.elements[..w] + [x];
      } else {
        assert e[..w + 1] == b.elements[..w] + [x];
      }
    }
  }

  /** A single put, stated with `LastN`. */
  lemma PutContentsLastN<T>(b: Ring<T>, x: T)
    requires Valid(b)
    ensures Contents(Put(b, x)) == LastN(Contents(b) + [x], Capacity(b))
  {
    PutContents(b, x);
  }

  lemma LastNOfLastN<T>(a: seq<T>, r: seq<T>, n: nat)
    ensures LastN(LastN(a, n) + r, n) == LastN(a + r, n)
  {
    if |a| > n {
      var k := |a| - n;
      assert a + r == a[..k] + (a[k..] + r);
    }
  }

  /** Past capacity, a ring holds the most recent `capacity` elements written to
      it, in the order they were written. */
  lemma {:induction false} PutAllContents<T>(b: Ring<T>, xs: seq<T>)
    requires Valid(b)
    ensures Contents(PutAll(b, xs)) == LastN(Contents(b) + xs, Capacity(b))
    decreases |xs|
  {
    var c := Capacity(b);
    if |xs| == 0 {
      assert Contents(b) + xs == Contents(b);
    } else {
      var b1 := Put(b, xs[0]);
      PutContentsLastN(b, xs[0]);
      PutAllContents(b1, xs[1..]);
      LastNOfLastN(Contents(b) + [xs[0]], xs[1..], c);
      assert Contents(b) + [xs[0]] + xs[1..] == Contents(b) + xs;
    }
  }

  lemma {:induction false} PutAllAppend<T>(b: Ring<T>, xs: seq<T>, ys: seq<T>)
    requires Valid(b)
    ensures PutAll(b, xs + ys) == PutAll(PutAll(b, xs), ys)
    decreases |xs|
  {
    if |xs| > 0 {
      assert (xs + ys)[1..] == xs[1..] + ys;
      PutAllAppend(Put(b, xs[0]), xs[1..], ys);
    } else {
      assert xs + ys == ys;
    }
  }

  /** `System.arraycopy` of `xs` to the write position, which moves on by
      `|xs|` and wraps to 0 exactly when it reaches the end. */
  function Block<T>(b: Ring<T>, xs: seq<T>): Ring<T>
    requires Valid(b) && |xs| <= Capacity(b) - b.writePos
  {
    var w := b.writePos;
    var e := b.elements[..w] + xs + b.elements[w + |xs|..];
    if w + |xs| == |e| then Ring(e, 0, true) else Ring(e, w + |xs|, b.flipped)
  }

  /** Puts that fit above the write position amount to one block copy. */
  lemma {:induction false} PutAllBlock<T>(b: Ring<T>, xs: seq<T>)
    requires Valid(b) && |xs| <= Capacity(b) - b.writePos
    ensures PutAll(b, xs) == Block(b, xs)
    decreases |xs|
  {
    var w := b.writePos;
    BlockSplice(b.elements, w, xs);
    if |xs| > 0 {
      var b1 := Put(b, xs[0]);
      if w + 1 < |b.elements| {
        BlockStep(b, xs);
        PutAllBlock(b1, xs[1..]);
      } else {
        assert PutAll(b, xs) == b1;
      }
    }
  }

  /** After the first put, the rest of the block is the same block copy. */
  lemma BlockStep<T>(b: Ring<T>, xs: seq<T>)
    requires Valid(b) && 0 < |xs| <= Capacity(b) - b.writePos && b.writePos + 1 < Capacity(b)
    ensures Block(Put(b, xs[0]), xs[1..]) == Block(b, xs)
  {
    BlockSplice(b.elements, b.writePos, xs);
  }

  /** Splicing a block at `w` is writing its head at `w` and splicing its
      tail at `w + 1`. */
  lemma BlockSplice<T>(e: seq<T>, w: nat, xs: seq<T>)
    requires w + |xs| <= |e| && w < |e|
    ensures |xs| == 0 ==> e[..w] + xs + e[w..] == e
    ensures |xs| > 0 ==>
              var e1 := e[w := xs[0]];
              e1[..w + 1] + xs[1..] + e1[w + 1 + |xs[1..]|..] == e[..w] + xs + e[w + |xs|..]
              && (w + 1 == |e| ==> e1 == e[..w] + xs + e[w + |xs|..] && xs[1..] == [])
  {
    if |xs| > 0 {
      var e1 := e[w := xs[0]];
      assert e1[..w + 1] == e[..w] + [xs[0]];
      assert e1[w + 1 + |xs[1..]|..] == e[w + |xs|..];
      assert e[..w] + [xs[0]] + xs[1..] == e[..w] + xs;
    }
  }

  /** The ring a bulk put continues from once it has filled the slots above
      the write position. */
  function FillToTop<T>(b: Ring<T>, chunk: seq<T>): (r: Ring<T>)
    requires Valid(b) && |chunk| == Capacity(b) - b.writePos
    ensures Valid(r) && Capacity(r) == Capacity(b)
  {
    Ring(b.elements[..b.writePos] + chunk, 0, true)
  }

  lemma PutAllFillToTop<T>(b: Ring<T>, chunk: seq<T>, rest: seq<T>)
    requires Valid(b) && |chunk| == Capacity(b) - b.writePos
    ensures PutAll(b, chunk + rest) == PutAll(FillToTop(b, chunk), rest)
  {
    PutAllBlock(b, chunk);
    assert b.elements[..b.writePos] + chunk + b.elements[b.writePos + |chunk|..]
        == b.elements[..b.writePos] + chunk;
    PutAllAppend(b, chunk, rest);
  }

  /** The bulk put has the same effect on contents, write position and flag as
      `length` successive single puts, also when `length` exceeds the capacity. */
  lemma {:induction false} PutBulkIsRepeatedPut<T>(b: Ring<T>, src: seq<T>, start: int, length: int)
    requires Valid(b) && 0 <= start && 0 <= length && start + length <= |src|
    ensures PutBulk(b, src, start, length) == Ok(PutAll(b, src[start..start + length]))
    decreases length
  {
    var upper := |b.elements| - b.writePos;
    if length <= upper {
      PutBulkBlock(b, src, start, length);
    } else {
      PutAllWraps(b, src, start, upper, length);
      PutBulkWraps(b, src, start, upper, length);
      PutBulkIsRepeatedPut(FillToTop(b, src[start..start + upper]), src, start + upper, length - upper);
    }
  }

  /** Single puts reaching past the top fill up to the top and go on from slot 0. */
  lemma PutAllWraps<T>(b: Ring<T>, src: seq<T>, start: nat, upper: nat, length: nat)
    requires Valid(b) && upper == Capacity(b) - b.writePos
    requires upper < length && start + length <= |src|
    ensures PutAll(b, src[start..start + length])
            == PutAll(FillToTop(b, src[start..start + upper]), src[start + upper..start + length])
  {
    SliceSplit(src, start, start + upper, start + length);
    PutAllSplit(b, src[start..start + length], src[start..start + upper], src[start + upper..start + length]);
  }

  lemma PutAllSplit<T>(b: Ring<T>, whole: seq<T>, chunk: seq<T>, rest: seq<T>)
    requires Valid(b) && |chunk| == Capacity(b) - b.writePos && whole == chunk + rest
    ensures PutAll(b, whole) == PutAll(FillToTop(b, chunk), rest)
  {
    PutAllFillToTop(b, chunk, rest);
  }

  lemma SliceSplit<T>(s: seq<T>, i: int, j: int, k: int)
    requires 0 <= i <= j <= k <= |s|
    ensures s[i..k] == s[i..j] + s[j..k]
  {
  }

  /** A bulk put that fits below the top of the ring is one block. */
  lemma PutBulkBlock<T>(b: Ring<T>, src: seq<T>, start: int, length: int)
    requires Valid(b) && 0 <= start && 0 <= length && start + length <= |src|
    requires length <= Capacity(b) - b.writePos
    ensures PutBulk(b, src, start, length) == Ok(PutAll(b, src[start..start + length]))
  {
    PutAllBlock(b, src[start..start + length]);
  }

  /** A bulk put reaching past the top fills up to the top and goes on from slot 0. */
  lemma PutBulkWraps<T>(b: Ring<T>, src: seq<T>, start: nat, upper: nat, length: nat)
    requires Valid(b) && upper == Capacity(b) - b.writePos
    requires upper < length && start + length <= |src|
    ensures PutBulk(b, src, start, length)
            == PutBulk(FillToTop(b, src[start..start + upper]), src, start + upper, length - upper)
  {
  }

  /** Step `i` of `get(into, readPos, length)` throws: the read fails, or the
      target array is too short. */
  predicate ReadFails<T>(b: Ring<T>, into: Option<seq<T>>, readPos: int, i: int)
    requires b.flipped ==> |b.elements| > 0
  {
    Get(b, readPos + i).Err? || (into.Some? && i >= |into.value|)
  }

  /** `get(into, readPos, length)`: element `i` of the result is `get(readPos + i)`;
      without a target array a new one of `length` slots (holding `fill`) is used. */
  method GetInto<T>(b: Ring<T>, into: Option<seq<T>>, readPos: int, length: int, fill: T)
    returns (r: Result<seq<T>>)
    requires b.flipped ==> |b.elements| > 0
    ensures into.None? && length < 0 ==> r == Err(NegativeArraySize)
    ensures r.Ok? ==> |r.value| == (if into.Some? then |into.value| else length)
    ensures r.Ok? ==> length <= |r.value|
    ensures r.Ok? ==> forall i | 0 <= i < length :: Get(b, readPos + i) == Ok(r.value[i])
    ensures r.Ok? && into.Some? ==>
      forall i | (if length < 0 then 0 else length) <= i < |into.value| :: r.value[i] == into.value[i]
    ensures (into.Some? || length >= 0) && r.Err? ==>
      exists i | 0 <= i < length :: ReadFails(b, into, readPos, i)
  {
    var out: seq<T>;
    if into.Some? {
      out := into.value;
    } else if length < 0 {
      return Err(NegativeArraySize);
    } else {
      out := seq(length, _ => fill);
    }
    var i := 0;
    while i < length
      invariant 0 <= i && (length >= 0 ==> i <= length) && (length < 0 ==> i == 0)
      invariant |out| == if into.Some? then |into.value| else length
      invariant i <= |out|
      invariant forall k | 0 <= k < i :: !ReadFails(b, into, readPos, k)
      invariant forall k | 0 <= k < i :: Get(b, readPos + k) == Ok(out[k])
      invariant into.Some? ==> forall k | i <= k < |out| :: out[k] == into.value[k]
    {
      var g := Get(b, readPos + i);
      if g.Err? {
        assert ReadFails(b, into, readPos, i);
        return Err(g.failure);
      }
      if i >= |out| {
        assert ReadFails(b, into, readPos, i);
        return Err(IndexOutOfBounds);
      }
      out := out[i := g.value];
      i := i + 1;
    }
    return Ok(out);
  }
}

=== FILE: circular_dataset.dfy ===
/** `CircularDoubleErrorDataSet`: a two-dimensional data set with asymmetric
    y errors whose points live in six parallel rings (x, y, negative and
    positive y error, tag, style) that are always written together. */
module CircularDataSet {
  import opened Wrappers
  import opened CircularBuffer
  import opened AxisRange
  import ErrorLimits

  /** The six rings and the ranges of the two axis descriptions. */
  datatype CircularSet = CircularSet(
    name: string,
    x: Ring<real>,
    y: Ring<real>,
    errorNeg: Ring<real>,
    errorPos: Ring<real>,
    tags: Ring<Option<string>>,
    styles: Ring<Option<string>>,
    xRange: Range,
    yRange: Range)

  /** One data point as the six rings hold it. */
  datatype Point = Point(x: real, y: real, errorNeg: real, errorPos: real,
                         tag: Option<string>, style: Option<string>)

  /** `getDataLabel`: the stored tag, or for a null tag the text
      `name(index,x,y)`, kept here as its parts. */
  datatype Label = Tag(text: string) | Synthesised(name: string, index: int, x: real, y: real)

  const DIM_X := 0
  const DIM_Y := 1

  /** The six rings share capacity, write position and wrap flag. */
  predicate Aligned(ds: CircularSet) {
    SameShape(ds.x, ds.y) && SameShape(ds.x, ds.errorNeg) && SameShape(ds.x, ds.errorPos)
    && SameShape(ds.x, ds.tags) && SameShape(ds.x, ds.styles)
  }

  /** Aligned rings that are either usable or of capacity zero with the
      write position at 0; a bulk add of no points marks even those wrapped. */
  predicate Wf(ds: CircularSet) {
    Aligned(ds)
    && (Valid(ds.x) || (Capacity(ds.x) == 0 && ds.x.writePos == 0))
  }

  /** Java's `get` returns on every set except one of capacity zero whose
      rings have wrapped: there its turn-around loops step by a capacity of
      zero and never end. */
  predicate Readable(ds: CircularSet) {
    Capacity(ds.x) > 0 || !ds.x.flipped
  }

  function SetCapacity(ds: CircularSet): nat {
    Capacity(ds.x)
  }

  /** `getDimension()`: always two. */
  function Dimension(ds: CircularSet): (d: nat)
    ensures d == 2
  {
    2
  }

  /** The constructor: `initalSize` must not be negative. The axis
      descriptions start without a range. */
  function New(name: string, initalSize: int): (r: Result<CircularSet>)
    ensures initalSize < 0 <==> r.Err?
    ensures initalSize < 0 ==> r.failure == IllegalArgument
    ensures r.Ok? ==> Wf(r.value) && DataCount(r.value) == 0 && Points(r.value) == []
    ensures r.Ok? ==> r.value.name == name && SetCapacity(r.value) == initalSize
    ensures r.Ok? ==> r.value.xRange == Empty && r.value.yRange == Empty
  {
    if initalSize < 0 then Err(IllegalArgument)
    else
      var n: nat := initalSize;
      Ok(CircularSet(name, Ring(seq(n, _ => 0.0), 0, false), Ring(seq(n, _ => 0.0), 0, false),
                     Ring(seq(n, _ => 0.0), 0, false), Ring(seq(n, _ => 0.0), 0, false),
                     Ring(seq(n, _ => None), 0, false), Ring(seq(n, _ => None), 0, false),
                     Empty, Empty))
  }

  /** The error type the constructor declares: none on x, asymmetric on y. */
  const ERROR_TYPE := ErrorLimits.Y_ASYMMETRIC

  /** The points as `recomputeLimits` reads them: the x errors are 0. */
  function ErrPoints(ps: seq<Point>): (es: seq<ErrorLimits.ErrPoint>)
    ensures |es| == |ps|
  {
    seq(|ps|, i requires 0 <= i < |ps| => ErrorLimits.ErrPoint(ps[i].x, ps[i].y, 0.0, 0.0, ps[i].errorNeg, ps[i].errorPos))
  }

  /** What the points add to one axis under the set's error type. */
  function AxisValues(ps: seq<Point>, axis: nat): seq<real> {
    ErrorLimits.AxisValues(ErrPoints(ps), ERROR_TYPE, axis)
  }

  /** `recomputeLimits(DIM_X)`, which recomputes both axes (the call with
      `DIM_Y` that follows it changes nothing): each range becomes the extent
      of what the readable points add to its axis. */
  function RecomputeLimits(ds: CircularSet): (r: CircularSet)
    requires Wf(ds)
    ensures Wf(r) && Points(r) == Points(ds) && SetCapacity(r) == SetCapacity(ds) && r.name == ds.name
    ensures IsExtent(r.xRange, AxisValues(Points(ds), 0))
    ensures IsExtent(r.yRange, AxisValues(Points(ds), 1))
  {
    ds.(xRange := ExtentOf(AxisValues(Points(ds), 0)), yRange := ExtentOf(AxisValues(Points(ds), 1)))
  }

  /** `getDataCount()`: the number of readable elements of the x ring. */
  function DataCount(ds: CircularSet): (n: nat)
    requires Wf(ds)
    ensures n <= SetCapacity(ds)
  {
    Available(ds.x)
  }

  /** The readable points, oldest first. */
  function Points(ds: CircularSet): (ps: seq<Point>)
    requires Wf(ds)
    ensures |ps| == DataCount(ds)
  {
    if Capacity(ds.x) == 0 then []
    else Zip(Contents(ds.x), Contents(ds.y), Contents(ds.errorNeg), Contents(ds.errorPos),
             Contents(ds.tags), Contents(ds.styles))
  }

  /** Rows made from six columns of equal length. */
  function Zip(xs: seq<real>, ys: seq<real>, ens: seq<real>, eps: seq<real>,
               ts: seq<Option<string>>, ss: seq<Option<string>>): (ps: seq<Point>)
    requires |ys| == |xs| && |ens| == |xs| && |eps| == |xs| && |ts| == |xs| && |ss| == |xs|
    ensures |ps| == |xs|
  {
    seq(|xs|, i requires 0 <= i < |xs| => Point(xs[i], ys[i], ens[i], eps[i], ts[i], ss[i]))
  }

  lemma ZipAppend(xs: seq<real>, ys: seq<real>, ens: seq<real>, eps: seq<real>,
                  ts: seq<Option<string>>, ss: seq<Option<string>>,
                  xs': seq<real>, ys': seq<real>, ens': seq<real>, eps': seq<real>,
                  ts': seq<Option<string>>, ss': seq<Option<string>>)
    requires |ys| == |xs| && |ens| == |xs| && |eps| == |xs| && |ts| == |xs| && |ss| == |xs|
    requires |ys'| == |xs'| && |ens'| == |xs'| && |eps'| == |xs'| && |ts'| == |xs'| && |ss'| == |xs'|
    ensures Zip(xs + xs', ys + ys', ens + ens', eps + eps', ts + ts', ss + ss')
         == Zip(xs, ys, ens, eps, ts, ss) + Zip(xs', ys', ens', eps', ts', ss')
  {
  }

  lemma ZipLastN(xs: seq<real>, ys: seq<real>, ens: seq<real>, eps: seq<real>,
                 ts: seq<Option<string>>, ss: seq<Option<string>>, n: nat)
    requires |ys| == |xs| && |ens| == |xs| && |eps| == |xs| && |ts| == |xs| && |ss| == |xs|
    ensures Zip(LastN(xs, n), LastN(ys, n), LastN(ens, n), LastN(eps, n), LastN(ts, n), LastN(ss, n))
         == LastN(Zip(xs, ys, ens, eps, ts, ss), n)
  {
  }

  /** `add(x, y, yErrorNeg, yErrorPos, tag, style)`: one put into each ring,
      then the limits are recomputed. On a set of capacity zero the put throws
      `ArrayIndexOutOfBoundsException`. */
  function Add(ds: CircularSet, p: Point): (r: Result<CircularSet>)
    requires Wf(ds)
    ensures r.Err? <==> SetCapacity(ds) == 0
    ensures r.Err? ==> r.failure == IndexOutOfBounds
    ensures r.Ok? ==> Wf(r.value) && SetCapacity(r.value) == SetCapacity(ds) && r.value.name == ds.name
    ensures r.Ok? ==> DataCount(r.value) == if DataCount(ds) < SetCapacity(ds) then DataCount(ds) + 1 else DataCount(ds)
    ensures r.Ok? ==> IsExtent(r.value.xRange, AxisValues(Points(r.value), 0))
    ensures r.Ok? ==> IsExtent(r.value.yRange, AxisValues(Points(r.value), 1))
  {
    if Capacity(ds.x) == 0 then Err(IndexOutOfBounds)
    else Ok(RecomputeLimits(ds.(x := Put(ds.x, p.x), y := Put(ds.y, p.y), errorNeg := Put(ds.errorNeg, p.errorNeg),
                                errorPos := Put(ds.errorPos, p.errorPos), tags := Put(ds.tags, p.tag),
                                styles := Put(ds.styles, p.style))))
  }

  /** The points a bulk add contributes: null tags and styles. */
  function Untagged(xs: seq<real>, ys: seq<real>, ens: seq<real>, eps: seq<real>): (ps: seq<Point>)
    requires |ys| == |xs| && |ens| == |xs| && |eps| == |xs|
    ensures |ps| == |xs|
  {
    seq(|xs|, i requires 0 <= i < |xs| => Point(xs[i], ys[i], ens[i], eps[i], None, None))
  }

  /** `add(xVals, yVals, yErrNeg, yErrPos)`: the four arrays must have equal
      length; each is bulk-put into its ring, the tag and style rings
      receive as many nulls, and the limits are recomputed. On a set of
      capacity zero a bulk put of no elements marks the ring wrapped, and
      one of some elements throws `ArrayIndexOutOfBoundsException`. */
  function AddArrays(ds: CircularSet, xs: seq<real>, ys: seq<real>, ens: seq<real>, eps: seq<real>)
    : (r: Result<CircularSet>)
    requires Wf(ds)
    ensures !(|ys| == |xs| && |ens| == |xs| && |eps| == |xs|) ==> r == Err(IllegalArgument)
    ensures |ys| == |xs| && |ens| == |xs| && |eps| == |xs| ==>
              (r.Err? <==> SetCapacity(ds) == 0 && |xs| > 0)
    ensures r.Ok? ==> Wf(r.value) && SetCapacity(r.value) == SetCapacity(ds) && r.value.name == ds.name
    ensures r.Ok? ==> IsExtent(r.value.xRange, AxisValues(Points(r.value), 0))
    ensures r.Ok? ==> IsExtent(r.value.yRange, AxisValues(Points(r.value), 1))
    ensures r.Ok? && SetCapacity(ds) == 0 ==> r.value.x.flipped && !Readable(r.value)
  {
    if |ys| != |xs| || |ens| != |xs| || |eps| != |xs| then Err(IllegalArgument)
    else if Capacity(ds.x) == 0 then
      if |xs| == 0 then
        Ok(RecomputeLimits(ds.(x := ds.x.(flipped := true), y := ds.y.(flipped := true),
                               errorNeg := ds.errorNeg.(flipped := true), errorPos := ds.errorPos.(flipped := true),
                               tags := ds.tags.(flipped := true), styles := ds.styles.(flipped := true))))
      else Err(IndexOutOfBounds)
    else
      var n := |xs|;
      var nulls: seq<Option<string>> := seq(n, _ => None);
      var x := PutBulk(ds.x, xs, 0, n).value;
      var y := PutBulk(ds.y, ys, 0, n).value;
      var en := PutBulk(ds.errorNeg, ens, 0, n).value;
      var ep := PutBulk(ds.errorPos, eps, 0, n).value;
      var t := PutBulk(ds.tags, nulls, 0, n).value;
      var s := PutBulk(ds.styles, nulls, 0, n).value;
      PutAllSameShape(ds.x, ds.y, xs, ys);
      PutAllSameShape(ds.x, ds.errorNeg, xs, ens);
      PutAllSameShape(ds.x, ds.errorPos, xs, eps);
      PutAllSameShape(ds.x, ds.tags, xs, nulls);
      PutAllSameShape(ds.x, ds.styles, xs, nulls);
      BulkPutsAreRepeatedPuts(ds, xs, ys, ens, eps, nulls);
      Ok(RecomputeLimits(ds.(x := x, y := y, errorNeg := en, errorPos := ep, tags := t, styles := s)))
  }

  lemma BulkPutsAreRepeatedPuts(ds: CircularSet, xs: seq<real>, ys: seq<real>, ens: seq<real>,
                                eps: seq<real>, nulls: seq<Option<string>>)
    requires Wf(ds) && Capacity(ds.x) > 0
    requires |ys| == |xs| && |ens| == |xs| && |eps| == |xs| && |nulls| == |xs|
    ensures PutBulk(ds.x, xs, 0, |xs|) == Ok(PutAll(ds.x, xs))
    ensures PutBulk(ds.y, ys, 0, |xs|) == Ok(PutAll(ds.y, ys))
    ensures PutBulk(ds.errorNeg, ens, 0, |xs|) == Ok(PutAll(ds.errorNeg, ens))
    ensures PutBulk(ds.errorPos, eps, 0, |xs|) == Ok(PutAll(ds.errorPos, eps))
    ensures PutBulk(ds.tags, nulls, 0, |xs|) == Ok(PutAll(ds.tags, nulls))
    ensures PutBulk(ds.styles, nulls, 0, |xs|) == Ok(PutAll(ds.styles, nulls))
  {
    WholeBulk(ds.x, xs);
    WholeBulk(ds.y, ys);
    WholeBulk(ds.errorNeg, ens);
    WholeBulk(ds.errorPos, eps);
    WholeBulk(ds.tags, nulls);
    WholeBulk(ds.styles, nulls);
  }

  /** A bulk put of a whole array is the puts of its elements in order. */
  lemma WholeBulk<T>(b: Ring<T>, src: seq<T>)
    requires Valid(b)
    ensures PutBulk(b, src, 0, |src|) == Ok(PutAll(b, src))
  {
    PutBulkIsRepeatedPut(b, src, 0, |src|);
    assert src[0..|src|] == src;
  }

  /** `get(dimIndex, index)`: dimension 0 reads x, every other dimension reads y. */
  function Get(ds: CircularSet, dim: int, index: int): (r: Result<real>)
    requires Wf(ds) && Readable(ds)
    ensures 0 <= index < DataCount(ds) ==>
              r == Ok(if dim == DIM_X then Points(ds)[index].x else Points(ds)[index].y)
    ensures index < 0 && !ds.x.flipped ==> r == Err(IllegalArgument)
  {
    if 0 <= index < DataCount(ds) then
      GetIsContents(ds.x, index);
      GetIsContents(ds.y, index);
      if dim == DIM_X then CircularBuffer.Get(ds.x, index) else CircularBuffer.Get(ds.y, index)
    else if dim == DIM_X then CircularBuffer.Get(ds.x, index) else CircularBuffer.Get(ds.y, index)
  }

  /** `getErrorNegative`: zero for x, else the negative-error ring. */
  function ErrorNegative(ds: CircularSet, dim: int, index: int): (r: Result<real>)
    requires Wf(ds) && Readable(ds)
    ensures dim == DIM_X ==> r == Ok(0.0)
  {
    if dim == DIM_X then Ok(0.0) else CircularBuffer.Get(ds.errorNeg, index)
  }

  /** `getErrorPositive`: zero for x, else the positive-error ring. */
  function ErrorPositive(ds: CircularSet, dim: int, index: int): (r: Result<real>)
    requires Wf(ds) && Readable(ds)
    ensures dim == DIM_X ==> r == Ok(0.0)
  {
    if dim == DIM_X then Ok(0.0) else CircularBuffer.Get(ds.errorPos, index)
  }

  /** `getStyle(index)`. */
  function Style(ds: CircularSet, index: int): (r: Result<Option<string>>)
    requires Wf(ds) && Readable(ds)
    ensures 0 <= index < DataCount(ds) ==> r == Ok(Points(ds)[index].style)
    ensures index < 0 && !ds.x.flipped ==> r == Err(IllegalArgument)
  {
    if 0 <= index < DataCount(ds) then
      GetIsContents(ds.styles, index);
      CircularBuffer.Get(ds.styles, index)
    else CircularBuffer.Get(ds.styles, index)
  }

  /** `getDataLabel(index)`: the tag, or a label synthesised from the name,
      the index and the point's coordinates when the tag is null. */
  function DataLabel(ds: CircularSet, index: int): (r: Result<Label>)
    requires Wf(ds) && Readable(ds)
    ensures 0 <= index < DataCount(ds) ==>
              r == Ok(match Points(ds)[index].tag
                      case Some(t) => Tag(t)
                      case None => Synthesised(ds.name, index, Points(ds)[index].x, Points(ds)[index].y))
    ensures index < 0 && !ds.x.flipped ==> r == Err(IllegalArgument)
  {
    if 0 <= index < DataCount(ds) then
      GetIsContents(ds.tags, index);
      GetIsContents(ds.x, index);
      GetIsContents(ds.y, index);
      DataLabelAt(ds, index)
    else DataLabelAt(ds, index)
  }

  /** The body of `getDataLabel`, without the facts about its reads. */
  function DataLabelAt(ds: CircularSet, index: int): (r: Result<Label>)
    requires Wf(ds) && Readable(ds)
  {
    var tag :- CircularBuffer.Get(ds.tags, index);
    match tag
    case Some(t) => Ok(Tag(t))
    case None =>
      var x :- CircularBuffer.Get(ds.x, index);
      var y :- CircularBuffer.Get(ds.y, index);
      Ok(Synthesised(ds.name, index, x, y))
  }

  /** `getValues(dim)`: the coordinates of the readable points, oldest first. */
  function Values(ds: CircularSet, dim: int): (vs: seq<real>)
    requires Wf(ds)
    ensures |vs| == DataCount(ds)
  {
    var ps := Points(ds);
    seq(|ps|, i requires 0 <= i < |ps| => if dim == DIM_X then ps[i].x else ps[i].y)
  }

  /** `reset()`: every ring forgets its contents and both axis descriptions
      are cleared. */
  function Reset(ds: CircularSet): (r: CircularSet)
    requires Wf(ds)
    ensures Wf(r) && Readable(r) && DataCount(r) == 0 && Points(r) == []
    ensures SetCapacity(r) == SetCapacity(ds) && r.name == ds.name
    ensures r.xRange == Empty && r.yRange == Empty
  {
    CircularSet(ds.name, CircularBuffer.Reset(ds.x), CircularBuffer.Reset(ds.y),
                CircularBuffer.Reset(ds.errorNeg), CircularBuffer.Reset(ds.errorPos),
                CircularBuffer.Reset(ds.tags), CircularBuffer.Reset(ds.styles), Empty, Empty)
  }

  /** Reading index `i` of the set gives the `i`-th oldest point, in every column. */
  lemma ReadsArePoints(ds: CircularSet, i: int)
    requires Wf(ds) && 0 <= i < DataCount(ds)
    ensures Get(ds, DIM_X, i) == Ok(Points(ds)[i].x)
    ensures Get(ds, DIM_Y, i) == Ok(Points(ds)[i].y)
    ensures ErrorNegative(ds, DIM_Y, i) == Ok(Points(ds)[i].errorNeg)
    ensures ErrorPositive(ds, DIM_Y, i) == Ok(Points(ds)[i].errorPos)
    ensures Style(ds, i) == Ok(Points(ds)[i].style)
    ensures DataLabel(ds, i) == Ok(match Points(ds)[i].tag
                                   case Some(t) => Tag(t)
                                   case None => Synthesised(ds.name, i, Points(ds)[i].x, Points(ds)[i].y))
  {
    GetIsContents(ds.errorNeg, i);
    GetIsContents(ds.errorPos, i);
  }

  /** A single add appends the point, dropping the oldest one once the set is full. */
  lemma AddPoints(ds: CircularSet, p: Point)
    requires Wf(ds) && SetCapacity(ds) > 0
    ensures Add(ds, p).Ok?
    ensures Points(Add(ds, p).value) == LastN(Points(ds) + [p], SetCapacity(ds))
  {
    var c := SetCapacity(ds);
    PutContentsLastN(ds.x, p.x);
    PutContentsLastN(ds.y, p.y);
    PutContentsLastN(ds.errorNeg, p.errorNeg);
    PutContentsLastN(ds.errorPos, p.errorPos);
    PutContentsLastN(ds.tags, p.tag);
    PutContentsLastN(ds.styles, p.style);
    var xs, ys, ens, eps := Contents(ds.x), Contents(ds.y), Contents(ds.errorNeg), Contents(ds.errorPos);
    var ts, ss := Contents(ds.tags), Contents(ds.styles);
    ZipAppend(xs, ys, ens, eps, ts, ss, [p.x], [p.y], [p.errorNeg], [p.errorPos], [p.tag], [p.style]);
    assert Zip([p.x], [p.y], [p.errorNeg], [p.errorPos], [p.tag], [p.style]) == [p];
    ZipLastN(xs + [p.x], ys + [p.y], ens + [p.errorNeg], eps + [p.errorPos], ts + [p.tag], ss + [p.style], c);
  }

  /** Ranges that are the extents of what the points add hold every readable
      point's x and its y error bar. */
  lemma LimitsCoverPoints(ds: CircularSet, i: int)
    requires Wf(ds)
    requires IsExtent(ds.xRange, AxisValues(Points(ds), 0)) && IsExtent(ds.yRange, AxisValues(Points(ds), 1))
    requires 0 <= i < DataCount(ds)
    ensures ds.xRange.Span? && ds.yRange.Span?
    ensures ds.xRange.min <= Points(ds)[i].x <= ds.xRange.max
    ensures ds.yRange.min <= Points(ds)[i].y - Points(ds)[i].errorNeg
    ensures Points(ds)[i].y + Points(ds)[i].errorPos <= ds.yRange.max
  {
    var es := ErrPoints(Points(ds));
    ErrorLimits.ErrorBarsFit(es, ERROR_TYPE, ds.xRange, ds.yRange, i);
    assert ErrorLimits.Contribution(ERROR_TYPE, es[i], 0)[0] == Points(ds)[i].x;
    assert ErrorLimits.Contribution(ERROR_TYPE, es[i], 1)[0] == Points(ds)[i].y - Points(ds)[i].errorNeg;
    assert ErrorLimits.Contribution(ERROR_TYPE, es[i], 1)[1] == Points(ds)[i].y + Points(ds)[i].errorPos;
  }

  /** After an add the recomputed ranges hold the new point and its error bar. */
  lemma AddCoversNewPoint(ds: CircularSet, p: Point)
    requires Wf(ds) && SetCapacity(ds) > 0
    ensures Add(ds, p).Ok?
    ensures var r := Add(ds, p).value;
            r.xRange.Span? && r.yRange.Span?
            && r.xRange.min <= p.x <= r.xRange.max
            && r.yRange.min <= p.y - p.errorNeg && p.y + p.errorPos <= r.yRange.max
  {
    var r := Add(ds, p).value;
    AddPoints(ds, p);
    var n := DataCount(r);
    assert Points(r)[n - 1] == p;
    LimitsCoverPoints(r, n - 1);
  }

  /** A bulk add has the effect of adding the points one by one with null tag
      and style: past capacity the set holds the most recent points in the
      order they were added. */
  lemma AddArraysPoints(ds: CircularSet, xs: seq<real>, ys: seq<real>, ens: seq<real>, eps: seq<real>)
    requires Wf(ds) && SetCapacity(ds) > 0
    requires |ys| == |xs| && |ens| == |xs| && |eps| == |xs|
    ensures AddArrays(ds, xs, ys, ens, eps).Ok?
    ensures Points(AddArrays(ds, xs, ys, ens, eps).value)
         == LastN(Points(ds) + Untagged(xs, ys, ens, eps), SetCapacity(ds))
  {
    var nulls: seq<Option<string>> := seq(|xs|, _ => None);
    BulkPutsAreRepeatedPuts(ds, xs, ys, ens, eps, nulls);
    var c := SetCapacity(ds);
    PutAllContents(ds.x, xs);
    PutAllContents(ds.y, ys);
    PutAllContents(ds.errorNeg, ens);
    PutAllContents(ds.errorPos, eps);
    PutAllContents(ds.tags, nulls);
    PutAllContents(ds.styles, nulls);
    var cx, cy, cen, cep := Contents(ds.x), Contents(ds.y), Contents(ds.errorNeg), Contents(ds.errorPos);
    var ct, cs := Contents(ds.tags), Contents(ds.styles);
    ZipAppend(cx, cy, cen, cep, ct, cs, xs, ys, ens, eps, nulls, nulls);
    assert Zip(xs, ys, ens, eps, nulls, nulls) == Untagged(xs, ys, ens, eps);
    ZipLastN(cx + xs, cy + ys, cen + ens, cep + eps, ct + nulls, cs + nulls, c);
  }

  /** A set of capacity five after three single adds and a bulk add of three
      points holds the last five points in insertion order. */
  method CapacityFiveScenario() returns (xs: seq<real>, ys: seq<real>, ens: seq<real>, count: nat)
    ensures xs == [1.1, 1.2, 1.0, 2.0, 3.0]
    ensures ys == [2.1, 2.2, 2.0, 4.0, 6.0]
    ensures ens == [3.1, 3.2, 0.0, 0.0, 0.0]
    ensures count == 5
  {
    var ds := New("test", 5).value;
    var p0 := Point(1.0, 2.0, 3.0, 2.2, None, None);
    var p1 := Point(1.1, 2.1, 3.1, 2.3, Some("testlabel"), None);
    var p2 := Point(1.2, 2.2, 3.2, 2.4, Some("testlabel2"), Some("color:red"));
    var d1 := AddChecked(ds, p0, []);
    var d2 := AddChecked(d1, p1, [p0]);
    assert [p0] + [p1] == [p0, p1];
    var d3 := AddChecked(d2, p2, [p0, p1]);
    assert [p0, p1] + [p2] == [p0, p1, p2];
    var bx, bY, bz := [1.0, 2.0, 3.0], [2.0, 4.0, 6.0], [0.0, 0.0, 0.0];
    var d4 := AddThreeChecked(d3, [p0, p1, p2], bx, bY, bz, bz);
    xs, ys, ens := Columns(d4);
    count := DataCount(d4);
    ScenarioColumns(Points(d4), xs, ys, ens, p1, p2, Untagged(bx, bY, bz, bz));
  }
  /** The x, y and negative-error columns of the readable points. */
  method Columns(ds: CircularSet) returns (xs: seq<real>, ys: seq<real>, ens: seq<real>)
    requires Wf(ds)
    ensures |xs| == |ys| == |ens| == |Points(ds)|
    ensures forall i | 0 <= i < |xs| :: xs[i] == Points(ds)[i].x && ys[i] == Points(ds)[i].y
                                      && ens[i] == Points(ds)[i].errorNeg
  {
    var ps := Points(ds);
    xs, ys := Values(ds, DIM_X), Values(ds, DIM_Y);
    ens := seq(|ps|, i requires 0 <= i < |ps| => ps[i].errorNeg);
  }

  /** The columns of the points the scenario ends with. */
  lemma ScenarioColumns(ps: seq<Point>, xs: seq<real>, ys: seq<real>, ens: seq<real>,
                        p1: Point, p2: Point, q: seq<Point>)
    requires p1.x == 1.1 && p1.y == 2.1 && p1.errorNeg == 3.1
    requires p2.x == 1.2 && p2.y == 2.2 && p2.errorNeg == 3.2
    requires q == Untagged([1.0, 2.0, 3.0], [2.0, 4.0, 6.0], [0.0, 0.0, 0.0], [0.0, 0.0, 0.0])
    requires ps == [p1, p2] + q
    requires |xs| == |ys| == |ens| == |ps|
    requires forall i | 0 <= i < |xs| :: xs[i] == ps[i].x && ys[i] == ps[i].y && ens[i] == ps[i].errorNeg
    ensures xs == [1.1, 1.2, 1.0, 2.0, 3.0]
    ensures ys == [2.1, 2.2, 2.0, 4.0, 6.0]
    ensures ens == [3.1, 3.2, 0.0, 0.0, 0.0]
  {
  }

  /** A bulk add of three points to a full set of capacity five. */
  method AddThreeChecked(ds: CircularSet, before: seq<Point>, xs: seq<real>, ys: seq<real>,
                         ens: seq<real>, eps: seq<real>) returns (r: CircularSet)
    requires Wf(ds) && SetCapacity(ds) == 5 && Points(ds) == before && |before| == 3
    requires |xs| == 3 && |ys| == 3 && |ens| == 3 && |eps| == 3
    ensures Wf(r)
    ensures Points(r) == [before[1], before[2]] + Untagged(xs, ys, ens, eps)
  {
    AddArraysPoints(ds, xs, ys, ens, eps);
    r := AddArrays(ds, xs, ys, ens, eps).value;
    DropOldest(before, Untagged(xs, ys, ens, eps));
  }

  /** Three new entries after three old ones in a ring of five: the oldest goes. */
  lemma DropOldest<T>(before: seq<T>, q: seq<T>)
    requires |before| == 3 && |q| == 3
    ensures LastN(before + q, 5) == [before[1], before[2]] + q
  {
    assert (before + q)[1..] == [before[1], before[2]] + q;
  }

  /** One add to a set of capacity five holding fewer than five points. */
  method AddChecked(ds: CircularSet, p: Point, before: seq<Point>) returns (r: CircularSet)
    requires Wf(ds) && SetCapacity(ds) == 5 && Points(ds) == before && |before| < 5
    ensures Wf(r) && SetCapacity(r) == 5 && Points(r) == before + [p]
  {
    AddPoints(ds, p);
    r := Add(ds, p).value;
  }
}

=== FILE: dataset_builder.dfy ===
/** `DataSetBuilder`: accumulates a name, x/y value and error arrays,
    meta data, label and style maps and axis descriptions, and builds a
    two-dimensional data set from them. The per-dimension part of the
    state (`setDimension`, `setValues`, `setPosError`, `setNegError`) is
    what the data set serialiser feeds; it is kept as maps from dimension
    to array. Arrays are modelled as sequences of exact reals; a Java
    `null` reference is `None`. */
module DataSetBuilder {
  import opened Wrappers
  import opened Doubles
  import Decimal

  /** `MAX_AXIS_DIMENSION`: axis descriptions exist for dimensions below it. */
  const MAX_AXIS_DIMENSION: int := 1000

  /** The name the no-argument constructor gives. */
  const DEFAULT_NAME: string := "default data set"

  /** An axis description: name, unit and the range `[min, max]`. */
  datatype AxisDesc = AxisDesc(name: string, unit: string, min: Double, max: Double)

  /** `new DefaultAxisDescription()`: no name, no unit, an empty range. */
  const DEFAULT_AXIS: AxisDesc := AxisDesc("", "", NaN, NaN)

  datatype Builder = Builder(
    name: Option<string>,
    xValues: Option<seq<real>>, yValues: Option<seq<real>>,
    xErrorsPos: Option<seq<real>>, xErrorsNeg: Option<seq<real>>,
    yErrorsPos: Option<seq<real>>, yErrorsNeg: Option<seq<real>>,
    infoList: seq<string>, warningList: seq<string>, errorList: seq<string>,
    metaInfo: map<string, string>, dataLabels: map<int, string>, dataStyles: map<int, string>,
    axes: seq<AxisDesc>, initialCapacity: int,
    dimension: Option<int>, values: map<int, seq<real>>,
    posErrors: map<int, seq<real>>, negErrors: map<int, seq<real>>)

  /** `new DataSetBuilder(name)`; the no-argument constructor passes
      `DEFAULT_NAME`. Everything is empty and `initialCapacity` is -1. */
  function NewBuilder(dataSetName: Option<string>): (b: Builder)
    ensures b.name == dataSetName && b.initialCapacity < 0
    ensures b.xValues.None? && b.yValues.None? && b.yErrorsPos.None? && b.yErrorsNeg.None?
    ensures b.axes == [] && b.values == map[] && b.posErrors == map[] && b.negErrors == map[]
  {
    Builder(dataSetName, None, None, None, None, None, None, [], [], [], map[], map[], map[], [], -1,
            None, map[], map[], map[])
  }

  /** `setName(name)`. */
  function SetName(b: Builder, name: Option<string>): (r: Builder)
    ensures r.name == name && r.(name := b.name) == b
  {
    b.(name := name)
  }

  // ---- array setters -------------------------------------------------

  /** The six array fields, named after the setter that writes them. */
  datatype ArrayField = XValues | YValues | XErrorsPos | XErrorsNeg | YErrorsPos | YErrorsNeg

  function ArrayOf(b: Builder, f: ArrayField): Option<seq<real>> {
    match f
    case XValues => b.xValues
    case YValues => b.yValues
    case XErrorsPos => b.xErrorsPos
    case XErrorsNeg => b.xErrorsNeg
    case YErrorsPos => b.yErrorsPos
    case YErrorsNeg => b.yErrorsNeg
  }

  function WithArray(b: Builder, f: ArrayField, a: Option<seq<real>>): (r: Builder)
    ensures ArrayOf(r, f) == a
    ensures forall g | g != f :: ArrayOf(r, g) == ArrayOf(b, g)
    ensures r.name == b.name && r.axes == b.axes && r.initialCapacity == b.initialCapacity
  {
    match f
    case XValues => b.(xValues := a)
    case YValues => b.(yValues := a)
    case XErrorsPos => b.(xErrorsPos := a)
    case XErrorsNeg => b.(xErrorsNeg := a)
    case YErrorsPos => b.(yErrorsPos := a)
    case YErrorsNeg => b.(yErrorsNeg := a)
  }

  function Min(a: int, b: int): int {
    if a < b then a else b
  }

  /** The copy the copying setters store: the first `initialCapacity`
      elements, or all of them when `initialCapacity` is negative. */
  function CopyPrefix(a: seq<real>, initialCapacity: int): (r: seq<real>)
    ensures |r| == if initialCapacity < 0 then |a| else Min(initialCapacity, |a|)
    ensures forall i | 0 <= i < |r| :: r[i] == a[i]
  {
    a[..if initialCapacity < 0 then |a| else Min(initialCapacity, |a|)]
  }

  /** `setXValues`, `setYValues`, `setXNegError`, `setXPosError`,
      `setYNegError`, `setYPosError`: store a copy of the array's leading
      part in the field of the same name; nothing else changes. */
  function SetCopy(b: Builder, f: ArrayField, a: seq<real>): (r: Builder)
    ensures ArrayOf(r, f).Some?
    ensures |ArrayOf(r, f).value| == if b.initialCapacity < 0 then |a| else Min(b.initialCapacity, |a|)
    ensures ArrayOf(r, f).value <= a
    ensures forall g | g != f :: ArrayOf(r, g) == ArrayOf(b, g)
    ensures r.initialCapacity == b.initialCapacity && r.name == b.name && r.axes == b.axes
  {
    var c := CopyPrefix(a, b.initialCapacity);
    assert c == a[..|c|];
    WithArray(b, f, Some(c))
  }

  /** The field a `...NoCopy` setter writes: its own, except that
      `setXNegErrorNoCopy` stores into the negative y errors. */
  function NoCopyTarget(f: ArrayField): (t: ArrayField)
    ensures f != XErrorsNeg ==> t == f
    ensures t != XErrorsNeg
  {
    if f == XErrorsNeg then YErrorsNeg else f
  }

  /** `setXValuesNoCopy`, ..., `setYPosErrorNoCopy`: store the array itself. */
  function SetNoCopy(b: Builder, f: ArrayField, a: seq<real>): (r: Builder)
    ensures ArrayOf(r, NoCopyTarget(f)) == Some(a)
    ensures forall g | g != NoCopyTarget(f) :: ArrayOf(r, g) == ArrayOf(b, g)
  {
    WithArray(b, NoCopyTarget(f), Some(a))
  }

  /** `setXNegErrorNoCopy` leaves the negative x errors alone and replaces
      the negative y errors. */
  lemma XNegErrorNoCopyStoresYErrors(b: Builder, a: seq<real>)
    ensures SetNoCopy(b, XErrorsNeg, a).yErrorsNeg == Some(a)
    ensures SetNoCopy(b, XErrorsNeg, a).xErrorsNeg == b.xErrorsNeg
  {
    assert ArrayOf(SetNoCopy(b, XErrorsNeg, a), XErrorsNeg) == ArrayOf(b, XErrorsNeg);
  }

  /** Without a capacity limit the copying setter stores the whole array,
      like the no-copy one, for every field but the negative x errors. */
  lemma CopyWithoutLimitIsWhole(b: Builder, f: ArrayField, a: seq<real>)
    requires b.initialCapacity < 0 && f != XErrorsNeg
    ensures SetCopy(b, f, a) == SetNoCopy(b, f, a)
  {
    var r := SetCopy(b, f, a);
    var s := SetNoCopy(b, f, a);
    assert ArrayOf(r, f).value == a;
    assert forall g :: ArrayOf(r, g) == ArrayOf(s, g);
    assert r.xValues == ArrayOf(r, XValues) && s.xValues == ArrayOf(s, XValues);
    assert r.yValues == ArrayOf(r, YValues) && s.yValues == ArrayOf(s, YValues);
    assert r.xErrorsPos == ArrayOf(r, XErrorsPos) && s.xErrorsPos == ArrayOf(s, XErrorsPos);
    assert r.xErrorsNeg == ArrayOf(r, XErrorsNeg) && s.xErrorsNeg == ArrayOf(s, XErrorsNeg);
    assert r.yErrorsPos == ArrayOf(r, YErrorsPos) && s.yErrorsPos == ArrayOf(s, YErrorsPos);
    assert r.yErrorsNeg == ArrayOf(r, YErrorsNeg) && s.yErrorsNeg == ArrayOf(s, YErrorsNeg);
  }

  // ---- map and list setters ------------------------------------------

  /** `Map.putAll`: the entries of `m` override those of `a`. */
  function PutAll<K, V>(a: map<K, V>, m: map<K, V>): (r: map<K, V>)
    ensures r.Keys == a.Keys + m.Keys
    ensures forall k | k in m :: r[k] == m[k]
    ensures forall k | k in a && k !in m :: r[k] == a[k]
  {
    a + m
  }

  /** `setDataLabelMap(map)`: a null or empty map is ignored, any other is
      merged into the labels. */
  function SetDataLabelMap(b: Builder, m: Option<map<int, string>>): (r: Builder)
    ensures m.None? || |m.value| == 0 ==> r == b
    ensures m.Some? ==> r == b.(dataLabels := PutAll(b.dataLabels, m.value))
  {
    if m.None? || |m.value| == 0 then b else b.(dataLabels := PutAll(b.dataLabels, m.value))
  }

  /** `setDataStyleMap(map)`, as `setDataLabelMap` for the styles. */
  function SetDataStyleMap(b: Builder, m: Option<map<int, string>>): (r: Builder)
    ensures m.None? || |m.value| == 0 ==> r == b
    ensures m.Some? ==> r == b.(dataStyles := PutAll(b.dataStyles, m.value))
  {
    if m.None? || |m.value| == 0 then b else b.(dataStyles := PutAll(b.dataStyles, m.value))
  }

  /** `setMetaInfoMap(map)`, as `setDataLabelMap` for the meta information. */
  function SetMetaInfoMap(b: Builder, m: Option<map<string, string>>): (r: Builder)
    ensures m.None? || |m.value| == 0 ==> r == b
    ensures m.Some? ==> r == b.(metaInfo := PutAll(b.metaInfo, m.value))
  {
    if m.None? || |m.value| == 0 then b else b.(metaInfo := PutAll(b.metaInfo, m.value))
  }

  /** Merging an empty map changes nothing, so ignoring it is the same as
      merging it. */
  lemma PutAllEmpty<K, V>(a: map<K, V>)
    ensures PutAll(a, map[]) == a
  {
  }

  /** The three message lists. */
  datatype ListField = Infos | Warnings | Errors

  /** `setMetaInfoList`, `setMetaWarningList`, `setMetaErrorList`: append
      the messages to the list, keeping those already there. A null array
      makes Java throw before anything changes and is not modelled. */
  function AppendList(b: Builder, l: ListField, msgs: seq<string>): (r: Builder)
    ensures l == Infos ==> r.infoList == b.infoList + msgs && r.(infoList := b.infoList) == b
    ensures l == Warnings ==> r.warningList == b.warningList + msgs && r.(warningList := b.warningList) == b
    ensures l == Errors ==> r.errorList == b.errorList + msgs && r.(errorList := b.errorList) == b
  {
    match l
    case Infos => b.(infoList := b.infoList + msgs)
    case Warnings => b.(warningList := b.warningList + msgs)
    case Errors => b.(errorList := b.errorList + msgs)
  }

  // ---- axis descriptions ---------------------------------------------

  /** Appends default descriptions until there are at least `n`. */
  function Pad(axes: seq<AxisDesc>, n: int): (r: seq<AxisDesc>)
    ensures |r| == if |axes| >= n then |axes| else n
    ensures r[..|axes|] == axes
    ensures forall k | |axes| <= k < |r| :: r[k] == DEFAULT_AXIS
    decreases n - |axes|
  {
    if |axes| >= n then axes
    else
      var r := Pad(axes + [DEFAULT_AXIS], n);
      assert r[..|axes|] == r[..|axes| + 1][..|axes|];
      r
  }

  /** `getAxisDescription(dimension)`: a dimension outside `[0, 1000)` is
      rejected; otherwise the list is padded with default descriptions
      until it holds the dimension, and that description is returned with
      the padded list. */
  function GetAxisDescription(axes: seq<AxisDesc>, dimension: int): (r: Result<(seq<AxisDesc>, AxisDesc)>)
    ensures dimension < 0 || dimension >= MAX_AXIS_DIMENSION <==> r.Err?
    ensures r.Err? ==> r.failure == IllegalArgument
    ensures r.Ok? ==> var (padded, a) := r.value;
            |padded| == (if dimension < |axes| then |axes| else dimension + 1)
            && padded[..|axes|] == axes
            && (forall k | |axes| <= k < |padded| :: padded[k] == DEFAULT_AXIS)
            && a == padded[dimension]
  {
    if dimension < 0 || dimension >= MAX_AXIS_DIMENSION then Err(IllegalArgument)
    else
      var padded := Pad(axes, dimension + 1);
      Ok((padded, padded[dimension]))
  }

  /** What an axis setter changes in one description. */
  datatype AxisUpdate = SetMin(v: Double) | SetMax(v: Double) | SetAxisName(s: string) | SetUnit(s: string)

  function ApplyAxis(a: AxisDesc, u: AxisUpdate): AxisDesc {
    match u
    case SetMin(v) => a.(min := v)
    case SetMax(v) => a.(max := v)
    case SetAxisName(s) => a.(name := s)
    case SetUnit(s) => a.(unit := s)
  }

  /** `setAxisMin`, `setAxisMax`, `setAxisName`, `setAxisUnit`: change one
      part of the description of `dimension`, padding the list first; the
      other descriptions are kept. */
  function SetAxis(b: Builder, dimension: int, u: AxisUpdate): (r: Result<Builder>)
    ensures dimension < 0 || dimension >= MAX_AXIS_DIMENSION <==> r.Err?
    ensures r.Ok? ==> var axes := r.value.axes;
            |axes| == (if dimension < |b.axes| then |b.axes| else dimension + 1)
            && axes[dimension] == ApplyAxis(if dimension < |b.axes| then b.axes[dimension] else DEFAULT_AXIS, u)
            && (forall k | 0 <= k < |b.axes| && k != dimension :: axes[k] == b.axes[k])
            && (forall k | |b.axes| <= k < |axes| && k != dimension :: axes[k] == DEFAULT_AXIS)
            && r.value.(axes := b.axes) == b
  {
    var (padded, a) :- GetAxisDescription(b.axes, dimension);
    assert forall k | 0 <= k < |b.axes| :: padded[k] == padded[..|b.axes|][k];
    Ok(b.(axes := padded[dimension := ApplyAxis(a, u)]))
  }

  /** The axis setters never make the list longer than the dimension limit. */
  lemma SetAxisBounded(b: Builder, dimension: int, u: AxisUpdate)
    requires |b.axes| <= MAX_AXIS_DIMENSION
    ensures SetAxis(b, dimension, u).Ok? ==> |SetAxis(b, dimension, u).value.axes| <= MAX_AXIS_DIMENSION
  {
  }

  // ---- per-dimension state fed by the serialiser ---------------------

  /** `setDimension(n)`. */
  function SetDimension(b: Builder, n: int): (r: Builder)
    ensures r.dimension == Some(n) && r.(dimension := b.dimension) == b
  {
    b.(dimension := Some(n))
  }

  /** `setValues(dim, values)`. */
  function SetValues(b: Builder, dim: int, a: seq<real>): (r: Builder)
    ensures r.values == b.values[dim := a] && r.(values := b.values) == b
  {
    b.(values := b.values[dim := a])
  }

  /** `setPosError(dim, errors)`. */
  function SetPosError(b: Builder, dim: int, a: seq<real>): (r: Builder)
    ensures r.posErrors == b.posErrors[dim := a] && r.(posErrors := b.posErrors) == b
  {
    b.(posErrors := b.posErrors[dim := a])
  }

  /** `setNegError(dim, errors)`. */
  function SetNegError(b: Builder, dim: int, a: seq<real>): (r: Builder)
    ensures r.negErrors == b.negErrors[dim := a] && r.(negErrors := b.negErrors) == b
  {
    b.(negErrors := b.negErrors[dim := a])
  }

  // ---- building ------------------------------------------------------

  /** Negative and positive y errors of a built error data set. */
  datatype YErrors = YErrors(neg: seq<real>, pos: seq<real>)

  /** A built two-dimensional data set: a `DefaultDataSet`, or a
      `DefaultErrorDataSet` when `yErrors` is present. */
  datatype BuiltSet = BuiltSet(
    name: string, xs: seq<real>, ys: seq<real>, yErrors: Option<YErrors>,
    infoList: seq<string>, warningList: seq<string>, errorList: seq<string>,
    metaInfo: map<string, string>, axes: seq<AxisDesc>,
    labels: map<int, string>, styles: map<int, string>)

  /** A fresh data set of the given points: no messages, no labels, one
      default axis description per dimension. */
  function NewSet(name: string, xs: seq<real>, ys: seq<real>, e: Option<YErrors>): BuiltSet {
    BuiltSet(name, xs, ys, e, [], [], [], map[], [DEFAULT_AXIS, DEFAULT_AXIS], map[], map[])
  }

  /** `AssertUtils.equalDoubleArrays(a, b, n)` (AssertUtils is not part of
      this model): with both arrays present, their first `n` elements must
      exist for both or for neither; a missing array passes. */
  function EqualDoubleArrays(a: Option<seq<real>>, b: Option<seq<real>>, n: int): (r: Result<()>)
    ensures a.Some? && b.Some? && |a.value| >= n && |b.value| >= n ==> r.Ok?
    ensures a.Some? && b.Some? && |a.value| >= n && |b.value| < n ==> r == Err(IllegalArgument)
  {
    if a.None? || b.None? then Ok(())
    else if Min(n, |a.value|) != Min(n, |b.value|) then Err(IllegalArgument)
    else Ok(())
  }

  /** The number of points a build with both arrays present uses. */
  function BuiltSize(xs: seq<real>, ys: seq<real>, initialCapacity: int): (n: nat)
    ensures n <= |xs| && n <= |ys|
    ensures initialCapacity >= 0 ==> n <= initialCapacity
    ensures n == |xs| || n == |ys| || n == initialCapacity
  {
    var m := Min(|xs|, |ys|);
    if initialCapacity < 0 then m else Min(m, initialCapacity)
  }

  /** `buildWithYArrayOnly(name)`: x is the point index. */
  function BuildWithYArrayOnly(b: Builder, dsName: string): (r: BuiltSet)
    requires b.yValues.Some?
    ensures r.name == dsName && r.yErrors.None? && |r.xs| == |r.ys|
    ensures r.ys <= b.yValues.value
    ensures b.initialCapacity < 0 || b.initialCapacity >= |b.yValues.value| ==> r.ys == b.yValues.value
    ensures 0 <= b.initialCapacity < |b.yValues.value| ==> |r.ys| == b.initialCapacity
    ensures forall i | 0 <= i < |r.xs| :: r.xs[i] == i as real
  {
    var ys := b.yValues.value;
    var size: nat := if b.initialCapacity < 0 then |ys| else Min(|ys|, b.initialCapacity);
    NewSet(dsName, seq(size, i => i as real), ys[..size], None)
  }

  /** `buildWithYErrors(name, size)`: a single error array serves both
      sides; each present error array must cover the points in use. */
  function BuildWithYErrors(b: Builder, dsName: string, size: nat): (r: Result<BuiltSet>)
    requires b.xValues.Some? && b.yValues.Some? && size <= |b.xValues.value| && size <= |b.yValues.value|
    requires b.yErrorsPos.Some? || b.yErrorsNeg.Some?
    ensures r.Err? <==> (b.yErrorsPos.Some? && |b.yErrorsPos.value| < size)
                        || (b.yErrorsNeg.Some? && |b.yErrorsNeg.value| < size)
    ensures r.Err? ==> r.failure == IllegalArgument
    ensures r.Ok? ==> r.value.name == dsName
                      && r.value.xs == b.xValues.value[..size] && r.value.ys == b.yValues.value[..size]
    ensures r.Ok? && b.yErrorsNeg.Some? && b.yErrorsPos.Some? ==>
              r.value.yErrors == Some(YErrors(b.yErrorsNeg.value[..size], b.yErrorsPos.value[..size]))
    ensures r.Ok? && b.yErrorsNeg.None? ==>
              r.value.yErrors == Some(YErrors(b.yErrorsPos.value[..size], b.yErrorsPos.value[..size]))
    ensures r.Ok? && b.yErrorsPos.None? ==>
              r.value.yErrors == Some(YErrors(b.yErrorsNeg.value[..size], b.yErrorsNeg.value[..size]))
  {
    var yep := if b.yErrorsPos.None? then b.yErrorsNeg.value else b.yErrorsPos.value;
    var yen := if b.yErrorsNeg.None? then b.yErrorsPos.value else b.yErrorsNeg.value;
    var _ :- EqualDoubleArrays(b.xValues, b.yErrorsPos, size);
    var _ :- EqualDoubleArrays(b.xValues, b.yErrorsNeg, size);
    assert |yep| >= size && |yen| >= size;
    Ok(NewSet(dsName, b.xValues.value[..size], b.yValues.value[..size], Some(YErrors(yen[..size], yep[..size]))))
  }

  /** `buildRawDataSet(name)`. */
  function BuildRawDataSet(b: Builder, dsName: string): (r: Result<BuiltSet>)
    ensures b.xValues.Some? && b.yValues.None? ==> r == Err(IllegalState)
    ensures r.Err? ==> r.failure == IllegalState || r.failure == IllegalArgument
    ensures r.Ok? ==> r.value.name == dsName && |r.value.xs| == |r.value.ys|
    ensures r.Ok? ==> r.value.infoList == [] && r.value.warningList == [] && r.value.errorList == []
                      && r.value.metaInfo == map[] && r.value.labels == map[] && r.value.styles == map[]
                      && r.value.axes == [DEFAULT_AXIS, DEFAULT_AXIS]
    ensures b.xValues.None? && b.yValues.None? ==> r.Ok? && r.value.xs == [] && r.value.yErrors.None?
  {
    if b.xValues.None? && b.yValues.None? then Ok(NewSet(dsName, [], [], None))
    else if b.xValues.None? then Ok(BuildWithYArrayOnly(b, dsName))
    else if b.yValues.None? then Err(IllegalState)
    else
      var size := BuiltSize(b.xValues.value, b.yValues.value, b.initialCapacity);
      if b.yErrorsNeg.None? && b.yErrorsPos.None? then
        Ok(NewSet(dsName, b.xValues.value[..size], b.yValues.value[..size], None))
      else BuildWithYErrors(b, dsName, size)
  }

  /** `addDataRanges`: a non-empty list of descriptions replaces the data
      set's own, each fetched through `getAxisDescription`. */
  function AddDataRanges(ds: BuiltSet, axes: seq<AxisDesc>): (r: Result<BuiltSet>)
    ensures |axes| <= MAX_AXIS_DIMENSION ==> r.Ok? && r.value == (if |axes| == 0 then ds else ds.(axes := axes))
  {
    if |axes| == 0 then Ok(ds)
    else if |axes| > MAX_AXIS_DIMENSION then Err(IllegalArgument)
    else Ok(ds.(axes := axes))
  }

  /** `build()`: the builder's name, or `"DataSet@"` followed by the clock
      reading `millis` when there is none; then the raw data set with the
      messages, meta information, axis descriptions, labels and styles
      added. */
  function Build(b: Builder, millis: nat): (r: Result<BuiltSet>)
    ensures |b.axes| > MAX_AXIS_DIMENSION ==> r.Err?
    ensures b.xValues.Some? && b.yValues.None? ==> r == Err(IllegalState)
    ensures r.Ok? && b.name.Some? ==> r.value.name == b.name.value
    ensures r.Ok? ==> r.value.infoList == b.infoList && r.value.warningList == b.warningList
                      && r.value.errorList == b.errorList && r.value.metaInfo == b.metaInfo
                      && r.value.labels == b.dataLabels && r.value.styles == b.dataStyles
    ensures r.Ok? ==> |r.value.xs| == |r.value.ys|
    ensures r.Ok? && b.xValues.None? && b.yValues.None? ==> r.value.xs == [] && r.value.yErrors.None?
  {
    var dsName := if b.name.Some? then b.name.value else "DataSet@" + Decimal.NatToString(millis);
    var raw :- BuildRawDataSet(b, dsName);
    var withMeta := raw.(infoList := raw.infoList + b.infoList, warningList := raw.warningList + b.warningList,
                         errorList := raw.errorList + b.errorList, metaInfo := PutAll(raw.metaInfo, b.metaInfo));
    var ranged :- AddDataRanges(withMeta, b.axes);
    Ok(ranged.(labels := PutAll(ranged.labels, b.dataLabels), styles := PutAll(ranged.styles, b.dataStyles)))
  }

  /** The cases of `buildRawDataSet`: no arrays give an empty data set; x
      without y is an illegal state; y alone gets the point index as x;
      with both, the first `BuiltSize` points are used, with errors exactly
      when an error array is present. */
  lemma BuildRawCases(b: Builder, dsName: string)
    ensures b.xValues.None? && b.yValues.None? ==>
              BuildRawDataSet(b, dsName) == Ok(NewSet(dsName, [], [], None))
    ensures b.xValues.Some? && b.yValues.None? ==> BuildRawDataSet(b, dsName) == Err(IllegalState)
    ensures b.xValues.None? && b.yValues.Some? ==>
              var r := BuildRawDataSet(b, dsName).value;
              BuildRawDataSet(b, dsName).Ok?
              && |r.xs| == |r.ys| && r.ys <= b.yValues.value
              && (forall i | 0 <= i < |r.xs| :: r.xs[i] == i as real)
              && (b.initialCapacity >= 0 ==> |r.xs| <= b.initialCapacity)
              && (b.initialCapacity < 0 ==> |r.xs| == |b.yValues.value|)
    ensures b.xValues.Some? && b.yValues.Some? && BuildRawDataSet(b, dsName).Ok? ==>
              var r := BuildRawDataSet(b, dsName).value;
              var n := BuiltSize(b.xValues.value, b.yValues.value, b.initialCapacity);
              r.xs == b.xValues.value[..n] && r.ys == b.yValues.value[..n]
              && (r.yErrors.Some? <==> b.yErrorsPos.Some? || b.yErrorsNeg.Some?)
  {
  }

  /** With one error array given, it is used for both sides. */
  lemma SingleErrorArrayServesBothSides(b: Builder, dsName: string)
    requires b.xValues.Some? && b.yValues.Some?
    requires b.yErrorsPos.Some? != b.yErrorsNeg.Some?
    ensures var e := if b.yErrorsPos.Some? then b.yErrorsPos.value else b.yErrorsNeg.value;
            var n := BuiltSize(b.xValues.value, b.yValues.value, b.initialCapacity);
            (|e| >= n ==> BuildRawDataSet(b, dsName).Ok?
                          && BuildRawDataSet(b, dsName).value.yErrors == Some(YErrors(e[..n], e[..n])))
            && (|e| < n ==> BuildRawDataSet(b, dsName) == Err(IllegalArgument))
  {
  }

  /** `build()` hands the builder's messages, meta information, labels and
      styles to the data set, and its axis descriptions when there are
      any; an unnamed builder names the data set after the clock. */
  lemma BuildCarriesMetaData(b: Builder, millis: nat)
    requires |b.axes| <= MAX_AXIS_DIMENSION
    requires BuildRawDataSet(b, "").Ok?
    ensures Build(b, millis).Ok?
    ensures var r := Build(b, millis).value;
            r.infoList == b.infoList && r.warningList == b.warningList && r.errorList == b.errorList
            && r.metaInfo == b.metaInfo && r.labels == b.dataLabels && r.styles == b.dataStyles
            && r.axes == (if |b.axes| == 0 then [DEFAULT_AXIS, DEFAULT_AXIS] else b.axes)
            && r.name == (if b.name.Some? then b.name.value else "DataSet@" + Decimal.NatToString(millis))
  {
    var dsName := if b.name.Some? then b.name.value else "DataSet@" + Decimal.NatToString(millis);
    RawNameIrrelevant(b, "", dsName);
  }

  /** Whether the raw build succeeds does not depend on the name, and the
      name is the one given. */
  lemma RawNameIrrelevant(b: Builder, n1: string, n2: string)
    ensures BuildRawDataSet(b, n1).Ok? == BuildRawDataSet(b, n2).Ok?
    ensures BuildRawDataSet(b, n2).Ok? ==>
              BuildRawDataSet(b, n2).value == BuildRawDataSet(b, n1).value.(name := n2)
              && BuildRawDataSet(b, n2).value.infoList == [] && BuildRawDataSet(b, n2).value.metaInfo == map[]
              && BuildRawDataSet(b, n2).value.labels == map[] && BuildRawDataSet(b, n2).value.styles == map[]
              && BuildRawDataSet(b, n2).value.warningList == [] && BuildRawDataSet(b, n2).value.errorList == []
              && BuildRawDataSet(b, n2).value.axes == [DEFAULT_AXIS, DEFAULT_AXIS]
  {
  }
}

=== FILE: dataset_serialiser.dfy ===
/** `DataSetSerialiser`: writes a data set as a flat list of named, typed
    fields closed by an end marker, and reads such a list back into a
    `DataSetBuilder`, looking fields up by name. The byte encoding of the
    fields is not modelled: a stream is a sequence of records, and a
    field's payload carries its value, from which its type tag follows. */
module DataSetSerialiser {
  import opened Wrappers
  import opened Doubles
  import opened JavaStrings
  import Decimal
  import opened DataSetBuilder

  // ---- field names ---------------------------------------------------

  const DATA_SET_NAME: string := "dataSetName"
  const DIMENSIONS: string := "nDims"
  const ARRAY_PREFIX: string := "array"
  const EN_PREFIX: string := "en"
  const EP_PREFIX: string := "ep"
  const AXIS: string := "axis"
  const NAME: string := "name"
  const UNIT: string := "unit"
  const MIN: string := "Min"
  const MAX: string := "Max"
  const META_INFO: string := "metaInfo"
  const ERROR_LIST: string := "errorList"
  const WARNING_LIST: string := "warningList"
  const INFO_LIST: string := "infoList"
  const DATA_STYLES: string := "dataStyles"
  const DATA_LABELS: string := "dataLabels"
  const OBJ_ROOT_END: string := "OBJ_ROOT_END"

  /** `"axis" + i + "." + suffix`. */
  function AxisKey(i: nat, suffix: string): string {
    AXIS + Decimal.NatToString(i) + "." + suffix
  }

  /** `prefix + i`, for the `array`, `en` and `ep` prefixes. */
  function DimKey(prefix: string, i: nat): string {
    prefix + Decimal.NatToString(i)
  }

  // ---- stream model --------------------------------------------------

  /** The type tags of the wire format. */
  datatype DataType =
    | BOOL | BYTE | SHORT | INT | LONG | FLOAT | DOUBLE | CHAR | STRING
    | BOOL_ARRAY | BYTE_ARRAY | SHORT_ARRAY | INT_ARRAY | LONG_ARRAY
    | FLOAT_ARRAY | DOUBLE_ARRAY | CHAR_ARRAY | STRING_ARRAY
    | MAP | COLLECTION | START_MARKER

  /** Tags whose payload this model does not look into. */
  type OpaqueTag = t: DataType | t !in {INT, DOUBLE, STRING, STRING_ARRAY, FLOAT_ARRAY, DOUBLE_ARRAY, MAP}
    witness BOOL

  /** A field's value. Both map kinds travel under the `MAP` tag. */
  datatype Payload =
    | PInt(i: int)
    | PDouble(d: Double)
    | PString(s: string)
    | PStrings(ss: seq<string>)
    | PFloats(fs: seq<real>)
    | PDoubles(ds: seq<real>)
    | PTextMap(tm: map<string, string>)
    | PIndexMap(im: map<int, string>)
    | POpaque(tag: OpaqueTag)

  /** The type tag a payload is written with. */
  function TagOf(p: Payload): DataType {
    match p
    case PInt(_) => INT
    case PDouble(_) => DOUBLE
    case PString(_) => STRING
    case PStrings(_) => STRING_ARRAY
    case PFloats(_) => FLOAT_ARRAY
    case PDoubles(_) => DOUBLE_ARRAY
    case PTextMap(_) => MAP
    case PIndexMap(_) => MAP
    case POpaque(t) => t
  }

  /** One field: the name of its `FieldHeader` and its payload. */
  datatype Field = Field(name: string, payload: Payload)

  /** What `putHeaderInfo`, `put` and `putEndMarker` append to a stream. */
  datatype Record = HeaderInfo | Put(field: Field) | EndMarker(marker: string)

  /** The fields of the root object, as the structural parse of a stream
      lists them (`parseIoStream` is not part of this model): the fields
      of the `Put` records, in stream order. */
  function RootChildren(stream: seq<Record>): (fs: seq<Field>)
    ensures |fs| <= |stream|
  {
    if |stream| == 0 then []
    else (if stream[0].Put? then [stream[0].field] else []) + RootChildren(stream[1..])
  }

  // ---- lookup --------------------------------------------------------

  /** `FieldHeader.findHeaderFor`: the first field of that name. */
  function FindHeader(fs: seq<Field>, name: string): (r: Option<Field>)
    ensures r.None? <==> forall i | 0 <= i < |fs| :: fs[i].name != name
    ensures r.Some? ==> r.value.name == name && r.value in fs
  {
    if |fs| == 0 then None
    else if fs[0].name == name then Some(fs[0])
    else FindHeader(fs[1..], name)
  }

  /** Looking up in a concatenation looks in the first part first. */
  lemma {:induction false} FindAppend(xs: seq<Field>, ys: seq<Field>, name: string)
    ensures FindHeader(xs + ys, name) ==
              if FindHeader(xs, name).Some? then FindHeader(xs, name) else FindHeader(ys, name)
  {
    if |xs| > 0 {
      assert (xs + ys)[0] == xs[0];
      assert (xs + ys)[1..] == xs[1..] + ys;
      FindAppend(xs[1..], ys, name);
    } else {
      assert xs + ys == ys;
    }
  }

  /** `checkFieldCompatibility(fields, name, types...)`: an absent field
      gives nothing; a present one whose tag is not among the required
      ones throws `InputMismatchException`; otherwise the field is
      returned (Java also seeks the buffer to its data). */
  function CheckFieldCompatibility(fs: seq<Field>, name: string, required: set<DataType>): (r: Result<Option<Field>>)
    ensures (forall i | 0 <= i < |fs| :: fs[i].name != name) ==> r == Ok(None)
    ensures r.Ok? && r.value.Some? ==> r.value == FindHeader(fs, name) && TagOf(r.value.value.payload) in required
    ensures r.Err? <==> FindHeader(fs, name).Some? && TagOf(FindHeader(fs, name).value.payload) !in required
    ensures r.Err? ==> r.failure == InputMismatch
  {
    match FindHeader(fs, name)
    case None => Ok(None)
    case Some(f) => if TagOf(f.payload) in required then Ok(Some(f)) else Err(InputMismatch)
  }

  // ---- reader --------------------------------------------------------

  /** The two flags of the serialiser. */
  datatype Config = Config(transmitDataLabels: bool, transmitMetaData: bool)

  /** A new serialiser transmits labels and meta data: the field
      initialisers set both flags, although the class comment documents
      labels as off by default. */
  function NewConfig(): (c: Config)
    ensures c.transmitDataLabels && c.transmitMetaData
  {
    Config(true, true)
  }

  /** `getDimIndex(fieldName, prefix)`: the number after the first
      `|prefix|` characters, or -1 when there is no valid number; the
      number is read with ASCII digits only. */
  function GetDimIndex(s: string, prefix: string): (r: int)
    ensures |s| < |prefix| ==> r == -1
    ensures Decimal.INT_MIN <= r <= Decimal.INT_MAX
  {
    if |s| < |prefix| then -1
    else match Decimal.ParseInt(s[|prefix|..])
      case None => -1
      case Some(v) => v
  }

  /** The index of a written key is read back. */
  lemma GetDimIndexOfKey(prefix: string, i: nat)
    requires i <= Decimal.INT_MAX
    ensures GetDimIndex(DimKey(prefix, i), prefix) == i
  {
    var s := DimKey(prefix, i);
    assert s[|prefix|..] == Decimal.NatToString(i);
    Decimal.ParseIntOfNatToString(i);
  }

  /** Only the length of the prefix matters to `getDimIndex`, so reading
      an `ep` name with the `en` prefix (and the reverse), as
      `readPosError` and `readNegError` do, gives the same index. */
  lemma GetDimIndexPrefixLength(s: string, p: string, q: string)
    requires |p| == |q|
    ensures GetDimIndex(s, p) == GetDimIndex(s, q)
  {
  }

  /** `getDouble()` and `getString()` on a field's data. Java reads whatever
      bytes are there; reading a payload of another kind is modelled as a
      mismatch. */
  function ReadDouble(p: Payload): (r: Result<Double>)
    ensures r.Ok? <==> p.PDouble?
  {
    if p.PDouble? then Ok(p.d) else Err(InputMismatch)
  }

  function ReadString(p: Payload): (r: Result<string>)
    ensures r.Ok? <==> p.PString?
  {
    if p.PString? then Ok(p.s) else Err(InputMismatch)
  }

  /** `parseHeader(builder, field)`: an `axis<i>.<suffix>` field sets part
      `suffix` of axis `i`. Names not starting with `axis`, without a `.`,
      with no valid non-negative index or with an unknown suffix are
      ignored. */
  function ParseHeader(b: Builder, f: Field): (r: Result<Builder>)
    ensures !StartsWith(f.name, AXIS) ==> r == Ok(b)
    ensures r.Ok? ==> r.value.(axes := b.axes) == b
  {
    if !StartsWith(f.name, AXIS) then Ok(b)
    else
      var parsed := Split(f.name, ".");
      if |parsed| <= 1 then Ok(b)
      else
        var dim := GetDimIndex(parsed[0], AXIS);
        if dim < 0 then Ok(b)
        else if parsed[1] == MIN then
          var v :- ReadDouble(f.payload);
          SetAxis(b, dim, SetMin(v))
        else if parsed[1] == MAX then
          var v :- ReadDouble(f.payload);
          SetAxis(b, dim, SetMax(v))
        else if parsed[1] == NAME then
          var s :- ReadString(f.payload);
          SetAxis(b, dim, SetAxisName(s))
        else if parsed[1] == UNIT then
          var s :- ReadString(f.payload);
          SetAxis(b, dim, SetUnit(s))
        else Ok(b)
  }

  /** `parseHeader` over the fields in order, stopping at the first
      exception. */
  function ParseAxes(b: Builder, fs: seq<Field>): (r: Result<Builder>)
    ensures r.Ok? ==> r.value.(axes := b.axes) == b
    decreases |fs|
  {
    if |fs| == 0 then Ok(b)
    else
      var b' :- ParseHeader(b, fs[0]);
      ParseAxes(b', fs[1..])
  }

  /** `parseHeaders`: the name and the number of dimensions when present,
      then every axis field. */
  function ParseHeaders(b: Builder, fs: seq<Field>): (r: Result<Builder>)
    ensures r.Ok? ==> r.value.(name := b.name, dimension := b.dimension, axes := b.axes) == b
  {
    var nameField :- CheckFieldCompatibility(fs, DATA_SET_NAME, {STRING});
    var b1 := if nameField.Some? then SetName(b, Some(nameField.value.payload.s)) else b;
    var dimField :- CheckFieldCompatibility(fs, DIMENSIONS, {INT});
    var b2 := if dimField.Some? then SetDimension(b1, dimField.value.payload.i) else b1;
    ParseAxes(b2, fs)
  }

  /** One message list of `parseMetaData`: appended when present. */
  function ReadMessages(b: Builder, fs: seq<Field>, name: string, l: ListField): (r: Result<Builder>)
    ensures FindHeader(fs, name).None? ==> r == Ok(b)
    ensures FindHeader(fs, name).Some? && FindHeader(fs, name).value.payload.PStrings? ==>
              r == Ok(AppendList(b, l, FindHeader(fs, name).value.payload.ss))
    ensures r.Err? <==> FindHeader(fs, name).Some? && !FindHeader(fs, name).value.payload.PStrings?
    ensures r.Err? ==> r.failure == InputMismatch
  {
    var f :- CheckFieldCompatibility(fs, name, {STRING_ARRAY});
    Ok(if f.Some? then AppendList(b, l, f.value.payload.ss) else b)
  }

  /** The meta information map of `parseMetaData`: merged when present.
      Any `MAP` field is accepted; one with `int` keys cannot be merged
      into the string-keyed map and leaves the builder as it was. */
  function ReadMetaInfo(b: Builder, fs: seq<Field>): (r: Result<Builder>)
    ensures FindHeader(fs, META_INFO).None? ==> r == Ok(b)
    ensures FindHeader(fs, META_INFO).Some? && FindHeader(fs, META_INFO).value.payload.PTextMap? ==>
              r == Ok(SetMetaInfoMap(b, Some(FindHeader(fs, META_INFO).value.payload.tm)))
    ensures FindHeader(fs, META_INFO).Some? && FindHeader(fs, META_INFO).value.payload.PIndexMap? ==> r == Ok(b)
    ensures r.Err? <==> FindHeader(fs, META_INFO).Some? && TagOf(FindHeader(fs, META_INFO).value.payload) != MAP
    ensures r.Err? ==> r.failure == InputMismatch
  {
    var f :- CheckFieldCompatibility(fs, META_INFO, {MAP});
    if f.Some? && f.value.payload.PTextMap? then Ok(SetMetaInfoMap(b, Some(f.value.payload.tm)))
    else Ok(b)
  }

  /** The three message lists of `parseMetaData`, each appended only when
      present; the rest of the builder is kept. */
  function ReadAllMessages(b: Builder, fs: seq<Field>): (r: Result<Builder>)
    ensures r.Ok? ==> r.value.(infoList := b.infoList, warningList := b.warningList, errorList := b.errorList) == b
    ensures r.Ok? ==> b.infoList <= r.value.infoList && b.warningList <= r.value.warningList
                      && b.errorList <= r.value.errorList
    ensures (FindHeader(fs, INFO_LIST).None? && FindHeader(fs, WARNING_LIST).None?
             && FindHeader(fs, ERROR_LIST).None?) ==> r == Ok(b)
    ensures FindHeader(fs, INFO_LIST).Some? && !FindHeader(fs, INFO_LIST).value.payload.PStrings? ==> r.Err?
    ensures r.Err? ==> r.failure == InputMismatch
  {
    var b1 :- ReadMessages(b, fs, INFO_LIST, Infos);
    var b2 :- ReadMessages(b1, fs, WARNING_LIST, Warnings);
    ReadMessages(b2, fs, ERROR_LIST, Errors)
  }

  /** `parseMetaData`: the three message lists are appended and the meta
      information map merged, each only when present; a field of the
      wrong type fails. Nothing else in the builder changes. */
  function ParseMetaData(b: Builder, fs: seq<Field>): (r: Result<Builder>)
    ensures r.Ok? ==> r.value.(infoList := b.infoList, warningList := b.warningList,
                               errorList := b.errorList, metaInfo := b.metaInfo) == b
    ensures r.Ok? ==> b.infoList <= r.value.infoList && b.warningList <= r.value.warningList
                      && b.errorList <= r.value.errorList && b.metaInfo.Keys <= r.value.metaInfo.Keys
    ensures (FindHeader(fs, INFO_LIST).None? && FindHeader(fs, WARNING_LIST).None?
             && FindHeader(fs, ERROR_LIST).None? && FindHeader(fs, META_INFO).None?) ==> r == Ok(b)
    ensures FindHeader(fs, INFO_LIST).Some? && !FindHeader(fs, INFO_LIST).value.payload.PStrings? ==> r.Err?
    ensures FindHeader(fs, META_INFO).Some? && TagOf(FindHeader(fs, META_INFO).value.payload) != MAP ==> r.Err?
    ensures r.Err? ==> r.failure == InputMismatch
  {
    var b3 :- ReadAllMessages(b, fs);
    ReadMetaInfo(b3, fs)
  }

  /** The label or the style map of `parseDataLabels`: merged when
      present. Any `MAP` field is accepted; one with string keys cannot be
      merged into the index-keyed map and leaves the builder as it was. */
  function ReadIndexMap(b: Builder, fs: seq<Field>, name: string): (r: Result<Builder>)
    requires name == DATA_LABELS || name == DATA_STYLES
    ensures FindHeader(fs, name).None? ==> r == Ok(b)
    ensures FindHeader(fs, name).Some? && FindHeader(fs, name).value.payload.PIndexMap? ==>
              var m := Some(FindHeader(fs, name).value.payload.im);
              r == Ok(if name == DATA_LABELS then SetDataLabelMap(b, m) else SetDataStyleMap(b, m))
    ensures FindHeader(fs, name).Some? && FindHeader(fs, name).value.payload.PTextMap? ==> r == Ok(b)
    ensures r.Err? <==> FindHeader(fs, name).Some? && TagOf(FindHeader(fs, name).value.payload) != MAP
    ensures r.Err? ==> r.failure == InputMismatch
    ensures r.Ok? ==> r.value.(dataLabels := b.dataLabels, dataStyles := b.dataStyles) == b
    ensures r.Ok? ==> b.dataLabels.Keys <= r.value.dataLabels.Keys && b.dataStyles.Keys <= r.value.dataStyles.Keys
  {
    var f :- CheckFieldCompatibility(fs, name, {MAP});
    if f.None? || !f.value.payload.PIndexMap? then Ok(b)
    else if name == DATA_LABELS then Ok(SetDataLabelMap(b, Some(f.value.payload.im)))
    else Ok(SetDataStyleMap(b, Some(f.value.payload.im)))
  }

  /** `parseDataLabels`: the label and the style map, each merged only
      when present; a field of the wrong type fails. Nothing else in the
      builder changes. */
  function ParseDataLabels(b: Builder, fs: seq<Field>): (r: Result<Builder>)
    ensures r.Err? <==> (FindHeader(fs, DATA_LABELS).Some? && TagOf(FindHeader(fs, DATA_LABELS).value.payload) != MAP)
                        || (FindHeader(fs, DATA_STYLES).Some? && TagOf(FindHeader(fs, DATA_STYLES).value.payload) != MAP)
    ensures r.Err? ==> r.failure == InputMismatch
    ensures r.Ok? ==> r.value.(dataLabels := b.dataLabels, dataStyles := b.dataStyles) == b
    ensures r.Ok? ==> b.dataLabels.Keys <= r.value.dataLabels.Keys && b.dataStyles.Keys <= r.value.dataStyles.Keys
  {
    var r1 := ReadIndexMap(b, fs, DATA_LABELS);
    if r1.Err? then Err(r1.failure) else ReadIndexMap(r1.value, fs, DATA_STYLES)
  }

  /** `getDoubleArray(type)`: float arrays are widened to doubles, which
      loses nothing. */
  function Widen(p: Payload): seq<real>
    requires p.PFloats? || p.PDoubles?
  {
    if p.PFloats? then p.fs else p.ds
  }

  /** One step of `parseNumericData`: a float or double array named
      `array<i>` becomes the values of dimension `i`, `ep<i>` its positive
      and `en<i>` its negative errors; every other field is skipped. Java
      takes the `ep` index with the `en` prefix and the reverse;
      both are two characters long, so the index is the same. */
  function NumericStep(b: Builder, f: Field): (r: Builder)
    ensures TagOf(f.payload) != DOUBLE_ARRAY && TagOf(f.payload) != FLOAT_ARRAY ==> r == b
    ensures r.(values := b.values, posErrors := b.posErrors, negErrors := b.negErrors) == b
  {
    if TagOf(f.payload) != DOUBLE_ARRAY && TagOf(f.payload) != FLOAT_ARRAY then b
    else
      var a := Widen(f.payload);
      if StartsWith(f.name, ARRAY_PREFIX) then
        var d := GetDimIndex(f.name, ARRAY_PREFIX);
        if d >= 0 then SetValues(b, d, a) else b
      else if StartsWith(f.name, EP_PREFIX) then
        var d := GetDimIndex(f.name, EN_PREFIX);
        if d >= 0 then SetPosError(b, d, a) else b
      else if StartsWith(f.name, EN_PREFIX) then
        var d := GetDimIndex(f.name, EP_PREFIX);
        if d >= 0 then SetNegError(b, d, a) else b
      else b
  }

  /** `parseNumericData`: every field in order. */
  function ParseNumericData(b: Builder, fs: seq<Field>): (r: Builder)
    ensures r.(values := b.values, posErrors := b.posErrors, negErrors := b.negErrors) == b
    decreases |fs|
  {
    if |fs| == 0 then b else ParseNumericData(NumericStep(b, fs[0]), fs[1..])
  }

  /** What `readDataSetFromByteArray` feeds into its builder: headers,
      then meta data and labels when their flags are set, then the numeric
      arrays. The builder's x and y arrays are never set, and what a
      cleared flag covers stays empty. */
  function DecodeFields(fs: seq<Field>, cfg: Config): (r: Result<Builder>)
    ensures r.Ok? ==> r.value.xValues.None? && r.value.yValues.None?
                      && r.value.yErrorsPos.None? && r.value.yErrorsNeg.None?
    ensures r.Ok? && !cfg.transmitMetaData ==>
              r.value.infoList == [] && r.value.warningList == [] && r.value.errorList == [] && r.value.metaInfo == map[]
    ensures r.Ok? && !cfg.transmitDataLabels ==> r.value.dataLabels == map[] && r.value.dataStyles == map[]
  {
    var b0 := NewBuilder(Some(DEFAULT_NAME));
    var b1 :- ParseHeaders(b0, fs);
    var b2 :- if cfg.transmitMetaData then ParseMetaData(b1, fs) else Ok(b1);
    var b3 :- if cfg.transmitDataLabels then ParseDataLabels(b2, fs) else Ok(b2);
    Ok(ParseNumericData(b3, fs))
  }

  /** `readDataSetFromByteArray()`: decode the root's fields and build;
      `millis` is the clock reading `build` uses for an unnamed data set. */
  function ReadDataSetFromByteArray(stream: seq<Record>, cfg: Config, millis: nat): (r: Result<BuiltSet>)
    ensures r.Ok? ==> r.value.xs == [] && r.value.ys == [] && r.value.yErrors.None?
    ensures r.Ok? && !cfg.transmitMetaData ==>
              r.value.infoList == [] && r.value.warningList == [] && r.value.errorList == [] && r.value.metaInfo == map[]
    ensures r.Ok? && !cfg.transmitDataLabels ==> r.value.labels == map[] && r.value.styles == map[]
  {
    var b :- DecodeFields(RootChildren(stream), cfg);
    Build(b, millis)
  }

  // ---- writer --------------------------------------------------------

  /** The error type of one dimension of a `DataSetError`. */
  datatype ErrorType = NO_ERROR | SYMMETRIC | ASYMMETRIC

  /** One dimension: its values and, for error data sets, its error type
      and negative and positive errors. */
  datatype DimData = DimData(values: seq<real>, errorType: ErrorType, neg: seq<real>, pos: seq<real>)

  /** What a `DataSetMetaData` adds: the three message lists and the meta
      information map. */
  datatype Messages = Messages(infos: seq<string>, warnings: seq<string>, errors: seq<string>,
                               metaInfo: map<string, string>)

  /** The data set as the writer sees it. `hasErrors` says whether it is a
      `DataSetError`, `meta` whether it is a `DataSetMetaData`; `labels`
      and `styles` hold `getDataLabel(i)` and `getStyle(i)`, with `None`
      for a null label (and for an index past the end of the list). */
  datatype DataSet = DataSet(
    name: string, axes: seq<AxisDesc>, dims: seq<DimData>, hasErrors: bool,
    meta: Option<Messages>, labels: seq<Option<string>>, styles: seq<Option<string>>)

  /** `getDataCount(DIM_X)`. */
  function DataCount(ds: DataSet): nat {
    if |ds.dims| == 0 then 0 else |ds.dims[0].values|
  }

  function At(xs: seq<Option<string>>, i: nat): Option<string> {
    if i < |xs| then xs[i] else None
  }

  /** `writeHeaderDataToStream`: the four fields of axis `i`. */
  function AxisGroup(i: nat, a: AxisDesc): seq<Field> {
    [Field(AxisKey(i, NAME), PString(a.name)), Field(AxisKey(i, UNIT), PString(a.unit)),
     Field(AxisKey(i, MIN), PDouble(a.min)), Field(AxisKey(i, MAX), PDouble(a.max))]
  }

  /** The axis fields, axis by axis. */
  function AxisFields(axes: seq<AxisDesc>): (fs: seq<Field>)
    ensures |fs| == 4 * |axes|
  {
    if |axes| == 0 then []
    else
      var n := |axes| - 1;
      AxisFields(axes[..n]) + AxisGroup(n, axes[n])
  }

  /** `writeHeaderDataToStream`: the name, the number of dimensions, the
      axis descriptions. */
  function HeaderFields(ds: DataSet): (fs: seq<Field>)
    ensures |fs| == 2 + 4 * |ds.axes|
    ensures fs[0] == Field(DATA_SET_NAME, PString(ds.name))
    ensures fs[1] == Field(DIMENSIONS, PInt(|ds.dims|))
    ensures fs[2..] == AxisFields(ds.axes)
  {
    [Field(DATA_SET_NAME, PString(ds.name)), Field(DIMENSIONS, PInt(|ds.dims|))] + AxisFields(ds.axes)
  }

  /** `writeMetaDataToStream`: nothing unless the data set carries meta
      data; then all four fields, empty or not. */
  function MetaFields(ds: DataSet): (fs: seq<Field>)
    ensures ds.meta.None? ==> fs == []
    ensures ds.meta.Some? ==> |fs| == 4 && fs[0].name == INFO_LIST && fs[3] == Field(META_INFO, PTextMap(ds.meta.value.metaInfo))
  {
    match ds.meta
    case None => []
    case Some(m) =>
      [Field(INFO_LIST, PStrings(m.infos)), Field(WARNING_LIST, PStrings(m.warnings)),
       Field(ERROR_LIST, PStrings(m.errors)), Field(META_INFO, PTextMap(m.metaInfo))]
  }

  /** The indices below `n` whose entry is present and not empty, with
      their entries. */
  function CollectNonEmpty(xs: seq<Option<string>>, n: nat): (m: map<int, string>)
    ensures forall i :: i in m <==> 0 <= i < n && At(xs, i).Some? && At(xs, i).value != ""
    ensures forall i | i in m :: m[i] == At(xs, i).value
  {
    if n == 0 then map[]
    else
      var m := CollectNonEmpty(xs, n - 1);
      var e := At(xs, n - 1);
      if e.Some? && e.value != "" then m[n - 1 := e.value] else m
  }

  /** `writeDataLabelsToStream`: the label map and the style map, each
      left out when empty. */
  function LabelFields(ds: DataSet): (fs: seq<Field>)
    ensures var labels := CollectNonEmpty(ds.labels, DataCount(ds));
            Field(DATA_LABELS, PIndexMap(labels)) in fs <==> labels != map[]
    ensures var styles := CollectNonEmpty(ds.styles, DataCount(ds));
            Field(DATA_STYLES, PIndexMap(styles)) in fs <==> styles != map[]
    ensures forall f | f in fs :: f == Field(DATA_LABELS, PIndexMap(CollectNonEmpty(ds.labels, DataCount(ds))))
                                  || f == Field(DATA_STYLES, PIndexMap(CollectNonEmpty(ds.styles, DataCount(ds))))
    ensures |fs| <= 2 && (|fs| == 2 ==> fs[0].name == DATA_LABELS && fs[1].name == DATA_STYLES)
  {
    var labels := CollectNonEmpty(ds.labels, DataCount(ds));
    var styles := CollectNonEmpty(ds.styles, DataCount(ds));
    (if labels == map[] then [] else [Field(DATA_LABELS, PIndexMap(labels))])
    + (if styles == map[] then [] else [Field(DATA_STYLES, PIndexMap(styles))])
  }

  /** An array as written: `toFloats` through `narrow` for the float
      writer, unchanged for the double writer. */
  function Enc(a: seq<real>, asFloat: bool, narrow: real -> real): (p: Payload)
    ensures p.PFloats? || p.PDoubles?
  {
    if asFloat then PFloats(seq(|a|, i requires 0 <= i < |a| => narrow(a[i]))) else PDoubles(a)
  }

  /** The array as read back from its payload. */
  function Dec(a: seq<real>, asFloat: bool, narrow: real -> real): seq<real> {
    Widen(Enc(a, asFloat, narrow))
  }

  /** One `array<i>` field per dimension. */
  function ArrayFields(dims: seq<DimData>, asFloat: bool, narrow: real -> real): (fs: seq<Field>)
    ensures |fs| == |dims|
    ensures forall i | 0 <= i < |dims| :: fs[i] == Field(DimKey(ARRAY_PREFIX, i), Enc(dims[i].values, asFloat, narrow))
  {
    if |dims| == 0 then []
    else
      var n := |dims| - 1;
      ArrayFields(dims[..n], asFloat, narrow) + [Field(DimKey(ARRAY_PREFIX, n), Enc(dims[n].values, asFloat, narrow))]
  }

  /** The error fields of dimension `i`: none, `ep<i>`, or `en<i>` then
      `ep<i>`. */
  function ErrorFieldsOf(i: nat, d: DimData, asFloat: bool, narrow: real -> real): (fs: seq<Field>)
    ensures d.errorType == NO_ERROR ==> fs == []
    ensures d.errorType == SYMMETRIC ==> fs == [Field(DimKey(EP_PREFIX, i), Enc(d.pos, asFloat, narrow))]
    ensures d.errorType == ASYMMETRIC ==>
              fs == [Field(DimKey(EN_PREFIX, i), Enc(d.neg, asFloat, narrow)), Field(DimKey(EP_PREFIX, i), Enc(d.pos, asFloat, narrow))]
  {
    match d.errorType
    case NO_ERROR => []
    case SYMMETRIC => [Field(DimKey(EP_PREFIX, i), Enc(d.pos, asFloat, narrow))]
    case ASYMMETRIC => [Field(DimKey(EN_PREFIX, i), Enc(d.neg, asFloat, narrow)), Field(DimKey(EP_PREFIX, i), Enc(d.pos, asFloat, narrow))]
  }

  /** The error fields, dimension by dimension. */
  function ErrorFields(dims: seq<DimData>, asFloat: bool, narrow: real -> real): (fs: seq<Field>)
    ensures |fs| <= 2 * |dims|
    ensures (forall i | 0 <= i < |dims| :: dims[i].errorType == NO_ERROR) ==> fs == []
    ensures forall i | 0 <= i < |dims| && dims[i].errorType != NO_ERROR ::
              Field(DimKey(EP_PREFIX, i), Enc(dims[i].pos, asFloat, narrow)) in fs
    ensures forall i | 0 <= i < |dims| && dims[i].errorType == ASYMMETRIC ::
              Field(DimKey(EN_PREFIX, i), Enc(dims[i].neg, asFloat, narrow)) in fs
  {
    if |dims| == 0 then []
    else
      var n := |dims| - 1;
      ErrorFields(dims[..n], asFloat, narrow) + ErrorFieldsOf(n, dims[n], asFloat, narrow)
  }

  /** `writeNumericBinaryDataToBufferFloat`/`...Double`: the value arrays,
      then the error arrays when the data set is a `DataSetError`. */
  function NumericFields(ds: DataSet, asFloat: bool, narrow: real -> real): (fs: seq<Field>)
    ensures |ds.dims| <= |fs| && (!ds.hasErrors ==> |fs| == |ds.dims|)
    ensures forall i | 0 <= i < |ds.dims| ::
              fs[i] == Field(DimKey(ARRAY_PREFIX, i), Enc(ds.dims[i].values, asFloat, narrow))
    ensures ds.hasErrors ==> forall i | 0 <= i < |ds.dims| && ds.dims[i].errorType != NO_ERROR ::
              Field(DimKey(EP_PREFIX, i), Enc(ds.dims[i].pos, asFloat, narrow)) in fs[|ds.dims|..]
    ensures ds.hasErrors ==> forall i | 0 <= i < |ds.dims| && ds.dims[i].errorType == ASYMMETRIC ::
              Field(DimKey(EN_PREFIX, i), Enc(ds.dims[i].neg, asFloat, narrow)) in fs[|ds.dims|..]
  {
    ArrayFields(ds.dims, asFloat, narrow) + (if ds.hasErrors then ErrorFields(ds.dims, asFloat, narrow) else [])
  }

  /** The fields `writeDataSetToByteArray` puts, in order: the header
      first and the numeric arrays last, with the meta-data and the label
      fields between them, each only when its flag is set. */
  function WriteFields(ds: DataSet, cfg: Config, asFloat: bool, narrow: real -> real): (fs: seq<Field>)
    ensures |fs| == |HeaderFields(ds)| + (if cfg.transmitMetaData then |MetaFields(ds)| else 0)
                    + (if cfg.transmitDataLabels then |LabelFields(ds)| else 0) + |NumericFields(ds, asFloat, narrow)|
    ensures fs[..|HeaderFields(ds)|] == HeaderFields(ds)
    ensures fs[|fs| - |NumericFields(ds, asFloat, narrow)|..] == NumericFields(ds, asFloat, narrow)
  {
    HeaderFields(ds)
    + (if cfg.transmitMetaData then MetaFields(ds) else [])
    + (if cfg.transmitDataLabels then LabelFields(ds) else [])
    + NumericFields(ds, asFloat, narrow)
  }

  function Puts(fs: seq<Field>): (rs: seq<Record>)
    ensures |rs| == |fs| && forall i | 0 <= i < |fs| :: rs[i] == Put(fs[i])
  {
    seq(|fs|, i requires 0 <= i < |fs| => Put(fs[i]))
  }

  /** The root's fields of two streams laid end to end. */
  lemma {:induction false} RootChildrenAppend(a: seq<Record>, b: seq<Record>)
    ensures RootChildren(a + b) == RootChildren(a) + RootChildren(b)
    decreases |a|
  {
    if |a| == 0 {
      assert a + b == b;
    } else {
      var head := if a[0].Put? then [a[0].field] else [];
      assert (a + b)[0] == a[0];
      assert (a + b)[1..] == a[1..] + b;
      RootChildrenAppend(a[1..], b);
      calc {
        RootChildren(a + b);
        head + RootChildren(a[1..] + b);
        head + (RootChildren(a[1..]) + RootChildren(b));
        (head + RootChildren(a[1..])) + RootChildren(b);
      }
    }
  }

  /** Reading back the records written for a field list gives that list. */
  lemma {:induction false} RootChildrenPuts(fs: seq<Field>)
    ensures RootChildren(Puts(fs)) == fs
    decreases |fs|
  {
    if |fs| > 0 {
      assert Puts(fs)[1..] == Puts(fs[1..]);
      RootChildrenPuts(fs[1..]);
    }
  }

  /** `writeDataSetToByteArray(dataSet, asFloat)`: the stream opens with
      the header info and closes with the root's end marker, and the
      root object's children are exactly the fields written. */
  function WriteDataSetToByteArray(ds: DataSet, cfg: Config, asFloat: bool, narrow: real -> real): (stream: seq<Record>)
    ensures |stream| == |WriteFields(ds, cfg, asFloat, narrow)| + 2
    ensures stream[0] == HeaderInfo && stream[|stream| - 1] == EndMarker(OBJ_ROOT_END)
    ensures RootChildren(stream) == WriteFields(ds, cfg, asFloat, narrow)
  {
    var fs := WriteFields(ds, cfg, asFloat, narrow);
    RootChildrenFramed(fs);
    [HeaderInfo] + Puts(fs) + [EndMarker(OBJ_ROOT_END)]
  }

  /** Between the header info and the root's end marker, the root's
      children are the fields put. */
  lemma RootChildrenFramed(fs: seq<Field>)
    ensures RootChildren([HeaderInfo] + Puts(fs) + [EndMarker(OBJ_ROOT_END)]) == fs
  {
    RootChildrenAppend([HeaderInfo] + Puts(fs), [EndMarker(OBJ_ROOT_END)]);
    RootChildrenAppend([HeaderInfo], Puts(fs));
    RootChildrenPuts(fs);
    assert RootChildren([EndMarker(OBJ_ROOT_END)]) == [];
    assert RootChildren([HeaderInfo]) == [];
  }
}

=== FILE: dataset_utils.dfy ===
/** `DataSetUtils`: error-array helpers, the choice of compression from a file
    name, the `key : value` lines of the text format, the layout of the binary
    header, and the input stream that splits a file into its text part and
    its binary part at the byte 0xFE. */
module DataSetUtils {
  import opened Wrappers
  import opened JavaStrings
  import Decimal

  // ---------------------------------------------------------------------------
  // Error arrays

  /** `cropToLength(in, length)`: the input itself when the length matches,
      otherwise `Arrays.copyOf`, which truncates or pads with zeros and throws
      `NegativeArraySizeException` for a negative length. */
  function CropToLength(input: seq<real>, length: int): (r: Result<seq<real>>)
    ensures r.Err? <==> length < 0
    ensures r.Err? ==> r.failure == NegativeArraySize
    ensures r.Ok? ==> |r.value| == length
    ensures r.Ok? ==> forall i | 0 <= i < length :: r.value[i] == if i < |input| then input[i] else 0.0
    ensures |input| == length ==> r == Ok(input)
  {
    if |input| == length then Ok(input)
    else if length < 0 then Err(NegativeArraySize)
    else Ok(seq(length, i requires 0 <= i < length => if i < |input| then input[i] else 0.0))
  }

  /** Which error array to read. */
  datatype ErrType = EXN | EXP | EYN | EYP

  /** What the helpers see of a data set: its point count and, for a
      `DataSetError`, the four error arrays (which may be longer or shorter
      than the count). */
  datatype ErrorView =
    | NoErrors(count: nat)
    | WithErrors(count: nat, exn: seq<real>, exp: seq<real>, eyn: seq<real>, eyp: seq<real>)

  function Select(ds: ErrorView, t: ErrType): seq<real>
    requires ds.WithErrors?
  {
    match t
    case EXN => ds.exn
    case EXP => ds.exp
    case EYN => ds.eyn
    case EYP => ds.eyp
  }

  /** `errors(dataSet, eType)`: zeros for a set without errors, otherwise the
      selected error array cropped or padded to the point count. */
  function Errors(ds: ErrorView, t: ErrType): (r: seq<real>)
    ensures |r| == ds.count
    ensures ds.NoErrors? ==> forall i | 0 <= i < |r| :: r[i] == 0.0
    ensures ds.WithErrors? ==>
      forall i | 0 <= i < |r| :: r[i] == if i < |Select(ds, t)| then Select(ds, t)[i] else 0.0
  {
    match ds
    case NoErrors(n) => seq(n, _ => 0.0)
    case WithErrors(n, _, _, _, _) => CropToLength(Select(ds, t), n).value
  }

  /** The interpolating getters `getXErrorNegative(x)` and its three
      siblings of a data set with errors, which are not part of this model:
      the error of the given type at an x value, or what they throw. */
  type Interpolated = (ErrType, real) -> Result<real>

  /** `error(dataSet, eType, index, x, interpolate)`: zero for a set without
      errors; otherwise the interpolated error at `x` when `interpolate` is
      set, and the selected error of point `index` when it is not. */
  function Error(ds: ErrorView, t: ErrType, index: int, x: real, interpolate: bool, interpolated: Interpolated)
    : (r: Result<real>)
    ensures ds.NoErrors? ==> r == Ok(0.0)
    ensures ds.WithErrors? && interpolate ==> r == interpolated(t, x)
    ensures ds.WithErrors? && !interpolate ==> (r.Ok? <==> 0 <= index < |Select(ds, t)|)
    ensures ds.WithErrors? && !interpolate && r.Ok? ==> r.value == Select(ds, t)[index]
    ensures ds.WithErrors? && !interpolate && r.Err? ==> r.failure == IndexOutOfBounds
  {
    if ds.NoErrors? then Ok(0.0)
    else if interpolate then interpolated(t, x)
    else if 0 <= index < |Select(ds, t)| then Ok(Select(ds, t)[index])
    else Err(IndexOutOfBounds)
  }

  /** `error(dataSet, eType, index)`: the indexed read, which never consults
      the interpolating getters. */
  function ErrorAtIndex(ds: ErrorView, t: ErrType, index: int): (r: Result<real>)
    ensures forall f: Interpolated :: r == Error(ds, t, index, 0.0, false, f)
  {
    if ds.NoErrors? then Ok(0.0)
    else if 0 <= index < |Select(ds, t)| then Ok(Select(ds, t)[index])
    else Err(IndexOutOfBounds)
  }

  /** `error(dataSet, eType, x)`: the interpolated read, which ignores the
      index it passes on. */
  function ErrorAtX(ds: ErrorView, t: ErrType, x: real, interpolated: Interpolated): (r: Result<real>)
    ensures forall index: int :: r == Error(ds, t, index, x, true, interpolated)
    ensures ds.NoErrors? ==> r == Ok(0.0)
    ensures ds.WithErrors? ==> r == interpolated(t, x)
  {
    Error(ds, t, -1, x, true, interpolated)
  }

  /** Within the point count, the indexed `error` and `errors` agree. */
  lemma ErrorIsErrorsEntry(ds: ErrorView, t: ErrType, index: int)
    requires 0 <= index < ds.count
    requires ds.WithErrors? ==> index < |Select(ds, t)|
    ensures ErrorAtIndex(ds, t, index) == Ok(Errors(ds, t)[index])
  {
  }

  // ---------------------------------------------------------------------------
  // File names

  datatype Compression = GZIP | ZIP | NONE

  /** `evaluateAutoCompression(fileName)`: the extension, compared without
      regard to case, picks the compression. */
  function EvaluateAutoCompression(fileName: string): (r: Compression)
    ensures r == GZIP <==> EndsWith(ToLower(fileName), ".gz")
    ensures r == ZIP <==> !EndsWith(ToLower(fileName), ".gz") && EndsWith(ToLower(fileName), ".zip")
  {
    if EndsWith(ToLower(fileName), ".gz") then GZIP
    else if EndsWith(ToLower(fileName), ".zip") then ZIP
    else NONE
  }

  /** The entry name inside a ZIP file: the file name without its `.zip`
      extension, whatever its case. */
  function ZipEntryName(fileName: string): (r: string)
    ensures EndsWith(ToLower(fileName), ".zip") ==> r + fileName[|fileName| - 4..] == fileName
    ensures !EndsWith(ToLower(fileName), ".zip") ==> r == fileName
  {
    if EndsWith(ToLower(fileName), ".zip") then fileName[..|fileName| - 4] else fileName
  }

  lemma LowerIdempotent(s: string)
    ensures ToLower(ToLower(s)) == ToLower(s)
  {
  }

  /** The compression depends on the name only up to letter case. */
  lemma CompressionIgnoresCase(fileName: string)
    ensures EvaluateAutoCompression(ToLower(fileName)) == EvaluateAutoCompression(fileName)
  {
    LowerIdempotent(fileName);
  }

  /** A name ending in `.zip` in any case names an entry without the extension. */
  lemma ZipEntryNameStripsExtension(base: string, ext: string)
    requires |ext| == 4 && ToLower(ext) == ".zip"
    ensures ZipEntryName(base + ext) == base
  {
    var f := base + ext;
    assert ToLower(f)[|f| - 4..] == ToLower(ext);
    assert f[..|f| - 4] == base;
  }

  // ---------------------------------------------------------------------------
  // `key : value` lines of the text format

  const SEPARATOR := " : "
  const META_KEY := "#metaKey -"

  /** `getValue(line)`: the second `" : "`-separated piece, or null when there
      are fewer than two pieces. */
  function GetValue(line: Option<string>): (r: Option<string>)
    ensures line.None? ==> r.None?
    ensures line.Some? ==> (r.Some? <==> |Split(line.value, SEPARATOR)| >= 2)
    ensures r.Some? ==> r.value == Split(line.value, SEPARATOR)[1]
  {
    if line.None? then None
    else
      var parts := Split(line.value, SEPARATOR);
      if |parts| < 2 then None else Some(parts[1])
  }

  /** `getKey(line, replace)`: the first piece with every occurrence of
      `replace` removed, or null when there are fewer than two pieces. */
  function GetKey(line: Option<string>, replace: string): (r: Option<string>)
    requires |replace| > 0
    ensures line.None? ==> r.None?
    ensures line.Some? ==> (r.Some? <==> |Split(line.value, SEPARATOR)| >= 2)
    ensures r.Some? ==> r.value == RemoveAll(Split(line.value, SEPARATOR)[0], replace)
  {
    if line.None? then None
    else
      var parts := Split(line.value, SEPARATOR);
      if |parts| < 2 then None else Some(RemoveAll(parts[0], replace))
  }

  /** The line the text writer emits for a meta-information entry. */
  function MetaLine(key: string, value: string): string {
    META_KEY + key + SEPARATOR + value
  }

  /** A meta-information entry written as a text line reads back as the same
      key and value, provided neither contains the separator (not even across
      the join), the key does not contain the marker, and the value is not
      empty. */
  lemma MetaLineRoundTrip(key: string, value: string)
    requires !Contains(META_KEY + key + " :", SEPARATOR)
    requires !Contains(value, SEPARATOR) && value != ""
    requires !Contains(key, META_KEY)
    ensures GetKey(Some(MetaLine(key, value)), META_KEY) == Some(key)
    ensures GetValue(Some(MetaLine(key, value))) == Some(value)
  {
    assert SEPARATOR[..2] == " :";
    SplitTwo(META_KEY + key, SEPARATOR, value);
    assert MetaLine(key, value) == (META_KEY + key) + SEPARATOR + value;
    RemoveAllPrefix(META_KEY, key);
  }

  /** An info line reads back as the text written, except that an empty
      text is lost: the empty trailing piece is dropped by `split`. */
  lemma InfoLineRoundTrip(info: string)
    requires !Contains(info, SEPARATOR)
    ensures info != "" ==> GetValue(Some("#info" + SEPARATOR + info)) == Some(info)
    ensures info == "" ==> GetValue(Some("#info" + SEPARATOR + info)) == None
  {
    assert "#info" + SEPARATOR[..|SEPARATOR| - 1] == "#info :";
    NoSeparatorInInfoKey();
    if info != "" {
      SplitTwo("#info", SEPARATOR, info);
    } else {
      SplitTrailing("#info", SEPARATOR);
      assert "#info" + SEPARATOR + info == "#info" + SEPARATOR;
    }
  }

  lemma NoSeparatorInInfoKey()
    ensures !Contains("#info :", SEPARATOR)
  {
    var s := "#info :";
    forall i: nat | i <= |s|
      ensures !MatchAt(s, SEPARATOR, i)
    {
      if i + 3 <= |s| {
        assert s[i..i + 3][1] == s[i + 1];
      }
    }
  }

  // ---------------------------------------------------------------------------
  // Binary header

  /** The type token of the binary columns. */
  function TypeName(asFloat: bool): string {
    if asFloat then "float32[]" else "float64[]"
  }

  /** One column line of the binary header, without its line break:
      `$name;type;nsamples`. */
  function HeaderLine(name: string, asFloat: bool, nSamples: nat): string {
    "$" + Join([name, TypeName(asFloat), Decimal.NatToString(nSamples)], ";")
  }

  /** The column lines, in the order x, y, negative and positive y error,
      that follow the `$binary` line. */
  function HeaderLines(nSamples: nat, asFloat: bool): (lines: seq<string>)
    ensures |lines| == 4
  {
    [HeaderLine("x", asFloat, nSamples), HeaderLine("y", asFloat, nSamples),
     HeaderLine("eyn", asFloat, nSamples), HeaderLine("eyp", asFloat, nSamples)]
  }

  datatype Entry = Entry(name: string, typeName: string, nSamples: int)

  /** The binary reader's parse of one header line: drop the first character,
      split at `;`, and read name, type and sample count. A line too short
      throws `IndexOutOfBoundsException`, a malformed count
      `NumberFormatException`; the count is read with ASCII digits only. */
  function ParseEntry(line: string): (r: Result<Entry>)
    ensures |line| == 0 ==> r == Err(IndexOutOfBounds)
    ensures r.Ok? ==> |Split(line[1..], ";")| >= 3
    ensures r.Ok? ==> r.value.name == Split(line[1..], ";")[0] && r.value.typeName == Split(line[1..], ";")[1]
    ensures r.Ok? ==> Decimal.ParseInt(Split(line[1..], ";")[2]) == Some(r.value.nSamples)
  {
    if |line| == 0 then Err(IndexOutOfBounds)
    else
      var tokens := Split(line[1..], ";");
      if |tokens| < 3 then Err(IndexOutOfBounds)
      else match Decimal.ParseInt(tokens[2])
        case None => Err(NumberFormat)
        case Some(n) => Ok(Entry(tokens[0], tokens[1], n))
  }

  /** The reader recovers name, type and sample count from every header line
      the writer emits. */
  lemma HeaderLineRoundTrip(name: string, asFloat: bool, nSamples: nat)
    requires ';' !in name && nSamples <= Decimal.INT_MAX
    ensures ParseEntry(HeaderLine(name, asFloat, nSamples)) == Ok(Entry(name, TypeName(asFloat), nSamples))
  {
    var digits := Decimal.NatToString(nSamples);
    var parts := [name, TypeName(asFloat), digits];
    assert ';' !in digits by {
      assert forall i | 0 <= i < |digits| :: digits[i] != ';' by {
        assert Decimal.AllDigits(digits);
      }
    }
    assert ';' !in TypeName(asFloat);
    assert forall k | 0 <= k < |parts| :: ';' !in parts[k];
    SplitJoin(parts, ';');
    assert HeaderLine(name, asFloat, nSamples)[1..] == Join(parts, [';']);
    Decimal.ParseIntOfNatToString(nSamples);
  }

  /** The four column lines parse to the columns x, y, eyn, eyp with the
      written type and count. */
  lemma HeaderLinesRoundTrip(nSamples: nat, asFloat: bool)
    requires nSamples <= Decimal.INT_MAX
    ensures ParseEntry(HeaderLines(nSamples, asFloat)[0]) == Ok(Entry("x", TypeName(asFloat), nSamples))
    ensures ParseEntry(HeaderLines(nSamples, asFloat)[1]) == Ok(Entry("y", TypeName(asFloat), nSamples))
    ensures ParseEntry(HeaderLines(nSamples, asFloat)[2]) == Ok(Entry("eyn", TypeName(asFloat), nSamples))
    ensures ParseEntry(HeaderLines(nSamples, asFloat)[3]) == Ok(Entry("eyp", TypeName(asFloat), nSamples))
  {
    HeaderLineRoundTrip("x", asFloat, nSamples);
    HeaderLineRoundTrip("y", asFloat, nSamples);
    HeaderLineRoundTrip("eyn", asFloat, nSamples);
    HeaderLineRoundTrip("eyp", asFloat, nSamples);
  }

  /** `readDataSetFromByteArray`: a null or empty array throws
      `InvalidParameterException`; any other array is handed to the parser. */
  function CheckByteArray(bytes: Option<seq<byte>>): (r: Result<seq<byte>>)
    ensures r.Ok? <==> bytes.Some? && |bytes.value| > 0
    ensures r.Err? ==> r.failure == InvalidParameter
    ensures r.Ok? ==> r.value == bytes.value
  {
    if bytes.None? || |bytes.value| == 0 then Err(InvalidParameter) else Ok(bytes.value)
  }

  // ---------------------------------------------------------------------------
  // The split stream

  newtype byte = x: int | 0 <= x < 256

  /** The byte that separates the text header from the binary data. */
  const MARKER: byte := 0xFE

  /** The capacity of the `PushbackInputStream` under the split stream. */
  const PUSHBACK_SIZE: nat := 8192

  /** `SplitCharByteInputStream`: the bytes not yet read (the pushback buffer
      followed by the rest of the input), whether the marker has been met by
      an array read, and whether the caller has switched to binary reading. */
  datatype SplitStream = SplitStream(pending: seq<byte>, hasMarker: bool, binary: bool)

  /** A read's effect: the stream afterwards, the caller's array afterwards,
      and the returned count (-1 for end of stream). */
  datatype ReadOutcome = ReadOutcome(stream: SplitStream, buffer: seq<byte>, count: int)

  /** The position of the first marker. */
  function FirstMarker(data: seq<byte>): (r: Option<nat>)
    ensures r.Some? ==> r.value < |data| && data[r.value] == MARKER
    ensures r.Some? ==> MARKER !in data[..r.value]
    ensures r.None? <==> MARKER !in data
  {
    if |data| == 0 then None
    else if data[0] == MARKER then Some(0)
    else match FirstMarker(data[1..])
      case None => None
      case Some(i) => assert data[..i + 1] == [data[0]] + data[1..][..i]; Some(i + 1)
  }

  /** `read()` as written: the byte read, widened to `int`, is compared with
      the marker as a signed byte (-2), which no value from 0 to 255 equals,
      so the marker is handed out as 254 like any other byte. */
  function ReadByteAsWritten(st: SplitStream): (r: (SplitStream, int))
    ensures -1 <= r.1 < 256
    ensures r.1 == -1 <==> |st.pending| == 0
    ensures |st.pending| > 0 && st.pending[0] == MARKER ==> r.1 == MARKER as int && r.0.pending == st.pending[1..]
  {
    if |st.pending| == 0 then (st, -1)
    else (st.(pending := st.pending[1..]), st.pending[0] as int)
  }

  /** `read()` as evidently intended: one byte, or -1 at the end of the input;
      the marker is pushed back and reported as -1. The flags are neither
      consulted nor set. */
  function ReadByte(st: SplitStream): (r: (SplitStream, int))
    ensures -1 <= r.1 < 256 && r.1 != MARKER as int
    ensures r.1 == -1 ==> r.0 == st
    ensures r.1 >= 0 ==> |st.pending| > 0 && r.1 == st.pending[0] as int && r.0 == st.(pending := st.pending[1..])
  {
    if |st.pending| == 0 then (st, -1)
    else if st.pending[0] == MARKER then (st, -1)
    else (st.(pending := st.pending[1..]), st.pending[0] as int)
  }

  /** The underlying `in.read(b, off, len)`: as many bytes as are requested and
      pending, -1 at the end of the input, 0 for a zero length. */
  function UnderlyingRead(pending: seq<byte>, b: seq<byte>, off: nat, len: nat): (r: (seq<byte>, seq<byte>, int))
    requires off + len <= |b|
    ensures |r.1| == |b|
    ensures r.2 >= 0 ==> (r.2 <= len && r.2 <= |pending| && r.0 == pending[r.2..]
      && r.1[off..off + r.2] == pending[..r.2] && r.1[..off] == b[..off] && r.1[off + r.2..] == b[off + r.2..])
    ensures r.2 == -1 <==> len > 0 && |pending| == 0
    ensures r.2 < 0 ==> r.0 == pending && r.1 == b
  {
    if len == 0 then (pending, b, 0)
    else if |pending| == 0 then (pending, b, -1)
    else
      var k := if len < |pending| then len else |pending|;
      (pending[k..], b[..off] + pending[..k] + b[off + k..], k)
  }

  /** Whether reading `len` of the `pending` bytes meets a marker followed
      by more bytes than the push-back buffer holds. Before the marker is
      met the buffer holds at most the marker `read()` pushed back, and any
      read that returns bytes takes that first, so all of its capacity is
      free when the bytes after the marker are pushed back. */
  predicate PushbackOverflows(pending: seq<byte>, len: nat) {
    var k := if len < |pending| then len else |pending|;
    match FirstMarker(pending[..k])
    case None => false
    case Some(j) => k - j - 1 > PUSHBACK_SIZE
  }

  /** The scan after a text read of `nread` bytes into `buf` at `off`: if the
      marker is among them, the bytes after it are pushed back in front of
      `rest`, the marker flag is set, and the marker's position counted from
      `base` is returned; otherwise the count read. More bytes after the
      marker than the push-back buffer holds throw `IOException`. */
  function Scan(st: SplitStream, rest: seq<byte>, buf: seq<byte>, off: nat, nread: int, base: nat): (o: Result<ReadOutcome>)
    requires nread > 0 ==> off + nread <= |buf|
    ensures o.Ok? ==> o.value.buffer == buf
    ensures o.Err? <==> !st.hasMarker && nread > 0 && FirstMarker(buf[off..off + nread]).Some?
                        && nread - FirstMarker(buf[off..off + nread]).value - 1 > PUSHBACK_SIZE
    ensures o.Err? ==> o.failure == IO
  {
    if st.hasMarker || nread <= 0 then Ok(ReadOutcome(st.(pending := rest), buf, nread))
    else match FirstMarker(buf[off..off + nread])
      case None => Ok(ReadOutcome(st.(pending := rest), buf, nread))
      case Some(j) =>
        if nread - j - 1 > PUSHBACK_SIZE then Err(IO)
        else Ok(ReadOutcome(SplitStream(buf[off + j + 1..off + nread] + rest, true, st.binary), buf, base + j))
  }

  /** The bytes `UnderlyingRead` hands to the scan are the first pending
      ones, so the scan fails exactly when the push-back would overflow. */
  lemma ScanOverflow(st: SplitStream, b: seq<byte>, off: nat, len: nat)
    requires off + len <= |b|
    ensures var (rest, b', nread) := UnderlyingRead(st.pending, b, off, len);
            Scan(st, rest, b', off, nread, 0).Err? <==> !st.hasMarker && PushbackOverflows(st.pending, len)
    ensures var (rest, b', nread) := UnderlyingRead(st.pending, b, off, len);
            Scan(st, rest, b', off, nread, off).Err? <==> !st.hasMarker && PushbackOverflows(st.pending, len)
  {
    var (rest, b', nread) := UnderlyingRead(st.pending, b, off, len);
    var k := if len < |st.pending| then len else |st.pending|;
    if nread > 0 {
      assert nread == k;
      assert b'[off..off + nread] == st.pending[..k];
    } else {
      assert k == 0;
    }
  }

  /** `read(b, off, len)` as written: when the marker is among the bytes just
      read, its absolute position in `b` is returned, so `off` bytes too many
      are reported. */
  function ReadRangeAsWritten(st: SplitStream, b: seq<byte>, off: int, len: int): (r: Result<ReadOutcome>)
    ensures ReachedSplit(st) ==> r == Ok(ReadOutcome(st, b, -1))
    ensures !ReachedSplit(st) ==> (r.Err? <==> off < 0 || len < 0 || off + len > |b|
                                                || (!st.hasMarker && PushbackOverflows(st.pending, len)))
    ensures r.Err? ==> r.failure == IndexOutOfBounds || r.failure == IO
    ensures r.Ok? ==> (r.value.count == -1 || 0 <= r.value.count <= off + len) && |r.value.buffer| == |b|
  {
    if st.hasMarker && !st.binary then Ok(ReadOutcome(st, b, -1))
    else if off < 0 || len < 0 || off + len > |b| then Err(IndexOutOfBounds)
    else
      var (rest, b', nread) := UnderlyingRead(st.pending, b, off, len);
      ScanOverflow(st, b, off, len);
      Scan(st, rest, b', off, nread, off)
  }

  /** `read(b, off, len)` as evidently intended: the number of bytes read
      before the marker, counted from `off`. */
  function ReadRange(st: SplitStream, b: seq<byte>, off: int, len: int): (r: Result<ReadOutcome>)
    ensures ReachedSplit(st) ==> r == Ok(ReadOutcome(st, b, -1))
    ensures !ReachedSplit(st) ==> (r.Err? <==> off < 0 || len < 0 || off + len > |b|
                                                || (!st.hasMarker && PushbackOverflows(st.pending, len)))
    ensures r.Err? && 0 <= off && 0 <= len && off + len <= |b| ==> r.failure == IO
    ensures r.Ok? ==> (r.value.count == -1 || 0 <= r.value.count <= len) && |r.value.buffer| == |b|
  {
    if st.hasMarker && !st.binary then Ok(ReadOutcome(st, b, -1))
    else if off < 0 || len < 0 || off + len > |b| then Err(IndexOutOfBounds)
    else
      var (rest, b', nread) := UnderlyingRead(st.pending, b, off, len);
      ScanOverflow(st, b, off, len);
      Scan(st, rest, b', off, nread, 0)
  }

  /** `read(b)` as written: the marker is searched over the whole array, also
      past the bytes just read, and a stale marker found there makes the
      push-back length negative, which throws; a push-back longer than the
      buffer throws `IOException`. */
  function ReadArrayAsWritten(st: SplitStream, b: seq<byte>): (r: Result<ReadOutcome>)
    ensures ReachedSplit(st) ==> r == Ok(ReadOutcome(st, b, -1))
    ensures r.Err? ==> !st.hasMarker && (r.failure == IndexOutOfBounds || r.failure == IO)
    ensures r.Ok? ==> |r.value.buffer| == |b|
  {
    if st.hasMarker && !st.binary then Ok(ReadOutcome(st, b, -1))
    else
      var (rest, b', nread) := UnderlyingRead(st.pending, b, 0, |b|);
      if st.hasMarker then Ok(ReadOutcome(st.(pending := rest), b', nread))
      else match FirstMarker(b')
        case None => Ok(ReadOutcome(st.(pending := rest), b', nread))
        case Some(i) =>
          if nread - i - 1 < 0 then Err(IndexOutOfBounds)
          else if nread - i - 1 > PUSHBACK_SIZE then Err(IO)
          else Ok(ReadOutcome(SplitStream(b'[i + 1..nread] + rest, true, st.binary), b', i))
  }

  /** `read(b)` as evidently intended: `read(b, 0, b.length)`, which fails
      only when the push-back buffer overflows. */
  function ReadArray(st: SplitStream, b: seq<byte>): (r: Result<ReadOutcome>)
    ensures r.Err? <==> !st.hasMarker && PushbackOverflows(st.pending, |b|)
    ensures r.Err? ==> r.failure == IO
    ensures r.Ok? ==> r.value.count <= |b|
  {
    ReadRange(st, b, 0, |b|)
  }

  /** `reachedSplit()`. */
  predicate ReachedSplit(st: SplitStream) {
    st.hasMarker && !st.binary
  }

  /** `switchToBinary()`: only has an effect once the marker has been met. */
  function SwitchToBinary(st: SplitStream): (r: SplitStream)
    ensures r.pending == st.pending && r.hasMarker == st.hasMarker
    ensures r.binary <==> st.binary || st.hasMarker
  {
    if st.hasMarker && !st.binary then st.(binary := true) else st
  }

  /** The text part of an input: the bytes before the first marker. */
  function TextPart(input: seq<byte>): seq<byte> {
    match FirstMarker(input)
    case None => input
    case Some(m) => input[..m]
  }

  /** The binary part of an input: the bytes after the first marker. */
  function BinaryPart(input: seq<byte>): seq<byte> {
    match FirstMarker(input)
    case None => []
    case Some(m) => input[m + 1..]
  }

  /** What text reads have delivered so far, relative to the whole input:
      before the marker, the delivered bytes and the pending bytes make up
      the input; afterwards, exactly the text part has been delivered and
      exactly the binary part is pending. */
  predicate TextInvariant(st: SplitStream, delivered: seq<byte>, input: seq<byte>) {
    !st.binary
    && (!st.hasMarker ==> delivered + st.pending == input && MARKER !in delivered)
    && (st.hasMarker ==> delivered == TextPart(input) && st.pending == BinaryPart(input))
  }

  /** The bytes a read hands to its caller. */
  function Delivered(o: ReadOutcome, off: nat): seq<byte> {
    if o.count > 0 && off + o.count <= |o.buffer| then o.buffer[off..off + o.count] else []
  }

  /** A marker with no marker before it is the first marker. */
  lemma {:induction false} FirstMarkerAt(s: seq<byte>, k: nat)
    requires k < |s| && s[k] == MARKER && MARKER !in s[..k]
    ensures FirstMarker(s) == Some(k)
  {
    if k > 0 {
      assert s[..k][0] == s[0];
      assert s[1..][..k - 1] == s[..k][1..];
      FirstMarkerAt(s[1..], k - 1);
    }
  }

  /** Where the first marker of the data just read splits the whole input. */
  lemma MarkerSplitsInput(delivered: seq<byte>, data: seq<byte>, rest: seq<byte>, j: nat)
    requires MARKER !in delivered
    requires j < |data| && data[j] == MARKER && MARKER !in data[..j]
    ensures TextPart(delivered + data + rest) == delivered + data[..j]
    ensures BinaryPart(delivered + data + rest) == data[j + 1..] + rest
  {
    var s := delivered + data + rest;
    var k := |delivered| + j;
    assert s[..k] == delivered + data[..j];
    assert s[k + 1..] == data[j + 1..] + rest;
    FirstMarkerAt(s, k);
  }

  /** The scan of a corrected text read keeps the text invariant. */
  lemma ScanKeepsTextInvariant(st: SplitStream, delivered: seq<byte>, input: seq<byte>,
                               rest: seq<byte>, buf: seq<byte>, off: nat, nread: nat)
    requires TextInvariant(st, delivered, input) && !st.hasMarker
    requires 0 < nread && off + nread <= |buf|
    requires st.pending == buf[off..off + nread] + rest
    ensures Scan(st, rest, buf, off, nread, 0).Ok? ==>
            TextInvariant(Scan(st, rest, buf, off, nread, 0).value.stream,
                          delivered + Delivered(Scan(st, rest, buf, off, nread, 0).value, off), input)
  {
    var data := buf[off..off + nread];
    ConcatAssoc(delivered, data, rest);
    match FirstMarker(data)
    case None =>
      ScanWithoutMarker(st, delivered, input, rest, buf, off, nread);
    case Some(j) =>
      ScanAtMarker(st, delivered, input, rest, buf, off, nread, j);
  }

  /** The front and back of a slice are slices of the whole. */
  lemma SliceOfSlice<T>(s: seq<T>, a: nat, b: nat, k: nat)
    requires a + k < b <= |s|
    ensures s[a..b][..k] == s[a..a + k]
    ensures s[a..b][k + 1..] == s[a + k + 1..b]
  {
  }

  lemma ConcatAssoc<T>(a: seq<T>, b: seq<T>, c: seq<T>)
    ensures a + (b + c) == a + b + c
  {
  }

  /** No marker among the bytes just read: all of them are text. */
  lemma ScanWithoutMarker(st: SplitStream, delivered: seq<byte>, input: seq<byte>,
                          rest: seq<byte>, buf: seq<byte>, off: nat, nread: nat)
    requires !st.binary && !st.hasMarker && MARKER !in delivered
    requires 0 < nread && off + nread <= |buf|
    requires input == delivered + buf[off..off + nread] + rest
    requires FirstMarker(buf[off..off + nread]).None?
    ensures Scan(st, rest, buf, off, nread, 0).Ok? ==>
            TextInvariant(Scan(st, rest, buf, off, nread, 0).value.stream,
                          delivered + Delivered(Scan(st, rest, buf, off, nread, 0).value, off), input)
  {
    var data := buf[off..off + nread];
    var o := Scan(st, rest, buf, off, nread, 0).value;
    assert Delivered(o, off) == data;
    assert MARKER !in delivered + data;
  }

  /** A marker at `j` among the bytes just read: the bytes before it are
      text, the bytes after it are pending for the binary reader. */
  lemma ScanAtMarker(st: SplitStream, delivered: seq<byte>, input: seq<byte>,
                     rest: seq<byte>, buf: seq<byte>, off: nat, nread: nat, j: nat)
    requires !st.binary && !st.hasMarker && MARKER !in delivered
    requires 0 < nread && off + nread <= |buf|
    requires input == delivered + buf[off..off + nread] + rest
    requires FirstMarker(buf[off..off + nread]) == Some(j)
    ensures Scan(st, rest, buf, off, nread, 0).Ok? ==>
            TextInvariant(Scan(st, rest, buf, off, nread, 0).value.stream,
                          delivered + Delivered(Scan(st, rest, buf, off, nread, 0).value, off), input)
  {
    var data := buf[off..off + nread];
    if nread - j - 1 <= PUSHBACK_SIZE {
      var o := Scan(st, rest, buf, off, nread, 0).value;
      SliceOfSlice(buf, off, off + nread, j);
      assert o.stream == SplitStream(data[j + 1..] + rest, true, false) && o.count == j;
      assert Delivered(o, off) == data[..j];
      MarkerSplitsInput(delivered, data, rest, j);
    }
  }

  /** Reading through the corrected `read(b, off, len)` keeps the text
      invariant: text reads deliver exactly the bytes before the first
      marker, then report the end, and the bytes after the marker stay
      pending for the binary reader. The read fails only when more bytes
      follow the marker than the push-back buffer holds. */
  lemma ReadRangeKeepsTextInvariant(st: SplitStream, delivered: seq<byte>, input: seq<byte>,
                                    b: seq<byte>, off: nat, len: nat)
    requires TextInvariant(st, delivered, input)
    requires off + len <= |b|
    ensures ReadRange(st, b, off, len).Ok? <==> st.hasMarker || !PushbackOverflows(st.pending, len)
    ensures ReadRange(st, b, off, len).Ok? ==>
            TextInvariant(ReadRange(st, b, off, len).value.stream,
                          delivered + Delivered(ReadRange(st, b, off, len).value, off), input)
  {
    if !st.hasMarker {
      var (rest, b', nread) := UnderlyingRead(st.pending, b, off, len);
      if nread > 0 {
        assert st.pending == st.pending[..nread] + rest;
        ScanKeepsTextInvariant(st, delivered, input, rest, b', off, nread);
      } else {
        ScanOverflow(st, b, off, len);
        assert Delivered(ReadRange(st, b, off, len).value, off) == [];
        assert delivered + [] == delivered;
      }
    } else {
      assert Delivered(ReadRange(st, b, off, len).value, off) == [];
      assert delivered + [] == delivered;
    }
  }

  /** Corrected single-byte reads before the marker keep the text invariant. */
  lemma ReadByteKeepsTextInvariant(st: SplitStream, delivered: seq<byte>, input: seq<byte>)
    requires TextInvariant(st, delivered, input) && !st.hasMarker
    ensures var (st', c) := ReadByte(st);
            TextInvariant(st', if c >= 0 then delivered + [c as byte] else delivered, input)
  {
    var (st', c) := ReadByte(st);
    if c >= 0 {
      assert st.pending == [c as byte] + st'.pending;
      assert delivered + [c as byte] + st'.pending == delivered + st.pending;
    }
  }

  /** The as-written `read()` over the input `0xFE` hands out the marker as
      the data byte 254 and consumes it; the corrected read reports the end
      of the text and leaves the marker pending. */
  lemma ReadByteMarkerCounterexample()
    ensures ReadByteAsWritten(SplitStream([MARKER], false, false)) == (SplitStream([], false, false), 254)
    ensures ReadByte(SplitStream([MARKER], false, false)) == (SplitStream([MARKER], false, false), -1)
  {
    assert [MARKER][1..] == [];
  }

  /** The as-written `read(b, off, len)` with `off = 1` over the input
      `0x41 0xFE` returns 2 although only one byte precedes the marker, so
      the caller takes the byte after it for text; the corrected read
      returns 1. */
  lemma ReadRangeOffsetCounterexample()
    ensures ReadRangeAsWritten(SplitStream([0x41, MARKER], false, false), [0, 0, 0], 1, 2)
         == Ok(ReadOutcome(SplitStream([], true, false), [0, 0x41, MARKER], 2))
    ensures ReadRange(SplitStream([0x41, MARKER], false, false), [0, 0, 0], 1, 2)
         == Ok(ReadOutcome(SplitStream([], true, false), [0, 0x41, MARKER], 1))
  {
    var st := SplitStream([0x41, MARKER], false, false);
    var b: seq<byte> := [0, 0, 0];
    var b': seq<byte> := [0, 0x41, MARKER];
    assert st.pending[..2] == st.pending && st.pending[2..] == [];
    assert b[..1] + st.pending[..2] + b[3..] == b';
    assert UnderlyingRead(st.pending, b, 1, 2) == ([], b', 2);
    assert b'[1..3] == [0x41, MARKER];
    assert FirstMarker([0x41 as byte, MARKER]) == Some(1);
    assert b'[3..3] + [] == [];
  }

  /** One read of the marker followed by 8193 bytes pushes back one byte
      more than the buffer holds and throws; with 8192 bytes after the
      marker the read succeeds and reports the end of the text at once. */
  lemma ReadRangePushbackFull()
    ensures var st := SplitStream([MARKER] + seq(PUSHBACK_SIZE + 1, _ => 0x41), false, false);
            ReadRange(st, seq(PUSHBACK_SIZE + 2, _ => 0), 0, PUSHBACK_SIZE + 2) == Err(IO)
    ensures var st := SplitStream([MARKER] + seq(PUSHBACK_SIZE, _ => 0x41), false, false);
            var r := ReadRange(st, seq(PUSHBACK_SIZE + 1, _ => 0), 0, PUSHBACK_SIZE + 1);
            r.Ok? && r.value.count == 0 && r.value.stream.hasMarker
  {
    var p1: seq<byte> := [MARKER] + seq(PUSHBACK_SIZE + 1, _ => 0x41);
    assert p1[..|p1|] == p1 && p1[0] == MARKER;
    assert FirstMarker(p1) == Some(0);
    assert PushbackOverflows(p1, PUSHBACK_SIZE + 2);
    var p2: seq<byte> := [MARKER] + seq(PUSHBACK_SIZE, _ => 0x41);
    assert p2[..|p2|] == p2 && p2[0] == MARKER;
    assert FirstMarker(p2) == Some(0);
    assert !PushbackOverflows(p2, PUSHBACK_SIZE + 1);
    var b2: seq<byte> := seq(PUSHBACK_SIZE + 1, _ => 0);
    var (rest, b', nread) := UnderlyingRead(p2, b2, 0, PUSHBACK_SIZE + 1);
    assert nread == PUSHBACK_SIZE + 1 && b'[0..nread] == p2;
  }

  /** The as-written `read(b)` with one byte `0x41` pending and a stale
      marker left in the array's second slot finds that stale marker and
      throws; the corrected read returns the one byte. */
  lemma ReadArrayStaleCounterexample()
    ensures ReadArrayAsWritten(SplitStream([0x41], false, false), [0, MARKER]) == Err(IndexOutOfBounds)
    ensures ReadArray(SplitStream([0x41], false, false), [0, MARKER])
         == Ok(ReadOutcome(SplitStream([], false, false), [0x41, MARKER], 1))
  {
    var st := SplitStream([0x41], false, false);
    var b: seq<byte> := [0, MARKER];
    var b': seq<byte> := [0x41, MARKER];
    assert b[..0] + st.pending[..1] + b[1..] == b';
    assert UnderlyingRead(st.pending, b, 0, 2) == ([], b', 1);
    assert FirstMarker(b') == Some(1);
    assert b'[0..1] == [0x41];
    assert FirstMarker([0x41 as byte]) == None;
  }
}

=== FILE: decimal.dfy ===
/** Java's decimal conversions between `int` and `String`: the rendering used
    by string concatenation (`"axis" + i`) and `Integer.parseInt`, with ASCII
    digits only. */
module Decimal {
  import opened Wrappers

  const INT_MIN: int := -0x8000_0000
  const INT_MAX: int := 0x7fff_ffff

  predicate IsDigit(c: char) { '0' <= c <= '9' }

  predicate AllDigits(s: string) {
    forall i | 0 <= i < |s| :: IsDigit(s[i])
  }

  function DigitChar(d: nat): (c: char)
    requires d < 10
    ensures IsDigit(c)
  {
    ('0' as int + d) as char
  }

  function DigitValue(c: char): (d: nat)
    requires IsDigit(c)
    ensures d < 10
  {
    c as int - '0' as int
  }

  /** The decimal rendering of a non-negative number, without leading zeros. */
  function NatToString(n: nat): (s: string)
    ensures |s| > 0 && AllDigits(s)
    ensures s[0] == '0' ==> n == 0
  {
    if n < 10 then [DigitChar(n)] else NatToString(n / 10) + [DigitChar(n % 10)]
  }

  /** The value of a string of decimal digits, most significant first. */
  function DigitsValue(s: string): nat
    requires AllDigits(s)
  {
    if |s| == 0 then 0 else DigitsValue(s[..|s| - 1]) * 10 + DigitValue(s[|s| - 1])
  }

  /** `Integer.parseInt` over ASCII digits: an optional sign and at least
      one digit `0`-`9`, within the 32-bit range. Every other string is
      `None`, Java's `NumberFormatException`. Java reads digits with
      `Character.digit`, which also accepts the other Unicode decimal
      digits; those count as non-digits here. */
  function ParseInt(s: string): (r: Option<int>)
    ensures r.Some? ==> INT_MIN <= r.value <= INT_MAX
    ensures |s| == 0 ==> r.None?
    ensures |s| > 0 && !IsDigit(s[0]) && s[0] != '-' && s[0] != '+' ==> r.None?
  {
    var signed := |s| > 0 && (s[0] == '-' || s[0] == '+');
    var body := if signed then s[1..] else s;
    if |body| == 0 || !AllDigits(body) then None
    else
      var magnitude: int := DigitsValue(body);
      var v: int := if |s| > 0 && s[0] == '-' then -magnitude else magnitude;
      if INT_MIN <= v <= INT_MAX then Some(v) else None
  }

  /** Reading back a rendered number gives the number. */
  lemma {:induction false} DigitsValueOfNatToString(n: nat)
    ensures DigitsValue(NatToString(n)) == n
  {
    var s := NatToString(n);
    if n >= 10 {
      assert s[..|s| - 1] == NatToString(n / 10);
      DigitsValueOfNatToString(n / 10);
    }
  }

  /** `Integer.parseInt("" + n) == n` for every non-negative `int`. */
  lemma ParseIntOfNatToString(n: nat)
    requires n <= INT_MAX
    ensures ParseInt(NatToString(n)) == Some(n)
  {
    DigitsValueOfNatToString(n);
  }

  /** Distinct numbers render as distinct strings. */
  lemma NatToStringInjective(m: nat, n: nat)
    requires NatToString(m) == NatToString(n)
    ensures m == n
  {
    DigitsValueOfNatToString(m);
    DigitsValueOfNatToString(n);
  }
}

=== FILE: doubles.dfy ===
/** IEEE 754 doubles, abstracted: a finite value is an exact real, and the
    special values NaN and the two infinities are kept apart because the
    modelled code tests for them. Rounding and overflow of finite values are
    not modelled. */
module Doubles {

  datatype Double = Finite(v: real) | NaN | PosInf | NegInf

  /** `Double.isFinite`. */
  predicate IsFinite(d: Double) { d.Finite? }

  /** `Double.isNaN`. */
  predicate IsNaN(d: Double) { d.NaN? }

  /** Java's `a == b` on doubles: NaN equals nothing, not even itself. */
  predicate Eq(a: Double, b: Double) {
    !a.NaN? && a == b
  }

  /** Java's `a < b` on doubles: false whenever NaN is involved. */
  predicate Lt(a: Double, b: Double) {
    if a.NaN? || b.NaN? then false
    else if a.Finite? && b.Finite? then a.v < b.v
    else if a.NegInf? then !b.NegInf?
    else if b.PosInf? then !a.PosInf?
    else false
  }

  /** Java's `a <= b` on doubles. */
  predicate Le(a: Double, b: Double) {
    Lt(a, b) || Eq(a, b)
  }

  /** Java's `a - b` on doubles (without rounding). */
  function Sub(a: Double, b: Double): (r: Double)
    ensures a.Finite? && b.Finite? ==> r == Finite(a.v - b.v)
    ensures a.NaN? || b.NaN? ==> r.NaN?
  {
    match (a, b)
    case (Finite(x), Finite(y)) => Finite(x - y)
    case (NaN, _) => NaN
    case (_, NaN) => NaN
    case (PosInf, PosInf) => NaN
    case (NegInf, NegInf) => NaN
    case (PosInf, _) => PosInf
    case (NegInf, _) => NegInf
    case (_, PosInf) => NegInf
    case (_, NegInf) => PosInf
  }

  /** Java's unary `-a` on doubles. */
  function Neg(a: Double): (r: Double)
    ensures a.Finite? ==> r == Finite(-a.v)
    ensures r.NaN? <==> a.NaN?
  {
    match a
    case Finite(x) => Finite(-x)
    case NaN => NaN
    case PosInf => NegInf
    case NegInf => PosInf
  }

  /** Java's `a + b` on doubles (without rounding). */
  function Add(a: Double, b: Double): (r: Double)
    ensures a.Finite? && b.Finite? ==> r == Finite(a.v + b.v)
    ensures a.NaN? || b.NaN? ==> r.NaN?
  {
    Sub(a, Neg(b))
  }

  /** `Math.abs` on doubles. */
  function Abs(a: Double): (r: Double)
    ensures r.Finite? <==> a.Finite?
    ensures r.NaN? <==> a.NaN?
    ensures r.Finite? ==> r.v >= 0.0
  {
    match a
    case Finite(x) => Finite(if x < 0.0 then -x else x)
    case NaN => NaN
    case _ => PosInf
  }

  /** The sign bit of a non-NaN double, with zero counted as positive. */
  predicate Negative(d: Double) {
    d.NegInf? || (d.Finite? && d.v < 0.0)
  }

  /** Java's `a * b` on doubles (without rounding): an infinity times zero
      is NaN, otherwise an infinite factor gives the infinity of the
      product's sign. */
  function Mul(a: Double, b: Double): (r: Double)
    ensures a.Finite? && b.Finite? ==> r == Finite(a.v * b.v)
    ensures r.NaN? <==> a.NaN? || b.NaN? || (!a.Finite? && b == Finite(0.0)) || (!b.Finite? && a == Finite(0.0))
    ensures r.PosInf? || r.NegInf? ==> !a.Finite? || !b.Finite?
  {
    if a.NaN? || b.NaN? then NaN
    else if a.Finite? && b.Finite? then Finite(a.v * b.v)
    else if a == Finite(0.0) || b == Finite(0.0) then NaN
    else if Negative(a) == Negative(b) then PosInf
    else NegInf
  }

  /** Java's `*` commutes, special values included. */
  lemma MulCommutes(a: Double, b: Double)
    ensures Mul(a, b) == Mul(b, a)
  {
  }

  /** Java's `<` never holds when NaN is involved, and is irreflexive. */
  lemma LtIsStrict(a: Double, b: Double)
    ensures Lt(a, b) ==> !a.NaN? && !b.NaN?
    ensures !Lt(a, a)
    ensures Lt(a, b) ==> !Lt(b, a)
  {
  }
}

=== FILE: error_limits.dfy ===
/** `AbstractErrorDataSet.recomputeLimits`: the axis ranges of a
    two-dimensional data set with errors, widened by the errors that the
    data set's error type says are in use. */
module ErrorLimits {
  import opened AxisRange

  /** The whole-data-set error type of this class. */
  datatype ErrorType = NO_ERROR | X | Y | XY | X_ASYMMETRIC | Y_ASYMMETRIC | XY_ASYMMETRIC

  /** One point with the four values its error getters return. */
  datatype ErrPoint = ErrPoint(x: real, y: real, exn: real, exp: real, eyn: real, eyp: real)

  datatype ErrorSet = ErrorSet(points: seq<ErrPoint>, errorType: ErrorType, xRange: Range, yRange: Range)

  /** The values point `p` adds to the x axis (`axis == 0`) or the y axis
      (any other axis), in the order they are added. */
  function Contribution(t: ErrorType, p: ErrPoint, axis: nat): (vs: seq<real>)
    ensures 1 <= |vs| <= 2
  {
    if axis == 0 then
      match t
      case NO_ERROR => [p.x]
      case X => [p.x - p.exp, p.x + p.exp]
      case Y => [p.x]
      case XY => [p.x - p.exp, p.x + p.exp]
      case X_ASYMMETRIC => [p.x - p.exn, p.x + p.exp]
      case Y_ASYMMETRIC => [p.x]
      case XY_ASYMMETRIC => [p.x - p.exn, p.x + p.exp]
    else
      match t
      case NO_ERROR => [p.y]
      case X => [p.y]
      case Y => [p.y - p.eyp, p.y + p.eyp]
      case XY => [p.y - p.eyp, p.y + p.eyp]
      case X_ASYMMETRIC => [p.y]
      case Y_ASYMMETRIC => [p.y - p.eyn, p.y + p.eyp]
      case XY_ASYMMETRIC => [p.y - p.eyn, p.y + p.eyp]
  }

  /** Everything the points add to one axis, point by point. */
  function AxisValues(ps: seq<ErrPoint>, t: ErrorType, axis: nat): seq<real> {
    if |ps| == 0 then [] else AxisValues(ps[..|ps| - 1], t, axis) + Contribution(t, ps[|ps| - 1], axis)
  }

  /** `getErrorType()`. */
  function GetErrorType(ds: ErrorSet): ErrorType {
    ds.errorType
  }

  /** `setErrorType(t)`: only the error type changes. */
  function SetErrorType(ds: ErrorSet, t: ErrorType): (r: ErrorSet)
    ensures GetErrorType(r) == t
    ensures r.points == ds.points && r.xRange == ds.xRange && r.yRange == ds.yRange
  {
    ds.(errorType := t)
  }

  /** `recomputeLimits(dimension)`: nothing happens for dimension 1; any
      other dimension clears both ranges and makes each the extent of what
      the points add to that axis. */
  method RecomputeLimits(ds: ErrorSet, dimension: int) returns (r: ErrorSet)
    ensures dimension == 1 ==> r == ds
    ensures r.points == ds.points && r.errorType == ds.errorType
    ensures dimension != 1 ==> IsExtent(r.xRange, AxisValues(ds.points, ds.errorType, 0))
    ensures dimension != 1 ==> IsExtent(r.yRange, AxisValues(ds.points, ds.errorType, 1))
  {
    if dimension == 1 {
      return ds;
    }
    var ps, t := ds.points, ds.errorType;
    var xr, yr := Empty, Empty;
    var i := 0;
    while i < |ps|
      invariant 0 <= i <= |ps|
      invariant IsExtent(xr, AxisValues(ps[..i], t, 0))
      invariant IsExtent(yr, AxisValues(ps[..i], t, 1))
    {
      assert ps[..i + 1][..i] == ps[..i];
      ExtendAllKeepsExtent(xr, AxisValues(ps[..i], t, 0), Contribution(t, ps[i], 0));
      ExtendAllKeepsExtent(yr, AxisValues(ps[..i], t, 1), Contribution(t, ps[i], 1));
      xr := ExtendAll(xr, Contribution(t, ps[i], 0));
      yr := ExtendAll(yr, Contribution(t, ps[i], 1));
      i := i + 1;
    }
    assert ps[..i] == ps;
    r := ErrorSet(ps, t, xr, yr);
  }

  /** Every value a point adds to an axis appears among the axis values. */
  lemma {:induction false} ContributionInAxisValues(ps: seq<ErrPoint>, t: ErrorType, axis: nat, i: int, k: int)
    requires 0 <= i < |ps| && 0 <= k < |Contribution(t, ps[i], axis)|
    ensures Contribution(t, ps[i], axis)[k] in AxisValues(ps, t, axis)
    decreases |ps|
  {
    var init := ps[..|ps| - 1];
    if i < |ps| - 1 {
      assert init[i] == ps[i];
      ContributionInAxisValues(init, t, axis, i, k);
    }
  }

  /** Every error bar fits: the recomputed ranges hold each point's value
      widened by the errors its error type uses. */
  lemma ErrorBarsFit(ps: seq<ErrPoint>, t: ErrorType, xr: Range, yr: Range, i: int)
    requires IsExtent(xr, AxisValues(ps, t, 0)) && IsExtent(yr, AxisValues(ps, t, 1))
    requires 0 <= i < |ps|
    ensures xr.Span? && yr.Span?
    ensures forall k | 0 <= k < |Contribution(t, ps[i], 0)| :: xr.min <= Contribution(t, ps[i], 0)[k] <= xr.max
    ensures forall k | 0 <= k < |Contribution(t, ps[i], 1)| :: yr.min <= Contribution(t, ps[i], 1)[k] <= yr.max
  {
    ContributionInAxisValues(ps, t, 0, i, 0);
    forall k | 0 <= k < |Contribution(t, ps[i], 0)|
      ensures xr.min <= Contribution(t, ps[i], 0)[k] <= xr.max
    {
      ContributionInAxisValues(ps, t, 0, i, k);
    }
    forall k | 0 <= k < |Contribution(t, ps[i], 1)|
      ensures yr.min <= Contribution(t, ps[i], 1)[k] <= yr.max
    {
      ContributionInAxisValues(ps, t, 1, i, k);
    }
  }

  /** The two points agree on the values and on the errors that error type
      `t` reads; `X`, `Y` and `XY` read only the positive errors. */
  predicate SameUsedErrors(t: ErrorType, p: ErrPoint, q: ErrPoint) {
    p.x == q.x && p.y == q.y
    && (t in {X, XY, X_ASYMMETRIC, XY_ASYMMETRIC} ==> p.exp == q.exp)
    && (t in {Y, XY, Y_ASYMMETRIC, XY_ASYMMETRIC} ==> p.eyp == q.eyp)
    && (t in {X_ASYMMETRIC, XY_ASYMMETRIC} ==> p.exn == q.exn)
    && (t in {Y_ASYMMETRIC, XY_ASYMMETRIC} ==> p.eyn == q.eyn)
  }

  /** The limits depend only on the errors the error type reads: with
      `NO_ERROR` on no error at all, with the symmetric types not on the
      negative errors, and never on the errors of the axis a one-axis type
      leaves raw. */
  lemma {:induction false} LimitsDependOnUsedErrorsOnly(ps: seq<ErrPoint>, qs: seq<ErrPoint>, t: ErrorType, axis: nat)
    requires |ps| == |qs|
    requires forall i | 0 <= i < |ps| :: SameUsedErrors(t, ps[i], qs[i])
    ensures AxisValues(ps, t, axis) == AxisValues(qs, t, axis)
    decreases |ps|
  {
    if |ps| > 0 {
      var n := |ps| - 1;
      assert forall i | 0 <= i < n :: ps[..n][i] == ps[i] && qs[..n][i] == qs[i];
      LimitsDependOnUsedErrorsOnly(ps[..n], qs[..n], t, axis);
      SameContribution(t, ps[n], qs[n], axis);
    }
  }

  /** Two points that agree on what `t` reads add the same values. */
  lemma SameContribution(t: ErrorType, p: ErrPoint, q: ErrPoint, axis: nat)
    requires SameUsedErrors(t, p, q)
    ensures Contribution(t, p, axis) == Contribution(t, q, axis)
  {
  }

  /** Without errors, the ranges are the extents of the raw x and y values. */
  lemma {:induction false} NoErrorIsRawValues(ps: seq<ErrPoint>, axis: nat)
    ensures |AxisValues(ps, NO_ERROR, axis)| == |ps|
    ensures forall i | 0 <= i < |ps| :: AxisValues(ps, NO_ERROR, axis)[i] == if axis == 0 then ps[i].x else ps[i].y
    decreases |ps|
  {
    if |ps| > 0 {
      var n := |ps| - 1;
      NoErrorIsRawValues(ps[..n], axis);
    }
  }
}

=== FILE: fifo_dataset.dfy ===
/** `FifoDoubleErrorDataSet`: a bounded queue of points with symmetric-style
    y errors that drops, on every insertion, each point whose x lies more
    than `maxDistance` away from the newest x or is not finite. */
module FifoDataSet {
  import opened Wrappers
  import opened Doubles
  import opened AxisRange
  import CircularBuffer

  /** `DataBlob`: a point, its negative and positive y error, tag and style. */
  datatype Blob = Blob(x: Double, y: Double, errorNeg: Double, errorPos: Double,
                       tag: Option<string>, style: Option<string>)

  /** The data set: its name, the queue (oldest first) with its size limit,
      the expiry distance and the x and y axis ranges. */
  datatype FifoSet = FifoSet(name: string, data: seq<Blob>, limit: nat, maxDistance: Double,
                             xRange: Range, yRange: Range)

  const DIM_X := 0

  /** Neither the queue limit nor the queue length is exceeded. */
  predicate Wf(ds: FifoSet) {
    ds.limit > 0 && |ds.data| <= ds.limit
  }

  /** The constructor: `initalSize` must be positive and `maxDistance`
      must not be `<= 0` (a NaN distance passes this test). */
  function New(name: string, initalSize: int, maxDistance: Double): (r: Result<FifoSet>)
    ensures r.Err? <==> initalSize <= 0 || Le(maxDistance, Finite(0.0))
    ensures r.Err? ==> r.failure == IllegalArgument
    ensures r.Ok? ==> Wf(r.value) && r.value.data == [] && r.value.limit == initalSize
    ensures r.Ok? ==> r.value.maxDistance == maxDistance && r.value.name == name
  {
    if initalSize <= 0 then Err(IllegalArgument)
    else if Le(maxDistance, Finite(0.0)) then Err(IllegalArgument)
    else Ok(FifoSet(name, [], initalSize, maxDistance, Empty, Empty))
  }

  /** The one-argument-less constructor: `Double.MAX_VALUE` as distance,
      modelled as a large finite value. */
  function NewWithoutDistance(name: string, initalSize: int, maxValue: real): (r: Result<FifoSet>)
    requires maxValue > 0.0
    ensures r.Err? <==> initalSize <= 0
  {
    New(name, initalSize, Finite(maxValue))
  }

  /** The queue's `add`: append, then drop the oldest while over the limit. */
  function Enqueue(data: seq<Blob>, limit: nat, b: Blob): (r: seq<Blob>)
    requires limit > 0 && |data| <= limit
    ensures |r| <= limit && |r| > 0 && r[|r| - 1] == b
    ensures r == CircularBuffer.LastN(data + [b], limit)
  {
    if |data| + 1 > limit then (data + [b])[1..] else data + [b]
  }

  /** A point `expire(now)` removes: a non-finite x, or one further than
      `maxDistance` from `now` (Java's `>` is false when NaN is involved). */
  predicate Expired(now: Double, maxDistance: Double, b: Blob) {
    !IsFinite(b.x) || Lt(maxDistance, Abs(Sub(now, b.x)))
  }

  /** The points that survive `expire(now)`, in queue order. */
  function Survivors(data: seq<Blob>, now: Double, maxDistance: Double): (r: seq<Blob>)
    ensures |r| <= |data|
    ensures forall i | 0 <= i < |r| :: r[i] in data && !Expired(now, maxDistance, r[i])
    ensures forall i | 0 <= i < |data| :: !Expired(now, maxDistance, data[i]) ==> data[i] in r
    ensures (forall i | 0 <= i < |data| :: !Expired(now, maxDistance, data[i])) ==> r == data
  {
    if |data| == 0 then []
    else
      var rest := Survivors(data[1..], now, maxDistance);
      if Expired(now, maxDistance, data[0]) then rest else [data[0]] + rest
  }

  /** `expire(now)`: removes the expired points and returns how many; the
      axis ranges are cleared only when something was removed. */
  function Expire(ds: FifoSet, now: Double): (r: (FifoSet, nat))
    ensures r.0.data == Survivors(ds.data, now, ds.maxDistance)
    ensures r.1 == |ds.data| - |r.0.data|
    ensures r.1 > 0 ==> r.0.xRange == Empty && r.0.yRange == Empty
    ensures r.1 == 0 ==> r.0 == ds
    ensures Wf(ds) ==> Wf(r.0)
  {
    var kept := Survivors(ds.data, now, ds.maxDistance);
    var removed := |ds.data| - |kept|;
    if removed == 0 then
      SurvivorsAllKept(ds.data, now, ds.maxDistance);
      (ds, 0)
    else (ds.(data := kept, xRange := Empty, yRange := Empty), removed)
  }

  /** A filter that keeps as many points as it is given keeps them all. */
  lemma {:induction false} SurvivorsAllKept(data: seq<Blob>, now: Double, maxDistance: Double)
    requires |Survivors(data, now, maxDistance)| == |data|
    ensures Survivors(data, now, maxDistance) == data
  {
    if |data| > 0 {
      if !Expired(now, maxDistance, data[0]) {
        SurvivorsAllKept(data[1..], now, maxDistance);
      }
    }
  }

  /** Widen a range by a value, if that value is finite. */
  function AddToRange(r: Range, v: Double): (r': Range)
    ensures v.Finite? ==> r' == Extend(r, v.v)
    ensures !v.Finite? ==> r' == r
  {
    if v.Finite? then Extend(r, v.v) else r
  }

  /** `add(x, y, yErrorNeg, yErrorPos, tag, style)`: enqueue the point, widen
      the ranges by x and by y minus and plus its errors, then expire
      relative to the new x. Afterwards every point left lies within
      `maxDistance` of the new x. */
  function Add(ds: FifoSet, b: Blob): (r: FifoSet)
    requires Wf(ds)
    ensures Wf(r)
    ensures forall i | 0 <= i < |r.data| :: !Expired(b.x, ds.maxDistance, r.data[i])
    ensures b.x.Finite? && ds.maxDistance.Finite? ==>
      forall i | 0 <= i < |r.data| ::
        r.data[i].x.Finite? && -ds.maxDistance.v <= b.x.v - r.data[i].x.v <= ds.maxDistance.v
    ensures forall i | 0 <= i < |r.data| :: r.data[i] in ds.data || r.data[i] == b
    ensures r.limit == ds.limit && r.maxDistance == ds.maxDistance && r.name == ds.name
  {
    var queued := ds.(data := Enqueue(ds.data, ds.limit, b),
                      xRange := AddToRange(ds.xRange, b.x),
                      yRange := AddToRange(AddToRange(ds.yRange, Sub(b.y, b.errorNeg)), Doubles.Add(b.y, b.errorPos)));
    Expire(queued, b.x).0
  }

  /** A finite new point survives its own insertion when the distance is
      positive or NaN, as the constructor guarantees. */
  lemma AddKeepsNewPoint(ds: FifoSet, b: Blob)
    requires Wf(ds) && b.x.Finite?
    requires !Le(ds.maxDistance, Finite(0.0))
    ensures var r := Add(ds, b); |r.data| > 0 && r.data[|r.data| - 1] == b
  {
    var queued := Enqueue(ds.data, ds.limit, b);
    assert !Expired(b.x, ds.maxDistance, b);
    SurvivorsKeepLast(queued, b.x, ds.maxDistance);
    AddKeepsSurvivors(ds, b);
  }

  /** What `add` keeps is what survives of the queue with the new point. */
  lemma AddKeepsSurvivors(ds: FifoSet, b: Blob)
    requires Wf(ds)
    ensures Add(ds, b).data == Survivors(Enqueue(ds.data, ds.limit, b), b.x, ds.maxDistance)
  {
  }

  /** A filter keeps the last point when that point is not expired. */
  lemma {:induction false} SurvivorsKeepLast(data: seq<Blob>, now: Double, maxDistance: Double)
    requires |data| > 0 && !Expired(now, maxDistance, data[|data| - 1])
    ensures var r := Survivors(data, now, maxDistance); |r| > 0 && r[|r| - 1] == data[|data| - 1]
  {
    var t := data[1..];
    if |t| > 0 {
      assert t[|t| - 1] == data[|data| - 1];
      SurvivorsKeepLast(t, now, maxDistance);
    }
    SurvivorsFront(data, now, maxDistance);
  }

  /** The first point either goes or is kept in front of the survivors of the rest. */
  lemma SurvivorsFront(data: seq<Blob>, now: Double, maxDistance: Double)
    requires |data| > 0
    ensures var rest := Survivors(data[1..], now, maxDistance);
            Survivors(data, now, maxDistance) == if Expired(now, maxDistance, data[0]) then rest else [data[0]] + rest
  {
  }

  /** Expiring twice at the same time removes nothing the second time. */
  lemma ExpireIdempotent(ds: FifoSet, now: Double)
    ensures Expire(Expire(ds, now).0, now).1 == 0
  {
  }

  /** `add(xValues, yValues, yErrorsNeg, yErrorsPos)`: one insertion per x
      value; a shorter y or error array stops the loop with an
      `ArrayIndexOutOfBoundsException` after the insertions already made. */
  method AddArrays(ds: FifoSet, xs: seq<Double>, ys: seq<Double>, ens: seq<Double>, eps: seq<Double>)
    returns (r: FifoSet, failure: Option<Failure>)
    requires Wf(ds)
    ensures Wf(r)
    ensures failure.None? <==> |ys| >= |xs| && |ens| >= |xs| && |eps| >= |xs|
    ensures failure.Some? ==> failure.value == IndexOutOfBounds
    ensures r == AddEach(ds, Untagged(xs, ys, ens, eps))
  {
    var n := |xs|;
    var m := Untagged(xs, ys, ens, eps);
    r := ds;
    var i := 0;
    while i < n
      invariant 0 <= i <= |m| && i <= n
      invariant Wf(r)
      invariant r == AddEach(ds, m[..i])
    {
      if i >= |ys| || i >= |ens| || i >= |eps| {
        assert m[..i] == m;
        return r, Some(IndexOutOfBounds);
      }
      AddEachStep(ds, m, i);
      r := Add(r, m[i]);
      i := i + 1;
    }
    assert m[..i] == m;
    failure := None;
  }

  /** The untagged points of the columns, as far as every column reaches. */
  function Untagged(xs: seq<Double>, ys: seq<Double>, ens: seq<Double>, eps: seq<Double>): (ps: seq<Blob>)
    ensures |ps| <= |xs| && |ps| <= |ys| && |ps| <= |ens| && |ps| <= |eps|
    ensures |ps| == |xs| || |ps| == |ys| || |ps| == |ens| || |ps| == |eps|
    ensures forall i | 0 <= i < |ps| :: ps[i] == Blob(xs[i], ys[i], ens[i], eps[i], None, None)
  {
    var n := Min(Min(|xs|, |ys|), Min(|ens|, |eps|));
    seq(n, i requires 0 <= i < n => Blob(xs[i], ys[i], ens[i], eps[i], None, None))
  }

  function Min(a: nat, b: nat): nat {
    if a < b then a else b
  }

  /** The single-point insertions one after the other. */
  function AddEach(ds: FifoSet, bs: seq<Blob>): (r: FifoSet)
    requires Wf(ds)
    ensures Wf(r)
    decreases |bs|
  {
    if |bs| == 0 then ds else AddEach(Add(ds, bs[0]), bs[1..])
  }

  /** One more insertion extends the prefix inserted so far. */
  lemma AddEachStep(ds: FifoSet, bs: seq<Blob>, i: nat)
    requires Wf(ds) && i < |bs|
    ensures AddEach(ds, bs[..i + 1]) == Add(AddEach(ds, bs[..i]), bs[i])
  {
    assert bs[..i + 1] == bs[..i] + [bs[i]];
    AddEachAppend(ds, bs[..i], bs[i]);
  }

  lemma {:induction false} AddEachAppend(ds: FifoSet, bs: seq<Blob>, b: Blob)
    requires Wf(ds)
    ensures AddEach(ds, bs + [b]) == Add(AddEach(ds, bs), b)
    decreases |bs|
  {
    if |bs| > 0 {
      assert (bs + [b])[1..] == bs[1..] + [b];
      AddEachAppend(Add(ds, bs[0]), bs[1..], b);
    } else {
      assert ([] + [b])[1..] == [];
    }
  }

  /** `getDataCount()`. */
  function DataCount(ds: FifoSet): (n: nat)
    ensures Wf(ds) ==> n <= ds.limit
  {
    |ds.data|
  }

  /** `get(dimIndex, index)`: x for `DIM_X`, y for any other dimension. */
  function Get(ds: FifoSet, dim: int, index: int): (r: Result<Double>)
    ensures r.Ok? <==> 0 <= index < |ds.data|
    ensures r.Err? ==> r.failure == IndexOutOfBounds
    ensures r.Ok? ==> r.value == if dim == DIM_X then ds.data[index].x else ds.data[index].y
  {
    if 0 <= index < |ds.data| then Ok(if dim == DIM_X then ds.data[index].x else ds.data[index].y)
    else Err(IndexOutOfBounds)
  }

  /** `getErrorNegative(dimIndex, index)`: zero for x without looking at the
      index, otherwise the point's negative y error. */
  function ErrorNegative(ds: FifoSet, dim: int, index: int): (r: Result<Double>)
    ensures dim == DIM_X ==> r == Ok(Finite(0.0))
    ensures dim != DIM_X ==> (r.Ok? <==> 0 <= index < |ds.data|)
    ensures dim != DIM_X && r.Ok? ==> r.value == ds.data[index].errorNeg
  {
    if dim == DIM_X then Ok(Finite(0.0))
    else if 0 <= index < |ds.data| then Ok(ds.data[index].errorNeg)
    else Err(IndexOutOfBounds)
  }

  /** `getErrorPositive(dimIndex, index)`: zero for x, otherwise the point's
      positive y error. */
  function ErrorPositive(ds: FifoSet, dim: int, index: int): (r: Result<Double>)
    ensures dim == DIM_X ==> r == Ok(Finite(0.0))
    ensures dim != DIM_X ==> (r.Ok? <==> 0 <= index < |ds.data|)
    ensures dim != DIM_X && r.Ok? ==> r.value == ds.data[index].errorPos
  {
    if dim == DIM_X then Ok(Finite(0.0))
    else if 0 <= index < |ds.data| then Ok(ds.data[index].errorPos)
    else Err(IndexOutOfBounds)
  }

  /** `getDataLabel(index)`: the point's tag. */
  function DataLabel(ds: FifoSet, index: int): (r: Result<Option<string>>)
    ensures r.Ok? <==> 0 <= index < |ds.data|
    ensures r.Ok? ==> r.value == ds.data[index].tag
  {
    if 0 <= index < |ds.data| then Ok(ds.data[index].tag) else Err(IndexOutOfBounds)
  }

  /** `getStyle(index)`: the point's style. */
  function Style(ds: FifoSet, index: int): (r: Result<Option<string>>)
    ensures r.Ok? <==> 0 <= index < |ds.data|
    ensures r.Ok? ==> r.value == ds.data[index].style
  {
    if 0 <= index < |ds.data| then Ok(ds.data[index].style) else Err(IndexOutOfBounds)
  }

  /** The point read back through the getters is the point inserted last. */
  lemma GettersReadNewPoint(ds: FifoSet, b: Blob)
    requires Wf(ds) && b.x.Finite? && !Le(ds.maxDistance, Finite(0.0))
    ensures var r := Add(ds, b); var i := DataCount(r) - 1;
            Get(r, DIM_X, i) == Ok(b.x) && Get(r, 1, i) == Ok(b.y)
            && ErrorNegative(r, 1, i) == Ok(b.errorNeg) && ErrorPositive(r, 1, i) == Ok(b.errorPos)
            && DataLabel(r, i) == Ok(b.tag) && Style(r, i) == Ok(b.style)
  {
    AddKeepsNewPoint(ds, b);
  }

  /** `reset()`: empties the queue; nothing else changes. */
  function Reset(ds: FifoSet): (r: FifoSet)
    ensures DataCount(r) == 0
    ensures Wf(ds) ==> Wf(r)
    ensures r.limit == ds.limit && r.maxDistance == ds.maxDistance && r.xRange == ds.xRange && r.yRange == ds.yRange
  {
    ds.(data := [])
  }

  /** `set(other, copy)`: not supported. */
  function Set(ds: FifoSet, other: FifoSet, copy: bool): (r: Result<FifoSet>)
    ensures r == Err(UnsupportedOperation)
  {
    Err(UnsupportedOperation)
  }
}

=== FILE: java_strings.dfy ===
/** The `java.lang.String` operations the modelled code relies on, with their
    Java semantics: `indexOf`, `startsWith`/`endsWith`, `split` (which drops
    trailing empty strings), `replaceAll` with a pattern free of regular
    expression metacharacters, and `toLowerCase` restricted to ASCII. */
module JavaStrings {
  import opened Wrappers

  /** `pat` occurs in `s` at position `i`. */
  predicate MatchAt(s: string, pat: string, i: nat) {
    i + |pat| <= |s| && s[i..i + |pat|] == pat
  }

  predicate Contains(s: string, pat: string) {
    exists i: nat | i <= |s| :: MatchAt(s, pat, i)
  }

  predicate StartsWith(s: string, prefix: string) {
    |prefix| <= |s| && s[..|prefix|] == prefix
  }

  predicate EndsWith(s: string, suffix: string) {
    |suffix| <= |s| && s[|s| - |suffix|..] == suffix
  }

  /** `s.indexOf(pat, from)`: the first occurrence at or after `from`. */
  function IndexFrom(s: string, pat: string, from: nat): (r: Option<nat>)
    requires |pat| > 0
    ensures r.Some? ==> from <= r.value && MatchAt(s, pat, r.value)
    ensures r.Some? ==> forall j | from <= j < r.value :: !MatchAt(s, pat, j)
    ensures r.None? ==> forall j: nat | from <= j :: !MatchAt(s, pat, j)
    decreases |s| - from
  {
    if from + |pat| > |s| then None
    else if MatchAt(s, pat, from) then Some(from)
    else IndexFrom(s, pat, from + 1)
  }

  /** `s.indexOf(pat)`. */
  function IndexOf(s: string, pat: string): (r: Option<nat>)
    requires |pat| > 0
    ensures r.None? <==> !Contains(s, pat)
    ensures r.Some? ==> MatchAt(s, pat, r.value) && forall j | 0 <= j < r.value :: !MatchAt(s, pat, j)
  {
    IndexFrom(s, pat, 0)
  }

  /** The pieces of `s` between the non-overlapping occurrences of `sep`,
      found from left to right. */
  function SplitParts(s: string, sep: string): (parts: seq<string>)
    requires |sep| > 0
    ensures |parts| >= 1
    decreases |s|
  {
    match IndexOf(s, sep)
    case None => [s]
    case Some(i) => [s[..i]] + SplitParts(s[i + |sep|..], sep)
  }

  /** Drops the empty strings at the end of `parts`. */
  function DropTrailingEmpty(parts: seq<string>): (r: seq<string>)
    ensures |r| <= |parts| && r == parts[..|r|]
    ensures |r| > 0 ==> r[|r| - 1] != ""
    ensures forall k | |r| <= k < |parts| :: parts[k] == ""
  {
    if |parts| > 0 && parts[|parts| - 1] == "" then DropTrailingEmpty(parts[..|parts| - 1]) else parts
  }

  /** `s.split(sep)` for a separator without regular expression
      metacharacters: the whole string when `sep` does not occur, otherwise
      the pieces with trailing empty strings removed. */
  function Split(s: string, sep: string): (parts: seq<string>)
    requires |sep| > 0
    ensures !Contains(s, sep) ==> parts == [s]
  {
    if IndexOf(s, sep).None? then [s] else DropTrailingEmpty(SplitParts(s, sep))
  }

  /** `s.replaceAll(pat, "")` for a pattern without regular expression
      metacharacters: every non-overlapping occurrence, found from left to
      right, is removed. */
  function RemoveAll(s: string, pat: string): (r: string)
    requires |pat| > 0
    ensures |r| <= |s|
    ensures !Contains(s, pat) ==> r == s
    decreases |s|
  {
    match IndexOf(s, pat)
    case None => s
    case Some(i) => s[..i] + RemoveAll(s[i + |pat|..], pat)
  }

  /** The pieces joined with `sep` in between. */
  function Join(parts: seq<string>, sep: string): string
    requires |parts| > 0
  {
    if |parts| == 1 then parts[0] else parts[0] + sep + Join(parts[1..], sep)
  }

  function LowerChar(c: char): char {
    if 'A' <= c <= 'Z' then (c as int + 32) as char else c
  }

  /** `s.toLowerCase(Locale.UK)` restricted to ASCII letters. */
  function ToLower(s: string): (r: string)
    ensures |r| == |s| && forall i | 0 <= i < |s| :: r[i] == LowerChar(s[i])
  {
    seq(|s|, i requires 0 <= i < |s| => LowerChar(s[i]))
  }

  /** The first occurrence of `sep` in `a + sep + b` is right after `a`
      when no occurrence starts inside `a`. */
  lemma IndexOfAfter(a: string, sep: string, b: string)
    requires |sep| > 0 && !Contains(a + sep[..|sep| - 1], sep)
    ensures IndexOf(a + sep + b, sep) == Some(|a|)
  {
    var s := a + sep + b;
    assert s[|a|..|a| + |sep|] == sep;
    assert MatchAt(s, sep, |a|);
    var r := IndexOf(s, sep);
    if r.value < |a| {
      var j := r.value;
      var t := a + sep[..|sep| - 1];
      assert t == s[..|a| + |sep| - 1];
      assert t[j..j + |sep|] == s[j..j + |sep|];
      assert MatchAt(a + sep[..|sep| - 1], sep, j);
      assert false;
    }
  }

  /** A separator that occurs in none of the pieces: splitting the joined
      text gives the pieces back (the last one must not be empty, or Java
      would drop it). */
  lemma {:induction false} SplitPartsJoin(parts: seq<string>, c: char)
    requires |parts| > 0
    requires forall k | 0 <= k < |parts| :: c !in parts[k]
    ensures SplitParts(Join(parts, [c]), [c]) == parts
    decreases |parts|
  {
    if |parts| == 1 {
      NoCharNoMatch(parts[0], c);
    } else {
      NoCharNoMatch(parts[0], c);
      assert parts[0] + [c][..0] == parts[0];
      IndexOfAfter(parts[0], [c], Join(parts[1..], [c]));
      var s := Join(parts, [c]);
      assert s[..|parts[0]|] == parts[0];
      assert s[|parts[0]| + 1..] == Join(parts[1..], [c]);
      SplitPartsJoin(parts[1..], c);
    }
  }

  lemma NoCharNoMatch(s: string, c: char)
    requires c !in s
    ensures !Contains(s, [c])
  {
    forall i: nat | i <= |s|
      ensures !MatchAt(s, [c], i)
    {
      if i + 1 <= |s| {
        assert s[i..i + 1] == [s[i]];
      }
    }
  }

  lemma SplitJoin(parts: seq<string>, c: char)
    requires |parts| > 0 && parts[|parts| - 1] != ""
    requires forall k | 0 <= k < |parts| :: c !in parts[k]
    ensures Split(Join(parts, [c]), [c]) == parts
  {
    SplitPartsJoin(parts, c);
  }

  /** Removing all occurrences of `pat` from `pat + k` gives `k` when `k`
      itself has none. */
  lemma RemoveAllPrefix(pat: string, k: string)
    requires |pat| > 0 && !Contains(k, pat)
    ensures RemoveAll(pat + k, pat) == k
  {
    var s := pat + k;
    assert MatchAt(s, pat, 0);
    assert IndexOf(s, pat) == Some(0);
    assert s[|pat|..] == k;
  }

  /** `a + sep + b` splits into `a` and `b` when `sep` occurs in neither piece,
      not even across the joins, and `b` is not empty. */
  lemma SplitTwo(a: string, sep: string, b: string)
    requires |sep| > 0 && !Contains(a + sep[..|sep| - 1], sep) && !Contains(b, sep) && b != ""
    ensures Split(a + sep + b, sep) == [a, b]
  {
    IndexOfAfter(a, sep, b);
    var s := a + sep + b;
    assert s[..|a|] == a && s[|a| + |sep|..] == b;
    assert SplitParts(b, sep) == [b];
    assert SplitParts(s, sep) == [a, b];
  }

  /** With nothing after the separator, the empty second piece is dropped. */
  lemma SplitTrailing(a: string, sep: string)
    requires |sep| > 0 && !Contains(a + sep[..|sep| - 1], sep)
    ensures |Split(a + sep, sep)| <= 1
  {
    IndexOfAfter(a, sep, "");
    var s := a + sep;
    assert s == a + sep + "";
    assert s[|a| + |sep|..] == "";
    assert SplitParts(s, sep) == [s[..|a|]] + SplitParts("", sep);
  }
}

=== FILE: legacy_dataset.dfy ===
/** The legacy array-backed `DoubleErrorDataSet`: x, y and the negative and
    positive y errors in four parallel arrays, of which the first
    `dataMaxIndex` entries are in use. Every Java array access that can fail
    is modelled: an out-of-range index or copy range gives
    `Err(IndexOutOfBounds)`. The set keeps its own x and y ranges: single
    points widen them, removal and clearing empty them, and whole-array
    operations recompute them. */
module LegacyDataSet {
  import opened Wrappers
  import opened AxisRange

  datatype Legacy = Legacy(name: string, xs: seq<real>, ys: seq<real>,
                           en: seq<real>, ep: seq<real>, maxIndex: nat,
                           xRange: Range, yRange: Range)

  /** `getDataCount()`: `dataMaxIndex`, but never more than the x array holds. */
  function Count(ds: Legacy): (n: nat)
    ensures n <= ds.maxIndex && n <= |ds.xs|
    ensures n == ds.maxIndex || n == |ds.xs|
  {
    if ds.maxIndex < |ds.xs| then ds.maxIndex else |ds.xs|
  }

  /** The four arrays have one length, and the used part fits in it. */
  predicate Aligned(ds: Legacy) {
    |ds.ys| == |ds.xs| && |ds.en| == |ds.xs| && |ds.ep| == |ds.xs| && ds.maxIndex <= |ds.xs|
  }

  /** The used part fits in each of the four arrays. */
  predicate InUse(ds: Legacy) {
    ds.maxIndex <= |ds.xs| && ds.maxIndex <= |ds.ys| && ds.maxIndex <= |ds.en| && ds.maxIndex <= |ds.ep|
  }

  function Min(a: int, b: int): int {
    if a < b then a else b
  }

  // ---------------------------------------------------------------------------
  // Limits

  /** The points in use that all four arrays hold; on consistent arrays,
      the count. */
  function Used(ds: Legacy): (n: nat)
    ensures n <= Count(ds) && n <= |ds.ys| && n <= |ds.en| && n <= |ds.ep|
    ensures InUse(ds) ==> n == Count(ds)
  {
    Min(Count(ds), Min(|ds.ys|, Min(|ds.en|, |ds.ep|)))
  }

  /** What the first `n` points add to the y range under the class's
      `Y_ASYMMETRIC` error type: `y - yErrorNeg`, then `y + yErrorPos`. */
  function Bars(ys: seq<real>, en: seq<real>, ep: seq<real>, n: nat): (vs: seq<real>)
    requires n <= |ys| && n <= |en| && n <= |ep|
    ensures |vs| == 2 * n
  {
    if n == 0 then [] else Bars(ys, en, ep, n - 1) + [ys[n - 1] - en[n - 1], ys[n - 1] + ep[n - 1]]
  }

  /** Point `i`'s error bar sits at positions `2i` and `2i + 1`. */
  lemma {:induction false} BarsAt(ys: seq<real>, en: seq<real>, ep: seq<real>, n: nat, i: int)
    requires n <= |ys| && n <= |en| && n <= |ep| && 0 <= i < n
    ensures Bars(ys, en, ep, n)[2 * i] == ys[i] - en[i]
    ensures Bars(ys, en, ep, n)[2 * i + 1] == ys[i] + ep[i]
  {
    if i < n - 1 {
      BarsAt(ys, en, ep, n - 1, i);
    }
  }

  /** The bars depend only on the first `n` entries of each array. */
  lemma {:induction false} BarsOfPrefix(ys: seq<real>, en: seq<real>, ep: seq<real>,
                                        ys': seq<real>, en': seq<real>, ep': seq<real>, n: nat)
    requires n <= |ys| && n <= |en| && n <= |ep| && n <= |ys'| && n <= |en'| && n <= |ep'|
    requires ys[..n] == ys'[..n] && en[..n] == en'[..n] && ep[..n] == ep'[..n]
    ensures Bars(ys, en, ep, n) == Bars(ys', en', ep', n)
  {
    if n > 0 {
      assert ys[..n - 1] == ys[..n][..n - 1] && ys'[..n - 1] == ys'[..n][..n - 1];
      assert en[..n - 1] == en[..n][..n - 1] && en'[..n - 1] == en'[..n][..n - 1];
      assert ep[..n - 1] == ep[..n][..n - 1] && ep'[..n - 1] == ep'[..n][..n - 1];
      assert ys[n - 1] == ys[..n][n - 1] && en[n - 1] == en[..n][n - 1] && ep[n - 1] == ep[..n][n - 1];
      BarsOfPrefix(ys, en, ep, ys', en', ep', n - 1);
    }
  }

  /** The bars of `a ++ b` are those of `a` followed by those of `b`. */
  lemma {:induction false} BarsOfConcat(ys: seq<real>, en: seq<real>, ep: seq<real>,
                                        ys': seq<real>, en': seq<real>, ep': seq<real>)
    requires |en| == |ys| && |ep| == |ys| && |en'| == |ys'| && |ep'| == |ys'|
    ensures Bars(ys + ys', en + en', ep + ep', |ys| + |ys'|)
            == Bars(ys, en, ep, |ys|) + Bars(ys', en', ep', |ys'|)
    decreases |ys'|
  {
    if |ys'| == 0 {
      assert ys + ys' == ys && en + en' == en && ep + ep' == ep;
    } else {
      var m := |ys'| - 1;
      var last := BarsOfConcatStep(ys, en, ep, ys', en', ep');
      BarsOfConcat(ys, en, ep, ys'[..m], en'[..m], ep'[..m]);
      var a, b := Bars(ys, en, ep, |ys|), Bars(ys'[..m], en'[..m], ep'[..m], m);
      assert a + (b + last) == (a + b) + last;
    }
  }

  /** The step of `BarsOfConcat`: dropping the last point of `b` drops the
      last bar of both sides. */
  lemma BarsOfConcatStep(ys: seq<real>, en: seq<real>, ep: seq<real>,
                         ys': seq<real>, en': seq<real>, ep': seq<real>) returns (last: seq<real>)
    requires |en| == |ys| && |ep| == |ys| && |en'| == |ys'| && |ep'| == |ys'| && |ys'| > 0
    ensures var m := |ys'| - 1;
            Bars(ys + ys', en + en', ep + ep', |ys| + |ys'|)
            == Bars(ys + ys'[..m], en + en'[..m], ep + ep'[..m], |ys| + m) + last
    ensures var m := |ys'| - 1;
            Bars(ys', en', ep', |ys'|) == Bars(ys'[..m], en'[..m], ep'[..m], m) + last
  {
    var n := |ys| + |ys'|;
    var m := |ys'| - 1;
    var Y, E, P := ys + ys', en + en', ep + ep';
    var y0, e0, p0 := ys + ys'[..m], en + en'[..m], ep + ep'[..m];
    assert Y[..n - 1] == y0 && E[..n - 1] == e0 && P[..n - 1] == p0;
    assert Y[n - 1] == ys'[m] && E[n - 1] == en'[m] && P[n - 1] == ep'[m];
    last := [ys'[m] - en'[m], ys'[m] + ep'[m]];
    assert y0[..n - 1] == y0 && e0[..n - 1] == e0 && p0[..n - 1] == p0;
    BarsOfPrefix(Y, E, P, y0, e0, p0, n - 1);
    assert ys'[..m][..m] == ys'[..m] && en'[..m][..m] == en'[..m] && ep'[..m][..m] == ep'[..m];
    BarsOfPrefix(ys', en', ep', ys'[..m], en'[..m], ep'[..m], m);
  }

  /** `computeLimits()`: each range becomes the extent of what the points
      in use add to its axis. */
  function ComputeLimits(ds: Legacy): (r: Legacy)
    ensures r == ds.(xRange := r.xRange, yRange := r.yRange)
    ensures IsExtent(r.xRange, ds.xs[..Used(ds)])
    ensures IsExtent(r.yRange, Bars(ds.ys, ds.en, ds.ep, Used(ds)))
  {
    ds.(xRange := ExtentOf(ds.xs[..Used(ds)]), yRange := ExtentOf(Bars(ds.ys, ds.en, ds.ep, Used(ds))))
  }

  /** The ranges are exactly the extent of the points in use. */
  predicate Exact(ds: Legacy) {
    IsExtent(ds.xRange, ds.xs[..Used(ds)]) && IsExtent(ds.yRange, Bars(ds.ys, ds.en, ds.ep, Used(ds)))
  }

  /** Every point in use, with its error bar, lies inside the ranges. */
  predicate Covers(ds: Legacy) {
    forall i | 0 <= i < Used(ds) ::
      Contains(ds.xRange, ds.xs[i]) && Contains(ds.yRange, ds.ys[i] - ds.en[i])
      && Contains(ds.yRange, ds.ys[i] + ds.ep[i])
  }

  /** Exact ranges cover every point in use. */
  lemma ExactCovers(ds: Legacy)
    requires Exact(ds)
    ensures Covers(ds)
  {
    forall i | 0 <= i < Used(ds)
      ensures Contains(ds.xRange, ds.xs[i]) && Contains(ds.yRange, ds.ys[i] - ds.en[i])
              && Contains(ds.yRange, ds.ys[i] + ds.ep[i])
    {
      assert ds.xs[..Used(ds)][i] == ds.xs[i];
      BarsAt(ds.ys, ds.en, ds.ep, Used(ds), i);
    }
  }

  /** `xRange.add(x); yRange.add(y - yErrorNeg); yRange.add(y + yErrorPos)`:
      the ranges grow to hold the point and its error bar and keep what
      they held. */
  function Widen(ds: Legacy, x: real, y: real, eyn: real, eyp: real): (r: Legacy)
    ensures r == ds.(xRange := r.xRange, yRange := r.yRange)
    ensures Contains(r.xRange, x) && Contains(r.yRange, y - eyn) && Contains(r.yRange, y + eyp)
    ensures forall v | Contains(ds.xRange, v) :: Contains(r.xRange, v)
    ensures forall v | Contains(ds.yRange, v) :: Contains(r.yRange, v)
  {
    ds.(xRange := Extend(ds.xRange, x), yRange := Extend(Extend(ds.yRange, y - eyn), y + eyp))
  }

  // ---------------------------------------------------------------------------
  // Java array primitives

  /** `new double[n]`. */
  function Zeros(n: nat): (r: seq<real>)
    ensures |r| == n && forall i | 0 <= i < n :: r[i] == 0.0
  {
    seq(n, i => 0.0)
  }

  /** `a[i] = v`. */
  function Put(a: seq<real>, i: int, v: real): (r: Result<seq<real>>)
    ensures r.Ok? <==> 0 <= i < |a|
    ensures r.Err? ==> r.failure == IndexOutOfBounds
    ensures r.Ok? ==> |r.value| == |a| && r.value[i] == v
    ensures r.Ok? ==> forall j | 0 <= j < |a| && j != i :: r.value[j] == a[j]
  {
    if 0 <= i < |a| then Ok(a[i := v]) else Err(IndexOutOfBounds)
  }

  /** `System.arraycopy(src, srcPos, dst, dstPos, len)`: the range checks
      first, then `len` elements of `src` over those of `dst`. */
  function ArrayCopy(src: seq<real>, srcPos: int, dst: seq<real>, dstPos: int, len: int): (r: Result<seq<real>>)
    ensures r.Ok? <==> 0 <= srcPos && 0 <= dstPos && 0 <= len && srcPos + len <= |src| && dstPos + len <= |dst|
    ensures r.Err? ==> r.failure == IndexOutOfBounds
    ensures r.Ok? ==> |r.value| == |dst|
    ensures r.Ok? ==> forall j | 0 <= j < |dst| ::
      r.value[j] == if dstPos <= j < dstPos + len then src[srcPos + j - dstPos] else dst[j]
  {
    if 0 <= srcPos && 0 <= dstPos && 0 <= len && srcPos + len <= |src| && dstPos + len <= |dst| then
      Ok(dst[..dstPos] + src[srcPos..srcPos + len] + dst[dstPos + len..])
    else Err(IndexOutOfBounds)
  }

  /** `Arrays.copyOf(a, n)`: truncate, or pad with zeros. */
  function CopyOf(a: seq<real>, n: nat): (r: seq<real>)
    ensures |r| == n
    ensures forall i | 0 <= i < n :: r[i] == if i < |a| then a[i] else 0.0
  {
    seq(n, i requires 0 <= i < n => if i < |a| then a[i] else 0.0)
  }

  // ---------------------------------------------------------------------------
  // Constructors

  /** `DoubleErrorDataSet(name, initalSize)`: a negative size is rejected,
      otherwise four zero arrays of that size and nothing in use. */
  function New(name: string, initalSize: int): (r: Result<Legacy>)
    ensures r.Ok? <==> initalSize >= 0
    ensures r.Err? ==> r.failure == IllegalArgument
    ensures r.Ok? ==> Aligned(r.value) && Count(r.value) == 0 && |r.value.xs| == initalSize
    ensures r.Ok? ==> r.value.xRange == Empty && r.value.yRange == Empty
  {
    if initalSize < 0 then Err(IllegalArgument)
    else Ok(Legacy(name, Zeros(initalSize), Zeros(initalSize), Zeros(initalSize), Zeros(initalSize), 0, Empty, Empty))
  }

  /** `DoubleErrorDataSet(name, x, y, eyn, eyp, nData, deepCopy)`: the count
      is the least of the four lengths and `nData`; with a deep copy (and a
      non-zero count) the arrays are fresh ones of size
      `min(|x|, |y|, nData)`, otherwise the given arrays are kept. Either
      way the limits are then computed. */
  function NewFrom(name: string, xs: seq<real>, ys: seq<real>, en: seq<real>, ep: seq<real>,
                   nData: int, deepCopy: bool): (r: Result<Legacy>)
    ensures r.Ok? <==> nData >= 0
    ensures r.Err? ==> r.failure == IllegalArgument
    ensures r.Ok? ==> InUse(r.value)
    ensures r.Ok? ==> Count(r.value) == Min(Min(|xs|, |ys|), Min(Min(|en|, |ep|), nData))
    ensures r.Ok? ==> var n := Count(r.value);
      r.value.xs[..n] == xs[..n] && r.value.ys[..n] == ys[..n]
      && r.value.en[..n] == en[..n] && r.value.ep[..n] == ep[..n]
    ensures r.Ok? ==> var n := Count(r.value);
      IsExtent(r.value.xRange, xs[..n]) && IsExtent(r.value.yRange, Bars(ys, en, ep, n))
  {
    if nData < 0 then Err(IllegalArgument)
    else
      var m := Min(|xs|, Min(|ys|, Min(Min(|ep|, |en|), nData)));
      var ds := Adopt(name, xs, ys, en, ep, m, Min(|xs|, Min(|ys|, nData)), deepCopy);
      BarsOfPrefix(ds.ys, ds.en, ds.ep, ys, en, ep, m);
      Ok(ComputeLimits(ds))
  }

  /** The arrays of the constructor before the limits: with a deep copy
      (and a non-zero count) the first `m` entries copied into zero arrays
      of `size`, otherwise the given arrays. */
  function Adopt(name: string, xs: seq<real>, ys: seq<real>, en: seq<real>, ep: seq<real>,
                 m: nat, size: nat, deepCopy: bool): (ds: Legacy)
    requires m <= size <= |xs| && size <= |ys| && m <= |en| && m <= |ep|
    ensures InUse(ds) && ds.maxIndex == m && Count(ds) == m && Used(ds) == m
    ensures ds.name == name && ds.xRange == Empty && ds.yRange == Empty
    ensures ds.xs[..m] == xs[..m] && ds.ys[..m] == ys[..m] && ds.en[..m] == en[..m] && ds.ep[..m] == ep[..m]
    ensures m != 0 && deepCopy ==> |ds.xs| == size && |ds.ys| == size && |ds.en| == size && |ds.ep| == size
    ensures !(m != 0 && deepCopy) ==> ds.xs == xs && ds.ys == ys && ds.en == en && ds.ep == ep
  {
    if m != 0 && deepCopy then
      var z := Zeros(size);
      var ds := Legacy(name, z[..0] + xs[..m] + z[m..], z[..0] + ys[..m] + z[m..],
                       z[..0] + en[..m] + z[m..], z[..0] + ep[..m] + z[m..], m, Empty, Empty);
      assert ds.xs[..m] == xs[..m] && ds.ys[..m] == ys[..m] && ds.en[..m] == en[..m] && ds.ep[..m] == ep[..m];
      ds
    else Legacy(name, xs, ys, en, ep, m, Empty, Empty)
  }

  // ---------------------------------------------------------------------------
  // Getters

  function GetX(ds: Legacy, i: int): (r: Result<real>)
    ensures r.Ok? <==> 0 <= i < |ds.xs|
    ensures r.Ok? ==> r.value == ds.xs[i]
  {
    if 0 <= i < |ds.xs| then Ok(ds.xs[i]) else Err(IndexOutOfBounds)
  }

  function GetY(ds: Legacy, i: int): (r: Result<real>)
    ensures r.Ok? <==> 0 <= i < |ds.ys|
    ensures r.Ok? ==> r.value == ds.ys[i]
  {
    if 0 <= i < |ds.ys| then Ok(ds.ys[i]) else Err(IndexOutOfBounds)
  }

  /** The x errors are zero at every index, without a bounds check. */
  function XErrorNegative(ds: Legacy, i: int): (r: real)
    ensures r == 0.0
  {
    0.0
  }

  function XErrorPositive(ds: Legacy, i: int): (r: real)
    ensures r == 0.0
  {
    0.0
  }

  function YErrorNegative(ds: Legacy, i: int): (r: Result<real>)
    ensures r.Ok? <==> 0 <= i < |ds.en|
    ensures r.Ok? ==> r.value == ds.en[i]
  {
    if 0 <= i < |ds.en| then Ok(ds.en[i]) else Err(IndexOutOfBounds)
  }

  function YErrorPositive(ds: Legacy, i: int): (r: Result<real>)
    ensures r.Ok? <==> 0 <= i < |ds.ep|
    ensures r.Ok? ==> r.value == ds.ep[i]
  {
    if 0 <= i < |ds.ep| then Ok(ds.ep[i]) else Err(IndexOutOfBounds)
  }

  // ---------------------------------------------------------------------------
  // Single points

  /** The enlargement in `add`: one more slot in each array. The two error
      arrays are sized and copied by the length of the y array. */
  function GrowByOne(ds: Legacy): (r: Result<Legacy>)
    ensures Aligned(ds) ==> r.Ok? && Aligned(r.value.(maxIndex := 0)) && |r.value.xs| == |ds.xs| + 1
    ensures r.Ok? <==> |ds.en| >= |ds.ys| && |ds.ep| >= |ds.ys|
    ensures r.Ok? ==> r.value.maxIndex == ds.maxIndex && r.value.name == ds.name
    ensures r.Ok? ==> |r.value.xs| == |ds.xs| + 1 && |r.value.ys| == |ds.ys| + 1
                      && |r.value.en| == |ds.ys| + 1 && |r.value.ep| == |ds.ys| + 1
    ensures r.Ok? ==> r.value.xs[..|ds.xs|] == ds.xs && r.value.ys[..|ds.ys|] == ds.ys
    ensures r.Ok? ==> r.value.en[..|ds.ys|] == ds.en[..|ds.ys|] && r.value.ep[..|ds.ys|] == ds.ep[..|ds.ys|]
  {
    var xs := ArrayCopy(ds.xs, 0, Zeros(|ds.xs| + 1), 0, |ds.xs|).value;
    var ys := ArrayCopy(ds.ys, 0, Zeros(|ds.ys| + 1), 0, |ds.ys|).value;
    var en :- ArrayCopy(ds.en, 0, Zeros(|ds.ys| + 1), 0, |ds.ys|);
    var ep :- ArrayCopy(ds.ep, 0, Zeros(|ds.ys| + 1), 0, |ds.ys|);
    Ok(ds.(xs := xs, ys := ys, en := en, ep := ep))
  }

  /** `add(x, y, yErrorNeg, yErrorPos)`: enlarge when full, write at
      `dataMaxIndex`, count one more, and widen the ranges. */
  function Add(ds: Legacy, x: real, y: real, eyn: real, eyp: real): (r: Result<Legacy>)
    ensures r.Err? ==> r.failure == IndexOutOfBounds
    ensures r.Ok? ==> r.value.maxIndex == ds.maxIndex + 1
    ensures r.Ok? ==> ds.maxIndex < |r.value.xs| && ds.maxIndex < |r.value.ys|
                      && ds.maxIndex < |r.value.en| && ds.maxIndex < |r.value.ep|
    ensures r.Ok? ==> r.value.xs[ds.maxIndex] == x && r.value.ys[ds.maxIndex] == y
                      && r.value.en[ds.maxIndex] == eyn && r.value.ep[ds.maxIndex] == eyp
    ensures r.Ok? ==> r.value.xRange == Extend(ds.xRange, x)
                      && r.value.yRange == Extend(Extend(ds.yRange, y - eyn), y + eyp)
  {
    var g :- if ds.maxIndex > |ds.xs| - 1 then GrowByOne(ds) else Ok(ds);
    var xs :- Put(g.xs, g.maxIndex, x);
    var ys :- Put(g.ys, g.maxIndex, y);
    var ep :- Put(g.ep, g.maxIndex, eyp);
    var en :- Put(g.en, g.maxIndex, eyn);
    Ok(Widen(g.(xs := xs, ys := ys, en := en, ep := ep, maxIndex := g.maxIndex + 1), x, y, eyn, eyp))
  }

  /** On aligned arrays `add` succeeds, keeps them aligned, and appends the
      point after the ones in use. */
  lemma {:induction false} AddAppends(ds: Legacy, x: real, y: real, eyn: real, eyp: real)
    requires Aligned(ds)
    ensures Add(ds, x, y, eyn, eyp).Ok?
    ensures var r := Add(ds, x, y, eyn, eyp).value;
            Aligned(r) && Count(r) == Count(ds) + 1
            && r.xs[..Count(r)] == ds.xs[..Count(ds)] + [x]
            && r.ys[..Count(r)] == ds.ys[..Count(ds)] + [y]
            && r.en[..Count(r)] == ds.en[..Count(ds)] + [eyn]
            && r.ep[..Count(r)] == ds.ep[..Count(ds)] + [eyp]
  {
    var g := if ds.maxIndex > |ds.xs| - 1 then GrowByOne(ds).value else ds;
    assert Aligned(g.(maxIndex := 0)) && g.maxIndex == ds.maxIndex && g.maxIndex < |g.xs|;
    assert g.xs[..ds.maxIndex] == ds.xs[..ds.maxIndex] by {
      if ds.maxIndex > |ds.xs| - 1 { assert g.xs[..|ds.xs|] == ds.xs; }
    }
    assert g.ys[..ds.maxIndex] == ds.ys[..ds.maxIndex] by {
      if ds.maxIndex > |ds.xs| - 1 { assert g.ys[..|ds.ys|] == ds.ys; }
    }
    assert g.en[..ds.maxIndex] == ds.en[..ds.maxIndex] by {
      if ds.maxIndex > |ds.xs| - 1 { assert g.en[..|ds.ys|] == ds.en[..|ds.ys|]; }
    }
    assert g.ep[..ds.maxIndex] == ds.ep[..ds.maxIndex] by {
      if ds.maxIndex > |ds.xs| - 1 { assert g.ep[..|ds.ys|] == ds.ep[..|ds.ys|]; }
    }
    var r := Add(ds, x, y, eyn, eyp).value;
    assert r.xs[..Count(r)] == g.xs[..ds.maxIndex] + [x];
    assert r.ys[..Count(r)] == g.ys[..ds.maxIndex] + [y];
    assert r.en[..Count(r)] == g.en[..ds.maxIndex] + [eyn];
    assert r.ep[..Count(r)] == g.ep[..ds.maxIndex] + [eyp];
  }

  /** `set(index, x, y, yErrorNeg, yErrorPos)`: below `dataMaxIndex` the
      point at `index` is overwritten, otherwise the point is added; either
      way the ranges are then widened by the point. */
  function SetAt(ds: Legacy, index: int, x: real, y: real, eyn: real, eyp: real): (r: Result<Legacy>)
    ensures index >= ds.maxIndex ==> r == Add(ds, x, y, eyn, eyp)
    ensures index < 0 ==> r == Err(IndexOutOfBounds)
    ensures r.Ok? ==> r.value.xRange == Extend(ds.xRange, x)
                      && r.value.yRange == Extend(Extend(ds.yRange, y - eyn), y + eyp)
  {
    var s :- if index < ds.maxIndex then
               var xs :- Put(ds.xs, index, x);
               var ys :- Put(ds.ys, index, y);
               var ep :- Put(ds.ep, index, eyp);
               var en :- Put(ds.en, index, eyn);
               Ok(ds.(xs := xs, ys := ys, en := en, ep := ep))
             else Add(ds, x, y, eyn, eyp);
    if index >= ds.maxIndex then
      // the second widening repeats the one `add` already made
      ExtendContained(s.xRange, x);
      ExtendContained(s.yRange, y - eyn);
      ExtendContained(s.yRange, y + eyp);
      Ok(Widen(s, x, y, eyn, eyp))
    else Ok(Widen(s, x, y, eyn, eyp))
  }

  /** On aligned arrays, setting an index in use replaces exactly that point. */
  lemma SetAtReplaces(ds: Legacy, index: int, x: real, y: real, eyn: real, eyp: real)
    requires Aligned(ds) && 0 <= index < Count(ds)
    ensures SetAt(ds, index, x, y, eyn, eyp).Ok?
    ensures var r := SetAt(ds, index, x, y, eyn, eyp).value;
            Aligned(r) && Count(r) == Count(ds)
            && r.xs == ds.xs[index := x] && r.ys == ds.ys[index := y]
            && r.en == ds.en[index := eyn] && r.ep == ds.ep[index := eyp]
  {
  }

  /** When the ranges are the exact extent of the points in use, adding a
      point keeps them exact: widening by the new point is all a
      recomputation would do. */
  lemma {:induction false} AddKeepsExact(ds: Legacy, x: real, y: real, eyn: real, eyp: real)
    requires Aligned(ds) && Exact(ds)
    ensures Add(ds, x, y, eyn, eyp).Ok?
    ensures Exact(Add(ds, x, y, eyn, eyp).value)
  {
    AddAppends(ds, x, y, eyn, eyp);
    var r := Add(ds, x, y, eyn, eyp).value;
    var c := Count(ds);
    assert Used(ds) == c && Used(r) == c + 1;
    ExtentAfterAppend(ds.xRange, ds.yRange, ds.xs, ds.ys, ds.en, ds.ep, r.xs, r.ys, r.en, r.ep,
                      c, x, y, eyn, eyp);
    assert IsExtent(r.xRange, r.xs[..Used(r)]);
    assert IsExtent(r.yRange, Bars(r.ys, r.en, r.ep, Used(r)));
  }

  /** The step of `AddKeepsExact` on the arrays alone: extents of the first
      `c` points, widened by point `c`, are the extents of the first
      `c + 1`. */
  lemma ExtentAfterAppend(xr: Range, yr: Range, xs: seq<real>, ys: seq<real>, en: seq<real>, ep: seq<real>,
                          xs': seq<real>, ys': seq<real>, en': seq<real>, ep': seq<real>,
                          c: nat, x: real, y: real, eyn: real, eyp: real)
    requires c <= |xs| && c <= |ys| && c <= |en| && c <= |ep|
    requires c < |xs'| && c < |ys'| && c < |en'| && c < |ep'|
    requires xs'[..c + 1] == xs[..c] + [x] && ys'[..c + 1] == ys[..c] + [y]
    requires en'[..c + 1] == en[..c] + [eyn] && ep'[..c + 1] == ep[..c] + [eyp]
    requires IsExtent(xr, xs[..c]) && IsExtent(yr, Bars(ys, en, ep, c))
    ensures IsExtent(Extend(xr, x), xs'[..c + 1])
    ensures IsExtent(Extend(Extend(yr, y - eyn), y + eyp), Bars(ys', en', ep', c + 1))
  {
    ExtendKeepsExtent(xr, xs[..c], x);
    BarsAfterAppendOne(ys', en', ep', ys, en, ep, c, y, eyn, eyp);
    var bars := Bars(ys, en, ep, c);
    ExtendKeepsExtent(yr, bars, y - eyn);
    ExtendKeepsExtent(Extend(yr, y - eyn), bars + [y - eyn], y + eyp);
    assert bars + [y - eyn] + [y + eyp] == bars + [y - eyn, y + eyp];
  }

  /** Appending one point appends its error bar. */
  lemma BarsAfterAppendOne(ys': seq<real>, en': seq<real>, ep': seq<real>,
                           ys: seq<real>, en: seq<real>, ep: seq<real>,
                           c: nat, y: real, eyn: real, eyp: real)
    requires c <= |ys| && c <= |en| && c <= |ep| && c < |ys'| && c < |en'| && c < |ep'|
    requires ys'[..c + 1] == ys[..c] + [y] && en'[..c + 1] == en[..c] + [eyn] && ep'[..c + 1] == ep[..c] + [eyp]
    ensures Bars(ys', en', ep', c + 1) == Bars(ys, en, ep, c) + [y - eyn, y + eyp]
  {
    assert ys'[..c] == ys'[..c + 1][..c] && en'[..c] == en'[..c + 1][..c] && ep'[..c] == ep'[..c + 1][..c];
    assert ys'[c] == ys'[..c + 1][c] && en'[c] == en'[..c + 1][c] && ep'[c] == ep'[..c + 1][c];
    BarsOfPrefix(ys', en', ep', ys, en, ep, c);
  }

  /** Ranges that cover the points in use still cover them, and the new
      point, after an add. */
  lemma {:induction false} AddKeepsCovers(ds: Legacy, x: real, y: real, eyn: real, eyp: real)
    requires Aligned(ds) && Covers(ds)
    ensures Add(ds, x, y, eyn, eyp).Ok?
    ensures Covers(Add(ds, x, y, eyn, eyp).value)
  {
    AddAppends(ds, x, y, eyn, eyp);
    var r := Add(ds, x, y, eyn, eyp).value;
    var c := Count(ds);
    assert Used(ds) == c && Used(r) == c + 1;
    forall i | 0 <= i < Used(r)
      ensures Contains(r.xRange, r.xs[i]) && Contains(r.yRange, r.ys[i] - r.en[i])
              && Contains(r.yRange, r.ys[i] + r.ep[i])
    {
      assert r.xs[i] == r.xs[..c + 1][i] && r.ys[i] == r.ys[..c + 1][i];
      assert r.en[i] == r.en[..c + 1][i] && r.ep[i] == r.ep[..c + 1][i];
      if i < c {
        assert r.xs[i] == ds.xs[i] && r.ys[i] == ds.ys[i] && r.en[i] == ds.en[i] && r.ep[i] == ds.ep[i];
        assert Contains(ds.xRange, ds.xs[i]) && Contains(ds.yRange, ds.ys[i] - ds.en[i])
               && Contains(ds.yRange, ds.ys[i] + ds.ep[i]);
      } else {
        assert r.xs[i] == x && r.ys[i] == y && r.en[i] == eyn && r.ep[i] == eyp;
      }
    }
  }

  /** Setting a point keeps the ranges covering every point in use: the
      replaced point's old values may linger in the ranges, but nothing in
      use falls outside them. */
  lemma {:induction false} SetAtKeepsCovers(ds: Legacy, index: int, x: real, y: real, eyn: real, eyp: real)
    requires Aligned(ds) && Covers(ds) && 0 <= index
    ensures SetAt(ds, index, x, y, eyn, eyp).Ok?
    ensures Covers(SetAt(ds, index, x, y, eyn, eyp).value)
  {
    if index < ds.maxIndex {
      SetAtReplaces(ds, index, x, y, eyn, eyp);
      var r := SetAt(ds, index, x, y, eyn, eyp).value;
      assert Used(r) == Used(ds);
      forall i | 0 <= i < Used(r)
        ensures Contains(r.xRange, r.xs[i]) && Contains(r.yRange, r.ys[i] - r.en[i])
                && Contains(r.yRange, r.ys[i] + r.ep[i])
      {
      }
    } else {
      AddKeepsCovers(ds, x, y, eyn, eyp);
    }
  }

  // ---------------------------------------------------------------------------
  // Removal and clearing

  /** `remove(fromIndex, toIndex)`: both indices must lie in `[0, count)`
      and be ordered; the arrays shrink by `toIndex - fromIndex` with
      `[fromIndex, toIndex)` cut out of their whole length, and both ranges
      are emptied. */
  function Remove(ds: Legacy, from: int, to: int): (r: Result<Legacy>)
    ensures !(0 <= from < Count(ds) && 0 <= to < Count(ds) && from <= to) ==> r == Err(IndexOutOfBounds)
    ensures r.Ok? ==> r.value.maxIndex + (to - from) == ds.maxIndex
    ensures r.Ok? ==> r.value.xRange == Empty && r.value.yRange == Empty
  {
    if !(0 <= from < Count(ds)) || !(0 <= to < Count(ds)) || from > to then Err(IndexOutOfBounds)
    else
      var newLength := |ds.xs| - (to - from);
      var xs := Cut(ds.xs, from, to, newLength).value;
      var ys :- Cut(ds.ys, from, to, newLength);
      var en :- Cut(ds.en, from, to, newLength);
      var ep :- Cut(ds.ep, from, to, newLength);
      // Java's floor at zero never applies: `to < count <= dataMaxIndex`
      Ok(ds.(xs := xs, ys := ys, en := en, ep := ep, maxIndex := ds.maxIndex - (to - from),
             xRange := Empty, yRange := Empty))
  }

  /** The two copies into a new array of `newLength`: the elements before
      `from`, then those from `to` on. */
  function Cut(a: seq<real>, from: nat, to: nat, newLength: nat): (r: Result<seq<real>>)
    requires from <= to && from <= newLength
    ensures newLength == |a| - (to - from) && to <= |a| ==> r == Ok(a[..from] + a[to..])
  {
    var head :- ArrayCopy(a, 0, Zeros(newLength), 0, from);
    var r := ArrayCopy(a, to, head, from, newLength - from);
    assert newLength == |a| - (to - from) && to <= |a| ==> r.Ok? && r.value == a[..from] + a[to..] by {
      if newLength == |a| - (to - from) && to <= |a| {
        assert r.Ok?;
        assert forall j | 0 <= j < newLength :: r.value[j] == (a[..from] + a[to..])[j];
      }
    }
    r
  }

  /** On aligned arrays a range in use is removed and the rest kept in order. */
  lemma RemoveCutsRange(ds: Legacy, from: int, to: int)
    requires Aligned(ds) && 0 <= from <= to < Count(ds)
    ensures Remove(ds, from, to).Ok?
    ensures var r := Remove(ds, from, to).value;
            Aligned(r) && Count(r) == Count(ds) - (to - from)
            && r.xs[..Count(r)] == ds.xs[..from] + ds.xs[to..Count(ds)]
            && r.ys[..Count(r)] == ds.ys[..from] + ds.ys[to..Count(ds)]
            && r.en[..Count(r)] == ds.en[..from] + ds.en[to..Count(ds)]
            && r.ep[..Count(r)] == ds.ep[..from] + ds.ep[to..Count(ds)]
  {
    RemoveSplices(ds, from, to);
    CutInUse(ds.xs, from, to, Count(ds));
    CutInUse(ds.ys, from, to, Count(ds));
    CutInUse(ds.en, from, to, Count(ds));
    CutInUse(ds.ep, from, to, Count(ds));
  }

  /** On aligned arrays each array loses `[from, to)`. */
  lemma RemoveSplices(ds: Legacy, from: int, to: int)
    requires Aligned(ds) && 0 <= from <= to < Count(ds)
    ensures Remove(ds, from, to)
            == Ok(ds.(xs := ds.xs[..from] + ds.xs[to..], ys := ds.ys[..from] + ds.ys[to..],
                      en := ds.en[..from] + ds.en[to..], ep := ds.ep[..from] + ds.ep[to..],
                      maxIndex := ds.maxIndex - (to - from), xRange := Empty, yRange := Empty))
  {
  }

  /** Of an array with `[from, to)` cut out, the part in use is the part in
      use before, without the cut. */
  lemma CutInUse(a: seq<real>, from: nat, to: nat, count: nat)
    requires from <= to <= count <= |a|
    ensures (a[..from] + a[to..])[..count - (to - from)] == a[..from] + a[to..count]
  {
  }

  /** `remove(index)` is `remove(index, index + 1)`, so the last point in
      use can never be removed by it: its end index equals the count. */
  lemma RemoveLastRejected(ds: Legacy)
    requires Count(ds) > 0
    ensures Remove(ds, Count(ds) - 1, Count(ds)) == Err(IndexOutOfBounds)
  {
  }

  /** `clearData()`: nothing in use, every array zeroed with its length
      kept, and both ranges emptied. */
  function ClearData(ds: Legacy): (r: Legacy)
    ensures Count(r) == 0 && r.name == ds.name
    ensures |r.xs| == |ds.xs| && |r.ys| == |ds.ys| && |r.en| == |ds.en| && |r.ep| == |ds.ep|
    ensures forall i | 0 <= i < |r.xs| :: r.xs[i] == 0.0
    ensures forall i | 0 <= i < |r.ys| :: r.ys[i] == 0.0
    ensures forall i | 0 <= i < |r.en| :: r.en[i] == 0.0
    ensures forall i | 0 <= i < |r.ep| :: r.ep[i] == 0.0
    ensures Aligned(ds) ==> Aligned(r)
    ensures r.xRange == Empty && r.yRange == Empty
  {
    ds.(xs := Zeros(|ds.xs|), ys := Zeros(|ds.ys|), en := Zeros(|ds.en|), ep := Zeros(|ds.ep|), maxIndex := 0,
        xRange := Empty, yRange := Empty)
  }

  // ---------------------------------------------------------------------------
  // Whole arrays

  /** The storing part of `set(x, y, eyn, eyp, copy)`: the count becomes
      the least of the four lengths. Without copy the arrays are taken as
      they are; with copy they are copied into the present arrays when the
      x lengths agree, otherwise into fresh arrays of the new x length. */
  function StoreArrays(ds: Legacy, xs: seq<real>, ys: seq<real>, en: seq<real>, ep: seq<real>,
                       copy: bool): (r: Result<Legacy>)
    ensures Aligned(ds) || |xs| != |ds.xs| || !copy ==> r.Ok?
    ensures r.Ok? ==> InUse(r.value) && Count(r.value) == Min(|xs|, Min(|ys|, Min(|ep|, |en|)))
    ensures r.Ok? ==> var n := Count(r.value);
      r.value.xs[..n] == xs[..n] && r.value.ys[..n] == ys[..n]
      && r.value.en[..n] == en[..n] && r.value.ep[..n] == ep[..n]
    ensures r.Ok? && copy ==> Aligned(r.value) || (|xs| == |ds.xs| && !Aligned(ds))
  {
    var m := Min(|xs|, Min(|ys|, Min(|ep|, |en|)));
    if !copy then Ok(Legacy(ds.name, xs, ys, en, ep, m, ds.xRange, ds.yRange))
    else if |xs| == |ds.xs| then
      var x' := ArrayCopy(xs, 0, ds.xs, 0, m).value;
      var y' :- ArrayCopy(ys, 0, ds.ys, 0, m);
      var n' :- ArrayCopy(en, 0, ds.en, 0, m);
      var p' :- ArrayCopy(ep, 0, ds.ep, 0, m);
      Ok(ds.(xs := x', ys := y', en := n', ep := p', maxIndex := m))
    else
      Ok(ds.(xs := CopyOf(xs, |xs|), ys := CopyOf(ys, |xs|), en := CopyOf(en, |xs|),
             ep := CopyOf(ep, |xs|), maxIndex := m))
  }

  /** `set(x, y, eyn, eyp, copy)`: the arrays are stored and the limits
      computed. */
  function SetArrays(ds: Legacy, xs: seq<real>, ys: seq<real>, en: seq<real>, ep: seq<real>,
                     copy: bool): (r: Result<Legacy>)
    ensures Aligned(ds) || |xs| != |ds.xs| || !copy ==> r.Ok?
    ensures r.Ok? ==> InUse(r.value) && Count(r.value) == Min(|xs|, Min(|ys|, Min(|ep|, |en|)))
    ensures r.Ok? ==> var n := Count(r.value);
      r.value.xs[..n] == xs[..n] && r.value.ys[..n] == ys[..n]
      && r.value.en[..n] == en[..n] && r.value.ep[..n] == ep[..n]
    ensures r.Ok? && copy ==> Aligned(r.value) || (|xs| == |ds.xs| && !Aligned(ds))
    ensures r.Ok? ==> var n := Count(r.value);
      IsExtent(r.value.xRange, xs[..n]) && IsExtent(r.value.yRange, Bars(ys, en, ep, n))
  {
    var t :- StoreArrays(ds, xs, ys, en, ep, copy);
    var m := Count(t);
    assert Used(t) == m && t.xs[..m] == xs[..m];
    BarsOfPrefix(t.ys, t.en, t.ep, ys, en, ep, m);
    var r := ComputeLimits(t);
    assert Count(r) == m && r.xs == t.xs && r.ys == t.ys && r.en == t.en && r.ep == t.ep;
    Ok(r)
  }

  /** The enlargement in bulk `add`: fresh arrays of `newLength` holding the
      first `count` x and y values in use, and the first `count` entries of
      `enSrc` and `epSrc` as errors. */
  function Realloc(ds: Legacy, newLength: nat, enSrc: seq<real>, epSrc: seq<real>): (r: Result<Legacy>)
    ensures r.Ok? <==> Count(ds) <= newLength && Count(ds) <= |ds.ys|
                       && Count(ds) <= |enSrc| && Count(ds) <= |epSrc|
    ensures r.Err? ==> r.failure == IndexOutOfBounds
    ensures r.Ok? ==> var c := Count(ds);
      |r.value.xs| == newLength && |r.value.ys| == newLength
      && |r.value.en| == newLength && |r.value.ep| == newLength
      && r.value.xs[..c] == ds.xs[..c] && r.value.ys[..c] == ds.ys[..c]
      && r.value.en[..c] == enSrc[..c] && r.value.ep[..c] == epSrc[..c]
    ensures r.Ok? ==> r.value == ds.(xs := r.value.xs, ys := r.value.ys, en := r.value.en, ep := r.value.ep)
  {
    var c := Count(ds);
    var xs :- ArrayCopy(ds.xs, 0, Zeros(newLength), 0, c);
    var ys :- ArrayCopy(ds.ys, 0, Zeros(newLength), 0, c);
    var en :- ArrayCopy(enSrc, 0, Zeros(newLength), 0, c);
    var ep :- ArrayCopy(epSrc, 0, Zeros(newLength), 0, c);
    Ok(ds.(xs := xs, ys := ys, en := en, ep := ep))
  }

  /** The common tail of bulk `add`: copy the four arrays behind the points
      in use and count them. */
  function AppendArrays(g: Legacy, xs: seq<real>, ys: seq<real>, en: seq<real>, ep: seq<real>): (r: Result<Legacy>)
    ensures r.Ok? <==> Count(g) + |xs| <= |g.xs| && Count(g) + |xs| <= |g.ys|
                       && Count(g) + |xs| <= |g.en| && Count(g) + |xs| <= |g.ep|
                       && |xs| <= |ys| && |xs| <= |en| && |xs| <= |ep|
    ensures r.Err? ==> r.failure == IndexOutOfBounds
    ensures r.Ok? ==> var c, n := Count(g), |xs|;
      r.value.xs == g.xs[..c] + xs + g.xs[c + n..]
      && r.value.ys == g.ys[..c] + ys[..n] + g.ys[c + n..]
      && r.value.en == g.en[..c] + en[..n] + g.en[c + n..]
      && r.value.ep == g.ep[..c] + ep[..n] + g.ep[c + n..]
    ensures r.Ok? ==> r.value == g.(xs := r.value.xs, ys := r.value.ys, en := r.value.en, ep := r.value.ep,
                                    maxIndex := g.maxIndex + |xs|)
  {
    var c := Count(g);
    var x' :- ArrayCopy(xs, 0, g.xs, c, |xs|);
    var y' :- ArrayCopy(ys, 0, g.ys, c, |xs|);
    var n' :- ArrayCopy(en, 0, g.en, c, |xs|);
    var p' :- ArrayCopy(ep, 0, g.ep, c, |xs|);
    Ok(g.(xs := x', ys := y', en := n', ep := p', maxIndex := g.maxIndex + |xs|))
  }

  /** Bulk `add(x, y, eyn, eyp)` as written: on enlargement the error
      arrays are filled from the *parameters* `eyn`/`eyp` (which shadow the
      fields) instead of from the data set's own errors. */
  function AddArraysAsWritten(ds: Legacy, xs: seq<real>, ys: seq<real>, en: seq<real>, ep: seq<real>): (r: Result<Legacy>)
    ensures |xs| != |ys| || |xs| != |en| || |xs| != |ep| ==> r == Err(IllegalArgument)
    ensures Count(ds) + |xs| <= |ds.xs| ==> r == AddArrays(ds, xs, ys, en, ep)
  {
    if |xs| != |ys| || |xs| != |en| || |xs| != |ep| then Err(IllegalArgument)
    else
      var newLength := Count(ds) + |xs|;
      var g :- if newLength > |ds.xs| then Realloc(ds, newLength, en, ep) else Ok(ds);
      var a :- AppendArrays(g, xs, ys, en, ep);
      Ok(ComputeLimits(a))
  }

  /** Bulk `add` with the enlargement copying the data set's own errors;
      the limits are computed afterwards. */
  function AddArrays(ds: Legacy, xs: seq<real>, ys: seq<real>, en: seq<real>, ep: seq<real>): (r: Result<Legacy>)
    ensures |xs| != |ys| || |xs| != |en| || |xs| != |ep| ==> r == Err(IllegalArgument)
    ensures r.Ok? ==> Exact(r.value)
  {
    if |xs| != |ys| || |xs| != |en| || |xs| != |ep| then Err(IllegalArgument)
    else
      var newLength := Count(ds) + |xs|;
      var g :- if newLength > |ds.xs| then Realloc(ds, newLength, ds.en, ds.ep) else Ok(ds);
      var a :- AppendArrays(g, xs, ys, en, ep);
      Ok(ComputeLimits(a))
  }

  /** On aligned arrays the corrected bulk `add` appends the four arrays
      behind the points in use, whether or not it has to enlarge. */
  lemma {:induction false} AddArraysAppends(ds: Legacy, xs: seq<real>, ys: seq<real>, en: seq<real>, ep: seq<real>)
    requires Aligned(ds) && |ys| == |xs| && |en| == |xs| && |ep| == |xs|
    ensures AddArrays(ds, xs, ys, en, ep).Ok?
    ensures var r := AddArrays(ds, xs, ys, en, ep).value;
            Aligned(r) && Count(r) == Count(ds) + |xs|
            && r.xs[..Count(r)] == ds.xs[..Count(ds)] + xs
            && r.ys[..Count(r)] == ds.ys[..Count(ds)] + ys
            && r.en[..Count(r)] == ds.en[..Count(ds)] + en
            && r.ep[..Count(r)] == ds.ep[..Count(ds)] + ep
  {
    var c := Count(ds);
    var newLength := c + |xs|;
    var g := if newLength > |ds.xs| then Realloc(ds, newLength, ds.en, ds.ep).value else ds;
    assert Aligned(g) && Count(g) == c && g.maxIndex == c && |g.xs| >= newLength;
    assert g.xs[..c] == ds.xs[..c] && g.ys[..c] == ds.ys[..c];
    assert g.en[..c] == ds.en[..c] && g.ep[..c] == ds.ep[..c];
    AppendArraysAppends(g, xs, ys, en, ep);
    var a := AppendArrays(g, xs, ys, en, ep).value;
    assert AddArrays(ds, xs, ys, en, ep) == Ok(ComputeLimits(a));
  }

  /** On aligned arrays with room behind the points in use, the copy puts
      the four arrays right behind them. */
  lemma AppendArraysAppends(g: Legacy, xs: seq<real>, ys: seq<real>, en: seq<real>, ep: seq<real>)
    requires Aligned(g) && |ys| == |xs| && |en| == |xs| && |ep| == |xs| && g.maxIndex + |xs| <= |g.xs|
    ensures AppendArrays(g, xs, ys, en, ep).Ok?
    ensures var a := AppendArrays(g, xs, ys, en, ep).value;
            Aligned(a) && Count(a) == Count(g) + |xs|
            && a.xs[..Count(a)] == g.xs[..Count(g)] + xs
            && a.ys[..Count(a)] == g.ys[..Count(g)] + ys
            && a.en[..Count(a)] == g.en[..Count(g)] + en
            && a.ep[..Count(a)] == g.ep[..Count(g)] + ep
  {
    var c, n := Count(g), |xs|;
    var a := AppendArrays(g, xs, ys, en, ep).value;
    assert Count(a) == c + n;
    SplicePrefix(g.xs[..c], xs, g.xs[c + n..]);
    SplicePrefix(g.ys[..c], ys, g.ys[c + n..]);
    SplicePrefix(g.en[..c], en, g.en[c + n..]);
    SplicePrefix(g.ep[..c], ep, g.ep[c + n..]);
    assert ys[..n] == ys && en[..n] == en && ep[..n] == ep;
  }

  lemma SplicePrefix(a: seq<real>, b: seq<real>, c: seq<real>)
    ensures (a + b + c)[..|a| + |b|] == a + b
  {
  }

  /** After a bulk `add` on aligned arrays the ranges are exactly the
      extent of the old points in use followed by the new ones. */
  lemma {:induction false} AddArraysExtent(ds: Legacy, xs: seq<real>, ys: seq<real>, en: seq<real>, ep: seq<real>)
    requires Aligned(ds) && |ys| == |xs| && |en| == |xs| && |ep| == |xs|
    ensures AddArrays(ds, xs, ys, en, ep).Ok?
    ensures var r := AddArrays(ds, xs, ys, en, ep).value;
            IsExtent(r.xRange, ds.xs[..Count(ds)] + xs)
            && IsExtent(r.yRange, Bars(ds.ys, ds.en, ds.ep, Count(ds)) + Bars(ys, en, ep, |xs|))
  {
    AddArraysAppends(ds, xs, ys, en, ep);
    var r := AddArrays(ds, xs, ys, en, ep).value;
    assert Used(r) == Count(r) == Count(ds) + |xs|;
    BarsAfterAppend(r.ys, r.en, r.ep, ds.ys, ds.en, ds.ep, Count(ds), ys, en, ep);
  }

  /** The step of `AddArraysExtent` on the arrays alone: when the first
      `c + |ys2|` entries are the first `c` of the old arrays followed by
      the appended ones, so are the bars. */
  lemma BarsAfterAppend(ys': seq<real>, en': seq<real>, ep': seq<real>,
                        ys: seq<real>, en: seq<real>, ep: seq<real>, c: nat,
                        ys2: seq<real>, en2: seq<real>, ep2: seq<real>)
    requires c <= |ys| && c <= |en| && c <= |ep| && |en2| == |ys2| && |ep2| == |ys2|
    requires c + |ys2| <= |ys'| && c + |ys2| <= |en'| && c + |ys2| <= |ep'|
    requires ys'[..c + |ys2|] == ys[..c] + ys2 && en'[..c + |ys2|] == en[..c] + en2
             && ep'[..c + |ys2|] == ep[..c] + ep2
    ensures Bars(ys', en', ep', c + |ys2|) == Bars(ys, en, ep, c) + Bars(ys2, en2, ep2, |ys2|)
  {
    BarsOfPrefix(ys', en', ep', ys[..c] + ys2, en[..c] + en2, ep[..c] + ep2, c + |ys2|);
    BarsOfConcat(ys[..c], en[..c], ep[..c], ys2, en2, ep2);
    BarsOfPrefix(ys[..c], en[..c], ep[..c], ys, en, ep, c);
  }

  /** One point in use at full capacity, errors 0.5, and one more point
      with errors 0.25 added in bulk: as written the kept point's errors
      become 0.25, the corrected bulk add keeps 0.5. */
  lemma AddArraysShadowCounterexample()
    ensures var ds := Legacy("legacy", [1.0], [1.0], [0.5], [0.5], 1, Empty, Empty);
            AddArraysAsWritten(ds, [2.0], [2.0], [0.25], [0.25]).Ok?
            && AddArraysAsWritten(ds, [2.0], [2.0], [0.25], [0.25]).value.en == [0.25, 0.25]
            && AddArrays(ds, [2.0], [2.0], [0.25], [0.25]).value.en == [0.5, 0.25]
  {
    var ds := Legacy("legacy", [1.0], [1.0], [0.5], [0.5], 1, Empty, Empty);
    var w := Realloc(ds, 2, [0.25], [0.25]).value;
    assert w.en == [0.25, 0.0];
    var c := Realloc(ds, 2, ds.en, ds.ep).value;
    assert c.en == [0.5, 0.0];
    assert AppendArrays(w, [2.0], [2.0], [0.25], [0.25]).value.en == [0.25, 0.25];
    assert AppendArrays(c, [2.0], [2.0], [0.25], [0.25]).value.en == [0.5, 0.25];
  }
}

=== FILE: multi_array.dfy ===
/** `MultiArrayImpl`: a rectangular multi-dimensional array stored as one flat
    array in row-major order (the last index varies fastest). */
module MultiArray {
  import opened Wrappers

  datatype MultiArray<T> = MultiArray(elements: seq<T>, dimensions: seq<int>)

  /** The product of a sequence of extents. */
  function Product(dims: seq<int>): int {
    if |dims| == 0 then 1 else dims[0] * Product(dims[1..])
  }

  /** The row-major offset: the sum over `i` of `indices[i]` times the product
      of the extents of the dimensions after `i`. */
  function RowMajor(indices: seq<int>, dims: seq<int>): int
    requires |indices| <= |dims|
  {
    if |indices| == 0 then 0
    else indices[0] * Product(dims[1..|indices|]) + RowMajor(indices[1..], dims[1..])
  }

  const TWO31 := 0x8000_0000
  const TWO32 := 0x1_0000_0000

  /** Java's `int` result of an exact value: the value wrapped into
      [-2^31, 2^31) modulo 2^32. */
  function Int32(v: int): (r: int)
    ensures -TWO31 <= r < TWO31
  {
    (v + TWO31) % TWO32 - TWO31
  }

  /** How many times 2^32 the wrap takes away. */
  function Wraps(v: int): int {
    (v + TWO31) / TWO32
  }

  lemma Int32Is(v: int)
    ensures Int32(v) == v - Wraps(v) * TWO32
  {
  }

  /** Adding a multiple of 2^32 does not change the wrapped value. */
  lemma Int32Shift(v: int, k: int)
    ensures Int32(v + k * TWO32) == Int32(v)
  {
    var a := v + TWO31;
    var q, r := a / TWO32, a % TWO32;
    assert a + k * TWO32 == (q + k) * TWO32 + r;
    var q', r' := (a + k * TWO32) / TWO32, (a + k * TWO32) % TWO32;
    assert (q + k) * TWO32 + r == q' * TWO32 + r';
  }

  /** Wrapping an operand of a sum before adding changes nothing. */
  lemma Int32Add(a: int, b: int)
    ensures Int32(Int32(a) + Int32(b)) == Int32(a + b)
  {
    Int32Is(a);
    Int32Is(b);
    assert Int32(a) + Int32(b) == a + b + (-Wraps(a) - Wraps(b)) * TWO32;
    Int32Shift(a + b, -Wraps(a) - Wraps(b));
  }

  /** Wrapping a factor before multiplying changes nothing. */
  lemma Int32Mul(a: int, b: int)
    ensures Int32(a * Int32(b)) == Int32(a * b)
  {
    Int32Is(b);
    var w := Wraps(b);
    assert a * Int32(b) == a * b + (-(a * w)) * TWO32 by {
      assert a * (b - w * TWO32) == a * b - a * (w * TWO32);
      assert a * (w * TWO32) == (a * w) * TWO32;
    }
    Int32Shift(a * b, -(a * w));
  }

  /** A value inside the `int` range is its own wrap. */
  lemma Int32Small(v: int)
    requires -TWO31 <= v < TWO31
    ensures Int32(v) == v
  {
    assert 0 <= v + TWO31 < TWO32;
  }

  /** The constructor with explicit dimensions: the element count is the
      length of the flat array. */
  function New<T>(elements: seq<T>, dimensions: seq<int>): (r: MultiArray<T>)
    ensures ElementCount(r) == |elements| && r.dimensions == dimensions
  {
    MultiArray(elements, dimensions)
  }

  /** The one-argument constructor: a one-dimensional array whose only extent
      is the length of the flat array. */
  function New1<T>(elements: seq<T>): (r: MultiArray<T>)
    ensures ElementCount(r) == |elements| && r.dimensions == [|elements|]
  {
    MultiArray(elements, [|elements|])
  }

  /** `getElementsCount()`. */
  function ElementCount<T>(a: MultiArray<T>): nat {
    |a.elements|
  }

  /** `getIndex(indices)`: walks the indices from last to first, accumulating
      `indices[i] * multiplier` and multiplying in the extent of dimension `i`,
      all in Java's wrapping `int` arithmetic. More indices than dimensions
      makes the extent lookup throw. */
  method GetIndex<T>(a: MultiArray<T>, indices: seq<int>) returns (r: Result<int>)
    ensures r.Err? <==> |indices| > |a.dimensions|
    ensures r.Err? ==> r.failure == IndexOutOfBounds
    ensures r.Ok? ==> r.value == Int32(RowMajor(indices, a.dimensions))
  {
    var dims := a.dimensions;
    if |indices| > |dims| {
      return Err(IndexOutOfBounds);
    }
    var n := |indices|;
    var index := 0;
    var multiplier := 1;
    var i := n;
    while i > 0
      invariant 0 <= i <= n
      invariant index == Int32(RowMajor(indices[i..], dims[i..]))
      invariant multiplier == Int32(Product(dims[i..n]))
    {
      i := i - 1;
      var p := Product(dims[i + 1..n]);
      var rest := RowMajor(indices[i + 1..], dims[i + 1..]);
      assert dims[i..][1..n - i] == dims[i + 1..n];
      assert indices[i..][1..] == indices[i + 1..];
      assert dims[i..][1..] == dims[i + 1..];
      assert RowMajor(indices[i..], dims[i..]) == indices[i] * p + rest;
      Int32Mul(indices[i], p);
      Int32Add(rest, indices[i] * p);
      Int32Small(index);
      Int32Small(Int32(indices[i] * multiplier));
      index := Int32(index + Int32(indices[i] * multiplier));
      assert dims[i..n][1..] == dims[i + 1..n];
      Int32Mul(dims[i], p);
      multiplier := Int32(multiplier * dims[i]);
    }
    assert indices[0..] == indices && dims[0..] == dims;
    return Ok(index);
  }

  /** The typed getters: the element at the wrapped row-major offset, or an
      `ArrayIndexOutOfBoundsException` when that offset is outside the array. */
  method GetAt<T>(a: MultiArray<T>, indices: seq<int>) returns (r: Result<T>)
    ensures |indices| > |a.dimensions| ==> r.Err?
    ensures |indices| <= |a.dimensions| ==>
      var k := Int32(RowMajor(indices, a.dimensions));
      r == if 0 <= k < |a.elements| then Ok(a.elements[k]) else Err(IndexOutOfBounds)
  {
    var k :- GetIndex(a, indices);
    if 0 <= k < |a.elements| {
      return Ok(a.elements[k]);
    }
    return Err(IndexOutOfBounds);
  }

  /** All-zero indices address the first element. */
  lemma {:induction false} RowMajorZero(indices: seq<int>, dims: seq<int>)
    requires |indices| <= |dims|
    requires forall i | 0 <= i < |indices| :: indices[i] == 0
    ensures RowMajor(indices, dims) == 0
    decreases |indices|
  {
    if |indices| > 0 {
      RowMajorZero(indices[1..], dims[1..]);
    }
  }

  /** Indices within their extents address a slot inside the flat array of
      `Product(dims)` elements. */
  lemma {:induction false} RowMajorInBounds(indices: seq<int>, dims: seq<int>)
    requires |indices| == |dims|
    requires forall i | 0 <= i < |indices| :: 0 <= indices[i] < dims[i]
    ensures 0 <= RowMajor(indices, dims) < Product(dims)
    decreases |indices|
  {
    if |indices| > 0 {
      var rest := dims[1..];
      assert dims[1..|indices|] == rest;
      RowMajorInBounds(indices[1..], rest);
      var p := Product(rest);
      var r := RowMajor(indices[1..], rest);
      assert 0 <= r < p;
      MulBound(indices[0], dims[0], p, r);
    }
  }

  /** Indices within their extents do not wrap when the flat array could be
      allocated, that is when the extents multiply to at most `Integer.MAX_VALUE`:
      they address the slot the exact row-major offset names. */
  lemma InBoundsNoWrap(indices: seq<int>, dims: seq<int>)
    requires |indices| == |dims|
    requires forall i | 0 <= i < |indices| :: 0 <= indices[i] < dims[i]
    requires Product(dims) < TWO31
    ensures Int32(RowMajor(indices, dims)) == RowMajor(indices, dims)
    ensures 0 <= RowMajor(indices, dims) < Product(dims)
  {
    RowMajorInBounds(indices, dims);
    Int32Small(RowMajor(indices, dims));
  }

  /** Indices outside their extents can wrap back onto a valid slot: with
      extents [1, 4] the indices [2^30, 0] address offset 2^32, which Java's
      `int` arithmetic turns into 0, the first element. */
  lemma IndexWrapsAround()
    ensures RowMajor([0x4000_0000, 0], [1, 4]) == TWO32
    ensures Int32(RowMajor([0x4000_0000, 0], [1, 4])) == 0
  {
    assert [1, 4][1..2] == [4];
    assert Product([4]) == 4 by {
      assert [4][1..] == [];
    }
    assert [0x4000_0000, 0][1..] == [0] && [1, 4][1..] == [4];
    assert RowMajor([0], [4]) == 0 by {
      assert [4][1..1] == [];
      assert [0][1..] == [] && [4][1..] == [];
    }
  }

  lemma MulBound(i: int, d: int, p: int, r: int)
    requires 0 <= i < d && 0 <= r < p
    ensures 0 <= i * p + r < d * p
  {
    assert i * p <= (d - 1) * p;
    assert (d - 1) * p + p == d * p;
  }

  /** A one-dimensional array built by the one-argument constructor addresses
      element `i` at offset `i`, for every Java `int` i. */
  method OneDimensionalIndex<T>(elements: seq<T>, i: int) returns (r: Result<int>)
    requires -TWO31 <= i < TWO31
    ensures r == Ok(i)
  {
    r := GetIndex(New1(elements), [i]);
    assert RowMajor([i], [|elements|]) == i * Product([]) + RowMajor([], []);
    Int32Small(i);
  }
}

=== FILE: performance_meter.dfy ===
/** `SimplePerformanceMeter`: the 100-slot ring of frame time stamps that
    `handle(now)` maintains, and the CPU-load trackers that the periodic
    property update keeps, with `-1` as the "no sample yet" sentinel.
    Time stamps are the nanosecond counts the animation timer passes in;
    the CPU loads are the samples the operating system reports. */
module PerformanceMeter {
  import opened Wrappers

  /** `frameTimes.length`. */
  const FRAMES: nat := 100

  /** The frame-time ring. `elapsed` is `now - oldFrameTime` of the last
      call that computed a frame rate, `None` before the first one. */
  datatype Meter = Meter(frameTimes: seq<int>, index: nat, filled: bool, elapsed: Option<int>)

  predicate Valid(m: Meter) {
    |m.frameTimes| == FRAMES && m.index < FRAMES
  }

  /** A fresh meter: all time stamps 0, nothing measured. */
  function NewMeter(): (m: Meter)
    ensures Valid(m)
  {
    Meter(seq(FRAMES, _ => 0), 0, false, None)
  }

  /** `handle(now)`: record `now` in the current slot, advance the slot
      modulo 100, mark the ring filled at the first wrap, and, once filled,
      measure the time since the stamp the slot held before. */
  function Handle(m: Meter, now: int): (r: Meter)
    requires Valid(m)
    ensures Valid(r)
    ensures r.index == (m.index + 1) % FRAMES
    ensures m.filled ==> r.filled
    ensures !r.filled ==> r.elapsed == m.elapsed
  {
    var oldFrameTime := m.frameTimes[m.index];
    var index := (m.index + 1) % FRAMES;
    var filled := m.filled || index == 0;
    Meter(m.frameTimes[m.index := now], index, filled,
          if filled then Some(now - oldFrameTime) else m.elapsed)
  }

  /** `handle` called with each time stamp of `ts` in turn. */
  function HandleAll(m: Meter, ts: seq<int>): (r: Meter)
    requires Valid(m)
    ensures Valid(r)
  {
    if |ts| == 0 then m else Handle(HandleAll(m, ts[..|ts| - 1]), ts[|ts| - 1])
  }

  /** The stamp slot `k` holds after the calls `ts` on a fresh meter: the
      last stamp written to it, or the initial 0. */
  function LastAt(ts: seq<int>, k: nat): int {
    if |ts| == 0 then 0
    else if (|ts| - 1) % FRAMES == k then ts[|ts| - 1]
    else LastAt(ts[..|ts| - 1], k)
  }

  /** The state of the ring after any sequence of calls on a fresh meter:
      the slot index counts calls modulo 100, the ring is filled once 100
      calls were made, and every slot holds its last stamp. */
  lemma {:induction false} HandleAllState(ts: seq<int>)
    ensures var m := HandleAll(NewMeter(), ts);
            m.index == |ts| % FRAMES
            && (m.filled <==> |ts| >= FRAMES)
            && forall k | 0 <= k < FRAMES :: m.frameTimes[k] == LastAt(ts, k)
  {
    if |ts| > 0 {
      var n := |ts| - 1;
      HandleAllState(ts[..n]);
      assert ts[..n][..|ts[..n]|] == ts[..n];
    }
  }

  /** No stamp written at a position in `[from, |ts|)` went to slot `k`. */
  lemma {:induction false} LastAtSkip(ts: seq<int>, k: nat, from: nat)
    requires from <= |ts|
    requires forall j | from <= j < |ts| :: j % FRAMES != k
    ensures LastAt(ts, k) == LastAt(ts[..from], k)
    decreases |ts| - from
  {
    if from < |ts| {
      var n := |ts| - 1;
      assert n % FRAMES != k;
      assert ts[..n][..from] == ts[..from];
      LastAtSkip(ts[..n], k, from);
    } else {
      assert ts[..from] == ts;
    }
  }

  /** Two positions less than 100 apart fall into different slots. */
  lemma CloseSlotsDiffer(i: int, j: int)
    requires 0 <= j < i < j + FRAMES
    ensures i % FRAMES != j % FRAMES
  {
    var qi, qj := i / FRAMES, j / FRAMES;
    assert i == qi * FRAMES + i % FRAMES;
    assert j == qj * FRAMES + j % FRAMES;
  }

  /** The slot of call `n` holds, before that call, the stamp of call
      `n - 100`, or 0 when there was none. */
  lemma SlotBefore(ts: seq<int>)
    ensures LastAt(ts, |ts| % FRAMES) == if |ts| >= FRAMES then ts[|ts| - FRAMES] else 0
  {
    var n := |ts|;
    var k := n % FRAMES;
    var from := if n >= FRAMES then n - FRAMES + 1 else 0;
    forall j | from <= j < n
      ensures j % FRAMES != k
    {
      CloseSlotsDiffer(n, j);
    }
    LastAtSkip(ts, k, from);
    if n >= FRAMES {
      var s := ts[..from];
      assert |s| - 1 == n - FRAMES;
      assert (n - FRAMES) % FRAMES == k;
      assert LastAt(s, k) == ts[n - FRAMES];
    } else {
      assert ts[..from] == [];
    }
  }

  /** What the frame rate is computed from: no measurement before 100
      calls; from then on, call `n` measures `ts[n] - ts[n - 100]`, the
      time taken by the last 100 frames, except that the very first
      measurement (call 99) subtracts the initial stamp 0. */
  lemma {:induction false} ElapsedIsHundredFrames(ts: seq<int>)
    requires |ts| > 0
    ensures var m := HandleAll(NewMeter(), ts);
            var n := |ts| - 1;
            (n < FRAMES - 1 ==> m.elapsed.None?)
            && (n == FRAMES - 1 ==> m.elapsed == Some(ts[n]))
            && (n >= FRAMES ==> m.elapsed == Some(ts[n] - ts[n - FRAMES]))
  {
    var n := |ts| - 1;
    if n < FRAMES - 1 {
      NoMeasurementYet(ts);
    } else {
      var prefix := ts[..n];
      var m0 := HandleAll(NewMeter(), prefix);
      assert HandleAll(NewMeter(), ts) == Handle(m0, ts[n]);
      HandleAllState(prefix);
      HandleAllState(ts);
      SlotBefore(prefix);
      var old0 := m0.frameTimes[m0.index];
      assert old0 == LastAt(prefix, n % FRAMES);
      assert Handle(m0, ts[n]).elapsed == Some(ts[n] - old0);
      if n >= FRAMES {
        assert prefix[n - FRAMES] == ts[n - FRAMES];
      }
    }
  }

  /** Before the ring is filled nothing is measured. */
  lemma {:induction false} NoMeasurementYet(ts: seq<int>)
    requires |ts| < FRAMES
    ensures HandleAll(NewMeter(), ts).elapsed.None?
  {
    if |ts| > 0 {
      NoMeasurementYet(ts[..|ts| - 1]);
      HandleAllState(ts);
    }
  }

  /** The CPU-load trackers: the minimum, average and maximum process load
      and the average system load; a negative value means "no sample". */
  datatype Loads = Loads(minLoad: real, avgLoad: real, maxLoad: real, avgSystem: real)

  /** One sample of the process and the system CPU load. */
  datatype Sample = Sample(process: real, system: real)

  /** `resetAverages()`: every tracker back to the sentinel -1. */
  function ResetAverages(): (l: Loads)
    ensures l.minLoad < 0.0 && l.avgLoad < 0.0 && l.maxLoad < 0.0 && l.avgSystem < 0.0
  {
    Loads(-1.0, -1.0, -1.0, -1.0)
  }

  /** The IIR average `y(n) = alpha * x(n) + (1 - alpha) * y(n - 1)`,
      started from the first sample. */
  function Smooth(prev: real, x: real, alpha: real): real {
    if prev < 0.0 then x else (1.0 - alpha) * prev + alpha * x
  }

  /** The tracker part of `updateProperties()`: a tracker still at its
      sentinel takes the sample; otherwise the minimum and maximum move
      towards the sample and the averages are smoothed. */
  function UpdateLoads(l: Loads, s: Sample, alpha: real): (r: Loads)
    ensures r.minLoad <= s.process && r.maxLoad >= s.process
    ensures l.minLoad >= 0.0 ==> r.minLoad <= l.minLoad
    ensures l.maxLoad >= 0.0 ==> r.maxLoad >= l.maxLoad
    ensures r.minLoad == s.process || r.minLoad == l.minLoad
    ensures r.maxLoad == s.process || r.maxLoad == l.maxLoad
  {
    Loads(if l.minLoad < 0.0 || s.process < l.minLoad then s.process else l.minLoad,
          Smooth(l.avgLoad, s.process, alpha),
          if l.maxLoad < 0.0 || s.process > l.maxLoad then s.process else l.maxLoad,
          Smooth(l.avgSystem, s.system, alpha))
  }

  /** The updates for each sample of `ss` in turn. */
  function UpdateAll(l: Loads, ss: seq<Sample>, alpha: real): Loads {
    if |ss| == 0 then l else UpdateLoads(UpdateAll(l, ss[..|ss| - 1], alpha), ss[|ss| - 1], alpha)
  }

  /** The least and the greatest process load of a non-empty run. */
  function MinProcess(ss: seq<Sample>): real
    requires |ss| > 0
  {
    var x := ss[|ss| - 1].process;
    if |ss| == 1 then x
    else var m := MinProcess(ss[..|ss| - 1]); if x < m then x else m
  }

  function MaxProcess(ss: seq<Sample>): real
    requires |ss| > 0
  {
    var x := ss[|ss| - 1].process;
    if |ss| == 1 then x
    else var m := MaxProcess(ss[..|ss| - 1]); if x > m then x else m
  }

  predicate NonNegative(ss: seq<Sample>) {
    forall i | 0 <= i < |ss| :: ss[i].process >= 0.0
  }

  /** A weighted mean of two values in `[lo, hi]` lies in `[lo, hi]`. */
  lemma {:induction false} ConvexBetween(lo: real, hi: real, u: real, v: real, alpha: real)
    requires lo <= u <= hi && lo <= v <= hi && 0.0 <= alpha <= 1.0
    ensures lo <= (1.0 - alpha) * u + alpha * v <= hi
  {
    MulNonNegative(1.0 - alpha, u - lo);
    MulNonNegative(alpha, v - lo);
    MulNonNegative(1.0 - alpha, hi - u);
    MulNonNegative(alpha, hi - v);
    assert (1.0 - alpha) * u + alpha * v - lo == (1.0 - alpha) * (u - lo) + alpha * (v - lo);
    assert hi - ((1.0 - alpha) * u + alpha * v) == (1.0 - alpha) * (hi - u) + alpha * (hi - v);
  }

  lemma MulNonNegative(a: real, b: real)
    requires a >= 0.0 && b >= 0.0
    ensures a * b >= 0.0
  {
  }

  /** After a reset and a run of non-negative samples, the minimum and the
      maximum tracker hold the least and the greatest sample, and, for a
      filter constant in `[0, 1]`, the average lies between them. */
  lemma {:induction false} TrackersAreExtremes(ss: seq<Sample>, alpha: real)
    requires |ss| > 0 && NonNegative(ss) && 0.0 <= alpha <= 1.0
    ensures var l := UpdateAll(ResetAverages(), ss, alpha);
            l.minLoad == MinProcess(ss) && l.maxLoad == MaxProcess(ss)
            && l.minLoad <= l.avgLoad <= l.maxLoad
  {
    var n := |ss| - 1;
    var l := UpdateAll(ResetAverages(), ss[..n], alpha);
    assert UpdateAll(ResetAverages(), ss, alpha) == UpdateLoads(l, ss[n], alpha);
    if n == 0 {
      assert l == ResetAverages();
    } else {
      assert NonNegative(ss[..n]);
      TrackersAreExtremes(ss[..n], alpha);
      ExtremesNonNegative(ss[..n]);
      UpdateKeepsOrder(l, ss[n], alpha);
    }
  }

  /** One update of trackers that hold samples keeps the average between
      the minimum and the maximum. */
  lemma UpdateKeepsOrder(l: Loads, s: Sample, alpha: real)
    requires 0.0 <= l.minLoad <= l.avgLoad <= l.maxLoad && s.process >= 0.0 && 0.0 <= alpha <= 1.0
    ensures var r := UpdateLoads(l, s, alpha);
            r.minLoad == (if s.process < l.minLoad then s.process else l.minLoad)
            && r.maxLoad == (if s.process > l.maxLoad then s.process else l.maxLoad)
            && r.minLoad <= r.avgLoad <= r.maxLoad
  {
    var x := s.process;
    var lo := if x < l.minLoad then x else l.minLoad;
    var hi := if x > l.maxLoad then x else l.maxLoad;
    ConvexBetween(lo, hi, l.avgLoad, x, alpha);
    assert Smooth(l.avgLoad, x, alpha) == (1.0 - alpha) * l.avgLoad + alpha * x;
  }

  lemma {:induction false} ExtremesNonNegative(ss: seq<Sample>)
    requires |ss| > 0 && NonNegative(ss)
    ensures MinProcess(ss) >= 0.0 && MaxProcess(ss) >= MinProcess(ss)
  {
    if |ss| > 1 {
      assert NonNegative(ss[..|ss| - 1]);
      ExtremesNonNegative(ss[..|ss| - 1]);
    }
  }

  /** `getMaxProcessCpuLoad()` as written: it reads the minimum tracker, so
      on ordered trackers it never exceeds the average. */
  function MaxProcessCpuLoadAsWritten(l: Loads): (r: real)
    ensures 0.0 <= l.minLoad <= l.avgLoad <= l.maxLoad ==> 0.0 <= r <= l.avgLoad
  {
    l.minLoad
  }

  /** `getMaxProcessCpuLoad()` as its name and its property promise: the
      maximum tracker, which on ordered trackers is at least the average
      and the minimum. */
  function MaxProcessCpuLoad(l: Loads): (r: real)
    ensures 0.0 <= l.minLoad <= l.avgLoad <= l.maxLoad ==> l.minLoad <= r && l.avgLoad <= r
  {
    l.maxLoad
  }

  /** The corrected getter reports the greatest sample since the reset. */
  lemma MaxProcessCpuLoadIsGreatest(ss: seq<Sample>, alpha: real)
    requires |ss| > 0 && NonNegative(ss) && 0.0 <= alpha <= 1.0
    ensures MaxProcessCpuLoad(UpdateAll(ResetAverages(), ss, alpha)) == MaxProcess(ss)
    ensures forall i | 0 <= i < |ss| :: ss[i].process <= MaxProcessCpuLoad(UpdateAll(ResetAverages(), ss, alpha))
  {
    TrackersAreExtremes(ss, alpha);
    MaxIsUpperBound(ss);
  }

  lemma {:induction false} MaxIsUpperBound(ss: seq<Sample>)
    requires |ss| > 0
    ensures forall i | 0 <= i < |ss| :: ss[i].process <= MaxProcess(ss)
  {
    if |ss| > 1 {
      MaxIsUpperBound(ss[..|ss| - 1]);
      assert forall i | 0 <= i < |ss| - 1 :: ss[..|ss| - 1][i] == ss[i];
    }
  }

  /** Loads of 10% and then 50%: the getter as written reports 10, the
      greatest load seen is 50. */
  lemma MaxProcessCpuLoadCounterexample()
    ensures var l := UpdateAll(ResetAverages(), [Sample(10.0, 0.0), Sample(50.0, 0.0)], 0.01);
            MaxProcessCpuLoadAsWritten(l) == 10.0 && MaxProcessCpuLoad(l) == 50.0
  {
    var ss := [Sample(10.0, 0.0), Sample(50.0, 0.0)];
    assert ss[..1] == [Sample(10.0, 0.0)];
    assert ss[..1][..0] == [];
  }
}

=== FILE: serialiser_round_trip.dfy ===
/** What the data set serialiser's reader makes of what its writer wrote:
    the builder receives the name, the number of dimensions, the axis
    descriptions, the meta data and labels whose flags are set, and every
    value and error array of the data set. */
module SerialiserRoundTrip {
  import opened Wrappers
  import opened JavaStrings
  import Decimal
  import opened DataSetBuilder
  import opened DataSetSerialiser

  // ---- field names ---------------------------------------------------

  predicate Lacks(fs: seq<Field>, name: string) {
    forall k | 0 <= k < |fs| :: fs[k].name != name
  }

  predicate LacksMeta(fs: seq<Field>) {
    Lacks(fs, INFO_LIST) && Lacks(fs, WARNING_LIST) && Lacks(fs, ERROR_LIST) && Lacks(fs, META_INFO)
  }

  predicate LacksLabels(fs: seq<Field>) {
    Lacks(fs, DATA_LABELS) && Lacks(fs, DATA_STYLES)
  }

  predicate NoAxisNames(fs: seq<Field>) {
    forall k | 0 <= k < |fs| :: !StartsWith(fs[k].name, AXIS)
  }

  predicate NoArrays(fs: seq<Field>) {
    forall k | 0 <= k < |fs| :: TagOf(fs[k].payload) != DOUBLE_ARRAY && TagOf(fs[k].payload) != FLOAT_ARRAY
  }

  lemma LacksAppend(xs: seq<Field>, ys: seq<Field>, name: string)
    requires Lacks(xs, name) && Lacks(ys, name)
    ensures Lacks(xs + ys, name)
  {
    forall k | 0 <= k < |xs + ys| ensures (xs + ys)[k].name != name {
      if k >= |xs| { assert (xs + ys)[k] == ys[k - |xs|]; }
    }
  }

  lemma NoAxisNamesAppend(xs: seq<Field>, ys: seq<Field>)
    requires NoAxisNames(xs) && NoAxisNames(ys)
    ensures NoAxisNames(xs + ys)
  {
    forall k | 0 <= k < |xs + ys| ensures !StartsWith((xs + ys)[k].name, AXIS) {
      if k >= |xs| { assert (xs + ys)[k] == ys[k - |xs|]; }
    }
  }

  lemma NoArraysAppend(xs: seq<Field>, ys: seq<Field>)
    requires NoArrays(xs) && NoArrays(ys)
    ensures NoArrays(xs + ys)
  {
    forall k | 0 <= k < |xs + ys|
      ensures TagOf((xs + ys)[k].payload) != DOUBLE_ARRAY && TagOf((xs + ys)[k].payload) != FLOAT_ARRAY
    {
      if k >= |xs| { assert (xs + ys)[k] == ys[k - |xs|]; }
    }
  }

  /** Strings that differ at a position inside the prefix do not start
      alike. */
  lemma DiffersAt(s: string, prefix: string, k: nat)
    requires k < |prefix| && k < |s| && s[k] != prefix[k]
    ensures !StartsWith(s, prefix)
  {
  }

  lemma DimKeyShape(prefix: string, i: nat)
    ensures StartsWith(DimKey(prefix, i), prefix) && |DimKey(prefix, i)| > |prefix|
  {
    assert DimKey(prefix, i)[..|prefix|] == prefix;
  }

  lemma AxisKeyShape(i: nat, suffix: string)
    ensures StartsWith(AxisKey(i, suffix), AXIS)
  {
    assert AxisKey(i, suffix)[..|AXIS|] == AXIS;
  }

  /** The names of the header, meta data and label fields. */
  const FIXED_NAMES: seq<string> :=
    [DATA_SET_NAME, DIMENSIONS, INFO_LIST, WARNING_LIST, ERROR_LIST, META_INFO, DATA_LABELS, DATA_STYLES]

  /** No fixed name starts like an axis, value or error key. */
  lemma FixedNamesApart(name: string)
    requires name in FIXED_NAMES
    ensures !StartsWith(name, AXIS) && !StartsWith(name, ARRAY_PREFIX)
    ensures !StartsWith(name, EN_PREFIX) && !StartsWith(name, EP_PREFIX)
  {
    assert |name| >= 2 && name[0] != 'a' && (name[0] == 'e' ==> name[1] == 'r');
    DiffersAt(name, AXIS, 0);
    DiffersAt(name, ARRAY_PREFIX, 0);
    if name[0] == 'e' {
      DiffersAt(name, EN_PREFIX, 1);
      DiffersAt(name, EP_PREFIX, 1);
    } else {
      DiffersAt(name, EN_PREFIX, 0);
      DiffersAt(name, EP_PREFIX, 0);
    }
  }

  /** A name that starts with a prefix no other name starts with differs
      from it. */
  lemma PrefixApart(s: string, t: string, prefix: string)
    requires StartsWith(s, prefix) && !StartsWith(t, prefix)
    ensures s != t
  {
  }

  /** Value and error keys never start like axis keys. */
  lemma NumericKeyNotAxis(s: string)
    requires StartsWith(s, ARRAY_PREFIX) || StartsWith(s, EN_PREFIX) || StartsWith(s, EP_PREFIX)
    ensures !StartsWith(s, AXIS)
  {
    if StartsWith(s, ARRAY_PREFIX) {
      assert s[1] == ARRAY_PREFIX[1];
      DiffersAt(s, AXIS, 1);
    } else {
      assert s[0] == EN_PREFIX[0];
      DiffersAt(s, AXIS, 0);
    }
  }

  /** The `axis<i>` part of an axis key contains no dot. */
  lemma NoDotInAxisPart(i: nat)
    ensures '.' !in DimKey(AXIS, i)
  {
    var s := DimKey(AXIS, i);
    var digits := Decimal.NatToString(i);
    forall k | 0 <= k < |s| ensures s[k] != '.' {
      if k >= |AXIS| {
        assert s[k] == digits[k - |AXIS|];
      }
    }
  }

  /** An axis key splits at its dot into `axis<i>` and the suffix, and the
      index is read back. */
  lemma AxisKeyParts(i: nat, suffix: string)
    requires i <= Decimal.INT_MAX && suffix != "" && '.' !in suffix
    ensures StartsWith(AxisKey(i, suffix), AXIS)
    ensures Split(AxisKey(i, suffix), ".") == [DimKey(AXIS, i), suffix]
    ensures GetDimIndex(DimKey(AXIS, i), AXIS) == i
  {
    var a := DimKey(AXIS, i);
    assert AxisKey(i, suffix) == a + "." + suffix;
    NoDotInAxisPart(i);
    NoCharNoMatch(a, '.');
    NoCharNoMatch(suffix, '.');
    assert a + "."[..0] == a;
    SplitTwo(a, ".", suffix);
    GetDimIndexOfKey(AXIS, i);
    AxisKeyShape(i, suffix);
  }

  /** Axis fields are named `axis...` and carry strings and doubles. */
  lemma {:induction false} AxisFieldsShape(axes: seq<AxisDesc>)
    ensures forall k | 0 <= k < |AxisFields(axes)| ::
              StartsWith(AxisFields(axes)[k].name, AXIS)
              && (AxisFields(axes)[k].payload.PString? || AxisFields(axes)[k].payload.PDouble?)
    decreases |axes|
  {
    if |axes| > 0 {
      var n := |axes| - 1;
      AxisFieldsShape(axes[..n]);
      var pre := AxisFields(axes[..n]);
      var g := AxisGroup(n, axes[n]);
      AxisKeyShape(n, NAME);
      AxisKeyShape(n, UNIT);
      AxisKeyShape(n, MIN);
      AxisKeyShape(n, MAX);
      assert forall j | 0 <= j < 4 :: StartsWith(g[j].name, AXIS) && (g[j].payload.PString? || g[j].payload.PDouble?);
      var fs := AxisFields(axes);
      assert fs == pre + g;
      forall k | 0 <= k < |fs|
        ensures StartsWith(fs[k].name, AXIS) && (fs[k].payload.PString? || fs[k].payload.PDouble?)
      {
        if k < |pre| { assert fs[k] == pre[k]; } else { assert fs[k] == g[k - |pre|]; }
      }
    }
  }

  /** The header fields hold no array, and no meta data or label name. */
  lemma HeaderShape(ds: DataSet)
    ensures NoArrays(HeaderFields(ds)) && LacksMeta(HeaderFields(ds)) && LacksLabels(HeaderFields(ds))
  {
    var h := HeaderFields(ds);
    var axes := AxisFields(ds.axes);
    AxisFieldsShape(ds.axes);
    assert h == h[..2] + axes;
    forall name | name in FIXED_NAMES && name != DATA_SET_NAME && name != DIMENSIONS ensures Lacks(h, name) {
      FixedNamesApart(name);
      forall k | 2 <= k < |h| ensures h[k].name != name {
        assert h[k] == axes[k - 2];
        PrefixApart(h[k].name, name, AXIS);
      }
    }
    forall k | 0 <= k < |h| ensures TagOf(h[k].payload) != DOUBLE_ARRAY && TagOf(h[k].payload) != FLOAT_ARRAY {
      if k >= 2 { assert h[k] == axes[k - 2]; }
    }
  }

  predicate ErrorName(s: string) {
    StartsWith(s, EN_PREFIX) || StartsWith(s, EP_PREFIX)
  }

  /** Every field is an array named `en...` or `ep...`. */
  predicate ErrorShaped(fs: seq<Field>) {
    forall k | 0 <= k < |fs| :: ErrorName(fs[k].name) && (fs[k].payload.PFloats? || fs[k].payload.PDoubles?)
  }

  lemma ErrorShapedAppend(a: seq<Field>, b: seq<Field>)
    requires ErrorShaped(a) && ErrorShaped(b)
    ensures ErrorShaped(a + b)
  {
    forall k | 0 <= k < |a + b|
      ensures ErrorName((a + b)[k].name) && ((a + b)[k].payload.PFloats? || (a + b)[k].payload.PDoubles?)
    {
      if k < |a| { assert (a + b)[k] == a[k]; } else { assert (a + b)[k] == b[k - |a|]; }
    }
  }

  /** The error fields of one dimension are error arrays. */
  lemma ErrorFieldsOfShape(n: nat, d: DimData, asFloat: bool, narrow: real -> real)
    ensures ErrorShaped(ErrorFieldsOf(n, d, asFloat, narrow))
  {
    DimKeyShape(EN_PREFIX, n);
    DimKeyShape(EP_PREFIX, n);
  }

  /** Every error field is an array named `en...` or `ep...`. */
  lemma {:induction false} ErrorFieldsShape(dims: seq<DimData>, asFloat: bool, narrow: real -> real)
    ensures ErrorShaped(ErrorFields(dims, asFloat, narrow))
    decreases |dims|
  {
    if |dims| > 0 {
      var n := |dims| - 1;
      ErrorFieldsShape(dims[..n], asFloat, narrow);
      ErrorFieldsOfShape(n, dims[n], asFloat, narrow);
      ErrorShapedAppend(ErrorFields(dims[..n], asFloat, narrow), ErrorFieldsOf(n, dims[n], asFloat, narrow));
    }
  }

  /** The numeric fields carry no axis name and no fixed name. */
  lemma NumericShape(ds: DataSet, asFloat: bool, narrow: real -> real)
    requires |ds.dims| <= Decimal.INT_MAX
    ensures NoAxisNames(NumericFields(ds, asFloat, narrow))
    ensures forall name | name in FIXED_NAMES :: Lacks(NumericFields(ds, asFloat, narrow), name)
    ensures LacksMeta(NumericFields(ds, asFloat, narrow)) && LacksLabels(NumericFields(ds, asFloat, narrow))
  {
    var fs := NumericFields(ds, asFloat, narrow);
    NumericFieldNames(ds, asFloat, narrow);
    NumericNamesApart(fs);
  }

  /** Every name starts with one of the three array prefixes. */
  predicate NumericNames(fs: seq<Field>) {
    forall k | 0 <= k < |fs| ::
      StartsWith(fs[k].name, ARRAY_PREFIX) || StartsWith(fs[k].name, EN_PREFIX) || StartsWith(fs[k].name, EP_PREFIX)
  }

  lemma NumericFieldNames(ds: DataSet, asFloat: bool, narrow: real -> real)
    requires |ds.dims| <= Decimal.INT_MAX
    ensures NumericNames(NumericFields(ds, asFloat, narrow))
  {
    var arrays := ArrayFields(ds.dims, asFloat, narrow);
    var errors := if ds.hasErrors then ErrorFields(ds.dims, asFloat, narrow) else [];
    var fs := NumericFields(ds, asFloat, narrow);
    assert fs == arrays + errors;
    ErrorFieldsShape(ds.dims, asFloat, narrow);
    forall k | 0 <= k < |fs|
      ensures StartsWith(fs[k].name, ARRAY_PREFIX) || StartsWith(fs[k].name, EN_PREFIX) || StartsWith(fs[k].name, EP_PREFIX)
    {
      if k < |arrays| {
        DimKeyShape(ARRAY_PREFIX, k);
      } else {
        assert fs[k] == errors[k - |arrays|];
      }
    }
  }

  /** Names with an array prefix are neither axis names nor fixed names. */
  lemma NumericNamesApart(fs: seq<Field>)
    requires NumericNames(fs)
    ensures NoAxisNames(fs)
    ensures forall name | name in FIXED_NAMES :: Lacks(fs, name)
    ensures LacksMeta(fs) && LacksLabels(fs)
  {
    forall k | 0 <= k < |fs| ensures !StartsWith(fs[k].name, AXIS) {
      NumericKeyNotAxis(fs[k].name);
    }
    forall name | name in FIXED_NAMES ensures Lacks(fs, name) {
      FixedNamesApart(name);
      forall k | 0 <= k < |fs| ensures fs[k].name != name {
        if StartsWith(fs[k].name, ARRAY_PREFIX) {
          PrefixApart(fs[k].name, name, ARRAY_PREFIX);
        } else if StartsWith(fs[k].name, EN_PREFIX) {
          PrefixApart(fs[k].name, name, EN_PREFIX);
        } else {
          PrefixApart(fs[k].name, name, EP_PREFIX);
        }
      }
    }
  }

  // ---- the axis fold -------------------------------------------------

  lemma {:induction false} ParseAxesAppend(b: Builder, xs: seq<Field>, ys: seq<Field>)
    requires ParseAxes(b, xs).Ok?
    ensures ParseAxes(b, xs + ys) == ParseAxes(ParseAxes(b, xs).value, ys)
    decreases |xs|
  {
    if |xs| == 0 {
      assert xs + ys == ys;
    } else {
      assert (xs + ys)[0] == xs[0];
      assert (xs + ys)[1..] == xs[1..] + ys;
      ParseAxesAppend(ParseHeader(b, xs[0]).value, xs[1..], ys);
    }
  }

  lemma {:induction false} ParseAxesSkip(b: Builder, fs: seq<Field>)
    requires NoAxisNames(fs)
    ensures ParseAxes(b, fs) == Ok(b)
    decreases |fs|
  {
    if |fs| > 0 {
      ParseAxesSkip(b, fs[1..]);
    }
  }

  /** Setting a part of the next axis appends a default description with
      that part set. */
  lemma SetAxisNew(b: Builder, u: AxisUpdate)
    requires |b.axes| < MAX_AXIS_DIMENSION
    ensures SetAxis(b, |b.axes|, u) == Ok(b.(axes := b.axes + [ApplyAxis(DEFAULT_AXIS, u)]))
  {
    var r := SetAxis(b, |b.axes|, u).value;
    assert r.axes == b.axes + [ApplyAxis(DEFAULT_AXIS, u)];
  }

  /** Setting a part of the last axis changes only that description. */
  lemma SetAxisLast(b: Builder, u: AxisUpdate)
    requires 0 < |b.axes| <= MAX_AXIS_DIMENSION
    ensures var n := |b.axes| - 1;
            SetAxis(b, n, u) == Ok(b.(axes := b.axes[..n] + [ApplyAxis(b.axes[n], u)]))
  {
    var n := |b.axes| - 1;
    var r := SetAxis(b, n, u).value;
    assert r.axes == b.axes[..n] + [ApplyAxis(b.axes[n], u)];
  }

  /** A name field for the next axis appends its description. */
  lemma ParseNameField(b: Builder, s: string)
    requires |b.axes| < MAX_AXIS_DIMENSION
    ensures ParseHeader(b, Field(AxisKey(|b.axes|, NAME), PString(s)))
            == Ok(b.(axes := b.axes + [DEFAULT_AXIS.(name := s)]))
  {
    AxisKeyParts(|b.axes|, NAME);
    SetAxisNew(b, SetAxisName(s));
  }

  /** The unit, minimum and maximum fields of the last axis set that part
      of it. */
  lemma ParseUnitField(b: Builder, s: string)
    requires 0 < |b.axes| <= MAX_AXIS_DIMENSION
    ensures var n := |b.axes| - 1;
            ParseHeader(b, Field(AxisKey(n, UNIT), PString(s))) == Ok(b.(axes := b.axes[..n] + [b.axes[n].(unit := s)]))
  {
    AxisKeyParts(|b.axes| - 1, UNIT);
    SetAxisLast(b, SetUnit(s));
  }

  lemma ParseMinField(b: Builder, v: Doubles.Double)
    requires 0 < |b.axes| <= MAX_AXIS_DIMENSION
    ensures var n := |b.axes| - 1;
            ParseHeader(b, Field(AxisKey(n, MIN), PDouble(v))) == Ok(b.(axes := b.axes[..n] + [b.axes[n].(min := v)]))
  {
    AxisKeyParts(|b.axes| - 1, MIN);
    SetAxisLast(b, SetMin(v));
  }

  lemma ParseMaxField(b: Builder, v: Doubles.Double)
    requires 0 < |b.axes| <= MAX_AXIS_DIMENSION
    ensures var n := |b.axes| - 1;
            ParseHeader(b, Field(AxisKey(n, MAX), PDouble(v))) == Ok(b.(axes := b.axes[..n] + [b.axes[n].(max := v)]))
  {
    AxisKeyParts(|b.axes| - 1, MAX);
    SetAxisLast(b, SetMax(v));
  }

  /** The four fields of axis `i` describe axis `i` completely. */
  lemma ParseAxisGroup(b: Builder, i: nat, a: AxisDesc)
    requires |b.axes| == i < MAX_AXIS_DIMENSION
    ensures ParseAxes(b, AxisGroup(i, a)) == Ok(b.(axes := b.axes + [a]))
  {
    var g := AxisGroup(i, a);
    var d1 := DEFAULT_AXIS.(name := a.name, unit := a.unit);
    var b2 := b.(axes := b.axes + [d1]);
    ParseNameUnit(b, i, a);
    assert b2.axes[..i] == b.axes && b2.axes[i] == d1;
    ParseMinMax(b2, i, a);
    assert b2.axes[..i] + [d1.(min := a.min, max := a.max)] == b.axes + [a];
    var front := [Field(AxisKey(i, NAME), PString(a.name)), Field(AxisKey(i, UNIT), PString(a.unit))];
    var back := [Field(AxisKey(i, MIN), PDouble(a.min)), Field(AxisKey(i, MAX), PDouble(a.max))];
    assert g == front + back;
    ParseAxesThen(b, front, back, b2, b.(axes := b.axes + [a]));
  }

  /** The name and unit fields of the next axis append its description. */
  lemma ParseNameUnit(b: Builder, i: nat, a: AxisDesc)
    requires |b.axes| == i < MAX_AXIS_DIMENSION
    ensures ParseAxes(b, [Field(AxisKey(i, NAME), PString(a.name)), Field(AxisKey(i, UNIT), PString(a.unit))])
            == Ok(b.(axes := b.axes + [DEFAULT_AXIS.(name := a.name, unit := a.unit)]))
  {
    var d0 := DEFAULT_AXIS.(name := a.name);
    var b1 := b.(axes := b.axes + [d0]);
    var b2 := b.(axes := b.axes + [d0.(unit := a.unit)]);
    var g := [Field(AxisKey(i, NAME), PString(a.name)), Field(AxisKey(i, UNIT), PString(a.unit))];
    assert ParseHeader(b, g[0]) == Ok(b1) by {
      ParseNameField(b, a.name);
    }
    assert ParseHeader(b1, g[1]) == Ok(b2) by {
      assert b1.axes[..i] == b.axes;
      ParseUnitField(b1, a.unit);
    }
    ParseAxesTwo(b, g, b1, b2);
  }

  /** The minimum and maximum fields of the last axis set its range. */
  lemma ParseMinMax(b: Builder, i: nat, a: AxisDesc)
    requires |b.axes| == i + 1 <= MAX_AXIS_DIMENSION
    ensures ParseAxes(b, [Field(AxisKey(i, MIN), PDouble(a.min)), Field(AxisKey(i, MAX), PDouble(a.max))])
            == Ok(b.(axes := b.axes[..i] + [b.axes[i].(min := a.min, max := a.max)]))
  {
    var b1 := b.(axes := b.axes[..i] + [b.axes[i].(min := a.min)]);
    var b2 := b.(axes := b.axes[..i] + [b.axes[i].(min := a.min, max := a.max)]);
    var g := [Field(AxisKey(i, MIN), PDouble(a.min)), Field(AxisKey(i, MAX), PDouble(a.max))];
    assert ParseHeader(b, g[0]) == Ok(b1) by {
      ParseMinField(b, a.min);
    }
    assert ParseHeader(b1, g[1]) == Ok(b2) by {
      assert b1.axes[..i] == b.axes[..i];
      ParseMaxField(b1, a.max);
    }
    ParseAxesTwo(b, g, b1, b2);
  }

  /** Two fields that each parse without exception, one after the other. */
  lemma ParseAxesTwo(b: Builder, g: seq<Field>, b1: Builder, b2: Builder)
    requires |g| == 2
    requires ParseHeader(b, g[0]) == Ok(b1) && ParseHeader(b1, g[1]) == Ok(b2)
    ensures ParseAxes(b, g) == Ok(b2)
  {
    assert ParseAxes(b1, g[1..]) == Ok(b2) by { assert g[1..][0] == g[1] && g[1..][1..] == []; }
  }

  /** The axis fields rebuild the axis descriptions they were written
      from. */
  lemma {:induction false} ParseAxesAll(b: Builder, axes: seq<AxisDesc>)
    requires b.axes == [] && |axes| <= MAX_AXIS_DIMENSION
    ensures ParseAxes(b, AxisFields(axes)) == Ok(b.(axes := axes))
    decreases |axes|
  {
    if |axes| > 0 {
      var n := |axes| - 1;
      ParseAxesAll(b, axes[..n]);
      var b' := b.(axes := axes[..n]);
      LastGroup(b', axes, n);
      var g :| AxisFields(axes) == AxisFields(axes[..n]) + g && ParseAxes(b', g) == Ok(b'.(axes := axes));
      ParseAxesThen(b, AxisFields(axes[..n]), g, b', b.(axes := axes));
    }
  }

  /** The fields the last axis adds parse into that axis. */
  lemma LastGroup(b: Builder, axes: seq<AxisDesc>, n: nat)
    requires n + 1 == |axes| <= MAX_AXIS_DIMENSION && b.axes == axes[..n]
    ensures exists g :: AxisFields(axes) == AxisFields(axes[..n]) + g && ParseAxes(b, g) == Ok(b.(axes := axes))
  {
    AxisFieldsLast(axes, n);
    ParseAxisGroup(b, n, axes[n]);
    PrefixAndLast(axes, n);
  }

  lemma PrefixAndLast<T>(s: seq<T>, n: nat)
    requires n + 1 == |s|
    ensures s[..n] + [s[n]] == s
  {
  }

  /** Two runs of the axis pass, one after the other. */
  lemma ParseAxesThen(b: Builder, xs: seq<Field>, ys: seq<Field>, b1: Builder, b2: Builder)
    requires ParseAxes(b, xs) == Ok(b1) && ParseAxes(b1, ys) == Ok(b2)
    ensures ParseAxes(b, xs + ys) == Ok(b2)
  {
    ParseAxesAppend(b, xs, ys);
  }

  lemma AxisFieldsLast(axes: seq<AxisDesc>, n: nat)
    requires n + 1 == |axes|
    ensures AxisFields(axes) == AxisFields(axes[..n]) + AxisGroup(n, axes[n])
  {
  }

  // ---- the numeric fold ----------------------------------------------

  lemma {:induction false} NumericAppend(b: Builder, xs: seq<Field>, ys: seq<Field>)
    ensures ParseNumericData(b, xs + ys) == ParseNumericData(ParseNumericData(b, xs), ys)
    decreases |xs|
  {
    if |xs| == 0 {
      assert xs + ys == ys;
    } else {
      assert (xs + ys)[0] == xs[0];
      assert (xs + ys)[1..] == xs[1..] + ys;
      NumericAppend(NumericStep(b, xs[0]), xs[1..], ys);
    }
  }

  lemma {:induction false} NumericSkip(b: Builder, fs: seq<Field>)
    requires NoArrays(fs)
    ensures ParseNumericData(b, fs) == b
    decreases |fs|
  {
    if |fs| > 0 {
      assert NumericStep(b, fs[0]) == b;
      NumericSkip(b, fs[1..]);
    }
  }

  lemma ArrayStep(b: Builder, n: nat, v: seq<real>, asFloat: bool, narrow: real -> real)
    requires n <= Decimal.INT_MAX
    ensures NumericStep(b, Field(DimKey(ARRAY_PREFIX, n), Enc(v, asFloat, narrow)))
            == SetValues(b, n, Dec(v, asFloat, narrow))
  {
    DimKeyShape(ARRAY_PREFIX, n);
    GetDimIndexOfKey(ARRAY_PREFIX, n);
  }

  /** An `ep<i>` field sets the positive errors of dimension `i`, although
      its index is read with the `en` prefix. */
  lemma EpStep(b: Builder, n: nat, v: seq<real>, asFloat: bool, narrow: real -> real)
    requires n <= Decimal.INT_MAX
    ensures NumericStep(b, Field(DimKey(EP_PREFIX, n), Enc(v, asFloat, narrow)))
            == SetPosError(b, n, Dec(v, asFloat, narrow))
  {
    var s := DimKey(EP_PREFIX, n);
    DimKeyShape(EP_PREFIX, n);
    DiffersAt(s, ARRAY_PREFIX, 0);
    GetDimIndexOfKey(EP_PREFIX, n);
    GetDimIndexPrefixLength(s, EN_PREFIX, EP_PREFIX);
  }

  /** An `en<i>` field sets the negative errors of dimension `i`, although
      its index is read with the `ep` prefix. */
  lemma EnStep(b: Builder, n: nat, v: seq<real>, asFloat: bool, narrow: real -> real)
    requires n <= Decimal.INT_MAX
    ensures NumericStep(b, Field(DimKey(EN_PREFIX, n), Enc(v, asFloat, narrow)))
            == SetNegError(b, n, Dec(v, asFloat, narrow))
  {
    var s := DimKey(EN_PREFIX, n);
    DimKeyShape(EN_PREFIX, n);
    DiffersAt(s, ARRAY_PREFIX, 0);
    DiffersAt(s, EP_PREFIX, 1);
    GetDimIndexOfKey(EN_PREFIX, n);
    GetDimIndexPrefixLength(s, EN_PREFIX, EP_PREFIX);
  }

  /** The value arrays of the first `|dims|` dimensions, as read back. */
  function ValuesMap(dims: seq<DimData>, asFloat: bool, narrow: real -> real): (m: map<int, seq<real>>)
    ensures forall k :: k in m <==> 0 <= k < |dims|
  {
    map k | 0 <= k < |dims| :: Dec(dims[k].values, asFloat, narrow)
  }

  /** The positive errors of the dimensions that have errors. */
  function PosMap(dims: seq<DimData>, asFloat: bool, narrow: real -> real): (m: map<int, seq<real>>)
    ensures forall k :: k in m <==> 0 <= k < |dims| && dims[k].errorType != NO_ERROR
  {
    map k | 0 <= k < |dims| && dims[k].errorType != NO_ERROR :: Dec(dims[k].pos, asFloat, narrow)
  }

  /** The negative errors of the dimensions with asymmetric errors. */
  function NegMap(dims: seq<DimData>, asFloat: bool, narrow: real -> real): (m: map<int, seq<real>>)
    ensures forall k :: k in m <==> 0 <= k < |dims| && dims[k].errorType == ASYMMETRIC
  {
    map k | 0 <= k < |dims| && dims[k].errorType == ASYMMETRIC :: Dec(dims[k].neg, asFloat, narrow)
  }

  /** Overriding a key after a merge is merging the overridden map. */
  lemma MergeUpdate(base: map<int, seq<real>>, m: map<int, seq<real>>, n: int, x: seq<real>)
    ensures (base + m)[n := x] == base + m[n := x]
  {
  }

  /** Merging into an empty map gives the merged map. */
  lemma MergeIntoEmpty(base: map<int, seq<real>>, m: map<int, seq<real>>)
    requires base == map[]
    ensures base + m == m
  {
  }

  lemma ValuesMapStep(dims: seq<DimData>, asFloat: bool, narrow: real -> real)
    requires |dims| > 0
    ensures var n := |dims| - 1;
            ValuesMap(dims, asFloat, narrow) == ValuesMap(dims[..n], asFloat, narrow)[n := Dec(dims[n].values, asFloat, narrow)]
  {
  }

  lemma ErrorMapsStep(dims: seq<DimData>, asFloat: bool, narrow: real -> real)
    requires |dims| > 0
    ensures var n := |dims| - 1;
            var d := dims[n];
            PosMap(dims, asFloat, narrow)
              == (if d.errorType == NO_ERROR then PosMap(dims[..n], asFloat, narrow)
                  else PosMap(dims[..n], asFloat, narrow)[n := Dec(d.pos, asFloat, narrow)])
            && NegMap(dims, asFloat, narrow)
              == (if d.errorType == ASYMMETRIC then NegMap(dims[..n], asFloat, narrow)[n := Dec(d.neg, asFloat, narrow)]
                  else NegMap(dims[..n], asFloat, narrow))
  {
    PosMapStep(dims, asFloat, narrow);
    NegMapStep(dims, asFloat, narrow);
  }

  lemma PosMapStep(dims: seq<DimData>, asFloat: bool, narrow: real -> real)
    requires |dims| > 0
    ensures var n := |dims| - 1;
            PosMap(dims, asFloat, narrow)
              == (if dims[n].errorType == NO_ERROR then PosMap(dims[..n], asFloat, narrow)
                  else PosMap(dims[..n], asFloat, narrow)[n := Dec(dims[n].pos, asFloat, narrow)])
  {
  }

  lemma NegMapStep(dims: seq<DimData>, asFloat: bool, narrow: real -> real)
    requires |dims| > 0
    ensures var n := |dims| - 1;
            NegMap(dims, asFloat, narrow)
              == (if dims[n].errorType == ASYMMETRIC then NegMap(dims[..n], asFloat, narrow)[n := Dec(dims[n].neg, asFloat, narrow)]
                  else NegMap(dims[..n], asFloat, narrow))
  {
  }

  lemma {:induction false} ArrayFieldsFold(b: Builder, dims: seq<DimData>, asFloat: bool, narrow: real -> real)
    requires |dims| <= Decimal.INT_MAX
    ensures ParseNumericData(b, ArrayFields(dims, asFloat, narrow))
            == b.(values := b.values + ValuesMap(dims, asFloat, narrow))
    decreases |dims|
  {
    if |dims| == 0 {
      assert b.values + ValuesMap(dims, asFloat, narrow) == b.values;
    } else {
      var n := |dims| - 1;
      var f := Field(DimKey(ARRAY_PREFIX, n), Enc(dims[n].values, asFloat, narrow));
      var pre := ArrayFields(dims[..n], asFloat, narrow);
      var b' := b.(values := b.values + ValuesMap(dims[..n], asFloat, narrow));
      calc {
        ParseNumericData(b, ArrayFields(dims, asFloat, narrow));
        ParseNumericData(b, pre + [f]);
        { NumericAppend(b, pre, [f]); ArrayFieldsFold(b, dims[..n], asFloat, narrow); }
        ParseNumericData(b', [f]);
        { NumericSingle(b', f); }
        NumericStep(b', f);
        { ArrayStep(b', n, dims[n].values, asFloat, narrow); }
        SetValues(b', n, Dec(dims[n].values, asFloat, narrow));
        { MergeUpdate(b.values, ValuesMap(dims[..n], asFloat, narrow), n, Dec(dims[n].values, asFloat, narrow));
          ValuesMapStep(dims, asFloat, narrow); }
        b.(values := b.values + ValuesMap(dims, asFloat, narrow));
      }
    }
  }

  /** The numeric pass over a single field is that field's step. */
  lemma NumericSingle(b: Builder, f: Field)
    ensures ParseNumericData(b, [f]) == NumericStep(b, f)
  {
    assert [f][1..] == [];
  }

  /** The error fields of one dimension set exactly its errors. */
  lemma ErrorFieldsOfStep(b: Builder, n: nat, d: DimData, asFloat: bool, narrow: real -> real)
    requires n <= Decimal.INT_MAX
    ensures ParseNumericData(b, ErrorFieldsOf(n, d, asFloat, narrow))
            == b.(posErrors := if d.errorType == NO_ERROR then b.posErrors else b.posErrors[n := Dec(d.pos, asFloat, narrow)],
                  negErrors := if d.errorType == ASYMMETRIC then b.negErrors[n := Dec(d.neg, asFloat, narrow)] else b.negErrors)
  {
    var ep := Field(DimKey(EP_PREFIX, n), Enc(d.pos, asFloat, narrow));
    var en := Field(DimKey(EN_PREFIX, n), Enc(d.neg, asFloat, narrow));
    match d.errorType
    case NO_ERROR =>
    case SYMMETRIC =>
      NumericSingle(b, ep);
      EpStep(b, n, d.pos, asFloat, narrow);
    case ASYMMETRIC =>
      NumericPair(b, en, ep);
      EnStep(b, n, d.neg, asFloat, narrow);
      EpStep(SetNegError(b, n, Dec(d.neg, asFloat, narrow)), n, d.pos, asFloat, narrow);
  }

  /** The numeric pass over two fields is their two steps. */
  lemma NumericPair(b: Builder, x: Field, y: Field)
    ensures ParseNumericData(b, [x, y]) == NumericStep(NumericStep(b, x), y)
  {
    assert [x, y][1..] == [y];
    NumericSingle(NumericStep(b, x), y);
  }

  lemma {:induction false} ErrorFieldsFold(b: Builder, dims: seq<DimData>, asFloat: bool, narrow: real -> real)
    requires |dims| <= Decimal.INT_MAX
    ensures ParseNumericData(b, ErrorFields(dims, asFloat, narrow))
            == b.(posErrors := b.posErrors + PosMap(dims, asFloat, narrow),
                  negErrors := b.negErrors + NegMap(dims, asFloat, narrow))
    decreases |dims|
  {
    if |dims| == 0 {
      assert b.posErrors + PosMap(dims, asFloat, narrow) == b.posErrors;
      assert b.negErrors + NegMap(dims, asFloat, narrow) == b.negErrors;
    } else {
      var n := |dims| - 1;
      var d := dims[n];
      var pre := ErrorFields(dims[..n], asFloat, narrow);
      var last := ErrorFieldsOf(n, d, asFloat, narrow);
      var pos := PosMap(dims[..n], asFloat, narrow);
      var neg := NegMap(dims[..n], asFloat, narrow);
      var b' := b.(posErrors := b.posErrors + pos, negErrors := b.negErrors + neg);
      calc {
        ParseNumericData(b, ErrorFields(dims, asFloat, narrow));
        ParseNumericData(b, pre + last);
        { NumericAppend(b, pre, last); ErrorFieldsFold(b, dims[..n], asFloat, narrow); }
        ParseNumericData(b', last);
        { ErrorFieldsOfStep(b', n, d, asFloat, narrow); }
        b'.(posErrors := if d.errorType == NO_ERROR then b'.posErrors else b'.posErrors[n := Dec(d.pos, asFloat, narrow)],
            negErrors := if d.errorType == ASYMMETRIC then b'.negErrors[n := Dec(d.neg, asFloat, narrow)] else b'.negErrors);
        { ErrorMergeStep(b, dims, asFloat, narrow); }
        b.(posErrors := b.posErrors + PosMap(dims, asFloat, narrow),
           negErrors := b.negErrors + NegMap(dims, asFloat, narrow));
      }
    }
  }

  /** The error maps of one more dimension, merged into the builder's. */
  lemma ErrorMergeStep(b: Builder, dims: seq<DimData>, asFloat: bool, narrow: real -> real)
    requires |dims| > 0
    ensures var n := |dims| - 1;
            var d := dims[n];
            var b' := b.(posErrors := b.posErrors + PosMap(dims[..n], asFloat, narrow),
                         negErrors := b.negErrors + NegMap(dims[..n], asFloat, narrow));
            b'.(posErrors := if d.errorType == NO_ERROR then b'.posErrors else b'.posErrors[n := Dec(d.pos, asFloat, narrow)],
                negErrors := if d.errorType == ASYMMETRIC then b'.negErrors[n := Dec(d.neg, asFloat, narrow)] else b'.negErrors)
            == b.(posErrors := b.posErrors + PosMap(dims, asFloat, narrow),
                  negErrors := b.negErrors + NegMap(dims, asFloat, narrow))
  {
    var n := |dims| - 1;
    var d := dims[n];
    ErrorMapsStep(dims, asFloat, narrow);
    MergeUpdate(b.posErrors, PosMap(dims[..n], asFloat, narrow), n, Dec(d.pos, asFloat, narrow));
    MergeUpdate(b.negErrors, NegMap(dims[..n], asFloat, narrow), n, Dec(d.neg, asFloat, narrow));
  }

  // ---- meta data and labels -------------------------------------------

  /** Meta data fields carry their fixed names and no arrays. */
  lemma MetaShape(ds: DataSet)
    ensures NoArrays(MetaFields(ds)) && LacksLabels(MetaFields(ds))
    ensures Lacks(MetaFields(ds), DATA_SET_NAME) && Lacks(MetaFields(ds), DIMENSIONS)
  {
  }

  lemma MetaNoAxis(ds: DataSet)
    ensures NoAxisNames(MetaFields(ds))
  {
    FixedNamesApart(INFO_LIST);
    FixedNamesApart(WARNING_LIST);
    FixedNamesApart(ERROR_LIST);
    FixedNamesApart(META_INFO);
  }

  /** Label fields carry their fixed names and no arrays. */
  lemma LabelShape(ds: DataSet)
    ensures NoArrays(LabelFields(ds)) && LacksMeta(LabelFields(ds))
    ensures Lacks(LabelFields(ds), DATA_SET_NAME) && Lacks(LabelFields(ds), DIMENSIONS)
  {
  }

  lemma LabelNoAxis(ds: DataSet)
    ensures NoAxisNames(LabelFields(ds))
  {
    FixedNamesApart(DATA_LABELS);
    FixedNamesApart(DATA_STYLES);
  }

  /** Looking up past a part that lacks the name. */
  lemma FindInMiddle(pre: seq<Field>, mid: seq<Field>, post: seq<Field>, name: string)
    requires Lacks(pre, name)
    ensures FindHeader(pre + mid + post, name)
            == if FindHeader(mid, name).Some? then FindHeader(mid, name) else FindHeader(post, name)
  {
    FindAppend(pre + mid, post, name);
    FindAppend(pre, mid, name);
  }

  /** `parseMetaData` with the four lookups already known. */
  lemma ParseMetaGiven(b: Builder, fs: seq<Field>, msg: Option<Messages>)
    requires b.infoList == [] && b.warningList == [] && b.errorList == [] && b.metaInfo == map[]
    requires msg.None? ==> LacksMeta(fs)
    requires msg.Some? ==>
               FindHeader(fs, INFO_LIST) == Some(Field(INFO_LIST, PStrings(msg.value.infos)))
               && FindHeader(fs, WARNING_LIST) == Some(Field(WARNING_LIST, PStrings(msg.value.warnings)))
               && FindHeader(fs, ERROR_LIST) == Some(Field(ERROR_LIST, PStrings(msg.value.errors)))
               && FindHeader(fs, META_INFO) == Some(Field(META_INFO, PTextMap(msg.value.metaInfo)))
    ensures ParseMetaData(b, fs)
            == Ok(if msg.None? then b
                  else b.(infoList := msg.value.infos, warningList := msg.value.warnings,
                          errorList := msg.value.errors, metaInfo := msg.value.metaInfo))
  {
    if msg.Some? {
      ParseMetaPresent(b, fs, msg.value);
    } else {
      assert ReadMessages(b, fs, INFO_LIST, Infos) == Ok(b);
      assert ReadMessages(b, fs, WARNING_LIST, Warnings) == Ok(b);
      assert ReadMessages(b, fs, ERROR_LIST, Errors) == Ok(b);
      assert ReadMetaInfo(b, fs) == Ok(b);
    }
  }

  /** `parseMetaData` when all four fields are there. */
  lemma ParseMetaPresent(b: Builder, fs: seq<Field>, v: Messages)
    requires b.infoList == [] && b.warningList == [] && b.errorList == [] && b.metaInfo == map[]
    requires FindHeader(fs, INFO_LIST) == Some(Field(INFO_LIST, PStrings(v.infos)))
    requires FindHeader(fs, WARNING_LIST) == Some(Field(WARNING_LIST, PStrings(v.warnings)))
    requires FindHeader(fs, ERROR_LIST) == Some(Field(ERROR_LIST, PStrings(v.errors)))
    requires FindHeader(fs, META_INFO) == Some(Field(META_INFO, PTextMap(v.metaInfo)))
    ensures ParseMetaData(b, fs)
            == Ok(b.(infoList := v.infos, warningList := v.warnings, errorList := v.errors, metaInfo := v.metaInfo))
  {
    var b1 := b.(infoList := v.infos);
    var b2 := b1.(warningList := v.warnings);
    var b3 := b2.(errorList := v.errors);
    ReadInfosGiven(b, fs, v.infos);
    ReadWarningsGiven(b1, fs, v.warnings);
    ReadErrorsGiven(b2, fs, v.errors);
    ReadMetaInfoGiven(b3, fs, v.metaInfo);
  }

  lemma ReadInfosGiven(b: Builder, fs: seq<Field>, ss: seq<string>)
    requires b.infoList == [] && FindHeader(fs, INFO_LIST) == Some(Field(INFO_LIST, PStrings(ss)))
    ensures ReadMessages(b, fs, INFO_LIST, Infos) == Ok(b.(infoList := ss))
  {
    assert b.infoList + ss == ss;
  }

  lemma ReadWarningsGiven(b: Builder, fs: seq<Field>, ss: seq<string>)
    requires b.warningList == [] && FindHeader(fs, WARNING_LIST) == Some(Field(WARNING_LIST, PStrings(ss)))
    ensures ReadMessages(b, fs, WARNING_LIST, Warnings) == Ok(b.(warningList := ss))
  {
    assert b.warningList + ss == ss;
  }

  lemma ReadErrorsGiven(b: Builder, fs: seq<Field>, ss: seq<string>)
    requires b.errorList == [] && FindHeader(fs, ERROR_LIST) == Some(Field(ERROR_LIST, PStrings(ss)))
    ensures ReadMessages(b, fs, ERROR_LIST, Errors) == Ok(b.(errorList := ss))
  {
    assert b.errorList + ss == ss;
  }

  lemma ReadMetaInfoGiven(b: Builder, fs: seq<Field>, m: map<string, string>)
    requires b.metaInfo == map[] && FindHeader(fs, META_INFO) == Some(Field(META_INFO, PTextMap(m)))
    ensures ReadMetaInfo(b, fs) == Ok(b.(metaInfo := m))
  {
    assert PutAll(b.metaInfo, m) == m;
  }

  /** The meta data fields, wherever they stand among fields of other
      names, give the builder the data set's messages and meta
      information, and nothing when the data set has none. */
  lemma ParseMetaWritten(b: Builder, ds: DataSet, pre: seq<Field>, post: seq<Field>)
    requires LacksMeta(pre) && LacksMeta(post)
    requires b.infoList == [] && b.warningList == [] && b.errorList == [] && b.metaInfo == map[]
    ensures ParseMetaData(b, pre + MetaFields(ds) + post)
            == Ok(if ds.meta.None? then b
                  else b.(infoList := ds.meta.value.infos, warningList := ds.meta.value.warnings,
                          errorList := ds.meta.value.errors, metaInfo := ds.meta.value.metaInfo))
  {
    var m := MetaFields(ds);
    var fs := pre + m + post;
    if ds.meta.None? {
      assert fs == pre + post;
      LacksAppend(pre, post, INFO_LIST);
      LacksAppend(pre, post, WARNING_LIST);
      LacksAppend(pre, post, ERROR_LIST);
      LacksAppend(pre, post, META_INFO);
      ParseMetaGiven(b, fs, None);
    } else {
      var v := ds.meta.value;
      MetaFieldsFind(m, v);
      FindInMiddle(pre, m, post, INFO_LIST);
      FindInMiddle(pre, m, post, WARNING_LIST);
      FindInMiddle(pre, m, post, ERROR_LIST);
      FindInMiddle(pre, m, post, META_INFO);
      ParseMetaPresent(b, fs, v);
    }
  }

  /** Each of the four meta data fields is found where it was written. */
  lemma MetaFieldsFind(m: seq<Field>, v: Messages)
    requires m == [Field(INFO_LIST, PStrings(v.infos)), Field(WARNING_LIST, PStrings(v.warnings)),
                   Field(ERROR_LIST, PStrings(v.errors)), Field(META_INFO, PTextMap(v.metaInfo))]
    ensures FindHeader(m, INFO_LIST) == Some(m[0]) && FindHeader(m, WARNING_LIST) == Some(m[1])
    ensures FindHeader(m, ERROR_LIST) == Some(m[2]) && FindHeader(m, META_INFO) == Some(m[3])
  {
    assert INFO_LIST[0] == 'i' && WARNING_LIST[0] == 'w' && ERROR_LIST[0] == 'e' && META_INFO[0] == 'm';
    var m1 := m[1..];
    var m2 := m1[1..];
    assert m1[0] == m[1] && m2[0] == m[2] && m2[1..][0] == m[3];
    FindSkip(m, WARNING_LIST);
    FindSkip(m, ERROR_LIST);
    FindSkip(m1, ERROR_LIST);
    FindSkip(m, META_INFO);
    FindSkip(m1, META_INFO);
    FindSkip(m2, META_INFO);
  }

  /** A field of another name is passed over. */
  lemma FindSkip(fs: seq<Field>, name: string)
    requires |fs| > 0 && |fs[0].name| > 0 && |name| > 0 && fs[0].name[0] != name[0]
    ensures FindHeader(fs, name) == FindHeader(fs[1..], name)
  {
    assert fs[0].name != name;
  }

  /** `parseDataLabels` with the two lookups already known. */
  lemma ParseLabelsGiven(b: Builder, fs: seq<Field>, labels: map<int, string>, styles: map<int, string>)
    requires b.dataLabels == map[] && b.dataStyles == map[]
    requires FindHeader(fs, DATA_LABELS) == if labels == map[] then None else Some(Field(DATA_LABELS, PIndexMap(labels)))
    requires FindHeader(fs, DATA_STYLES) == if styles == map[] then None else Some(Field(DATA_STYLES, PIndexMap(styles)))
    ensures ParseDataLabels(b, fs) == Ok(b.(dataLabels := labels, dataStyles := styles))
  {
    ReadLabelsGiven(b, fs, labels);
    ReadStylesGiven(b.(dataLabels := labels), fs, styles);
  }

  /** Reading the label map into a builder without labels. */
  lemma ReadLabelsGiven(b: Builder, fs: seq<Field>, labels: map<int, string>)
    requires b.dataLabels == map[]
    requires FindHeader(fs, DATA_LABELS) == if labels == map[] then None else Some(Field(DATA_LABELS, PIndexMap(labels)))
    ensures ReadIndexMap(b, fs, DATA_LABELS) == Ok(b.(dataLabels := labels))
  {
    assert PutAll(b.dataLabels, labels) == labels;
  }

  /** Reading the style map into a builder without styles. */
  lemma ReadStylesGiven(b: Builder, fs: seq<Field>, styles: map<int, string>)
    requires b.dataStyles == map[]
    requires FindHeader(fs, DATA_STYLES) == if styles == map[] then None else Some(Field(DATA_STYLES, PIndexMap(styles)))
    ensures ReadIndexMap(b, fs, DATA_STYLES) == Ok(b.(dataStyles := styles))
  {
    assert PutAll(b.dataStyles, styles) == styles;
  }

  /** The label fields, wherever they stand among fields of other names,
      give the builder exactly the non-empty labels and styles. */
  lemma ParseLabelsWritten(b: Builder, ds: DataSet, pre: seq<Field>, post: seq<Field>)
    requires LacksLabels(pre) && LacksLabels(post)
    requires b.dataLabels == map[] && b.dataStyles == map[]
    ensures ParseDataLabels(b, pre + LabelFields(ds) + post)
            == Ok(b.(dataLabels := CollectNonEmpty(ds.labels, DataCount(ds)),
                     dataStyles := CollectNonEmpty(ds.styles, DataCount(ds))))
  {
    var l := LabelFields(ds);
    var labels := CollectNonEmpty(ds.labels, DataCount(ds));
    var styles := CollectNonEmpty(ds.styles, DataCount(ds));
    FindInMiddle(pre, l, post, DATA_LABELS);
    FindInMiddle(pre, l, post, DATA_STYLES);
    assert FindHeader(post, DATA_LABELS).None? && FindHeader(post, DATA_STYLES).None?;
    if labels != map[] && styles != map[] {
      assert FindHeader(l, DATA_STYLES) == Some(l[1]) by {
        assert l[1..][0] == l[1];
      }
    }
    ParseLabelsGiven(b, pre + l + post, labels, styles);
  }

  // ---- the header ----------------------------------------------------

  /** The axis pass over a written stream: only the axis fields act. */
  lemma ParseAxesWritten(b: Builder, ds: DataSet, rest: seq<Field>)
    requires b.axes == [] && |ds.axes| <= MAX_AXIS_DIMENSION && NoAxisNames(rest)
    ensures ParseAxes(b, HeaderFields(ds) + rest) == Ok(b.(axes := ds.axes))
  {
    var h := HeaderFields(ds);
    var first := h[..2];
    var axes := AxisFields(ds.axes);
    assert h + rest == first + (axes + rest);
    FixedNamesApart(DATA_SET_NAME);
    FixedNamesApart(DIMENSIONS);
    assert NoAxisNames(first);
    ParseAxesSkip(b, first);
    ParseAxesAppend(b, first, axes + rest);
    ParseAxesAll(b, ds.axes);
    ParseAxesAppend(b, axes, rest);
    ParseAxesSkip(b.(axes := ds.axes), rest);
  }

  /** `parseHeaders` over a written stream: the name, the number of
      dimensions and the axis descriptions are those written. */
  lemma ParseHeadersWritten(b: Builder, ds: DataSet, rest: seq<Field>)
    requires b.axes == [] && |ds.axes| <= MAX_AXIS_DIMENSION && NoAxisNames(rest)
    ensures ParseHeaders(b, HeaderFields(ds) + rest)
            == Ok(b.(name := Some(ds.name), dimension := Some(|ds.dims|), axes := ds.axes))
  {
    var fs := HeaderFields(ds) + rest;
    assert fs[0] == Field(DATA_SET_NAME, PString(ds.name));
    assert fs[1..][0] == Field(DIMENSIONS, PInt(|ds.dims|));
    assert DATA_SET_NAME[0] == 'd' && DIMENSIONS[0] == 'n';
    FindSkip(fs, DIMENSIONS);
    ParseHeadersGiven(b, fs, ds.name, |ds.dims|);
    ParseAxesWritten(b.(name := Some(ds.name), dimension := Some(|ds.dims|)), ds, rest);
  }

  /** `parseHeaders` with the name and dimension lookups already known. */
  lemma ParseHeadersGiven(b: Builder, fs: seq<Field>, name: string, n: int)
    requires FindHeader(fs, DATA_SET_NAME) == Some(Field(DATA_SET_NAME, PString(name)))
    requires FindHeader(fs, DIMENSIONS) == Some(Field(DIMENSIONS, PInt(n)))
    ensures ParseHeaders(b, fs) == ParseAxes(b.(name := Some(name), dimension := Some(n)), fs)
  {
  }

  // ---- the round trip ------------------------------------------------

  /** The builder after the meta-data pass. */
  function WithMeta(b: Builder, ds: DataSet, cfg: Config): Builder {
    if cfg.transmitMetaData && ds.meta.Some? then
      b.(infoList := ds.meta.value.infos, warningList := ds.meta.value.warnings,
         errorList := ds.meta.value.errors, metaInfo := ds.meta.value.metaInfo)
    else b
  }

  /** The builder after the label pass. */
  function WithLabels(b: Builder, ds: DataSet, cfg: Config): Builder {
    if cfg.transmitDataLabels then
      b.(dataLabels := CollectNonEmpty(ds.labels, DataCount(ds)),
         dataStyles := CollectNonEmpty(ds.styles, DataCount(ds)))
    else b
  }

  /** The builder after the numeric pass. */
  function WithNumeric(b: Builder, ds: DataSet, asFloat: bool, narrow: real -> real): Builder {
    b.(values := ValuesMap(ds.dims, asFloat, narrow),
       posErrors := if ds.hasErrors then PosMap(ds.dims, asFloat, narrow) else map[],
       negErrors := if ds.hasErrors then NegMap(ds.dims, asFloat, narrow) else map[])
  }

  /** `readDataSetFromByteArray`'s passes run one after the other. */
  lemma DecodeStages(fs: seq<Field>, cfg: Config, b1: Builder, b2: Builder, b3: Builder)
    requires ParseHeaders(NewBuilder(Some(DEFAULT_NAME)), fs) == Ok(b1)
    requires (if cfg.transmitMetaData then ParseMetaData(b1, fs) else Ok(b1)) == Ok(b2)
    requires (if cfg.transmitDataLabels then ParseDataLabels(b2, fs) else Ok(b2)) == Ok(b3)
    ensures DecodeFields(fs, cfg) == Ok(ParseNumericData(b3, fs))
  {
  }

  /** Four concatenated pieces, grouped three ways. */
  lemma Regroup<T>(a: seq<T>, b: seq<T>, c: seq<T>, d: seq<T>)
    ensures a + b + c + d == a + (b + c + d) == a + b + (c + d)
  {
  }

  /** The header pass over a written stream. */
  lemma HeaderStage(ds: DataSet, cfg: Config, asFloat: bool, narrow: real -> real)
    requires |ds.axes| <= MAX_AXIS_DIMENSION && |ds.dims| <= Decimal.INT_MAX
    ensures var b0 := NewBuilder(Some(DEFAULT_NAME));
            ParseHeaders(b0, WriteFields(ds, cfg, asFloat, narrow))
            == Ok(b0.(name := Some(ds.name), dimension := Some(|ds.dims|), axes := ds.axes))
  {
    var m := if cfg.transmitMetaData then MetaFields(ds) else [];
    var l := if cfg.transmitDataLabels then LabelFields(ds) else [];
    var n := NumericFields(ds, asFloat, narrow);
    Regroup(HeaderFields(ds), m, l, n);
    MetaNoAxis(ds);
    LabelNoAxis(ds);
    NumericShape(ds, asFloat, narrow);
    NoAxisNamesAppend(m, l);
    NoAxisNamesAppend(m + l, n);
    ParseHeadersWritten(NewBuilder(Some(DEFAULT_NAME)), ds, m + l + n);
  }

  /** The meta-data pass over a written stream. */
  lemma MetaStage(b: Builder, ds: DataSet, cfg: Config, asFloat: bool, narrow: real -> real)
    requires |ds.dims| <= Decimal.INT_MAX
    requires b.infoList == [] && b.warningList == [] && b.errorList == [] && b.metaInfo == map[]
    ensures (if cfg.transmitMetaData then ParseMetaData(b, WriteFields(ds, cfg, asFloat, narrow)) else Ok(b))
            == Ok(WithMeta(b, ds, cfg))
  {
    if cfg.transmitMetaData {
      var h := HeaderFields(ds);
      var l := if cfg.transmitDataLabels then LabelFields(ds) else [];
      var n := NumericFields(ds, asFloat, narrow);
      Regroup(h, MetaFields(ds), l, n);
      HeaderShape(ds);
      LabelShape(ds);
      NumericShape(ds, asFloat, narrow);
      LacksAppend(l, n, INFO_LIST);
      LacksAppend(l, n, WARNING_LIST);
      LacksAppend(l, n, ERROR_LIST);
      LacksAppend(l, n, META_INFO);
      ParseMetaWritten(b, ds, h, l + n);
    }
  }

  /** The label pass over a written stream. */
  lemma LabelStage(b: Builder, ds: DataSet, cfg: Config, asFloat: bool, narrow: real -> real)
    requires |ds.dims| <= Decimal.INT_MAX
    requires b.dataLabels == map[] && b.dataStyles == map[]
    ensures (if cfg.transmitDataLabels then ParseDataLabels(b, WriteFields(ds, cfg, asFloat, narrow)) else Ok(b))
            == Ok(WithLabels(b, ds, cfg))
  {
    if cfg.transmitDataLabels {
      var h := HeaderFields(ds);
      var m := if cfg.transmitMetaData then MetaFields(ds) else [];
      var n := NumericFields(ds, asFloat, narrow);
      assert WriteFields(ds, cfg, asFloat, narrow) == (h + m) + LabelFields(ds) + n;
      HeaderShape(ds);
      MetaShape(ds);
      NumericShape(ds, asFloat, narrow);
      LacksAppend(h, m, DATA_LABELS);
      LacksAppend(h, m, DATA_STYLES);
      ParseLabelsWritten(b, ds, h + m, n);
    }
  }

  /** The array fields alone fill the value map. */
  lemma ArrayFieldsFill(b: Builder, ds: DataSet, asFloat: bool, narrow: real -> real)
    requires |ds.dims| <= Decimal.INT_MAX && b.values == map[]
    ensures ParseNumericData(b, ArrayFields(ds.dims, asFloat, narrow))
            == b.(values := ValuesMap(ds.dims, asFloat, narrow))
  {
    ArrayFieldsFold(b, ds.dims, asFloat, narrow);
    MergeIntoEmpty(b.values, ValuesMap(ds.dims, asFloat, narrow));
  }

  /** The error fields alone fill the two error maps. */
  lemma ErrorFieldsFill(b: Builder, ds: DataSet, asFloat: bool, narrow: real -> real)
    requires |ds.dims| <= Decimal.INT_MAX && b.posErrors == map[] && b.negErrors == map[]
    ensures ParseNumericData(b, ErrorFields(ds.dims, asFloat, narrow))
            == b.(posErrors := PosMap(ds.dims, asFloat, narrow), negErrors := NegMap(ds.dims, asFloat, narrow))
  {
    ErrorFieldsFold(b, ds.dims, asFloat, narrow);
    MergeIntoEmpty(b.posErrors, PosMap(ds.dims, asFloat, narrow));
    MergeIntoEmpty(b.negErrors, NegMap(ds.dims, asFloat, narrow));
  }

  /** The numeric fields alone fill the three per-dimension maps. */
  lemma NumericFieldsFold(b: Builder, ds: DataSet, asFloat: bool, narrow: real -> real)
    requires |ds.dims| <= Decimal.INT_MAX
    requires b.values == map[] && b.posErrors == map[] && b.negErrors == map[]
    ensures ParseNumericData(b, NumericFields(ds, asFloat, narrow)) == WithNumeric(b, ds, asFloat, narrow)
  {
    var arrays := ArrayFields(ds.dims, asFloat, narrow);
    ArrayFieldsFill(b, ds, asFloat, narrow);
    var b' := b.(values := ValuesMap(ds.dims, asFloat, narrow));
    if ds.hasErrors {
      var errors := ErrorFields(ds.dims, asFloat, narrow);
      assert NumericFields(ds, asFloat, narrow) == arrays + errors;
      NumericAppend(b, arrays, errors);
      ErrorFieldsFill(b', ds, asFloat, narrow);
    } else {
      assert NumericFields(ds, asFloat, narrow) == arrays;
      assert WithNumeric(b, ds, asFloat, narrow) == b';
    }
  }

  /** The numeric pass over a written stream. */
  lemma NumericStage(b: Builder, ds: DataSet, cfg: Config, asFloat: bool, narrow: real -> real)
    requires |ds.dims| <= Decimal.INT_MAX
    requires b.values == map[] && b.posErrors == map[] && b.negErrors == map[]
    ensures ParseNumericData(b, WriteFields(ds, cfg, asFloat, narrow)) == WithNumeric(b, ds, asFloat, narrow)
  {
    var h := HeaderFields(ds);
    var m := if cfg.transmitMetaData then MetaFields(ds) else [];
    var l := if cfg.transmitDataLabels then LabelFields(ds) else [];
    var n := NumericFields(ds, asFloat, narrow);
    assert WriteFields(ds, cfg, asFloat, narrow) == h + m + l + n;
    HeaderShape(ds);
    MetaShape(ds);
    LabelShape(ds);
    NoArraysAppend(h, m);
    NoArraysAppend(h + m, l);
    NumericAppend(b, h + m + l, n);
    NumericSkip(b, h + m + l);
    NumericFieldsFold(b, ds, asFloat, narrow);
  }

  /** Reading back what the writer wrote, with the same flags, succeeds
      and leaves the builder `Decoded` describes: the header pass, the
      meta-data pass, the label pass and the numeric pass each recover
      what the matching part of the writer wrote. */
  lemma DecodeWritten(ds: DataSet, cfg: Config, asFloat: bool, narrow: real -> real)
    requires |ds.axes| <= MAX_AXIS_DIMENSION && |ds.dims| <= Decimal.INT_MAX
    ensures DecodeFields(WriteFields(ds, cfg, asFloat, narrow), cfg) == Ok(Decoded(ds, cfg, asFloat, narrow))
  {
    var fs := WriteFields(ds, cfg, asFloat, narrow);
    var b0 := NewBuilder(Some(DEFAULT_NAME));
    var b1 := b0.(name := Some(ds.name), dimension := Some(|ds.dims|), axes := ds.axes);
    var b2 := WithMeta(b1, ds, cfg);
    var b3 := WithLabels(b2, ds, cfg);
    HeaderStage(ds, cfg, asFloat, narrow);
    MetaStage(b1, ds, cfg, asFloat, narrow);
    LabelStage(b2, ds, cfg, asFloat, narrow);
    DecodeStages(fs, cfg, b1, b2, b3);
    NumericStage(b3, ds, cfg, asFloat, narrow);
  }

  /** What the builder left by reading holds: the name, the dimension
      count, the axes and every value array; the error arrays of a data set
      with errors; the meta data when it was transmitted and present; the
      labels and styles when they were transmitted; and nothing else. */
  lemma DecodedCarries(ds: DataSet, cfg: Config, asFloat: bool, narrow: real -> real)
    ensures var b := Decoded(ds, cfg, asFloat, narrow);
            var meta := cfg.transmitMetaData && ds.meta.Some?;
            b.name == Some(ds.name) && b.dimension == Some(|ds.dims|) && b.axes == ds.axes
            && b.values == ValuesMap(ds.dims, asFloat, narrow)
            && b.posErrors == (if ds.hasErrors then PosMap(ds.dims, asFloat, narrow) else map[])
            && b.negErrors == (if ds.hasErrors then NegMap(ds.dims, asFloat, narrow) else map[])
            && b.infoList == (if meta then ds.meta.value.infos else [])
            && b.warningList == (if meta then ds.meta.value.warnings else [])
            && b.errorList == (if meta then ds.meta.value.errors else [])
            && b.metaInfo == (if meta then ds.meta.value.metaInfo else map[])
            && b.dataLabels == (if cfg.transmitDataLabels then CollectNonEmpty(ds.labels, DataCount(ds)) else map[])
            && b.dataStyles == (if cfg.transmitDataLabels then CollectNonEmpty(ds.styles, DataCount(ds)) else map[])
            && b.(name := None, dimension := None, axes := [], values := map[], posErrors := map[], negErrors := map[],
                  infoList := [], warningList := [], errorList := [], metaInfo := map[],
                  dataLabels := map[], dataStyles := map[]) == NewBuilder(None)
  {
  }

  /** The builder the four passes leave behind. */
  function Decoded(ds: DataSet, cfg: Config, asFloat: bool, narrow: real -> real): Builder {
    var b0 := NewBuilder(Some(DEFAULT_NAME));
    var b1 := b0.(name := Some(ds.name), dimension := Some(|ds.dims|), axes := ds.axes);
    WithNumeric(WithLabels(WithMeta(b1, ds, cfg), ds, cfg), ds, asFloat, narrow)
  }

  /** With the double writer nothing is lost: every dimension's values,
      and for a data set with errors its positive errors (when it has
      errors) and negative errors (when they are asymmetric), come back
      exactly. */
  lemma DoubleWriterIsLossless(ds: DataSet, cfg: Config, narrow: real -> real)
    requires |ds.axes| <= MAX_AXIS_DIMENSION && |ds.dims| <= Decimal.INT_MAX
    ensures DecodeFields(WriteFields(ds, cfg, false, narrow), cfg).Ok?
    ensures var b := DecodeFields(WriteFields(ds, cfg, false, narrow), cfg).value;
            (forall k | 0 <= k < |ds.dims| :: k in b.values && b.values[k] == ds.dims[k].values)
            && (ds.hasErrors ==> forall k | 0 <= k < |ds.dims| && ds.dims[k].errorType != NO_ERROR ::
                                   k in b.posErrors && b.posErrors[k] == ds.dims[k].pos)
            && (ds.hasErrors ==> forall k | 0 <= k < |ds.dims| && ds.dims[k].errorType == ASYMMETRIC ::
                                   k in b.negErrors && b.negErrors[k] == ds.dims[k].neg)
  {
    DecodeWritten(ds, cfg, false, narrow);
    DecodedLossless(ds, cfg, narrow);
  }

  /** The decoded builder of the double writer holds the written arrays. */
  lemma DecodedLossless(ds: DataSet, cfg: Config, narrow: real -> real)
    ensures var b := Decoded(ds, cfg, false, narrow);
            (forall k | 0 <= k < |ds.dims| :: k in b.values && b.values[k] == ds.dims[k].values)
            && (ds.hasErrors ==> forall k | 0 <= k < |ds.dims| && ds.dims[k].errorType != NO_ERROR ::
                                   k in b.posErrors && b.posErrors[k] == ds.dims[k].pos)
            && (ds.hasErrors ==> forall k | 0 <= k < |ds.dims| && ds.dims[k].errorType == ASYMMETRIC ::
                                   k in b.negErrors && b.negErrors[k] == ds.dims[k].neg)
  {
    DecodedCarries(ds, cfg, false, narrow);
  }

  /** With the float writer every value comes back as its float rounding. */
  lemma FloatWriterNarrows(ds: DataSet, cfg: Config, narrow: real -> real)
    requires |ds.axes| <= MAX_AXIS_DIMENSION && |ds.dims| <= Decimal.INT_MAX
    ensures DecodeFields(WriteFields(ds, cfg, true, narrow), cfg).Ok?
    ensures var b := DecodeFields(WriteFields(ds, cfg, true, narrow), cfg).value;
            forall k, j | 0 <= k < |ds.dims| && 0 <= j < |ds.dims[k].values| ::
              k in b.values && |b.values[k]| == |ds.dims[k].values| && b.values[k][j] == narrow(ds.dims[k].values[j])
  {
    DecodeWritten(ds, cfg, true, narrow);
    DecodedNarrowed(ds, cfg, narrow);
  }

  /** The decoded builder of the float writer holds the narrowed values. */
  lemma DecodedNarrowed(ds: DataSet, cfg: Config, narrow: real -> real)
    ensures var b := Decoded(ds, cfg, true, narrow);
            forall k, j | 0 <= k < |ds.dims| && 0 <= j < |ds.dims[k].values| ::
              k in b.values && |b.values[k]| == |ds.dims[k].values| && b.values[k][j] == narrow(ds.dims[k].values[j])
  {
    DecodedCarries(ds, cfg, true, narrow);
  }

  /** `readDataSetFromByteArray(writeDataSetToByteArray(ds))` succeeds and
      carries the name, axis descriptions, messages, meta information,
      labels and styles across. The builder the reader fills has no
      x/y arrays of its own, so the data set built has no points. */
  lemma ReadWritten(ds: DataSet, cfg: Config, asFloat: bool, narrow: real -> real, millis: nat)
    requires |ds.axes| <= MAX_AXIS_DIMENSION && |ds.dims| <= Decimal.INT_MAX
    ensures ReadDataSetFromByteArray(WriteDataSetToByteArray(ds, cfg, asFloat, narrow), cfg, millis).Ok?
    ensures var r := ReadDataSetFromByteArray(WriteDataSetToByteArray(ds, cfg, asFloat, narrow), cfg, millis).value;
            var meta := cfg.transmitMetaData && ds.meta.Some?;
            r.name == ds.name
            && r.axes == (if |ds.axes| == 0 then [DEFAULT_AXIS, DEFAULT_AXIS] else ds.axes)
            && r.infoList == (if meta then ds.meta.value.infos else [])
            && r.warningList == (if meta then ds.meta.value.warnings else [])
            && r.errorList == (if meta then ds.meta.value.errors else [])
            && r.metaInfo == (if meta then ds.meta.value.metaInfo else map[])
            && r.labels == (if cfg.transmitDataLabels then CollectNonEmpty(ds.labels, DataCount(ds)) else map[])
            && r.styles == (if cfg.transmitDataLabels then CollectNonEmpty(ds.styles, DataCount(ds)) else map[])
            && r.xs == [] && r.ys == [] && r.yErrors.None?
  {
    DecodeWritten(ds, cfg, asFloat, narrow);
    DecodedCarries(ds, cfg, asFloat, narrow);
    var b := DecodeFields(WriteFields(ds, cfg, asFloat, narrow), cfg).value;
    assert b.xValues.None? && b.yValues.None?;
    BuildCarriesMetaData(b, millis);
    RawNameIrrelevant(b, "", ds.name);
  }
}

=== FILE: test_function.dfy ===
/** `AbstractTestFunction`: a test data set whose x values are the point
    indices and whose y values come from a generator each subclass supplies.
    The generator is a parameter here; it may fail, as a Java method may
    throw. */
module TestFunction {
  import opened Wrappers
  import opened Doubles
  import opened ErrorLimits
  import opened AxisRange

  const DIM_X := 0

  /** The error every getter reports, in x and in y. */
  const ERROR := 0.1

  /** The generated values and the ranges of the two axis descriptions. */
  datatype TestSet = TestSet(name: string, data: seq<real>, xRange: Range, yRange: Range)

  /** The constructor: `data = generateY(count)`, whatever length the
      generator returns; what it throws propagates. The error type handed to
      the base class is `XY`, but `getErrorType` never reads it. The axis
      descriptions start without a range. */
  function New(name: string, count: int, generateY: int -> Result<seq<real>>): (r: Result<TestSet>)
    ensures r.Ok? <==> generateY(count).Ok?
    ensures r.Err? ==> r.failure == generateY(count).failure
    ensures r.Ok? ==> r.value.name == name && r.value.data == generateY(count).value
    ensures r.Ok? ==> r.value.xRange == Empty && r.value.yRange == Empty
  {
    var data :- generateY(count);
    Ok(TestSet(name, data, Empty, Empty))
  }

  /** The points as `recomputeLimits` reads them: x is the index and every
      error is the constant one. */
  function ErrPoints(data: seq<real>): (es: seq<ErrPoint>)
    ensures |es| == |data|
  {
    seq(|data|, i requires 0 <= i < |data| => ErrPoint(i as real, data[i], ERROR, ERROR, ERROR, ERROR))
  }

  /** `update()`: regenerate as many values as there are, then recompute the
      limits under the reported error type. If the generator throws, nothing
      changes and the exception propagates. */
  function Update(ts: TestSet, generateY: int -> Result<seq<real>>): (r: Result<TestSet>)
    ensures r.Ok? <==> generateY(Count(ts)).Ok?
    ensures r.Err? ==> r.failure == generateY(Count(ts)).failure
    ensures r.Ok? ==> r.value.name == ts.name && r.value.data == generateY(Count(ts)).value
    ensures r.Ok? ==> IsExtent(r.value.xRange, AxisValues(ErrPoints(r.value.data), TestErrorType(ts), 0))
    ensures r.Ok? ==> IsExtent(r.value.yRange, AxisValues(ErrPoints(r.value.data), TestErrorType(ts), 1))
  {
    var data :- generateY(|ts.data|);
    var es := ErrPoints(data);
    Ok(TestSet(ts.name, data, ExtentOf(AxisValues(es, XY_ASYMMETRIC, 0)), ExtentOf(AxisValues(es, XY_ASYMMETRIC, 1))))
  }

  /** `getDataCount()`: the length of the generated array. */
  function Count(ts: TestSet): nat {
    |ts.data|
  }

  /** The count is what the generator delivered: it equals the count asked
      for exactly when the generator honours it, and an update keeps the
      count exactly when the generator returns as many values as asked. */
  lemma CountIsGenerated(name: string, count: int, ts: TestSet, generateY: int -> Result<seq<real>>)
    requires generateY(count).Ok? && generateY(Count(ts)).Ok?
    ensures Count(New(name, count, generateY).value) == |generateY(count).value|
    ensures Count(New(name, count, generateY).value) == count <==> |generateY(count).value| == count
    ensures Count(Update(ts, generateY).value) == Count(ts) <==> |generateY(Count(ts)).value| == Count(ts)
  {
  }

  /** After an update the ranges hold every point's index and value widened
      by the constant errors. */
  lemma UpdateCoversPoints(ts: TestSet, generateY: int -> Result<seq<real>>, i: int)
    requires generateY(Count(ts)).Ok? && 0 <= i < |generateY(Count(ts)).value|
    ensures var r := Update(ts, generateY).value;
            r.xRange.Span? && r.yRange.Span?
            && r.xRange.min <= i as real - ERROR && i as real + ERROR <= r.xRange.max
            && r.yRange.min <= r.data[i] - ERROR && r.data[i] + ERROR <= r.yRange.max
  {
    var r := Update(ts, generateY).value;
    var es := ErrPoints(r.data);
    ErrorBarsFit(es, XY_ASYMMETRIC, r.xRange, r.yRange, i);
    assert Contribution(XY_ASYMMETRIC, es[i], 0)[0] == i as real - ERROR;
    assert Contribution(XY_ASYMMETRIC, es[i], 0)[1] == i as real + ERROR;
    assert Contribution(XY_ASYMMETRIC, es[i], 1)[0] == r.data[i] - ERROR;
    assert Contribution(XY_ASYMMETRIC, es[i], 1)[1] == r.data[i] + ERROR;
  }

  /** `get(dim, i)`: the index itself along x, otherwise the i-th value,
      failing outside the data. */
  function Get(ts: TestSet, dimIndex: int, index: int): (r: Result<real>)
    ensures dimIndex == DIM_X ==> r == Ok(index as real)
    ensures dimIndex != DIM_X ==> (r.Ok? <==> 0 <= index < Count(ts))
    ensures dimIndex != DIM_X && r.Ok? ==> GetY(ts, index) == Finite(r.value)
  {
    if dimIndex == DIM_X then Ok(index as real)
    else if 0 <= index < |ts.data| then Ok(ts.data[index])
    else Err(IndexOutOfBounds)
  }

  /** `getX(i)`: the index itself, for any index. */
  function GetX(ts: TestSet, index: int): (r: real)
    ensures r == index as real
    ensures 0 <= index < Count(ts) ==> r as int == index
  {
    index as real
  }

  /** `getY(i)`: the i-th value, or NaN outside the data. */
  function GetY(ts: TestSet, index: int): (r: Double)
    ensures IsNaN(r) <==> !(0 <= index < Count(ts))
    ensures 0 <= index < Count(ts) ==> r == Finite(ts.data[index])
  {
    if index < 0 || index >= |ts.data| then NaN else Finite(ts.data[index])
  }

  function XErrorNegative(ts: TestSet, index: int): (r: real)
    ensures r == ERROR
  {
    ERROR
  }

  function XErrorPositive(ts: TestSet, index: int): (r: real)
    ensures r == ERROR
  {
    ERROR
  }

  function YErrorNegative(ts: TestSet, index: int): (r: real)
    ensures r == ERROR
  {
    ERROR
  }

  function YErrorPositive(ts: TestSet, index: int): (r: real)
    ensures r == ERROR
  {
    ERROR
  }

  /** `getErrorType()`: always asymmetric in both axes. */
  function TestErrorType(ts: TestSet): (t: ErrorType)
    ensures t == XY_ASYMMETRIC && t != XY
  {
    XY_ASYMMETRIC
  }

  /** `generateX(count)`: the indices `0 .. count - 1`; a negative count is
      a negative array size. */
  method GenerateX(count: int) returns (r: Result<seq<real>>)
    ensures r.Err? <==> count < 0
    ensures r.Err? ==> r.failure == NegativeArraySize
    ensures r.Ok? ==> |r.value| == count && forall i | 0 <= i < count :: r.value[i] == i as real
  {
    if count < 0 {
      return Err(NegativeArraySize);
    }
    var retVal: seq<real> := [];
    var i := 0;
    while i < count
      invariant 0 <= i <= count && |retVal| == i
      invariant forall k | 0 <= k < i :: retVal[k] == k as real
    {
      retVal := retVal + [i as real];
      i := i + 1;
    }
    return Ok(retVal);
  }

  /** The generated x values are those `getX` and `get(DIM_X, ·)` report. */
  lemma GeneratedXAgree(ts: TestSet, xs: seq<real>, i: int)
    requires |xs| == Count(ts) && forall k | 0 <= k < |xs| :: xs[k] == k as real
    requires 0 <= i < Count(ts)
    ensures xs[i] == GetX(ts, i) && Get(ts, DIM_X, i) == Ok(xs[i])
  {
  }
}

=== FILE: trandom.dfy ===
/** `TRandom`: the BSD linear congruential generator behind `Rndm`, the
    array filler and the binomial sampler built on it, and the early-return
    guards of the other samplers. The generator's state (`fSeed`, a Java
    `long`) is threaded through explicitly as an integer. */
module TRandom {
  import opened Wrappers
  import opened Doubles

  const MULTIPLIER := 1103515245
  const INCREMENT := 12345
  /** `0x7fffffff + 1`: masking with `0x7fffffff` keeps the low 31 bits. */
  const MODULUS := 0x8000_0000
  /** `kCONS`, just above `2^-31`. */
  const KCONS: real := 0.00000000046566128730774

  /** One state step. Java computes the product in 64-bit two's complement,
      but the mask keeps only the low 31 bits, which that wrap-around never
      changes; Dafny's `%` is Euclidean, so a negative state is reduced the
      same way the mask reduces it. */
  function Step(seed: int): (s: int)
    ensures 0 <= s < MODULUS
  {
    (MULTIPLIER * seed + INCREMENT) % MODULUS
  }

  /** `Rndm()`: steps the state and scales it into `]0, 1[`; a zero state
      is stepped once more (the recursive call), and that retry never hits
      zero again because `Step(0) == 12345`. Returns the value and the new
      state. */
  function Rndm(seed: int): (r: (real, int))
    ensures 0 < r.1 < MODULUS
    ensures r.0 == KCONS * r.1 as real
    ensures 0.0 < r.0 < 1.0
    ensures r.1 == Step(seed) || (Step(seed) == 0 && r.1 == Step(0))
  {
    var s := Step(seed);
    var s' := if s > 0 then s else Step(s);
    (KCONS * s' as real, s')
  }

  /** The retry of `Rndm` lands on `12345`, so it happens at most once. */
  lemma RetryOnce(seed: int)
    ensures Step(0) == INCREMENT
    ensures Step(seed) == 0 ==> Rndm(seed) == Rndm(0) && Rndm(seed).1 == INCREMENT
  {
  }

  /** The state after `k` successive calls of `Rndm`. */
  function StateAfter(seed: int, k: nat): (s: int)
    ensures k > 0 ==> 0 < s < MODULUS
  {
    if k == 0 then seed else Rndm(StateAfter(seed, k - 1)).1
  }

  /** The values of `k` successive calls of `Rndm`, in call order. */
  function Draws(seed: int, k: nat): (d: seq<real>)
    ensures |d| == k
    ensures forall i | 0 <= i < k :: 0.0 < d[i] < 1.0
  {
    if k == 0 then [] else Draws(seed, k - 1) + [Rndm(StateAfter(seed, k - 1)).0]
  }

  /** Drawing `k` values after `j` continues the first `j` draws. */
  lemma {:induction false} DrawsPrefix(seed: int, j: nat, k: nat)
    requires j <= k
    ensures Draws(seed, k)[..j] == Draws(seed, j)
    decreases k
  {
    if j < k {
      DrawsPrefix(seed, j, k - 1);
      assert Draws(seed, k)[..k - 1] == Draws(seed, k - 1);
    }
  }

  /** `RndmArray(n, array)`: fills `array[0..n)` with the next `n` values of
      `Rndm`, stepping the state directly and skipping zero states. Writing
      past the end of the array throws. */
  method RndmArray(seed: int, n: int, buf: seq<real>) returns (r: Result<(seq<real>, int)>)
    ensures r.Ok? <==> n <= |buf|
    ensures r.Err? ==> r.failure == IndexOutOfBounds
    ensures r.Ok? ==> var (a, s) := r.value;
      var k := if n < 0 then 0 else n;
      |a| == |buf| && s == StateAfter(seed, k)
      && a[..k] == Draws(seed, k) && a[k..] == buf[k..]
  {
    var a := buf;
    var s := seed;
    var i := 0;
    ghost var k := if n < 0 then 0 else n;
    while i < n
      invariant 0 <= i <= k && i <= |a| && |a| == |buf|
      invariant a[..i] == Draws(seed, i) && a[i..] == buf[i..]
      invariant s == StateAfter(seed, i) || (s == 0 && i < n && Rndm(StateAfter(seed, i)) == Rndm(0))
      decreases 2 * (n - i) + (if s == 0 then 0 else 1)
    {
      RetryOnce(StateAfter(seed, i));
      s := Step(s);
      if s > 0 {
        if i >= |a| {
          return Err(IndexOutOfBounds);
        }
        a := a[i := KCONS * s as real];
        i := i + 1;
        assert a[..i] == a[..i - 1] + [a[i - 1]];
      }
    }
    return Ok((a, s));
  }

  /** How many of `d` Java's `Rndm() > prob` does not skip: those at most
      `prob`, and all of them when `prob` is NaN. */
  function CountAtMost(d: seq<real>, prob: Double): (n: nat)
    ensures n <= |d|
  {
    if |d| == 0 then 0
    else CountAtMost(d[..|d| - 1], prob) + (if Lt(prob, Finite(d[|d| - 1])) then 0 else 1)
  }

  /** `Binomial(ntot, prob)`: 0 without touching the state when `prob < 0`
      or `prob > 1`; otherwise the number of `ntot` successive `Rndm`
      values that do not exceed `prob`. NaN passes the guard, and no value
      exceeds it. Returns the count and the new state. */
  method Binomial(seed: int, ntot: int, prob: Double) returns (n: int, s: int)
    ensures Lt(prob, Finite(0.0)) || Lt(Finite(1.0), prob) ==> n == 0 && s == seed
    ensures !(Lt(prob, Finite(0.0)) || Lt(Finite(1.0), prob)) ==>
      var k := if ntot < 0 then 0 else ntot;
      0 <= n <= k && n == CountAtMost(Draws(seed, k), prob) && s == StateAfter(seed, k)
    ensures prob.NaN? ==> n == (if ntot < 0 then 0 else ntot)
  {
    if Lt(prob, Finite(0.0)) || Lt(Finite(1.0), prob) {
      return 0, seed;
    }
    n, s := 0, seed;
    var i := 0;
    ghost var k := if ntot < 0 then 0 else ntot;
    while i < ntot
      invariant 0 <= i <= k
      invariant s == StateAfter(seed, i) && n == CountAtMost(Draws(seed, i), prob)
    {
      var (x, s') := Rndm(s);
      s := s';
      assert Draws(seed, i + 1)[..i] == Draws(seed, i);
      if !Lt(prob, Finite(x)) {
        n := n + 1;
      }
      i := i + 1;
    }
    if prob.NaN? {
      CountAtMostNaN(Draws(seed, k));
    }
  }

  /** No value exceeds NaN, so every value counts. */
  lemma CountAtMostNaN(d: seq<real>)
    ensures CountAtMost(d, NaN) == |d|
  {
    assert forall j | 0 <= j < |d| :: !Lt(NaN, Finite(d[j]));
    CountAtMostExtremes(d, NaN);
  }

  /** Every value counts when none exceeds `prob`, none when all exceed it. */
  lemma {:induction false} CountAtMostExtremes(d: seq<real>, prob: Double)
    ensures (forall i | 0 <= i < |d| :: !Lt(prob, Finite(d[i]))) ==> CountAtMost(d, prob) == |d|
    ensures (forall i | 0 <= i < |d| :: Lt(prob, Finite(d[i]))) ==> CountAtMost(d, prob) == 0
  {
    if |d| > 0 {
      CountAtMostExtremes(d[..|d| - 1], prob);
    }
  }

  /** Since every `Rndm` value lies in `]0, 1[`, `Binomial(ntot, 1)` is
      `ntot` and `Binomial(ntot, 0)` is 0; a NaN probability is exceeded by
      no value, so it also gives `ntot`. */
  lemma BinomialCertain(seed: int, k: nat)
    ensures CountAtMost(Draws(seed, k), Finite(1.0)) == k
    ensures CountAtMost(Draws(seed, k), Finite(0.0)) == 0
    ensures CountAtMost(Draws(seed, k), NaN) == k
  {
    var d := Draws(seed, k);
    assert forall i | 0 <= i < |d| :: !Lt(Finite(1.0), Finite(d[i])) && Lt(Finite(0.0), Finite(d[i]));
    assert forall i | 0 <= i < |d| :: !Lt(NaN, Finite(d[i]));
    CountAtMostExtremes(d, Finite(1.0));
    CountAtMostExtremes(d, Finite(0.0));
    CountAtMostExtremes(d, NaN);
  }

  /** `SetSeed(s)`: a non-zero seed is stored as given; zero takes the
      clock, a parameter here. */
  function SetSeed(s: int, nanoTime: int): (seed: int)
    ensures s != 0 ==> seed == s
    ensures s == 0 ==> seed == nanoTime
  {
    if s == 0 then nanoTime else s
  }

  /** `Poisson(mean)`: 0, state untouched, when `mean <= 0`; otherwise
      the rejection sampler, a parameter here. A NaN mean fails the test
      and goes to the sampler. */
  function Poisson(seed: int, mean: Double, sampler: (int, Double) -> (int, int)): (r: (int, int))
    ensures Le(mean, Finite(0.0)) ==> r == (0, seed)
    ensures !Le(mean, Finite(0.0)) ==> r == sampler(seed, mean)
    ensures mean.NaN? ==> r == sampler(seed, mean)
  {
    if Le(mean, Finite(0.0)) then (0, seed) else sampler(seed, mean)
  }

  /** `PoissonD(mean)`: as `Poisson`, returning a double. */
  function PoissonD(seed: int, mean: Double, sampler: (int, Double) -> (Double, int)): (r: (Double, int))
    ensures Le(mean, Finite(0.0)) ==> r == (Finite(0.0), seed)
    ensures !Le(mean, Finite(0.0)) ==> r == sampler(seed, mean)
    ensures mean.NaN? ==> r == sampler(seed, mean)
  {
    if Le(mean, Finite(0.0)) then (Finite(0.0), seed) else sampler(seed, mean)
  }

  /** `Landau(mpv, sigma)`: 0 (not `mpv`), state untouched, when
      `sigma <= 0`; otherwise `mpv + sigma * ranlan` with `ranlan` from the
      table sampler, a parameter here. A NaN width fails the test and makes
      the result NaN. */
  function Landau(seed: int, mpv: Double, sigma: Double, ranlan: int -> (real, int)): (r: (Double, int))
    ensures Le(sigma, Finite(0.0)) ==> r == (Finite(0.0), seed)
    ensures !Le(sigma, Finite(0.0)) ==> r.1 == ranlan(seed).1
    ensures mpv.Finite? && sigma.Finite? && sigma.v > 0.0 ==>
              r.0 == Finite(mpv.v + sigma.v * ranlan(seed).0)
    ensures sigma.NaN? || mpv.NaN? ==> r.0.NaN? || Le(sigma, Finite(0.0))
    ensures sigma.NaN? ==> r.0.NaN? && r.1 == ranlan(seed).1
  {
    if Le(sigma, Finite(0.0)) then (Finite(0.0), seed)
    else var (v, s) := ranlan(seed); (Add(mpv, Mul(sigma, Finite(v))), s)
  }
}

=== FILE: volume_consolidation.dfy ===
/** `VolumeIncrementalOhlcvConsolidation`: an incoming tick is consolidated
    into the current OHLCV bar as long as the bar's volume stays within the
    volume period. Volumes are exact reals; double rounding is not
    modelled. */
module VolumeConsolidation {

  /** `volumePeriod` is fixed when the rule is created; `volumeDiff` is the
      volume the current bar can still take. */
  datatype Rule = Rule(volumePeriod: real, volumeDiff: real)

  /** The constructor: the period value becomes the volume period. The
      remaining volume starts at Java's default 0.0. */
  function NewRule(periodValue: real): (r: Rule)
    ensures r.volumePeriod == periodValue
  {
    Rule(periodValue, 0.0)
  }

  /** `defineConsolidationCondition(finalItem)`, called after an addition
      and after an update: the volume left in the period. */
  function DefineCondition(r: Rule, finalVolume: real): (r': Rule)
    ensures r'.volumePeriod == r.volumePeriod
    ensures r'.volumeDiff + finalVolume == r.volumePeriod
  {
    r.(volumeDiff := r.volumePeriod - finalVolume)
  }

  /** `defineConsolidationConditionAfterAddition`: the condition is
      redefined from the volume of the bar just added. */
  function AfterAddition(r: Rule, finalVolume: real): (r': Rule)
    ensures r'.volumePeriod == r.volumePeriod
    ensures r'.volumeDiff == r.volumePeriod - finalVolume
  {
    DefineCondition(r, finalVolume)
  }

  /** `defineConsolidationConditionAfterUpdate`: the condition is redefined
      from the volume of the bar just updated. */
  function AfterUpdate(r: Rule, finalVolume: real): (r': Rule)
    ensures r'.volumePeriod == r.volumePeriod
    ensures r'.volumeDiff == r.volumePeriod - finalVolume
  {
    DefineCondition(r, finalVolume)
  }

  /** `checkConsolidationCondition(lastItem, incrementItem)`: only the
      increment's volume matters. */
  function CheckCondition(r: Rule, incrementVolume: real): (ok: bool)
    ensures ok <==> incrementVolume <= r.volumeDiff
  {
    incrementVolume <= r.volumeDiff
  }

  /** Right after an addition or an update, an increment is accepted exactly
      when the bar's volume plus the increment stays within the period; what
      was accepted before does not matter. */
  lemma AcceptedAfterRedefinition(r: Rule, r0: Rule, finalVolume: real, incrementVolume: real)
    requires r0.volumePeriod == r.volumePeriod
    ensures CheckCondition(AfterAddition(r, finalVolume), incrementVolume)
            <==> finalVolume + incrementVolume <= r.volumePeriod
    ensures CheckCondition(AfterUpdate(r, finalVolume), incrementVolume)
            <==> finalVolume + incrementVolume <= r.volumePeriod
    ensures AfterAddition(r0, finalVolume) == AfterAddition(r, finalVolume)
            == AfterUpdate(r0, finalVolume) == AfterUpdate(r, finalVolume)
  {
  }

  /** What the consolidation reports after a bar changed. */
  datatype Event = Added(volume: real) | Updated(volume: real)

  /** The redefinition that follows an event. */
  function Apply(r: Rule, e: Event): Rule {
    match e
    case Added(v) => AfterAddition(r, v)
    case Updated(v) => AfterUpdate(r, v)
  }

  /** The condition redefined after each event of `history` in turn. */
  function Replay(r: Rule, history: seq<Event>): Rule
    decreases |history|
  {
    if |history| == 0 then r else Replay(Apply(r, history[0]), history[1..])
  }

  /** No redefinition changes the volume period. */
  lemma {:induction false} ReplayKeepsPeriod(r: Rule, history: seq<Event>)
    ensures Replay(r, history).volumePeriod == r.volumePeriod
    decreases |history|
  {
    if |history| > 0 {
      ReplayKeepsPeriod(Apply(r, history[0]), history[1..]);
    }
  }

  /** The last event decides: replaying a history is applying its last event
      to the replay of the rest. */
  lemma {:induction false} ReplaySnoc(r: Rule, history: seq<Event>, e: Event)
    ensures Replay(r, history + [e]) == Apply(Replay(r, history), e)
    decreases |history|
  {
    if |history| == 0 {
      assert history + [e] == [e];
      assert [e][1..] == [];
    } else {
      assert (history + [e])[1..] == history[1..] + [e];
      ReplaySnoc(Apply(r, history[0]), history[1..], e);
    }
  }

  /** Whatever bars came before, once the latest bar has volume `v` an
      increment is accepted exactly when `v` plus the increment stays within
      the period the rule was created with. */
  lemma AcceptedIffWithinPeriod(periodValue: real, history: seq<Event>, e: Event, incrementVolume: real)
    ensures CheckCondition(Replay(NewRule(periodValue), history + [e]), incrementVolume)
            <==> e.volume + incrementVolume <= periodValue
  {
    ReplaySnoc(NewRule(periodValue), history, e);
    ReplayKeepsPeriod(NewRule(periodValue), history);
  }
}

=== FILE: wrappers.dfy ===
/** Failure-compatible wrappers shared by every module of the model.
    A Java method that throws is modelled as a function returning `Err`
    carrying the kind of exception it throws. */
module Wrappers {

  /** A Java reference that may be null. */
  datatype Option<+T> = None | Some(value: T) {
    predicate IsFailure() { None? }

    function PropagateFailure<U>(): Option<U>
      requires None?
    {
      None
    }

    function Extract(): T
      requires Some?
    {
      value
    }

    function GetOr(default: T): T {
      match this
      case Some(v) => v
      case None => default
    }
  }

  /** The exception classes the modelled Java code throws. */
  datatype Failure =
    | IllegalArgument
    | IllegalState
    | IndexOutOfBounds
    | NegativeArraySize
    | InputMismatch
    | UnsupportedOperation
    | InvalidParameter
    | NumberFormat
    | IO

  /** The outcome of a Java call: a value, or the exception it throws. */
  datatype Result<+T> = Ok(value: T) | Err(failure: Failure) {
    predicate IsFailure() { Err? }

    function PropagateFailure<U>(): Result<U>
      requires Err?
    {
      Err(failure)
    }

    function Extract(): T
      requires Ok?
    {
      value
    }
  }
}
